=== FILE: README.md ===
# fluffy-octo-guacamole, modelled in Dafny

A model of the fashion shop "fluffy-octo-guacamole". Its backend is a Spring service and its frontend a Next.js storefront. The model covers the backend's order-fulfilment pipeline and the frontend helpers that keep lists and trees consistent. For each, it proves what the code promises and where the code falls short of it.

The backend's storage (the Spring repositories) is one object, `Store.Db`. It holds plain rows in maps and sequences, and soft-deleted rows carry a `deleted` flag that lookups skip. Each transactional service method is a method on that object. It either succeeds or returns an error and leaves every field unchanged. Entities whose methods update their own fields (`Cart`, `Order`, `Payment`, `Product`, `Category`) are classes. The cart, order and payment services load, change and save `Cart`, `Order` and `Payment` objects as the Java code does. `ProductService` and `CategoryService` update the stored rows directly; the `Product` and `Category` classes model those entities' own methods. Money is an `int` in minor units.

Modules, one per source file or concern:

- `Store`, `Enums` and `Wrappers`: the storage object, the enumerations and `Option`/`Result`.
- `Carts`, `Orders`, `Payments`, `Catalog` and `Categories`: the JPA entities with their in-place methods.
- `Inventory`: the stock ledger. Every stock change appends a transaction row, and stock equals the logged changes.
- `OrderService`: the order state machine, checkout (`createOrderFromCart`), cancellation, the variant descriptor, the order code and totals.
- `PaymentService`: payment confirmation and failure, transaction codes, and the admin filter.
- `CartService`: the server cart, with one line per variant and stock checked on every add and update.
- `ProductService` and `ProductViews`: product, variant and image creation, update and deletion, and the detail and list views.
- `CategoryService`: category creation, update, subtree soft-delete and the tree view.
- `ReviewService` and `WishlistService`: reviews (one per user and product, gated on a purchase) and the wishlist set.
- `Converters` and `ErrorHandler`: the enum column codecs and the exception-to-HTTP classification.
- `CategoryTree`, `LocalCart`, `StatusDialog`, `ImageEditor`, `VariantEditor`, `ProductForm`, `RouteGuard` and `ShopQuery`: the frontend's `buildCategoryTree`, the local cart store, the admin status dialog, the image and variant editors, product-form validation, the route-guard middleware and the shop query mapping.
- `Text` and `Seqs`: the string and list operations of Java and JavaScript the code relies on (`indexOf`, `toUpperCase`, `trim`, `padStart`, `List.remove`, `sort`, de-duplication).

In several places the code falls short of what its own comments, names and callers suggest, and the model follows the code:

- Checkout creates no payment: no code calls `createPaymentForOrder` (backend/src/main/java/com/fashon/application/service/PaymentService.java:35), and `createOrderFromCart` reads only the shipping address, phone and note from its request (backend/src/main/java/com/fashon/application/service/OrderService.java:32-96).
- Cancelling an order returns no stock: the loop commented "Return stock for each order item" has an empty body (backend/src/main/java/com/fashon/application/service/OrderService.java:159-165).
- `generateOrderCode` builds one code from the time and four random characters, and nothing regenerates a code that collides (backend/src/main/java/com/fashon/application/service/OrderService.java:219-224). The model refuses such an order with a conflict on the unique order-code column.
- `updateProduct` overwrites variant stock without a ledger row (`ProductService.StockOverwriteBreaksConservation`).
- The status machine rejects PROCESSING, which the admin dialog offers (`StatusDialog.OffersVersusBackend`).
- Only direct self-parenting of a category is refused (`CategoryService.TwoCycleAccepted`).
- A customer who deleted a review of a product cannot review it again: the insert collides with the soft-deleted row (`ReviewService.CreateReview`).
- The shop's "best selling" sort is sent as `salesCount` (`ShopQuery.BackendParams`).

The one exception is deleting a category whose parent links form a cycle. The code recurses without end there, and the model's `CategoryService.DeleteCategory` finishes instead (see Findings).

## Model

| member | source | states |
|---|---|---|
| CartService.LineFor | backend/src/main/java/com/fashon/application/service/CartService.java:53-54 | the position of the cart's first line for the variant; None exactly when no line names it |
| CartService.ItemAt | backend/src/main/java/com/fashon/application/service/CartService.java:80-81 | the position of the first item with the id; None exactly when no item has it |
| CartService.CartRowFor | backend/src/main/java/com/fashon/application/service/CartService.java:33-34 | the user's stored cart, or the new empty cart for that user when none is stored |
| CartService.LineView | backend/src/main/java/com/fashon/application/service/CartService.java:168-200 | a line's view keeps the item's id, variant and quantity, and its subtotal is the unit price times the quantity |
| CartService.LineViews | backend/src/main/java/com/fashon/application/service/CartService.java:145-147 | one view per cart line, in order, each the line's own view (LineView) |
| CartService.CartDto | backend/src/main/java/com/fashon/application/service/CartService.java:144-166 | the cart view keeps the cart's id, user and one line per item, and with every variant priced its amount and item count are what checkout charges and orders |
| CartService.CartTotalsMatchCheckout | backend/src/main/java/com/fashon/application/service/CartService.java:149-155 | the cart's total amount equals what checkout charges for the same lines, and its item count equals the quantity checkout orders |
| CartService.CartAmountMatchesCheckout | backend/src/main/java/com/fashon/application/service/CartService.java:149-151 | the sum of the cart lines' subtotals is the amount checkout charges for the same lines |
| CartService.CartCountMatchesCheckout | backend/src/main/java/com/fashon/application/service/CartService.java:153-155 | the sum of the cart lines' quantities is the quantity checkout orders |
| CartService.EmptyCartView | backend/src/main/java/com/fashon/application/service/CartService.java:144-166 | an empty cart shows no lines and zero totals |
| CartService.MergeKeepsOneLinePerVariant | backend/src/main/java/com/fashon/application/service/CartService.java:53-69 | adding keeps one line per variant, and that line holds the old quantity plus the added one |
| CartService.MergeCounts | backend/src/main/java/com/fashon/application/service/CartService.java:56-69 | adding grows the item count by exactly the added quantity, appends at most one line, and leaves other variants' lines untouched |
| CartService.OnlyLineFor | backend/src/main/java/com/fashon/application/service/CartService.java:53-54 | with one line per variant, the line naming the variant is the one the lookup finds |
| CartService.WithQuantityKeepsWellFormed | backend/src/main/java/com/fashon/application/service/CartService.java:94-95 | setting a line's quantity keeps one line per variant, changes no other line, and shifts the count by the difference |
| CartService.WithoutKeepsWellFormed | backend/src/main/java/com/fashon/application/service/CartService.java:114-115 | removing a line keeps one line per variant and takes its quantity off the count |
| CartService.GetCart | backend/src/main/java/com/fashon/application/service/CartService.java:30-36 | succeeds exactly for a known user; a missing cart is created empty, an existing one is untouched; the view is of the stored cart |
| CartService.AddedRowWellFormed | backend/src/main/java/com/fashon/application/service/CartService.java:56-69 | storing the merged cart keeps every cart well formed, and the variant's line holds the old quantity plus the added one |
| CartService.AddOutcome | backend/src/main/java/com/fashon/application/service/CartService.java:38-72 | the answer and carts of an add: every cart stays well formed, and a refusal leaves the carts unchanged |
| CartService.AddRespectsStock | backend/src/main/java/com/fashon/application/service/CartService.java:45-69 | an accepted add had a user and a live variant, leaves the variant's line at or below the stock, grows the count by exactly the quantity, and changes no other user's cart |
| CartService.AddRefusals | backend/src/main/java/com/fashon/application/service/CartService.java:40-61 | refusals come in source order: unknown user, missing or deleted variant, then not enough stock for the request or for the merged quantity |
| CartService.AddToCart | backend/src/main/java/com/fashon/application/service/CartService.java:38-72 | the answer and the new carts are exactly AddOutcome's, and the carts stay well formed |
| CartService.CartFor | backend/src/main/java/com/fashon/application/service/CartService.java:49-50 | a fresh cart entity holding the stored cart, or a new empty one |
| CartService.MergeInto | backend/src/main/java/com/fashon/application/service/CartService.java:56-69 | the cart's lines become the merged lines |
| CartService.FindOwnedItem | backend/src/main/java/com/fashon/application/service/CartService.java:76-86 | found exactly when the user's cart holds the item; otherwise "Cart not found", "Cart item not found", or "Cart item does not belong to your cart" when another cart holds it |
| CartService.UpdateCartItem | backend/src/main/java/com/fashon/application/service/CartService.java:74-98 | the item must be in the caller's cart; then accepted exactly when the stock covers the new quantity, which replaces that line's quantity only; a refusal changes nothing |
| CartService.RemoveCartItem | backend/src/main/java/com/fashon/application/service/CartService.java:100-118 | the item must be in the caller's cart; then exactly that line is removed; a refusal changes nothing |
| CartService.ClearCart | backend/src/main/java/com/fashon/application/service/CartService.java:120-132 | succeeds exactly for a known user; their stored cart is emptied, and a user without a cart is left alone |
| CartService.ClearedCartIsEmpty | backend/src/main/java/com/fashon/application/service/CartService.java:126-131 | the cleared cart stays well formed and holds no items |
| Carts.Cart.constructor | backend/src/main/java/com/fashon/domain/entity/Cart.java:28-30 | a new cart for a user starts empty |
| Carts.Cart.Load | backend/src/main/java/com/fashon/domain/entity/Cart.java:19-26 | the entity holds exactly the stored row |
| Carts.Cart.AddItem | backend/src/main/java/com/fashon/domain/entity/Cart.java:32-35 | the item is appended and points at this cart |
| Carts.Cart.RemoveItem | backend/src/main/java/com/fashon/domain/entity/Cart.java:37-40 | the first equal item is removed and the detached item points at no cart; a unique item is gone |
| Carts.Cart.ClearItems | backend/src/main/java/com/fashon/domain/entity/Cart.java:42-44 | the cart holds no items and nothing else changes |
| Carts.RemoveSingleWhenUnique | backend/src/main/java/com/fashon/domain/entity/Cart.java:37-40 | removing an element that occurs at most once leaves none of it |
| Catalog.NewVariant | backend/src/main/java/com/fashon/domain/entity/ProductVariant.java:42-48 | a new variant carries the given fields, a zero price adjustment, and is available |
| Catalog.PriceRulesAgree | backend/src/main/java/com/fashon/domain/entity/Product.java:79-84 | the product's and the variant's final-price rules agree: base price plus adjustment, with a missing adjustment or product counted as zero |
| Catalog.VariantFinalPrice | backend/src/main/java/com/fashon/domain/entity/ProductVariant.java:50-56 | the final price exceeds the base price (zero when unknown) by exactly the adjustment (zero when missing) |
| Catalog.IsInStock | backend/src/main/java/com/fashon/domain/entity/ProductVariant.java:58-60 | in stock exactly when at least one unit is stocked and the variant is available |
| Catalog.ProductFinalPrice | backend/src/main/java/com/fashon/domain/entity/Product.java:79-84 | the final price exceeds the base price by the variant's adjustment, or by nothing without a variant or an adjustment |
| Catalog.Product.constructor | backend/src/main/java/com/fashon/domain/entity/Product.java:51-57 | a new product carries the given fields, is visible, has sold nothing, and has no images or variants |
| Catalog.Product.AddImage | backend/src/main/java/com/fashon/domain/entity/Product.java:59-62 | the image is appended and points at this product |
| Catalog.Product.RemoveImage | backend/src/main/java/com/fashon/domain/entity/Product.java:64-67 | the first equal image is removed and the detached one points at no product |
| Catalog.Product.AddVariant | backend/src/main/java/com/fashon/domain/entity/Product.java:69-72 | the variant is appended and points at this product |
| Catalog.Product.RemoveVariant | backend/src/main/java/com/fashon/domain/entity/Product.java:74-77 | the first equal variant is removed and the detached one points at no product |
| Catalog.Product.FinalPrice | backend/src/main/java/com/fashon/domain/entity/Product.java:79-84 | with a variant, the variant's final price over this product's base price; without one, the base price |
| Categories.Category.constructor | backend/src/main/java/com/fashon/domain/entity/Category.java:43-47 | a new category carries the given fields, has no parent and no children, sort order 0, and is active |
| Categories.Category.AddChild | backend/src/main/java/com/fashon/domain/entity/Category.java:49-52 | the child is appended and its parent becomes this category |
| Categories.Category.RemoveChild | backend/src/main/java/com/fashon/domain/entity/Category.java:54-57 | the first equal child is removed and its parent cleared; a unique child is gone |
| Orders.NewOrderItem | backend/src/main/java/com/fashon/domain/entity/OrderItem.java:36-43 | the item carries the snapshots, quantity and unit price, and points at its order |
| Orders.Subtotal | backend/src/main/java/com/fashon/domain/entity/OrderItem.java:45-47 | a line's subtotal is never negative for a non-negative price and quantity, and is 0 for quantity 0 |
| Orders.TotalQuantityBoundsLines | backend/src/main/java/com/fashon/application/service/OrderService.java:251-253 | with no negative quantity, every line's quantity is at most the order's total quantity |
| Orders.TotalQuantityNonNegative | backend/src/main/java/com/fashon/application/service/OrderService.java:251-253 | with no negative quantity, the total quantity is not negative |
| Orders.CancellableExcludesDelivered | backend/src/main/java/com/fashon/domain/entity/Order.java:63-69 | no status is both cancellable and delivered-or-beyond; exactly PROCESSING and CANCELLED are neither |
| Orders.Cancellable | backend/src/main/java/com/fashon/domain/entity/Order.java:63-65 | a cancellable order is neither delivered-or-beyond, nor PROCESSING, nor CANCELLED |
| Orders.DeliveredOrBeyond | backend/src/main/java/com/fashon/domain/entity/Order.java:67-69 | an order delivered or beyond is not PENDING, CONFIRMED, PROCESSING or CANCELLED |
| Orders.Order.constructor | backend/src/main/java/com/fashon/domain/entity/Order.java:49-56 | a new order is PENDING with no items and no note |
| Orders.Order.AddItem | backend/src/main/java/com/fashon/domain/entity/Order.java:58-61 | the item is appended and points at this order |
| Payments.Payment.constructor | backend/src/main/java/com/fashon/domain/entity/Payment.java:47-52 | a new payment is PENDING, can be retried, and is not paid |
| Payments.Payment.Load | backend/src/main/java/com/fashon/domain/entity/Payment.java:21-45 | the entity holds exactly the stored row |
| Payments.Payment.MarkAsPaid | backend/src/main/java/com/fashon/domain/entity/Payment.java:54-61 | PAID at the given time with the given transaction code; the notes change only for non-empty new notes; no longer retryable |
| Payments.Payment.MarkAsFailed | backend/src/main/java/com/fashon/domain/entity/Payment.java:63-66 | FAILED with the reason as its notes; retryable |
| Payments.Payment.MarkAsRefunded | backend/src/main/java/com/fashon/domain/entity/Payment.java:68-71 | REFUNDED with the new notes; neither retryable nor paid |
| Payments.Payment.IsPaid | backend/src/main/java/com/fashon/domain/entity/Payment.java:73-75 | a paid payment is neither pending, failed nor refunded |
| Payments.Payment.CanRetry | backend/src/main/java/com/fashon/domain/entity/Payment.java:77-79 | a retryable payment is neither paid nor refunded |
| OrderService.ValidateStatusTransition | backend/src/main/java/com/fashon/application/service/OrderService.java:188-217 | accepts exactly PENDING to CONFIRMED or CANCELLED, CONFIRMED to SHIPPED or CANCELLED, SHIPPED to DELIVERED, and DELIVERED to COMPLETED; anything else gets its refusal message |
| OrderService.TransitionsMoveForward | backend/src/main/java/com/fashon/application/service/OrderService.java:188-217 | an accepted change never keeps the status; COMPLETED, CANCELLED and PROCESSING never move; an accepted change leaves a cancellable or delivered-or-beyond order; cancelling is accepted exactly for a cancellable order |
| OrderService.UpdateOrderStatus | backend/src/main/java/com/fashon/application/service/OrderService.java:132-147 | an unknown code gives "Order not found" and a refused change gives the validator's message, both changing nothing; otherwise only that order's status becomes the new one |
| OrderService.CancelOrder | backend/src/main/java/com/fashon/application/service/OrderService.java:149-171 | only the caller's own cancellable order becomes CANCELLED; a refusal changes nothing; no stock is returned and no inventory row is written |
| OrderService.CancelOrderByAdmin | backend/src/main/java/com/fashon/application/service/OrderService.java:173-186 | any cancellable order becomes CANCELLED; a refusal changes nothing; stock and inventory log are untouched |
| OrderService.BuildVariantInfo | backend/src/main/java/com/fashon/application/service/OrderService.java:226-239 | the snapshot text is the colour, then the size, and the SKU only when neither is present |
| OrderService.VariantDescriptor | backend/src/main/java/com/fashon/application/service/OrderService.java:226-239 | a given colour leads the text, a given size ends it, and without either the text ends with the SKU |
| OrderService.DescriptorShowsSkuOnlyAsLastResort | backend/src/main/java/com/fashon/application/service/OrderService.java:226-239 | the text starts with "SKU: " exactly when colour and size are both absent or empty, and with "Color: " exactly when the colour is present |
| OrderService.OrderCode | backend/src/main/java/com/fashon/application/service/OrderService.java:219-224 | "ORD", then the timestamp, then four characters with no lower-case letter |
| OrderService.SnapshotItems | backend/src/main/java/com/fashon/application/service/OrderService.java:70-85 | one order item per cart line, in order, each that line's snapshot (SnapshotItem) |
| OrderService.SnapshotItem | backend/src/main/java/com/fashon/application/service/OrderService.java:71-82 | the order line for one cart line carries the order's code, the product's name, the variant text `buildVariantInfo` gives, the cart line's quantity and the unit price checkout charges |
| OrderService.SnapshotTotals | backend/src/main/java/com/fashon/application/service/OrderService.java:45-59 | the snapshotted items add up to the total checkout priced, and their quantities to the cart's quantity |
| OrderService.AfterDeductionsKeys | backend/src/main/java/com/fashon/application/service/OrderService.java:86-88 | deducting stock adds or drops no variant |
| OrderService.DeductionRows | backend/src/main/java/com/fashon/application/service/OrderService.java:86-88 | one inventory row per deducted line |
| OrderService.AfterDeductionsUntouched | backend/src/main/java/com/fashon/application/service/OrderService.java:86-88 | a variant no line names keeps its stock |
| OrderService.AfterDeductionsEffect | backend/src/main/java/com/fashon/application/service/OrderService.java:86-88 | with one line per variant, each line's variant loses exactly that line's quantity |
| OrderService.DeductionRowsShape | backend/src/main/java/com/fashon/application/service/OrderService.java:86-88 | the row for line k records minus its quantity, ORDER_DEDUCTED, the order code, and the stock after the deduction |
| OrderService.CheckoutConserves | backend/src/main/java/com/fashon/application/service/OrderService.java:86-88 | checkout's deductions keep every variant's stock equal to its base plus the changes logged for it |
| OrderService.PriceCart | backend/src/main/java/com/fashon/application/service/OrderService.java:44-59 | succeeds exactly when every line is covered by stock, and then returns the sum of (base price + adjustment) times quantity; otherwise it names the first short line's SKU and stock |
| OrderService.UnitPrice | backend/src/main/java/com/fashon/application/service/OrderService.java:56-57 | the unit price checkout charges is the product's final price for the variant (Product.getFinalPrice) |
| OrderService.FulfilledUntouched | backend/src/main/java/com/fashon/application/service/OrderService.java:70-88 | before line i is processed its variant still has its starting stock |
| OrderService.FulfilledStep | backend/src/main/java/com/fashon/application/service/OrderService.java:70-88 | processing line i extends the deductions, log rows and snapshots by exactly that line |
| OrderService.StepDeductions | backend/src/main/java/com/fashon/application/service/OrderService.java:86-88 | deducting one more line changes only that line's variant and adds its one log row |
| OrderService.StepSnapshots | backend/src/main/java/com/fashon/application/service/OrderService.java:76-84 | snapshotting one more line appends its one order item |
| OrderService.SnapshotLine | backend/src/main/java/com/fashon/application/service/OrderService.java:70-88 | one pass of the second loop: the line is snapshotted onto the order and its stock deducted and logged |
| OrderService.SnapshotLines | backend/src/main/java/com/fashon/application/service/OrderService.java:70-88 | the second loop processes every cart line |
| OrderService.SnapshotAndDeduct | backend/src/main/java/com/fashon/application/service/OrderService.java:70-88 | the order gains one snapshot per line, each line's variant loses its quantity, and the log gains one row per line |
| OrderService.FulfilledStart | backend/src/main/java/com/fashon/application/service/OrderService.java:70 | nothing is processed before the loop |
| OrderService.FulfilledDone | backend/src/main/java/com/fashon/application/service/OrderService.java:70-88 | after the loop the items, stocks and log are the full snapshots, deductions and rows |
| OrderService.CreateOrderFromCart | backend/src/main/java/com/fashon/application/service/OrderService.java:32-96 | "User not found", then "Cart is empty" for a missing or empty cart; any refusal changes nothing; a stocked cart with a fresh code is placed; a placed order satisfies OrderPlaced; payments are untouched |
| OrderService.PlaceOrder | backend/src/main/java/com/fashon/application/service/OrderService.java:61-93 | stores the PENDING order with the cart's snapshots, deducts and logs each line's stock, and empties the cart |
| OrderService.OrderPlacedIntro | backend/src/main/java/com/fashon/application/service/OrderService.java:61-93 | the state PlaceOrder leaves, after PriceCart's total, is an order placement |
| OrderService.PlacedOrderFacts | backend/src/main/java/com/fashon/application/service/OrderService.java:32-96 | a placed order is PENDING; its total is the sum of its items and its quantity the cart's; each variant loses exactly its line's quantity and stays non-negative; one log row of minus the quantity per line; the cart is left empty |
| Inventory.ApplyLogged | backend/src/main/java/com/fashon/application/service/InventoryService.java:27-39 | the variant's stock moves by the change and one log row with the stock after it is appended |
| Inventory.DeductStockForOrder | backend/src/main/java/com/fashon/application/service/InventoryService.java:19-40 | accepted exactly when the stock covers the quantity, leaving it non-negative and logging ORDER_DEDUCTED with the order; otherwise the SKU, stock and request are named and nothing changes |
| Inventory.ReturnStockForCancelledOrder | backend/src/main/java/com/fashon/application/service/InventoryService.java:42-57 | the stock grows by the quantity and an ORDER_RETURNED row names the order |
| Inventory.AddStock | backend/src/main/java/com/fashon/application/service/InventoryService.java:59-72 | the stock grows by the quantity and a row with the reason and no order is logged |
| Inventory.DeductStock | backend/src/main/java/com/fashon/application/service/InventoryService.java:74-91 | accepted exactly when the stock covers the quantity, leaving it non-negative and logging the reason; otherwise "Insufficient stock" and nothing changes |
| Inventory.ReadPathsAgree | backend/src/main/java/com/fashon/application/service/InventoryService.java:93-103 | enough stock exactly when the variant is live and its current stock covers the request; a missing variant reads as 0 and never has enough |
| Inventory.HasEnoughStock | backend/src/main/java/com/fashon/application/service/InventoryService.java:93-97 | a variant the lookup does not find never has enough; a found one has enough exactly when its current stock covers the request |
| Inventory.CurrentStock | backend/src/main/java/com/fashon/application/service/InventoryService.java:99-103 | non-zero only for a variant the lookup finds, and never negative when no stock is |
| Inventory.LoggedChangeConserves | backend/src/main/java/com/fashon/application/service/InventoryService.java:27-39 | a logged change keeps every variant's stock equal to its base plus its logged changes, and every row's stock-after equal to the running balance |
| Inventory.LoggedChangeConservesAt | backend/src/main/java/com/fashon/application/service/InventoryService.java:27-39 | the same, stated for the state after the change |
| Inventory.EmptyLedgerConserved | backend/src/main/java/com/fashon/application/service/InventoryService.java:93-103 | with an empty log the current stocks are their own base |
| PaymentService.CreatePaymentForOrder | backend/src/main/java/com/fashon/application/service/PaymentService.java:34-38 | a PENDING payment for the order, method and amount is appended |
| PaymentService.LatestPayment | backend/src/main/java/com/fashon/application/service/PaymentService.java:71-72 | the position of the order's newest payment; None exactly when the order has no payment |
| PaymentService.TransactionCode | backend/src/main/java/com/fashon/application/service/PaymentService.java:153-158 | "COD" for cash on delivery and "TRF" otherwise, then the timestamp, then six characters with no lower-case letter |
| PaymentService.StatusAfterConfirmation | backend/src/main/java/com/fashon/application/service/PaymentService.java:92-96 | the order's status changes only for a non-COD payment of a PENDING order, and then to CONFIRMED |
| PaymentService.ConfirmPayment | backend/src/main/java/com/fashon/application/service/PaymentService.java:65-99 | "Order not found", "No payment found", then refusal of a PAID or REFUNDED payment, each changing nothing; otherwise the newest payment becomes PAID with the supplied or a generated code, and a non-COD PENDING order becomes CONFIRMED |
| PaymentService.MarkPaymentFailed | backend/src/main/java/com/fashon/application/service/PaymentService.java:101-122 | the same lookups and refusals of PAID and REFUNDED; otherwise only the newest payment becomes FAILED with the reason |
| PaymentService.Select | backend/src/main/java/com/fashon/application/service/PaymentService.java:124-139 | a filter keeps exactly the payments that pass, and no more of them; the order they keep is SelectSplits' |
| PaymentService.SelectSplits | backend/src/main/java/com/fashon/application/service/PaymentService.java:124-139 | filtering a concatenation is filtering each part in turn, and one payment is kept exactly when it passes, so the kept payments stay in their stored order |
| PaymentService.SelectAgrees | backend/src/main/java/com/fashon/application/service/PaymentService.java:124-139 | filters that agree on every payment select the same list |
| PaymentService.SelectAll | backend/src/main/java/com/fashon/application/service/PaymentService.java:134-136 | a filter that passes everything keeps the whole list |
| PaymentService.AllPaymentsIsOneFilter | backend/src/main/java/com/fashon/application/service/PaymentService.java:124-139 | the four branches of getAllPayments are one filter on status and method, each applied only when given |
| ReviewService.PurchaseGateIgnoresProduct | backend/src/main/java/com/fashon/application/service/ReviewService.java:137-160 | the purchase gate gives the same answer for every product, and always refuses an anonymous visitor |
| ReviewService.CheckUserHasPurchasedProduct | backend/src/main/java/com/fashon/application/service/ReviewService.java:137-160 | true exactly when the user has a COMPLETED or DELIVERED order with at least one item |
| ReviewService.WriteRefusal | backend/src/main/java/com/fashon/application/service/ReviewService.java:86-102 | no refusal exactly when the user exists, the product is live and visible, and the gate passes |
| ReviewService.UpsertKeepsOneReviewPerPair | backend/src/main/java/com/fashon/application/service/ReviewService.java:104-115 | a successful write keeps one stored review per user and product, leaves a live review with the new rating and content, and overwrites rather than adds when one was live |
| ReviewService.CreateReview | backend/src/main/java/com/fashon/application/service/ReviewService.java:84-117 | refused exactly when WriteRefusal names a reason, or with a conflict on uk_user_product_review when only a soft-deleted review holds the pair; a refusal changes nothing; otherwise the reviews become the written upsert's result and ids stay fresh |
| ReviewService.ReReviewAfterDeleteConflicts | backend/src/main/java/com/fashon/application/service/ReviewService.java:104-115 | as written, re-reviewing after a soft delete fails on the unique constraint |
| ReviewService.RevivingWriteSucceeds | backend/src/main/java/com/fashon/application/service/ReviewService.java:104-115 | the reviving write keeps one review per pair, leaves a live review with the new rating and content, and equals the written one whenever that succeeds |
| ReviewService.DeletePermission | backend/src/main/java/com/fashon/application/service/ReviewService.java:129-131 | with unique user ids, a user may delete exactly their own review, or any review when they are not a CUSTOMER |
| ReviewService.DeleteReview | backend/src/main/java/com/fashon/application/service/ReviewService.java:119-135 | refusals in source order ("Review not found" for a missing or deleted review, "User not found", then the permission message), each changing nothing; otherwise only that review is soft-deleted |
| ReviewService.View | backend/src/main/java/com/fashon/application/service/ReviewService.java:162-175 | the view keeps id, rating and content, and is the owner's exactly when the viewer wrote it |
| ReviewService.GetProductReviews | backend/src/main/java/com/fashon/application/service/ReviewService.java:34-73 | "Product not found", then "Product is not available"; otherwise the live reviews with their count, the average or 0, whether and which review the viewer wrote, and the purchase gate |
| ReviewService.AnonymousVisitor | backend/src/main/java/com/fashon/application/service/ReviewService.java:52-63 | an anonymous visitor can never review and owns no review |
| WishlistService.AddRefusal | backend/src/main/java/com/fashon/application/service/WishlistService.java:40-50 | no refusal exactly when the user exists and the product is live and visible |
| WishlistService.AddToWishlist | backend/src/main/java/com/fashon/application/service/WishlistService.java:37-65 | a refusal changes nothing; otherwise the pair is in the wishlist, whether or not it already was |
| WishlistService.RemoveFromWishlist | backend/src/main/java/com/fashon/application/service/WishlistService.java:67-75 | accepted exactly when the pair is listed, and then only that pair is removed; otherwise "Product not found in wishlist" and nothing changes |
| WishlistService.AddFacts | backend/src/main/java/com/fashon/application/service/WishlistService.java:52-64 | adding twice is adding once; the pair is then listed; the user's count grows by one exactly when it was new; other users are untouched |
| WishlistService.RemoveFacts | backend/src/main/java/com/fashon/application/service/WishlistService.java:67-85 | a removed pair is no longer listed, the user's count drops by one, other users are untouched, and adding it back restores the list |
| WishlistService.IsInWishlist | backend/src/main/java/com/fashon/application/service/WishlistService.java:78-80 | a product is in the wishlist exactly when it is among the user's saved products |
| WishlistService.ProductsOf | backend/src/main/java/com/fashon/application/service/WishlistService.java:29-35 | the user's saved products are exactly those paired with the user |
| WishlistService.WishlistCount | backend/src/main/java/com/fashon/application/service/WishlistService.java:83-85 | the count is zero exactly when the user has saved no product |
| ProductService.VariantRefusal | backend/src/main/java/com/fashon/application/service/ProductService.java:79-100 | no refusal exactly when the stock is not negative and no stored row, live or soft-deleted, holds the SKU; a live duplicate, then a negative stock, then a soft-deleted holder are refused in that order |
| ProductService.AcceptedVariantKeepsSkusUnique | backend/src/main/java/com/fashon/application/service/ProductService.java:79-100 | an accepted variant keeps SKUs unique over the stored rows and has non-negative stock |
| ProductService.CreateVariant | backend/src/main/java/com/fashon/application/service/ProductService.java:79-100 | refused exactly when VariantRefusal names a reason, changing nothing; otherwise the variant is stored under a fresh id |
| ProductService.RefusalPersists | backend/src/main/java/com/fashon/application/service/ProductService.java:51-55 | once a prefix of the variant requests is refused, the whole list is refused with the same failure |
| ProductService.CreateVariantsPlacesEach | backend/src/main/java/com/fashon/application/service/ProductService.java:51-55 | accepted requests land one by one under consecutive fresh ids, and stored variants are untouched |
| ProductService.CreateVariantsInTurn | backend/src/main/java/com/fashon/application/service/ProductService.java:51-55 | the loop's outcome and state are exactly createVariant applied to each request in turn |
| ProductService.ImageAddedKeepsOnePrimary | backend/src/main/java/com/fashon/application/service/ProductService.java:102-116 | an added image keeps at most one primary image per product; a primary image is then the product's only primary; other products' images are untouched |
| ProductService.CreateImage | backend/src/main/java/com/fashon/application/service/ProductService.java:102-116 | stores the image under a fresh id, clearing the product's other primary flags when it is primary |
| ProductService.CreateImagesKeepsOnePrimary | backend/src/main/java/com/fashon/application/service/ProductService.java:57-61 | creating images in turn keeps at most one primary image for every product |
| ProductService.OtherProductPrimaries | backend/src/main/java/com/fashon/application/service/ProductService.java:111-113 | adding an image to one product keeps another product's primary count |
| ProductService.CreateImagesInTurn | backend/src/main/java/com/fashon/application/service/ProductService.java:57-61 | the loop's state is exactly createImage applied to each request in turn |
| ProductService.DefaultSku | backend/src/main/java/com/fashon/application/service/ProductService.java:66 | the slug upper-cased without hyphens, then "-DEFAULT" |
| ProductService.DefaultSkusCollide | backend/src/main/java/com/fashon/application/service/ProductService.java:66 | slugs that differ only in hyphens ("a-b" and "ab") get the same default SKU |
| ProductService.Populate | backend/src/main/java/com/fashon/application/service/ProductService.java:51-74 | after the product row, the variants, the images, and the default variant when none were given, exactly as Populated describes |
| ProductService.CreateProduct | backend/src/main/java/com/fashon/application/service/ProductService.java:32-77 | "Product with this slug already exists" for a live slug, then "Category not found", then a conflict for a soft-deleted slug; any refusal leaves the catalogue unchanged; otherwise the catalogue becomes CreateProductSpec's |
| ProductService.StoreNewProduct | backend/src/main/java/com/fashon/application/service/ProductService.java:41-74 | stores the product row, then populates it; a failing request rolls back to the catalogue before the insert |
| ProductService.InsertKeepsFresh | backend/src/main/java/com/fashon/application/service/ProductService.java:49 | inserting under the next id keeps every id below the next one |
| ProductService.CreatedProductFacts | backend/src/main/java/com/fashon/application/service/ProductService.java:41-49 | a created product has the requested slug, is visible unless told otherwise, has sold nothing, and is not deleted |
| ProductService.DefaultVariantOnly | backend/src/main/java/com/fashon/application/service/ProductService.java:63-74 | without variant requests, the new product has exactly one variant: the default SKU, no stock, zero adjustment, available |
| ProductService.PatchOnlyNamedFields | backend/src/main/java/com/fashon/application/service/ProductService.java:123-154 | an update that names no field changes nothing, applying it twice is applying it once, and units sold and the deleted flag are kept |
| ProductService.UpsertOverwritesOrSkips | backend/src/main/java/com/fashon/application/service/ProductService.java:173-197 | a live SKU is never refused: the product's own variant gets the requested stock, and a SKU owned by another product is skipped |
| ProductService.StockOverwriteBreaksConservation | backend/src/main/java/com/fashon/application/service/ProductService.java:183 | overwriting a variant's stock without a log row breaks the equality between stock and logged changes |
| ProductService.UpsertOneVariant | backend/src/main/java/com/fashon/application/service/ProductService.java:173-201 | one pass of the variant loop: outcome and state are UpsertOne's |
| ProductService.UpsertVariantsInTurn | backend/src/main/java/com/fashon/application/service/ProductService.java:159-203 | the variant loop's outcome and state are UpsertOne applied to each request in turn |
| ProductService.UpsertRefusalPersists | backend/src/main/java/com/fashon/application/service/ProductService.java:173-201 | once a prefix of the upserts is refused, the whole list is refused with the same failure |
| ProductService.UpdateProduct | backend/src/main/java/com/fashon/application/service/ProductService.java:118-238 | "Product not found", then a duplicate slug, then "Category not found"; any refusal leaves the catalogue unchanged; otherwise the catalogue becomes UpdateProductSpec's |
| ProductService.StoreUpdate | backend/src/main/java/com/fashon/application/service/ProductService.java:156-235 | the patched row, then the variant upserts, then the image replacement; a failure rolls back to the catalogue before the update |
| ProductService.DeleteProduct | backend/src/main/java/com/fashon/application/service/ProductService.java:240-257 | accepted exactly for a live product, which is soft-deleted together with its variants and images; otherwise "Product not found" and nothing changes |
| ProductService.CreateVariantsKeepPriced | backend/src/main/java/com/fashon/application/service/ProductService.java:79-100 | every variant the create loop stores names the stored product and carries a price adjustment (0 when the request has none), so a catalogue whose variants are all priced stays so |
| ProductService.UpsertVariantsKeepPriced | backend/src/main/java/com/fashon/application/service/ProductService.java:159-203 | the upsert keeps every variant's product and adjustment known: an overwrite keeps the product and sets an adjustment, and a new variant belongs to the updated product |
| ProductService.CreateProductKeepsPriced | backend/src/main/java/com/fashon/application/service/ProductService.java:32-77 | after `createProduct` every variant, the default one included, still names a stored product and has an adjustment, as checkout's pricing needs |
| ProductService.UpdateProductKeepsPriced | backend/src/main/java/com/fashon/application/service/ProductService.java:118-238 | after `updateProduct` every variant still names a stored product and has an adjustment |
| ProductService.DeleteProductKeepsPriced | backend/src/main/java/com/fashon/application/service/ProductService.java:240-257 | soft-deleting a product removes no row, so every variant still names a stored product and has an adjustment |
| ProductService.RetiredVariantsAreGone | backend/src/main/java/com/fashon/application/service/ProductService.java:248-251 | after a delete, none of the product's variants is live or has any stock to sell, and other products' variants are untouched |
| ProductViews.VariantDto | backend/src/main/java/com/fashon/application/service/ProductService.java:404-416 | the final price is the base price plus the adjustment (none counts as zero), and a variant is in stock exactly when it has stock and is available |
| ProductViews.LiveVariantsMembers | backend/src/main/java/com/fashon/application/service/ProductService.java:328-331 | the listed variants are exactly the product's variants that are not soft-deleted |
| ProductViews.VariantDtos | backend/src/main/java/com/fashon/application/service/ProductService.java:328-331 | one view per live variant, in order |
| ProductViews.LiveImagesMembers | backend/src/main/java/com/fashon/application/service/ProductService.java:322-323 | the shown images are exactly the product's images that are not soft-deleted |
| ProductViews.ImageDtos | backend/src/main/java/com/fashon/application/service/ProductService.java:322-326 | one view per live image, in sort order |
| ProductViews.DetailImagesFacts | backend/src/main/java/com/fashon/application/service/ProductService.java:322-326 | the detail images are sorted by sort order and are a permutation of the live images |
| ProductViews.DetailDto | backend/src/main/java/com/fashon/application/service/ProductService.java:321-348 | the detail view has one variant view per live variant and one image view per live image |
| ProductViews.TotalStockBoundsLive | backend/src/main/java/com/fashon/application/service/ProductService.java:364-367 | each live variant's stock is at most the product's total stock |
| ProductViews.TotalStockNonNegative | backend/src/main/java/com/fashon/application/service/ProductService.java:364-367 | with non-negative stocks, the total stock is not negative |
| ProductViews.TotalStockOfLive | backend/src/main/java/com/fashon/application/service/ProductService.java:364-367 | soft-deleted variants add nothing to the total stock |
| ProductViews.FirstLive | backend/src/main/java/com/fashon/application/service/ProductService.java:351-362 | the first live image (primary if asked for), with none before it; None exactly when there is none |
| ProductViews.PrimaryImageUrl | backend/src/main/java/com/fashon/application/service/ProductService.java:351-362 | no URL exactly when every image is soft-deleted; otherwise the URL of a live image, searched in the collection's load order |
| ProductViews.PrimaryWins | backend/src/main/java/com/fashon/application/service/ProductService.java:353-356 | the listed URL is that of the live primary image with the least sortOrder, the earliest stored among equals |
| ProductViews.FallbackLeastOrder | backend/src/main/java/com/fashon/application/service/ProductService.java:357-361 | without a live primary image, the listed URL is that of the live image with the least sortOrder, the earliest stored among equals |
| ProductViews.LoadedImagesFacts | backend/src/main/java/com/fashon/domain/entity/Product.java:40-42 | the images as `@OrderBy("sortOrder ASC")` loads them: sorted by sortOrder, the same length and the same images |
| ProductViews.LoadedFirstMatch | backend/src/main/java/com/fashon/application/service/ProductService.java:351-362 | the first loaded image passing the search's filter is the passing image with the least sortOrder, the earliest stored among equals |
| ProductViews.ListDto | backend/src/main/java/com/fashon/application/service/ProductService.java:350-392 | the list view has at most one image (the one PrimaryWins and FallbackLeastOrder name), none exactly when every image is soft-deleted, no description, and the live variants' views |
| CategoryService.NewCategoryRow | backend/src/main/java/com/fashon/application/service/CategoryService.java:28-33 | a missing sort order becomes 0, and a missing active flag becomes true |
| CategoryService.CreateRefusal | backend/src/main/java/com/fashon/application/service/CategoryService.java:23-39 | a live duplicate slug is refused first; an accepted request has a fresh slug and a live parent, if it names one |
| CategoryService.CreateCategory | backend/src/main/java/com/fashon/application/service/CategoryService.java:23-43 | refused exactly when CreateRefusal names a reason, changing nothing; otherwise the new row is stored under a fresh id |
| CategoryService.UpdateCategory | backend/src/main/java/com/fashon/application/service/CategoryService.java:46-86 | refused exactly when UpdateRefusal names a reason, changing nothing; otherwise the row is replaced by the patched one |
| CategoryService.UpdateParentRules | backend/src/main/java/com/fashon/application/service/CategoryService.java:74-82 | an accepted update never makes a category its own parent; without a parent id it moves the category to the top level; a named parent is live; unnamed fields keep their values |
| CategoryService.TwoCycleAccepted | backend/src/main/java/com/fashon/application/service/CategoryService.java:75-77 | only direct self-parenting is refused: an update that makes two categories each other's parent is accepted |
| CategoryService.SoftDeleteRecursionDiverges | backend/src/main/java/com/fashon/application/service/CategoryService.java:96-103 | on the two-category cycle the unguarded recursion does not return within any number of nested calls |
| CategoryService.TwoCycleSubtree | backend/src/main/java/com/fashon/application/service/CategoryService.java:89-103 | on the same cycle the subtree the delete retires is both categories |
| CategoryService.SubtreeUnique | backend/src/main/java/com/fashon/application/service/CategoryService.java:96-103 | a category's subtree is one set |
| CategoryService.SubtreeIncluded | backend/src/main/java/com/fashon/application/service/CategoryService.java:96-103 | any subtree of a category is included in every other subtree of that category |
| CategoryService.RankedMemberIncluded | backend/src/main/java/com/fashon/application/service/CategoryService.java:100-102 | a category reached from the root at some depth lies in every set that holds the root and is closed under children |
| CategoryService.RetiredLeavesNoOrphan | backend/src/main/java/com/fashon/application/service/CategoryService.java:96-103 | after the recursive delete, no category of the subtree and no child of one is live, and other categories are untouched |
| CategoryService.RankedStep | backend/src/main/java/com/fashon/application/service/CategoryService.java:100-102 | adding the children of a reached category one level deeper keeps the reached set ranked |
| CategoryService.CollectSubtree | backend/src/main/java/com/fashon/application/service/CategoryService.java:96-103 | the set collected from a live category is its subtree: the category and every category below it; it also finishes where a parent cycle makes the recursion run forever |
| CategoryService.DeleteCategory | backend/src/main/java/com/fashon/application/service/CategoryService.java:89-103 | accepted exactly for a live category, which is soft-deleted with its whole subtree; otherwise "Category not found" and nothing changes (on a parent cycle this is the corrected behaviour, see Findings) |
| CategoryService.TreeDtoMirrors | backend/src/main/java/com/fashon/application/service/CategoryService.java:155-177 | the tree view holds the same ids in the same order as the category tree, one child view per child, each naming its parent |
| CategoryService.TreeDtoMirrorsAll | backend/src/main/java/com/fashon/application/service/CategoryService.java:166-169 | a list of tree views holds the ids of the list of categories, in order |
| CategoryTree.Copy | frontend/src/utils/tree-utils.ts:20 | the copy has no children and agrees with the category on every other field |
| CategoryTree.IndexedFacts | frontend/src/utils/tree-utils.ts:17-21 | the map holds exactly the listed ids, each with no children; the first-seen order lists each of them once |
| CategoryTree.OrderInIndex | frontend/src/utils/tree-utils.ts:17-24 | every id in the map's iteration order is in the map |
| CategoryTree.UniqueIdsAllCopied | frontend/src/utils/tree-utils.ts:17-21 | with distinct ids, every category is in the map as its own childless copy |
| CategoryTree.RepeatedIdKeepsLast | frontend/src/utils/tree-utils.ts:20 | a repeated id keeps the last copy, in the place of the first |
| CategoryTree.IndexCategories | frontend/src/utils/tree-utils.ts:13-21 | the map and its iteration order are Indexed and FirstSeen of the list |
| CategoryTree.RootsAmongFacts | frontend/src/utils/tree-utils.ts:30-33 | the roots are exactly the ids with no parent id, a zero parent id, or a parent not in the map, taken from the order |
| CategoryTree.ChildrenAmongFacts | frontend/src/utils/tree-utils.ts:25-29 | a parent's children are exactly the ids in the order whose parent it is |
| CategoryTree.AttachChildren | frontend/src/utils/tree-utils.ts:23-34 | every node gets the list of its children in map order, and the roots are the roots in map order |
| CategoryTree.SortKeepsMembers | frontend/src/utils/tree-utils.ts:37-42 | sorting a list without repeats keeps its members, sorts it by the key, and keeps ids with equal keys in the order they had |
| CategoryTree.SortLevels | frontend/src/utils/tree-utils.ts:44-48 | every node's child list is sorted, for the same nodes |
| CategoryTree.SortedLevelsExact | frontend/src/utils/tree-utils.ts:37-48 | after sorting, each child list holds exactly the node's children, without repeats, sorted by the key |
| CategoryTree.SortedRootsExact | frontend/src/utils/tree-utils.ts:51-52 | the sorted roots are exactly the listed roots, without repeats, sorted by the key |
| CategoryTree.BuildCategoryTree | frontend/src/utils/tree-utils.ts:9-55 | a node per listed id without stale children; roots and child lists hold exactly the right ids, once each; siblings sorted by the comparator's key or by sort order, and siblings with equal keys in the order of the categories' first appearance in the input |
| CategoryTree.OneSlot | frontend/src/utils/tree-utils.ts:24-34 | each node sits in exactly one place: among the roots, or in its parent's child list only |
| CategoryTree.AcyclicAllPlaced | frontend/src/utils/tree-utils.ts:24-34 | when the parent links are acyclic, every category is reachable from the roots |
| CategoryTree.ClosedNeverReached | frontend/src/utils/tree-utils.ts:24-34 | no node of a set closed under parent links is reached from the roots at any depth |
| CategoryTree.CycleAbsent | frontend/src/utils/tree-utils.ts:24-34 | categories whose parent links form a cycle never appear in the returned tree |
| CategoryTree.SelfParentAbsent | frontend/src/utils/tree-utils.ts:25 | a category that is its own parent never appears in the returned tree |
| CategoryTree.InputChildrenIgnored | frontend/src/utils/tree-utils.ts:20 | children already present in the input do not change the tree |
| Converters.ParseOrderStatus | backend/src/main/java/com/fashon/infrastructure/converter/OrderStatusConverter.java:24-26 | the status whose name it is; PENDING when the name is no status's name |
| Converters.EncodeOrderStatus | backend/src/main/java/com/fashon/infrastructure/converter/OrderStatusConverter.java:11-16 | null stays null; a status becomes its name with no upper-case letter |
| Converters.DecodeOrderStatus | backend/src/main/java/com/fashon/infrastructure/converter/OrderStatusConverter.java:19-28 | null or empty text is null; otherwise the status named by the upper-cased text |
| Converters.OrderStatusRoundTrip | backend/src/main/java/com/fashon/infrastructure/converter/OrderStatusConverter.java:10-28 | decoding an encoded status gives the status back |
| Converters.NamesUpperCase | backend/src/main/java/com/fashon/infrastructure/converter/OrderStatusConverter.java:15 | a status name holds no lower-case letter |
| Converters.DecodeOrderStatusIgnoresCase | backend/src/main/java/com/fashon/infrastructure/converter/OrderStatusConverter.java:24 | texts that agree up to case decode to the same status |
| Converters.DecodeOrderStatusFallback | backend/src/main/java/com/fashon/infrastructure/converter/OrderStatusConverter.java:25-27 | a non-empty text naming no status decodes to PENDING |
| Converters.ParseRole | backend/src/main/java/com/fashon/infrastructure/converter/RoleConverter.java:24-26 | the role whose name it is; CUSTOMER when the name is no role's name |
| Converters.EncodeRole | backend/src/main/java/com/fashon/infrastructure/converter/RoleConverter.java:11-16 | null stays null; a role becomes its name with no upper-case letter |
| Converters.DecodeRole | backend/src/main/java/com/fashon/infrastructure/converter/RoleConverter.java:19-28 | null or empty text is null; otherwise the role named by the upper-cased text |
| Converters.RoleRoundTrip | backend/src/main/java/com/fashon/infrastructure/converter/RoleConverter.java:10-28 | decoding an encoded role gives the role back |
| Converters.DecodeRoleFallback | backend/src/main/java/com/fashon/infrastructure/converter/RoleConverter.java:25-27 | a non-empty text naming no role decodes to CUSTOMER |
| ErrorHandler.BetweenPosition | backend/src/main/java/com/fashon/interfaces/rest/GlobalExceptionHandler.java:81-93 | a value found sits right after the first opening marker, with no closing marker inside it |
| ErrorHandler.BetweenMissing | backend/src/main/java/com/fashon/interfaces/rest/GlobalExceptionHandler.java:84-92 | nothing is found exactly when the opening marker is missing, or no closing marker follows its first occurrence |
| ErrorHandler.BetweenRendered | backend/src/main/java/com/fashon/interfaces/rest/GlobalExceptionHandler.java:81-93 | a value written between the markers is found again when the text before holds no opening marker and the value holds no closing character |
| ErrorHandler.ExtractFromServerMessage | backend/src/main/java/com/fashon/interfaces/rest/GlobalExceptionHandler.java:81-93 | the SKU inside a SQL Server duplicate-key message is extracted when it holds no ")" |
| ErrorHandler.HandleDataIntegrityViolation | backend/src/main/java/com/fashon/interfaces/rest/GlobalExceptionHandler.java:51-79 | always 409 with a message, the first matching test deciding it: for the variants' SKU constraint the duplicate-SKU text, naming the value extracted from the message when there is one; for the users' email constraint the duplicate-email text; for the products' slug constraint the duplicate-slug text; the generic text exactly when none of the three matches |
| ErrorHandler.ServerMessageNamesSku | backend/src/main/java/com/fashon/interfaces/rest/GlobalExceptionHandler.java:51-79 | a SQL Server duplicate-key message on the variants' SKU column is answered 409 with the message naming exactly that SKU |
| ErrorHandler.HandleRuntimeException | backend/src/main/java/com/fashon/interfaces/rest/GlobalExceptionHandler.java:95-127 | 400 with the duplicate-SKU text exactly when the message mentions "SKU"; 401 exactly for "User not found"; otherwise 500 carrying the message |
| ErrorHandler.UserNotFoundMentionsNoSku | backend/src/main/java/com/fashon/interfaces/rest/GlobalExceptionHandler.java:101-111 | "User not found" does not mention "SKU", so the 401 branch is reachable |
| ErrorHandler.MessagesNamingSkuReadAsDuplicate | backend/src/main/java/com/fashon/interfaces/rest/GlobalExceptionHandler.java:101-108 | any message naming a SKU that contains "SKU" is answered as a duplicate SKU, whatever the failure |
| ImageEditor.ValidateFile | frontend/src/components/admin/products/image-upload.tsx:26-36 | accepted exactly for an allowed type of at most 5 MB; the wrong type is reported before the size |
| ImageEditor.BeforeFirstDot | frontend/src/components/admin/products/image-upload.tsx:45 | the name up to its first dot: a prefix holding no dot, ending at a dot or at the end |
| ImageEditor.NewImage | frontend/src/components/admin/products/image-upload.tsx:43-48 | the new image is numbered after the existing ones and is primary exactly when it is the first |
| ImageEditor.HandleUpload | frontend/src/components/admin/products/image-upload.tsx:38-53 | the list grows exactly when the file is valid and the upload returned a URL, by the new image at the end |
| ImageEditor.UploadKeepsWellFormed | frontend/src/components/admin/products/image-upload.tsx:38-53 | an upload keeps the images numbered in order, with exactly one primary when there are any |
| ImageEditor.Renumber | frontend/src/components/admin/products/image-upload.tsx:94 | every image keeps its place and content and gets its position as sort order |
| ImageEditor.RemoveImage | frontend/src/components/admin/products/image-upload.tsx:87-96 | the image is gone, the others keep their order and content and are renumbered; the first becomes primary when the removed one was; a well-formed list stays well-formed |
| ImageEditor.RemoveKeepsWellFormed | frontend/src/components/admin/products/image-upload.tsx:87-96 | removal keeps exactly one primary image when images remain |
| ImageEditor.SetPrimary | frontend/src/components/admin/products/image-upload.tsx:98-104 | exactly the chosen image is primary, and nothing else changes |
| ImageEditor.SetPrimaryKeepsWellFormed | frontend/src/components/admin/products/image-upload.tsx:98-104 | choosing a primary image keeps the list well-formed |
| ImageEditor.MoveImage | frontend/src/components/admin/products/image-upload.tsx:106-117 | nothing happens at the boundary; otherwise the image swaps places with its neighbour and every image is renumbered; a well-formed list stays well-formed |
| ImageEditor.MoveKeepsWellFormed | frontend/src/components/admin/products/image-upload.tsx:110-116 | a renumbered swap keeps the list well-formed |
| ImageEditor.MovePermutes | frontend/src/components/admin/products/image-upload.tsx:110-116 | a move is a swap of the images, so they are a permutation of the old ones, and the same swap undoes it |
| ImageEditor.ImageUrl | frontend/src/components/admin/products/image-upload.tsx:119-122 | an absolute URL is kept; a relative one is put after the API base with its first "/api/v1" removed |
| ImageEditor.ServedFromOrigin | frontend/src/components/admin/products/image-upload.tsx:119-122 | for an API base of an origin followed by "/api/v1", a relative URL is served from that origin |
| ImageEditor.NoApiInOrigin | frontend/src/components/admin/products/image-upload.tsx:121 | such an origin has no "/api/v1" of its own, so the first one removed is the one after it |
| ImageEditor.DefaultServedFromLocalhost | frontend/src/components/admin/products/image-upload.tsx:280 | with the default API base, relative URLs are served from http://localhost:8080 |
| ImageEditor.BatchKeepsOnlyLast | frontend/src/components/admin/products/image-upload.tsx:65-85 | with the handlers as written, two files uploaded in one batch leave only the second image |
| ImageEditor.BatchCorrectedKeepsAll | frontend/src/components/admin/products/image-upload.tsx:38-85 | uploading in turn onto the latest list keeps the old images, adds one image per accepted file and keeps the list well-formed |
| VariantEditor.NewSku | frontend/src/components/admin/products/variant-manager.tsx:47 | "SKU-" followed by at least three digits |
| VariantEditor.NewSkuValue | frontend/src/components/admin/products/variant-manager.tsx:47 | the digits of the n-th new SKU read as n + 1 |
| VariantEditor.NewSkuInjective | frontend/src/components/admin/products/variant-manager.tsx:47 | different counts give different SKUs |
| VariantEditor.DefaultVariant | frontend/src/components/admin/products/variant-manager.tsx:26-33 | a new variant has the given SKU, zero stock, no adjustment and is available |
| VariantEditor.Updated | frontend/src/components/admin/products/variant-manager.tsx:60-64 | exactly the named field takes the new value |
| VariantEditor.Without | frontend/src/components/admin/products/variant-manager.tsx:53 | the list with the indexed variant cut out; an index outside the list leaves it unchanged |
| VariantEditor.FollowMove | frontend/src/components/admin/products/variant-manager.tsx:75-79 | the highlight follows the moved variant and the one it swapped with, and stays elsewhere |
| VariantEditor.FinalPrice | frontend/src/components/admin/products/variant-manager.tsx:82-84 | the final price exceeds the base price by exactly the adjustment |
| VariantEditor.Editor.AddVariant | frontend/src/components/admin/products/variant-manager.tsx:44-50 | a default variant with the next SKU is appended and highlighted; the total stock is unchanged |
| VariantEditor.Editor.RemoveVariant | frontend/src/components/admin/products/variant-manager.tsx:52-58 | the variant is cut out, a highlight on it is cleared, and the total stock drops by its stock |
| VariantEditor.Editor.UpdateVariant | frontend/src/components/admin/products/variant-manager.tsx:60-64 | only the variant at the index changes, as Updated says |
| VariantEditor.Editor.MoveVariant | frontend/src/components/admin/products/variant-manager.tsx:66-80 | nothing changes at the boundary; otherwise a swap with the neighbour; either way a permutation with the same total stock, and the highlight stays on the same variant |
| VariantEditor.Editor.Total | frontend/src/components/admin/products/variant-manager.tsx:87 | with non-negative stocks the total is not negative and bounds each variant's stock |
| VariantEditor.TotalStockAppend | frontend/src/components/admin/products/variant-manager.tsx:87 | appending a variant adds its stock |
| VariantEditor.TotalStockConcat | frontend/src/components/admin/products/variant-manager.tsx:87 | the total of two lists is the sum of their totals |
| VariantEditor.TotalStockWithout | frontend/src/components/admin/products/variant-manager.tsx:53 | cutting out a variant removes its stock from the total |
| VariantEditor.TotalStockReplace | frontend/src/components/admin/products/variant-manager.tsx:62 | replacing a variant trades its stock for the new one's |
| VariantEditor.TotalStockSwap | frontend/src/components/admin/products/variant-manager.tsx:72 | a swap keeps the total stock |
| VariantEditor.TotalStockUpdate | frontend/src/components/admin/products/variant-manager.tsx:60-64 | editing any field but the stock keeps the total; editing the stock shifts it by the difference |
| VariantEditor.TotalStockBounds | frontend/src/components/admin/products/variant-manager.tsx:87 | with non-negative stocks the total is not negative and bounds each stock |
| VariantEditor.AddsGiveDistinctSkus | frontend/src/components/admin/products/variant-manager.tsx:47 | variants added one after another from an empty list get distinct SKUs |
| VariantEditor.AddAfterRemoveRepeatsSku | frontend/src/components/admin/products/variant-manager.tsx:47-53 | removing a variant other than the last and adding one repeats the last variant's SKU |
| VariantEditor.RemovalShiftsHighlight | frontend/src/components/admin/products/variant-manager.tsx:52-58 | removing a variant before the highlighted one leaves the highlight on the next variant, or past the end |
| VariantEditor.FinalPriceMatchesBackend | frontend/src/components/admin/products/variant-manager.tsx:82-84 | the form's final price agrees with the backend's for the saved variant |
| VariantEditor.Editor.constructor | frontend/src/components/admin/products/variant-manager.tsx:40-42 | the editor starts with the given variants and no highlighted row |
| ProductForm.KeepSlugChars | frontend/src/components/admin/products/product-form.tsx:63 | keeps only lower-case letters, digits, hyphens and white space, and keeps a text made of those unchanged |
| ProductForm.SkipSpaces | frontend/src/components/admin/products/product-form.tsx:64 | drops the leading white space: a suffix that is empty or starts with a non-space |
| ProductForm.CollapseSpaces | frontend/src/components/admin/products/product-form.tsx:65 | white space is replaced by hyphens, and a text without white space is unchanged |
| ProductForm.GenerateSlug | frontend/src/components/admin/products/product-form.tsx:58-66 | a slug holds only lower-case letters, digits and hyphens |
| ProductForm.SlugFixedPoint | frontend/src/components/admin/products/product-form.tsx:58-66 | a text that is already a slug is its own slug |
| ProductForm.SlugTextTrimmed | frontend/src/components/admin/products/product-form.tsx:64 | a slug has no white space, so trimming keeps it |
| ProductForm.SlugCharNotSpace | frontend/src/components/admin/products/product-form.tsx:63-64 | no slug character is white space |
| ProductForm.SlugIdempotent | frontend/src/components/admin/products/product-form.tsx:58-66 | making a slug of a slug gives it back |
| ProductForm.SlugBlankOnlyWhenEmpty | frontend/src/components/admin/products/product-form.tsx:123-125 | a generated slug is blank only when it is empty |
| ProductForm.Skus | frontend/src/components/admin/products/product-form.tsx:136 | the variants' SKUs, in order |
| ProductForm.IndexOfElem | frontend/src/components/admin/products/product-form.tsx:137 | the first position of the text; -1 exactly when it is absent |
| ProductForm.RepeatedIffEarlier | frontend/src/components/admin/products/product-form.tsx:137 | a SKU is kept by the filter exactly when it occurred earlier |
| ProductForm.RepeatsUpToCount | frontend/src/components/admin/products/product-form.tsx:137 | in a prefix, each SKU is listed as a repeat one time fewer than it occurs |
| ProductForm.RepeatsUpToCountOf | frontend/src/components/admin/products/product-form.tsx:137 | the count of one SKU among the repeats of a prefix is its count minus one |
| ProductForm.RepeatsStep | frontend/src/components/admin/products/product-form.tsx:137 | one more SKU adds itself to the repeats exactly when it occurred before |
| ProductForm.RepeatsCount | frontend/src/components/admin/products/product-form.tsx:137 | each SKU is listed as a repeat one time fewer than it occurs |
| ProductForm.RepeatsEmptyIffDistinct | frontend/src/components/admin/products/product-form.tsx:137-140 | no repeats exactly when all SKUs are distinct |
| ProductForm.FirstBlankSku | frontend/src/components/admin/products/product-form.tsx:143 | the first variant whose SKU is blank; None exactly when none is blank |
| ProductForm.RecordFieldErrors | frontend/src/components/admin/products/product-form.tsx:117-133 | an error for each of name, slug, base price and category exactly when its check fails |
| ProductForm.ValidateForm | frontend/src/components/admin/products/product-form.tsx:116-150 | the errors are exactly those ErrorFor names, and the form is valid exactly when there are none |
| ProductForm.RecordVariantErrors | frontend/src/components/admin/products/product-form.tsx:135-146 | adds a variants error exactly when VariantsError names one, the blank-SKU message taking over from the duplicate one, and keeps the others |
| ProductForm.NoErrorIffChecksPass | frontend/src/components/admin/products/product-form.tsx:116-150 | no error exactly when name and slug are not blank, the base price is positive, a category is chosen, SKUs are distinct and none is blank |
| ProductForm.VariantErrorIffChecksPass | frontend/src/components/admin/products/product-form.tsx:135-146 | no variants error exactly when the SKUs are distinct and none is blank |
| ProductForm.DefaultProductRefused | frontend/src/components/admin/products/product-form.tsx:46-55 | the empty form fails every field check, and only its variants pass |
| ProductForm.AddedSkusPassValidation | frontend/src/components/admin/products/product-form.tsx:135-146 | variants added one after another pass both SKU checks |
| ProductForm.AutoSkuNotBlank | frontend/src/components/admin/products/product-form.tsx:143 | an automatic SKU is never blank |
| ProductForm.RemoveThenAddFailsValidation | frontend/src/components/admin/products/product-form.tsx:136-140 | removing a variant other than the last and adding one gives a duplicate SKU, so the form is refused |
| ProductForm.NameChanged | frontend/src/components/admin/products/product-form.tsx:172-177 | the name is replaced; the slug is kept when editing and generated from the name when creating; nothing else changes |
| ProductForm.NameErrorCleared | frontend/src/components/admin/products/product-form.tsx:178-180 | a name error is blanked and the others are kept |
| ProductForm.EditingKeepsSlug | frontend/src/components/admin/products/product-form.tsx:176 | while editing, typing never changes the slug |
| ProductForm.CreatingSlugFollowsName | frontend/src/components/admin/products/product-form.tsx:176 | while creating, the slug is always the last name's slug |
| LocalCart.AddAmount | frontend/src/lib/hooks/use-cart.ts:31-38 | a missing or zero quantity counts as one, any other is kept |
| LocalCart.LineOf | frontend/src/lib/hooks/use-cart.ts:38 | the new line has the item's product, variant and price, with the added amount |
| LocalCart.FindLine | frontend/src/lib/hooks/use-cart.ts:25-27 | the first line for the product and variant; None exactly when there is none |
| LocalCart.CartStore.constructor | frontend/src/lib/hooks/use-cart.ts:21 | the cart starts empty |
| LocalCart.CartStore.AddToCart | frontend/src/lib/hooks/use-cart.ts:23-41 | the lines become Added's |
| LocalCart.CartStore.RemoveFromCart | frontend/src/lib/hooks/use-cart.ts:43-50 | the lines become Removed's |
| LocalCart.CartStore.UpdateQuantity | frontend/src/lib/hooks/use-cart.ts:52-65 | a quantity of zero or less removes the line; otherwise the line takes the quantity |
| LocalCart.CartStore.ClearCart | frontend/src/lib/hooks/use-cart.ts:67-70 | no lines, so the count and total are zero |
| LocalCart.CartStore.GetCartCount | frontend/src/lib/hooks/use-cart.ts:72-74 | zero for an empty cart; with no negative quantity, at least every line's quantity |
| LocalCart.CartStore.GetCartTotal | frontend/src/lib/hooks/use-cart.ts:76-78 | zero for an empty cart; never negative when no price or quantity is |
| LocalCart.CountSplit | frontend/src/lib/hooks/use-cart.ts:72-78 | count and total add up over a concatenation |
| LocalCart.CountAround | frontend/src/lib/hooks/use-cart.ts:72-78 | a line adds its quantity to the count and its price times quantity to the total |
| LocalCart.CountAfterLineChange | frontend/src/lib/hooks/use-cart.ts:58-78 | changing a line's quantity shifts the count by the difference and the total by the price times it |
| LocalCart.AddMerges | frontend/src/lib/hooks/use-cart.ts:29-34 | adding a product already in the cart raises that line only, keeping its price; the count and total grow by the added amount |
| LocalCart.AddAppends | frontend/src/lib/hooks/use-cart.ts:36-39 | adding a new product appends one line; the count and total grow by the added amount |
| LocalCart.AddKeepsKeysUnique | frontend/src/lib/hooks/use-cart.ts:23-41 | adding keeps one line per product and variant |
| LocalCart.RemovedMembers | frontend/src/lib/hooks/use-cart.ts:45-47 | the remaining lines are exactly those for another product or variant |
| LocalCart.RemoveAbsent | frontend/src/lib/hooks/use-cart.ts:45-47 | removing a product that is not in the cart changes nothing |
| LocalCart.RemovedIsCut | frontend/src/lib/hooks/use-cart.ts:45-47 | removing the only line for the product cuts it out |
| LocalCart.RemoveCutsLine | frontend/src/lib/hooks/use-cart.ts:43-50 | removing a line lowers the count by its quantity and the total by its price times quantity |
| LocalCart.QuantitySetEffect | frontend/src/lib/hooks/use-cart.ts:58-64 | setting the quantity changes only that line, and the count by the difference |
| LocalCart.CountBoundsLines | frontend/src/lib/hooks/use-cart.ts:72-74 | with non-negative quantities, each line's quantity is at most the count |
| StatusDialog.AvailableStatuses | frontend/src/components/admin/orders/status-update-dialog.tsx:76-92 | exactly the allowed next statuses, once each, the table row first in its own order and CANCELLED after it unless the row has it; none for a finished order; cancelling is always offered otherwise; never the current status |
| StatusDialog.TableRowsDistinct | frontend/src/components/admin/orders/status-update-dialog.tsx:44-52 | no row of the dialog's transition table names a status twice or the status itself |
| StatusDialog.OffersVersusBackend | frontend/src/components/admin/orders/status-update-dialog.tsx:44-52 | every move the backend accepts is offered; the offered moves the backend refuses are exactly the listed mismatches |
| StatusDialog.HandleSave | frontend/src/components/admin/orders/status-update-dialog.tsx:94-98 | confirms exactly the selected status, and nothing when none is selected |
| StatusDialog.SavedChoiceReachesBackend | frontend/src/components/admin/orders/status-update-dialog.tsx:94-98 | a saved choice is sent as chosen, differs from the current status, and is accepted by the backend exactly when it is not a mismatch |
| RouteGuard.Guard | frontend/src/middleware.ts:10-41 | to the sign-in page (remembering the path) exactly for a protected path without a token; home exactly for a sign-in path with a token; otherwise passed on |
| RouteGuard.ProtectedAndAuthDisjoint | frontend/src/middleware.ts:5-21 | no path is both protected and a sign-in route |
| RouteGuard.SegmentMatching | frontend/src/middleware.ts:14-16 | matching is by whole path segment: "/cartx" is not protected, "/cart/x" is |
| RouteGuard.MatcherCoversProtected | frontend/src/middleware.ts:43-54 | every protected path goes through the middleware |
| RouteGuard.AuthSubpathsUnguarded | frontend/src/middleware.ts:19-21 | a path below a sign-in page counts as a sign-in route but never reaches the middleware |
| RouteGuard.NoRedirectLoop | frontend/src/middleware.ts:28-38 | the sign-in page and the home page are passed on for the customer who was sent there |
| ShopQuery.MapSortByAsWritten | frontend/src/hooks/useShopProducts.ts:11-22 | "best_selling" asks for "salesCount"; any other choice is mapped as MapSortBy maps it |
| ShopQuery.BestSellingUnknownProperty | frontend/src/hooks/useShopProducts.ts:16-17 | the property asked for best sellers is not a property of a product |
| ShopQuery.MapSortBy | frontend/src/hooks/useShopProducts.ts:11-22 | always a product property: the base price exactly for the price choices, units sold exactly for best sellers |
| ShopQuery.MapSortDir | frontend/src/hooks/useShopProducts.ts:24-29 | "asc" exactly for choices ending in "_asc", otherwise "desc" |
| ShopQuery.BackendParams | frontend/src/hooks/useShopProducts.ts:47-70 | the 0-based page and the size (default 12) always; sort fields exactly when a sort is given, the property as mapSortBy writes it ("salesCount" for best sellers); each filter exactly when given, the category and search only when truthy |
| ShopQuery.ShopSortChoices | frontend/src/hooks/useShopProducts.ts:11-29 | every sort choice the shop offers maps to a product property, and only "price_asc" sorts ascending |
| Store.FindUser | backend/src/main/java/com/fashon/application/service/CartService.java:134-137 | the user with the e-mail, or "User not found" exactly when there is none |
| Text.ToLower | backend/src/main/java/com/fashon/infrastructure/converter/OrderStatusConverter.java:15 | ASCII `toLowerCase`: the same length, each character lowered (upper-case letters to lower case, every other character unchanged), so no upper-case letter is left |
| Text.ToUpper | backend/src/main/java/com/fashon/infrastructure/converter/OrderStatusConverter.java:24 | ASCII `toUpperCase`: the same length, each character raised (lower-case letters to upper case, every other character unchanged), so no lower-case letter is left |
| Text.UpperOfLower | backend/src/main/java/com/fashon/infrastructure/converter/OrderStatusConverter.java:15-24 | upper-casing a lower-cased text without lower-case letters gives it back |
| Text.IndexOf | backend/src/main/java/com/fashon/interfaces/rest/GlobalExceptionHandler.java:84-87 | `indexOf` from a position: the first occurrence at or after it, or -1 exactly when there is none |
| Text.IndexOfFirst | backend/src/main/java/com/fashon/interfaces/rest/GlobalExceptionHandler.java:84-87 | the first occurrence after the position is the one `indexOf` finds |
| Text.IntToString | frontend/src/components/admin/products/variant-manager.tsx:47 | a number's decimal rendering: for a non-negative number digits only, reading back as the number, with a leading 0 only for 0 itself; for a negative one a minus sign, then the digits of its magnitude with no leading 0 |
| Text.DigitsRoundTrip | frontend/src/components/admin/products/variant-manager.tsx:47 | reading back a number's digits gives the number |
| Text.PadZeros | frontend/src/components/admin/products/variant-manager.tsx:47 | `padStart` with zeros: at least the width long, the text at the end, zeros before it |
| Text.PadZerosValue | frontend/src/components/admin/products/variant-manager.tsx:47 | padding with zeros keeps the value of the digits |
| Text.ReplaceFirst | frontend/src/components/admin/products/image-upload.tsx:121 | `replace` with a text pattern: the first occurrence is replaced, and a text without one is unchanged |
| Text.JsTrim | frontend/src/components/admin/products/product-form.tsx:119 | JavaScript `trim`: the slice of the text that starts after its leading white space and leaves only white space after it, with no white space at either end of the result |
| Text.JsBlankAllSpace | frontend/src/components/admin/products/product-form.tsx:119-124 | a text trims to empty exactly when every character is white space |
| Seqs.RemoveFirst | backend/src/main/java/com/fashon/domain/entity/Cart.java:37-40 | `List.remove`: one element fewer when the element is present, unchanged otherwise |
| Seqs.RemoveFirstMultiset | backend/src/main/java/com/fashon/domain/entity/Cart.java:37-40 | removal takes exactly one copy of the element out of the multiset |
| Seqs.RemoveFirstAt | backend/src/main/java/com/fashon/domain/entity/Cart.java:37-40 | removing the element whose first copy is at a position cuts out that position |
| Seqs.SortSortsAndPermutes | frontend/src/utils/tree-utils.ts:37-42 | `sort` by a key: the result is sorted, a permutation of the input, and stable: for every key, the elements with that key keep their input order |
| Seqs.SortedFirstMatch | frontend/src/utils/tree-utils.ts:37-42 | after the sort, the first element with a property is the one with the least key among those with it, the earliest in the input among equal keys |
| Seqs.NoDuplicatesPositions | frontend/src/components/admin/orders/status-update-dialog.tsx:92 | no element occurs twice exactly when no two positions hold the same element |
| Seqs.Distinct | frontend/src/components/admin/orders/status-update-dialog.tsx:92 | `Array.from(new Set(...))`: the same elements, each once; their first-occurrence order is DistinctFirstSeenOrder's |
| Seqs.DistinctFirstSeenOrder | frontend/src/components/admin/orders/status-update-dialog.tsx:92 | the de-duplicated list lists the elements in the order of their first occurrences in the input |
| Seqs.DistinctAppend | frontend/src/components/admin/orders/status-update-dialog.tsx:87-92 | pushing one element onto a list without repeats and de-duplicating keeps the list and adds the element at the end unless it was already there |
| Seqs.DistinctKeepsDistinct | frontend/src/components/admin/orders/status-update-dialog.tsx:92 | a list without repeats is kept as it is |
| Seqs.Swap | frontend/src/components/admin/products/image-upload.tsx:112 | the two positions trade elements and every other position keeps its own |
| Seqs.SwapFacts | frontend/src/components/admin/products/variant-manager.tsx:72 | swapping twice gives the list back, the order of the positions does not matter, and the elements are kept |
| Text.RemoveChar | backend/src/main/java/com/fashon/application/service/ProductService.java:66 | `replace("-", "")`: no copy of the character is left, only characters of the text remain, and a text without the character is unchanged; the counts are RemoveCharCounts' and the order RemoveCharSplits' |
| Text.RemoveCharCounts | backend/src/main/java/com/fashon/application/service/ProductService.java:66 | every copy of the character is dropped and every copy of every other character is kept |
| Text.RemoveCharSplits | backend/src/main/java/com/fashon/application/service/ProductService.java:66 | removal from a concatenation is removal from each part in turn, so the characters that stay keep their order |

## Left out

- The Spring repositories, JPQL queries, fetch joins and pagination: storage is the maps and sequences of `Store.Db`, and a soft-deleted row is one whose `deleted` flag is set.
- Transaction isolation, row locking and concurrent checkouts: each service method runs as one step on its own.
- The clock and UUID source of `generateOrderCode` and `generateTransactionCode`: the timestamp and the random part are parameters.
- `BigDecimal` arithmetic and JavaScript floating-point numbers: money and quantities are `int`, and `NaN` is not modelled.
- `createdAt`, `updatedAt` and `deletedAt` timestamps: a `deleted` flag stands for `deletedAt`, and BaseEntity.java is not part of this model.
- ProductService and CategoryService do not load `Catalog.Product` or `Categories.Category` objects: they write variant, image and category rows directly, so the in-memory collections of a loaded product or category, and their back-links, are not kept in step with what these services store.
- Object identity and aliasing: entities refer to each other by id. The frontend's copies that share elements (`[...images]` followed by in-place writes) are values.
- The read-only listings that only filter and page stored rows: `getOrderByCode`, `getMyOrders`, `getAllOrders`, `getOrdersByStatus`, `getPaymentsByOrderCode`, `getPaymentsByOrderCodeForAdmin`, `getLatestPayment`, `isOrderPaid`, the product and category getters, and `getUserWishlist` beyond its set of product ids (`WishlistService.ProductsOf`).
- The REST controllers, the framework-driven validation handlers of `GlobalExceptionHandler`, authentication, the user services and the DTO builders: DTOs are plain datatypes.
- The HTTP upload behind `handleUpload`: the uploaded URL (or its failure) is a parameter.
- Toasts, rendering, dialogs, React state hooks and tab switching (`handleSubmit`'s choice of tab, `updateFormData`): a component's state is a value or a class field, and a toast becomes the returned message.
- Zustand persistence and react-query caching: `LocalCart.CartStore` holds only the items.
- ToUpper: raises the ASCII letters a to z only. Java's `toUpperCase` under the default locale also maps other letters, some to two characters ("ß" to "SS") and some onto ASCII (the dotless "ı" to "I"). So `ProductService.DefaultSku` (and its length bound), `Converters.DecodeOrderStatus` and `Converters.DecodeRole` agree with the code only on text whose letters are ASCII. A slug "straße" or a stored status "shıpped" is handled differently.
- generateSlug's Unicode NFD step and the removal of combining marks: `ToLower` lowers ASCII letters only, so a name with accented letters loses them instead of keeping their base letter.
- `compareFn` in `buildCategoryTree` is a key function here (`CategoryDto -> int`), and `Array.sort` is an insertion sort by that key. Its stability, which `Array.sort` guarantees, is proved (`Seqs.SortSortsAndPermutes`).
- DeleteCategory: on a category whose parent links loop back to it, `softDeleteRecursive` recurses without end and the request fails, while the model soft-deletes the whole cycle and returns Ok (see Findings and `CategoryService.SoftDeleteRecursionDiverges`).
- CollectSubtree: it collects the subtree as a set and finishes on every input, so it does not capture the unbounded recursion on a parent cycle.
- The order in which `@OrderBy("sortOrder ASC")` returns images with equal sortOrder is taken to be their stored order (`ProductViews.LoadedImages`).
- The `:path*` patterns of the middleware's matcher are read as "the route or anything below it".
- An absent `params` object in `useShopProducts` is the record whose fields are all None.
- The public product controller's filtering (a category together with a price range filters by the category only, and a search ignores the other filters): the controller is not part of this model.
- The timing of a batch's uploads: they are taken to finish in the order they were started.
- ReviewService.GetProductReviews: the reviews come back as a set, not newest first, because creation times are not modelled. The average rating is what the database's average query returns, passed in as a parameter.

## Findings

| source | as written | input that shows it | evidently intended | confidence | as-written member | corrected member |
|---|---|---|---|---|---|---|
| backend/src/main/java/com/fashon/application/service/ReviewService.java:104-115 | the lookup for an existing review skips soft-deleted ones, so after a review is deleted a new review of the same product inserts a second row and collides with the unique (user, product) constraint | a customer reviews a product, deletes the review, and reviews it again | the soft-deleted row is brought back and overwritten | not executed | ReviewService.ReReviewAfterDeleteConflicts | ReviewService.RevivingWriteSucceeds |
| frontend/src/hooks/useShopProducts.ts:16-17 | "best_selling" is sent as `sortBy=salesCount`, a property a product does not have, so the request fails | the shop's "best selling" sort choice | sort by the product's `soldCount` | not executed | ShopQuery.BestSellingUnknownProperty | ShopQuery.MapSortBy |
| frontend/src/components/admin/products/image-upload.tsx:38-85 | every upload of a batch appends to the image list captured when the batch started, so each `onChange` overwrites the previous one and only the last image is kept | two valid files dropped or picked together | every uploaded image is kept | not executed | ImageEditor.BatchKeepsOnlyLast | ImageEditor.BatchCorrectedKeepsAll |
| backend/src/main/java/com/fashon/application/service/CategoryService.java:96-103 | `softDeleteRecursive` follows children without remembering what it visited, and `updateCategory` refuses only a category made its own parent, so once two categories are each other's parent, deleting either recurses until the stack overflows | set category 1's parent to 2 and then category 2's parent to 1 (`CategoryService.TwoCycleAccepted`), then delete category 1 | the whole cycle is soft-deleted once, or the cycle is refused when the parent is set | not executed | CategoryService.SoftDeleteRecursionDiverges | CategoryService.DeleteCategory |

=== FILE: cart_service.dfy ===
/** `CartService`: the signed-in user's cart. Lines are merged per variant, stock is checked on add
  * and on update, and an item must belong to the caller's cart. */
module CartService {
  import opened Wrappers
  import opened Seqs
  import opened Catalog
  import opened Carts
  import opened Store
  import Inventory
  import OrderService

  // ---------------------------------------------------------------- lookups

  /** `findByCartIdAndVariantId`: the position of the cart's (first) line for a variant. */
  function LineFor(items: seq<CartItem>, variantId: int): (r: Option<nat>)
    ensures r.Some? ==> r.value < |items| && items[r.value].variantId == variantId
    ensures r.Some? ==> forall j :: 0 <= j < r.value ==> items[j].variantId != variantId
    ensures r.None? <==> forall i :: 0 <= i < |items| ==> items[i].variantId != variantId
  {
    if items == [] then None
    else if items[0].variantId == variantId then Some(0)
    else
      var rest := LineFor(items[1..], variantId);
      if rest.None? then None else Some(rest.value + 1)
  }

  /** `findById` within one cart: the position of the (first) item with this id. */
  function ItemAt(items: seq<CartItem>, itemId: int): (r: Option<nat>)
    ensures r.Some? ==> r.value < |items| && items[r.value].id == itemId
    ensures r.Some? ==> forall j :: 0 <= j < r.value ==> items[j].id != itemId
    ensures r.None? <==> forall i :: 0 <= i < |items| ==> items[i].id != itemId
  {
    if items == [] then None
    else if items[0].id == itemId then Some(0)
    else
      var rest := ItemAt(items[1..], itemId);
      if rest.None? then None else Some(rest.value + 1)
  }

  /** Some cart holds an item with this id. */
  predicate HeldByAnyCart(carts: map<int, CartRow>, itemId: int)
  {
    exists u :: u in carts && ItemAt(carts[u].items, itemId).Some?
  }

  /** The user's stored cart, or the empty cart `createNewCart` would store. */
  function CartRowFor(carts: map<int, CartRow>, userId: int, freshCartId: int): (row: CartRow)
    ensures userId !in carts ==> row.items == [] && row.userId == userId
  {
    if userId in carts then carts[userId] else CartRow(freshCartId, userId, [])
  }

  /** The quantity already in the cart for a variant (0 without a line). */
  function ExistingQuantity(items: seq<CartItem>, variantId: int): int
  {
    var k := LineFor(items, variantId);
    if k.Some? then items[k.value].quantity else 0
  }

  // ---------------------------------------------------------------- the cart view and its totals

  datatype CartLineView = CartLineView(id: int, variantId: int, productName: string, sku: string,
                                       quantity: int, unitPrice: int, subtotal: int)

  datatype CartView = CartView(id: int, userId: int, items: seq<CartLineView>, totalItems: int, totalAmount: int)

  /** `mapToCartItemDTO` (without the image): base price plus adjustment for a variant with a
    * product, 0 and the name "Unknown" without one. */
  function LineView(item: CartItem, variants: map<int, Variant>, products: map<int, ProductRow>): (v: CartLineView)
    requires item.variantId in variants
    ensures v.id == item.id && v.variantId == item.variantId && v.quantity == item.quantity
    ensures v.subtotal == v.unitPrice * item.quantity
  {
    var variant := variants[item.variantId];
    var known := variant.productId.Some? && variant.productId.value in products;
    var unit := if known then products[variant.productId.value].basePrice + variant.priceAdjustment.GetOr(0) else 0;
    CartLineView(item.id, item.variantId, if known then products[variant.productId.value].name else "Unknown",
                 variant.sku, item.quantity, unit, unit * item.quantity)
  }

  function LineViews(items: seq<CartItem>, variants: map<int, Variant>, products: map<int, ProductRow>): (r: seq<CartLineView>)
    requires OrderService.LinesKnown(items, variants)
    ensures |r| == |items|
    ensures forall k {:trigger r[k]} :: 0 <= k < |items| ==> r[k] == LineView(items[k], variants, products)
  {
    if items == [] then []
    else LineViews(items[..|items| - 1], variants, products) + [LineView(items[|items| - 1], variants, products)]
  }

  function SumLineSubtotals(lines: seq<CartLineView>): int
  {
    if lines == [] then 0 else SumLineSubtotals(lines[..|lines| - 1]) + lines[|lines| - 1].subtotal
  }

  function SumLineQuantities(lines: seq<CartLineView>): int
  {
    if lines == [] then 0 else SumLineQuantities(lines[..|lines| - 1]) + lines[|lines| - 1].quantity
  }

  /** `mapToCartDTO`: the lines in cart order with their item count and amount. */
  function CartDto(cart: CartRow, variants: map<int, Variant>, products: map<int, ProductRow>): (r: CartView)
    requires OrderService.LinesKnown(cart.items, variants)
    ensures r.id == cart.id && r.userId == cart.userId && |r.items| == |cart.items|
    ensures VariantsPriced(variants, products) ==>
              r.totalAmount == OrderService.LinesTotal(cart.items, variants, products) && r.totalItems == LinesQuantity(cart.items)
  {
    var lines := LineViews(cart.items, variants, products);
    var view := CartView(cart.id, cart.userId, lines, SumLineQuantities(lines), SumLineSubtotals(lines));
    if VariantsPriced(variants, products) then
      CartTotalsMatchCheckout(cart.items, variants, products);
      view
    else view
  }

  /** The cart shows the amount checkout charges and the quantity it orders: Σ (base price +
    * adjustment) × quantity and Σ quantity over the cart's lines. */
  lemma CartTotalsMatchCheckout(items: seq<CartItem>, variants: map<int, Variant>, products: map<int, ProductRow>)
    requires OrderService.LinesKnown(items, variants) && VariantsPriced(variants, products)
    ensures SumLineSubtotals(LineViews(items, variants, products)) == OrderService.LinesTotal(items, variants, products)
    ensures SumLineQuantities(LineViews(items, variants, products)) == LinesQuantity(items)
  {
    CartAmountMatchesCheckout(items, variants, products);
    CartCountMatchesCheckout(items, variants, products);
  }

  /** The cart's amount is the sum checkout charges. */
  lemma {:induction false} CartAmountMatchesCheckout(items: seq<CartItem>, variants: map<int, Variant>, products: map<int, ProductRow>)
    requires OrderService.LinesKnown(items, variants) && VariantsPriced(variants, products)
    ensures SumLineSubtotals(LineViews(items, variants, products)) == OrderService.LinesTotal(items, variants, products)
  {
    if items != [] {
      var n := |items| - 1;
      var front := LineViews(items[..n], variants, products);
      CartAmountMatchesCheckout(items[..n], variants, products);
      assert LineViews(items, variants, products) == front + [LineView(items[n], variants, products)];
    }
  }

  /** The cart's item count is the quantity checkout orders. */
  lemma {:induction false} CartCountMatchesCheckout(items: seq<CartItem>, variants: map<int, Variant>, products: map<int, ProductRow>)
    requires OrderService.LinesKnown(items, variants)
    ensures SumLineQuantities(LineViews(items, variants, products)) == LinesQuantity(items)
  {
    if items != [] {
      var n := |items| - 1;
      var front := LineViews(items[..n], variants, products);
      CartCountMatchesCheckout(items[..n], variants, products);
      assert LineViews(items, variants, products) == front + [LineView(items[n], variants, products)];
    }
  }

  /** An empty cart shows no lines and zero totals. */
  lemma EmptyCartView(cart: CartRow, variants: map<int, Variant>, products: map<int, ProductRow>)
    requires cart.items == []
    ensures CartDto(cart, variants, products) == CartView(cart.id, cart.userId, [], 0, 0)
  {
  }

  // ---------------------------------------------------------------- line-list changes

  /** The cart's lines after adding `quantity` of a variant: the variant's line grows, or a new line
    * (pointing at the cart) is appended. */
  function Merged(items: seq<CartItem>, cartId: int, variantId: int, quantity: int, itemId: int): seq<CartItem>
  {
    var k := LineFor(items, variantId);
    if k.Some? then items[k.value := items[k.value].(quantity := items[k.value].quantity + quantity)]
    else items + [CartItem(itemId, Some(cartId), variantId, quantity)]
  }

  /** The cart's lines after setting one line's quantity. */
  function WithQuantity(items: seq<CartItem>, k: nat, quantity: int): seq<CartItem>
    requires k < |items|
  {
    items[k := items[k].(quantity := quantity)]
  }

  /** The cart's lines without the one at position `k`. */
  function Without(items: seq<CartItem>, k: nat): seq<CartItem>
    requires k < |items|
  {
    items[..k] + items[k + 1..]
  }

  lemma {:induction false} LinesQuantityAppend(items: seq<CartItem>, x: CartItem)
    ensures LinesQuantity(items + [x]) == LinesQuantity(items) + x.quantity
  {
    assert (items + [x])[..|items|] == items;
  }

  lemma {:induction false} LinesQuantityWithQuantity(items: seq<CartItem>, k: nat, quantity: int)
    requires k < |items|
    ensures LinesQuantity(WithQuantity(items, k, quantity)) == LinesQuantity(items) - items[k].quantity + quantity
  {
    var n := |items| - 1;
    var updated := WithQuantity(items, k, quantity);
    if k < n {
      assert updated[..n] == WithQuantity(items[..n], k, quantity);
      LinesQuantityWithQuantity(items[..n], k, quantity);
    } else {
      assert updated[..n] == items[..n];
    }
  }

  lemma {:induction false} LinesQuantityWithout(items: seq<CartItem>, k: nat)
    requires k < |items|
    ensures LinesQuantity(Without(items, k)) == LinesQuantity(items) - items[k].quantity
  {
    var n := |items| - 1;
    if k == n {
      assert Without(items, k) == items[..n];
    } else {
      assert Without(items, k) == Without(items[..n], k) + [items[n]];
      LinesQuantityWithout(items[..n], k);
      LinesQuantityAppend(Without(items[..n], k), items[n]);
    }
  }

  /** Adding never creates a second line for a variant: the merged list keeps the cart invariant
    * and its one line for the variant holds the old quantity plus the added one. */
  lemma MergeKeepsOneLinePerVariant(items: seq<CartItem>, variants: map<int, Variant>, cartId: int,
                                    variantId: int, quantity: int, itemId: int)
    requires CartLinesWellFormed(items, variants) && variantId in variants
    ensures CartLinesWellFormed(Merged(items, cartId, variantId, quantity, itemId), variants)
    ensures ExistingQuantity(Merged(items, cartId, variantId, quantity, itemId), variantId)
            == ExistingQuantity(items, variantId) + quantity
  {
    var k := LineFor(items, variantId);
    var m := Merged(items, cartId, variantId, quantity, itemId);
    if k.Some? {
      WithQuantityKeepsWellFormed(items, variants, k.value, items[k.value].quantity + quantity);
      OnlyLineFor(m, variants, variantId, k.value);
    } else {
      assert m == items + [CartItem(itemId, Some(cartId), variantId, quantity)];
      OnlyLineFor(m, variants, variantId, |items|);
    }
  }

  /** Adding grows the item count by exactly the added quantity, appends at most one line and
    * leaves the lines of other variants untouched. */
  lemma MergeCounts(items: seq<CartItem>, cartId: int, variantId: int, quantity: int, itemId: int)
    ensures LinesQuantity(Merged(items, cartId, variantId, quantity, itemId)) == LinesQuantity(items) + quantity
    ensures |Merged(items, cartId, variantId, quantity, itemId)| == |items| + (if LineFor(items, variantId).Some? then 0 else 1)
    ensures forall i :: 0 <= i < |items| && items[i].variantId != variantId ==>
              Merged(items, cartId, variantId, quantity, itemId)[i] == items[i]
  {
    var k := LineFor(items, variantId);
    if k.Some? {
      LinesQuantityWithQuantity(items, k.value, items[k.value].quantity + quantity);
    } else {
      LinesQuantityAppend(items, CartItem(itemId, Some(cartId), variantId, quantity));
    }
  }

  /** With one line per variant, a line naming the variant is the line `LineFor` finds. */
  lemma OnlyLineFor(items: seq<CartItem>, variants: map<int, Variant>, variantId: int, k: nat)
    requires CartLinesWellFormed(items, variants) && k < |items| && items[k].variantId == variantId
    ensures LineFor(items, variantId) == Some(k)
  {
  }

  lemma WithQuantityKeepsWellFormed(items: seq<CartItem>, variants: map<int, Variant>, k: nat, quantity: int)
    requires CartLinesWellFormed(items, variants) && k < |items|
    ensures CartLinesWellFormed(WithQuantity(items, k, quantity), variants)
    ensures forall i :: 0 <= i < |items| && i != k ==> WithQuantity(items, k, quantity)[i] == items[i]
    ensures LinesQuantity(WithQuantity(items, k, quantity)) == LinesQuantity(items) - items[k].quantity + quantity
  {
    var w := WithQuantity(items, k, quantity);
    assert forall i :: 0 <= i < |w| ==> w[i].variantId == items[i].variantId;
    LinesQuantityWithQuantity(items, k, quantity);
  }

  lemma WithoutKeepsWellFormed(items: seq<CartItem>, variants: map<int, Variant>, k: nat)
    requires CartLinesWellFormed(items, variants) && k < |items|
    ensures CartLinesWellFormed(Without(items, k), variants)
    ensures LinesQuantity(Without(items, k)) == LinesQuantity(items) - items[k].quantity
  {
    var w := Without(items, k);
    forall i | 0 <= i < |w|
      ensures w[i] == items[if i < k then i else i + 1]
    {
    }
    LinesQuantityWithout(items, k);
  }

  // ---------------------------------------------------------------- service operations

  /** `getCart`: the user's cart, created empty on first access. */
  method GetCart(db: Db, email: string, freshCartId: int) returns (r: Outcome<CartView>)
    requires CartsWellFormed(db.carts, db.variants)
    modifies db`carts
    ensures CartsWellFormed(db.carts, db.variants)
    ensures r.Ok? <==> email in db.users
    ensures r.Err? ==> r.error == Rejected("User not found") && db.carts == old(db.carts)
    ensures r.Ok? ==> var uid := db.users[email].id;
              (uid in old(db.carts) ==> db.carts == old(db.carts))
              && (uid !in old(db.carts) ==> db.carts == old(db.carts)[uid := CartRow(freshCartId, uid, [])])
              && r.value == CartDto(db.carts[uid], db.variants, db.products)
  {
    if email !in db.users {
      return Err(Rejected("User not found"));
    }
    var uid := db.users[email].id;
    if uid !in db.carts {
      var cart := new Cart(freshCartId, uid);
      db.carts := db.carts[uid := cart.Row()];
    }
    r := Ok(CartDto(db.carts[uid], db.variants, db.products));
  }

  /** The user's cart after `addToCart` merged a request into it (created empty first if missing). */
  function AddedRow(carts: map<int, CartRow>, uid: int, variantId: int, quantity: int, freshCartId: int, freshItemId: int): CartRow
  {
    var row := CartRowFor(carts, uid, freshCartId);
    row.(items := Merged(row.items, row.id, variantId, quantity, freshItemId))
  }

  /** Storing the merged cart keeps every cart well formed, and the variant's one line then holds
    * the quantity that was there plus the added one. */
  lemma AddedRowWellFormed(carts: map<int, CartRow>, variants: map<int, Variant>, uid: int, variantId: int,
                           quantity: int, freshCartId: int, freshItemId: int)
    requires CartsWellFormed(carts, variants) && variantId in variants
    ensures CartsWellFormed(carts[uid := AddedRow(carts, uid, variantId, quantity, freshCartId, freshItemId)], variants)
    ensures OrderService.LinesKnown(AddedRow(carts, uid, variantId, quantity, freshCartId, freshItemId).items, variants)
    ensures ExistingQuantity(AddedRow(carts, uid, variantId, quantity, freshCartId, freshItemId).items, variantId)
            == ExistingQuantity(CartRowFor(carts, uid, freshCartId).items, variantId) + quantity
  {
    var row := CartRowFor(carts, uid, freshCartId);
    MergeKeepsOneLinePerVariant(row.items, variants, row.id, variantId, quantity, freshItemId);
  }

  /** What `addToCart` answers and the carts it leaves: the user and a live variant must exist,
    * then the requested quantity and the merged quantity must fit the variant's stock. */
  function AddOutcome(carts: map<int, CartRow>, users: map<string, User>, variants: map<int, Variant>,
                      products: map<int, ProductRow>, email: string, variantId: int, quantity: int,
                      freshCartId: int, freshItemId: int): (out: (Outcome<CartView>, map<int, CartRow>))
    requires CartsWellFormed(carts, variants)
    ensures CartsWellFormed(out.1, variants)
    ensures out.0.Err? ==> out.1 == carts
  {
    if email !in users then (Err(Rejected("User not found")), carts)
    else if !LiveVariant(variants, variantId) then (Err(Rejected("Product variant not found")), carts)
    else
      var uid := users[email].id;
      var stock := variants[variantId].stock;
      if stock < quantity || stock < ExistingQuantity(CartRowFor(carts, uid, freshCartId).items, variantId) + quantity
      then (Err(Rejected(Inventory.InsufficientStock(stock))), carts)
      else
        var row := AddedRow(carts, uid, variantId, quantity, freshCartId, freshItemId);
        AddedRowWellFormed(carts, variants, uid, variantId, quantity, freshCartId, freshItemId);
        (Ok(CartDto(row, variants, products)), carts[uid := row])
  }

  /** An accepted add never takes a line past the variant's stock: the user and a live variant
    * exist, the variant's one line holds what was there plus the added quantity, the cart's item
    * count grows by exactly that much and no other user's cart changes. */
  lemma AddRespectsStock(carts: map<int, CartRow>, users: map<string, User>, variants: map<int, Variant>,
                         products: map<int, ProductRow>, email: string, variantId: int, quantity: int,
                         freshCartId: int, freshItemId: int)
    requires CartsWellFormed(carts, variants)
    requires AddOutcome(carts, users, variants, products, email, variantId, quantity, freshCartId, freshItemId).0.Ok?
    ensures email in users && LiveVariant(variants, variantId)
    ensures var uid := users[email].id;
            var before := CartRowFor(carts, uid, freshCartId);
            var after := AddOutcome(carts, users, variants, products, email, variantId, quantity, freshCartId, freshItemId).1;
            uid in after && after.Keys == carts.Keys + {uid}
            && (forall u | u in carts && u != uid :: after[u] == carts[u])
            && quantity <= variants[variantId].stock
            && ExistingQuantity(after[uid].items, variantId) == ExistingQuantity(before.items, variantId) + quantity
            && ExistingQuantity(after[uid].items, variantId) <= variants[variantId].stock
            && LinesQuantity(after[uid].items) == LinesQuantity(before.items) + quantity
  {
    var uid := users[email].id;
    var before := CartRowFor(carts, uid, freshCartId);
    var row := AddedRow(carts, uid, variantId, quantity, freshCartId, freshItemId);
    assert AddOutcome(carts, users, variants, products, email, variantId, quantity, freshCartId, freshItemId).1
           == carts[uid := row];
    AddedRowWellFormed(carts, variants, uid, variantId, quantity, freshCartId, freshItemId);
    MergeCounts(before.items, before.id, variantId, quantity, freshItemId);
  }

  /** An add is refused for an unknown user, then for a missing or deleted variant, then when the
    * requested quantity or the quantity already in the cart plus it exceeds the stock. */
  lemma AddRefusals(carts: map<int, CartRow>, users: map<string, User>, variants: map<int, Variant>,
                    products: map<int, ProductRow>, email: string, variantId: int, quantity: int,
                    freshCartId: int, freshItemId: int)
    requires CartsWellFormed(carts, variants)
    ensures var r := AddOutcome(carts, users, variants, products, email, variantId, quantity, freshCartId, freshItemId).0;
            (email !in users ==> r == Err(Rejected("User not found")))
            && (email in users && !LiveVariant(variants, variantId) ==> r == Err(Rejected("Product variant not found")))
            && (email in users && LiveVariant(variants, variantId) ==>
                  var stock := variants[variantId].stock;
                  var held := ExistingQuantity(CartRowFor(carts, users[email].id, freshCartId).items, variantId);
                  (r.Ok? <==> stock >= quantity && stock >= held + quantity)
                  && (r.Err? ==> r.error == Rejected(Inventory.InsufficientStock(stock))))
  {
  }

  /** `addToCart`: checks the requested quantity and then the merged quantity against stock, then
    * grows the variant's line or appends a new one; the user's cart is created if missing. */
  method AddToCart(db: Db, email: string, variantId: int, quantity: int, freshCartId: int, freshItemId: int)
    returns (r: Outcome<CartView>)
    requires CartsWellFormed(db.carts, db.variants)
    modifies db`carts
    ensures CartsWellFormed(db.carts, db.variants)
    ensures (r, db.carts) == AddOutcome(old(db.carts), db.users, db.variants, db.products, email, variantId, quantity,
                                        freshCartId, freshItemId)
  {
    if email !in db.users {
      return Err(Rejected("User not found"));
    }
    var uid := db.users[email].id;
    if !LiveVariant(db.variants, variantId) {
      return Err(Rejected("Product variant not found"));
    }
    var stock := db.variants[variantId].stock;
    if stock < quantity {
      return Err(Rejected(Inventory.InsufficientStock(stock)));
    }
    var cart := CartFor(db, uid, freshCartId);
    var k := LineFor(cart.items, variantId);
    if k.Some? && stock < cart.items[k.value].quantity + quantity {
      return Err(Rejected(Inventory.InsufficientStock(stock)));
    }
    AddedRowWellFormed(db.carts, db.variants, uid, variantId, quantity, freshCartId, freshItemId);
    MergeInto(cart, variantId, quantity, freshItemId);
    db.carts := db.carts[uid := cart.Row()];
    r := Ok(CartDto(cart.Row(), db.variants, db.products));
  }

  /** The user's cart entity: loaded, or new and empty (`createNewCart`). */
  method CartFor(db: Db, uid: int, freshCartId: int) returns (cart: Cart)
    ensures fresh(cart)
    ensures cart.Row() == CartRowFor(db.carts, uid, freshCartId)
  {
    if uid in db.carts {
      cart := new Cart.Load(db.carts[uid]);
    } else {
      cart := new Cart(freshCartId, uid);
    }
  }

  /** The merge step of `addToCart` on the cart entity: raise the variant's line by `quantity`, or
    * add a new line through `Cart.addItem`. */
  method MergeInto(cart: Cart, variantId: int, quantity: int, freshItemId: int)
    modifies cart`items
    ensures cart.items == Merged(old(cart.items), cart.id, variantId, quantity, freshItemId)
  {
    var k := LineFor(cart.items, variantId);
    if k.Some? {
      var line := cart.items[k.value];
      cart.items := cart.items[k.value := line.(quantity := line.quantity + quantity)];
    } else {
      cart.AddItem(CartItem(freshItemId, None, variantId, quantity));
    }
  }

  /** The item lookup shared by update and remove: the position of the item in the user's cart, or
    * why it is refused. */
  function FindOwnedItem(carts: map<int, CartRow>, userId: int, itemId: int): (r: Result<nat, Failure>)
    ensures r.Ok? <==> userId in carts && ItemAt(carts[userId].items, itemId).Some?
    ensures r.Ok? ==> r.value == ItemAt(carts[userId].items, itemId).value
    ensures userId !in carts ==> r == Err(Rejected("Cart not found"))
    ensures userId in carts && r.Err? ==>
              r.error == Rejected(if HeldByAnyCart(carts, itemId) then "Cart item does not belong to your cart" else "Cart item not found")
  {
    if userId !in carts then Err(Rejected("Cart not found"))
    else
      var k := ItemAt(carts[userId].items, itemId);
      if k.Some? then Ok(k.value)
      else if HeldByAnyCart(carts, itemId) then Err(Rejected("Cart item does not belong to your cart"))
      else Err(Rejected("Cart item not found"))
  }

  /** `updateCartItem`: sets one line of the caller's cart to the new quantity when stock covers it;
    * nothing else in any cart changes. */
  method UpdateCartItem(db: Db, email: string, itemId: int, quantity: int) returns (r: Outcome<CartView>)
    requires CartsWellFormed(db.carts, db.variants)
    modifies db`carts
    ensures CartsWellFormed(db.carts, db.variants)
    ensures r.Err? ==> db.carts == old(db.carts)
    ensures email !in db.users ==> r == Err(Rejected("User not found"))
    ensures email in db.users ==>
              var uid := db.users[email].id;
              var found := FindOwnedItem(old(db.carts), uid, itemId);
              (found.Err? ==> r == Err(found.error))
              && (found.Ok? ==>
                    var items := old(db.carts[uid].items);
                    var stock := db.variants[items[found.value].variantId].stock;
                    (r.Ok? <==> stock >= quantity)
                    && (r.Err? ==> r.error == Rejected(Inventory.InsufficientStock(stock)))
                    && (r.Ok? ==> db.carts == old(db.carts)[uid := old(db.carts[uid]).(items := WithQuantity(items, found.value, quantity))]
                                  && r.value == CartDto(db.carts[uid], db.variants, db.products)))
  {
    if email !in db.users {
      return Err(Rejected("User not found"));
    }
    var uid := db.users[email].id;
    var found := FindOwnedItem(db.carts, uid, itemId);
    if found.Err? {
      return Err(found.error);
    }
    var k := found.value;
    var items := db.carts[uid].items;
    var stock := db.variants[items[k].variantId].stock;
    if stock < quantity {
      return Err(Rejected(Inventory.InsufficientStock(stock)));
    }
    WithQuantityKeepsWellFormed(items, db.variants, k, quantity);
    db.carts := db.carts[uid := db.carts[uid].(items := WithQuantity(items, k, quantity))];
    r := Ok(CartDto(db.carts[uid], db.variants, db.products));
  }

  /** `removeCartItem`: drops exactly the one line from the caller's cart. */
  method RemoveCartItem(db: Db, email: string, itemId: int) returns (r: Outcome<CartView>)
    requires CartsWellFormed(db.carts, db.variants)
    modifies db`carts
    ensures CartsWellFormed(db.carts, db.variants)
    ensures r.Err? ==> db.carts == old(db.carts)
    ensures email !in db.users ==> r == Err(Rejected("User not found"))
    ensures email in db.users ==>
              var uid := db.users[email].id;
              var found := FindOwnedItem(old(db.carts), uid, itemId);
              (r.Ok? <==> found.Ok?)
              && (found.Err? ==> r == Err(found.error))
              && (found.Ok? ==> db.carts == old(db.carts)[uid := old(db.carts[uid]).(items := Without(old(db.carts[uid].items), found.value))]
                                && r.value == CartDto(db.carts[uid], db.variants, db.products))
  {
    if email !in db.users {
      return Err(Rejected("User not found"));
    }
    var uid := db.users[email].id;
    var found := FindOwnedItem(db.carts, uid, itemId);
    if found.Err? {
      return Err(found.error);
    }
    var k := found.value;
    var cart := new Cart.Load(db.carts[uid]);
    var items := cart.items;
    RemoveFirstAt(items, k);
    assert RemoveFirst(items, items[k]) == Without(items, k);
    WithoutKeepsWellFormed(items, db.variants, k);
    var detached := cart.RemoveItem(items[k]);
    db.carts := db.carts[uid := cart.Row()];
    r := Ok(CartDto(cart.Row(), db.variants, db.products));
  }

  /** `clearCart`: empties the user's cart; a user without a cart is left as is. */
  method ClearCart(db: Db, email: string) returns (r: Outcome<()>)
    modifies db`carts
    ensures r.Ok? <==> email in db.users
    ensures r.Err? ==> r.error == Rejected("User not found") && db.carts == old(db.carts)
    ensures r.Ok? ==> var uid := db.users[email].id;
              (uid !in old(db.carts) ==> db.carts == old(db.carts))
              && (uid in old(db.carts) ==> db.carts == old(db.carts)[uid := old(db.carts[uid]).(items := [])])
  {
    if email !in db.users {
      return Err(Rejected("User not found"));
    }
    var uid := db.users[email].id;
    if uid in db.carts {
      var cart := new Cart.Load(db.carts[uid]);
      cart.ClearItems();
      db.carts := db.carts[uid := cart.Row()];
    }
    r := Ok(());
  }

  /** Clearing keeps the cart invariant and leaves a count of zero. */
  lemma ClearedCartIsEmpty(carts: map<int, CartRow>, variants: map<int, Variant>, products: map<int, ProductRow>, uid: int)
    requires CartsWellFormed(carts, variants) && uid in carts
    ensures CartsWellFormed(carts[uid := carts[uid].(items := [])], variants)
    ensures LinesQuantity(carts[uid := carts[uid].(items := [])][uid].items) == 0
  {
  }
}

=== FILE: carts.dfy ===
/** The `Cart` aggregate: one cart per user, holding its lines. */
module Carts {
  import opened Wrappers
  import opened Seqs

  /** A cart line; `cartId` is the back-reference to the owning cart. */
  datatype CartItem = CartItem(id: int, cartId: Option<int>, variantId: int, quantity: int)

  /** Sum of the line quantities. */
  function LinesQuantity(items: seq<CartItem>): int
  {
    if items == [] then 0 else LinesQuantity(items[..|items| - 1]) + items[|items| - 1].quantity
  }

  /** A stored cart with its lines in insertion order. */
  datatype CartRow = CartRow(id: int, userId: int, items: seq<CartItem>)

  class Cart {
    var id: int
    var userId: int
    var items: seq<CartItem>

    function Row(): CartRow
      reads this
    {
      CartRow(id, userId, items)
    }

    /** A new cart for a user starts empty. */
    constructor (id: int, userId: int)
      ensures Row() == CartRow(id, userId, [])
    {
      this.id := id;
      this.userId := userId;
      this.items := [];
    }

    /** The entity as loaded from its stored row. */
    constructor Load(row: CartRow)
      ensures Row() == row
    {
      id, userId, items := row.id, row.userId, row.items;
    }

    /** `addItem`: appends the line and points its back-reference at this cart. */
    method AddItem(item: CartItem)
      modifies this`items
      ensures items == old(items) + [item.(cartId := Some(id))]
    {
      items := items + [item.(cartId := Some(id))];
    }

    /** `removeItem`: drops the first occurrence of the line and returns it with its back-reference cleared. */
    method RemoveItem(item: CartItem) returns (detached: CartItem)
      modifies this`items
      ensures items == RemoveFirst(old(items), item)
      ensures detached == item.(cartId := None)
      ensures multiset(old(items))[item] <= 1 ==> item !in items
    {
      RemoveSingleWhenUnique(items, item);
      items := RemoveFirst(items, item);
      detached := item.(cartId := None);
    }

    /** `clearItems`. */
    method ClearItems()
      modifies this`items
      ensures items == []
      ensures Row() == old(Row()).(items := [])
    {
      items := [];
    }
  }

  lemma RemoveSingleWhenUnique(s: seq<CartItem>, x: CartItem)
    ensures multiset(s)[x] <= 1 ==> x !in RemoveFirst(s, x)
  {
    if multiset(s)[x] <= 1 {
      RemoveSingle(s, x);
    }
  }
}

=== FILE: catalog.dfy ===
/** The catalogue entities: `ProductVariant`, `ProductImage` and the `Product` aggregate. */
module Catalog {
  import opened Wrappers
  import opened Seqs

  /** A stored variant. `productId` is the back-reference to its product; `deleted` is the soft-delete mark. */
  datatype Variant = Variant(productId: Option<int>, sku: string, color: Option<string>, size: Option<string>,
                             stock: int, priceAdjustment: Option<int>, isAvailable: bool, deleted: bool)

  /** The five-argument constructor: the given fields, with the declared defaults of no price
    * adjustment (zero) and availability. */
  function NewVariant(productId: Option<int>, sku: string, color: Option<string>, size: Option<string>, stock: int): (v: Variant)
    ensures v.productId == productId && v.sku == sku && v.color == color && v.size == size && v.stock == stock
    ensures v.priceAdjustment == Some(0) && v.isAvailable && !v.deleted
  {
    Variant(productId, sku, color, size, stock, Some(0), true, false)
  }

  /** `ProductVariant.getFinalPrice`; `basePrice` is the product's base price, None when the variant
    * has no product or the product has no base price. */
  function VariantFinalPrice(v: Variant, basePrice: Option<int>): (r: int)
    ensures r - basePrice.GetOr(0) == v.priceAdjustment.GetOr(0)
  {
    var adjustment := v.priceAdjustment.GetOr(0);
    if basePrice.None? then adjustment else basePrice.value + adjustment
  }

  /** `ProductVariant.isInStock`. */
  predicate IsInStock(v: Variant): (b: bool)
    ensures b ==> v.stock >= 1 && v.isAvailable
    ensures !b ==> v.stock <= 0 || !v.isAvailable
  {
    v.stock > 0 && v.isAvailable
  }

  /** `Product.getFinalPrice(variant)`. */
  function ProductFinalPrice(basePrice: int, variant: Option<Variant>): (r: int)
    ensures r - basePrice == if variant.Some? then variant.value.priceAdjustment.GetOr(0) else 0
  {
    if variant.None? || variant.value.priceAdjustment.None? then basePrice
    else basePrice + variant.value.priceAdjustment.value
  }

  /** The variant's own price rule and the product's price rule agree whenever the product is known:
    * both charge the base price plus the adjustment, a missing adjustment counting as zero. */
  lemma PriceRulesAgree(basePrice: int, v: Variant)
    ensures ProductFinalPrice(basePrice, Some(v)) == VariantFinalPrice(v, Some(basePrice))
    ensures VariantFinalPrice(v, Some(basePrice)) == basePrice + v.priceAdjustment.GetOr(0)
    ensures VariantFinalPrice(v, None) == v.priceAdjustment.GetOr(0)
    ensures ProductFinalPrice(basePrice, None) == basePrice
  {
  }

  /** A stored product image. */
  datatype ProductImage = ProductImage(productId: Option<int>, url: string, altText: Option<string>,
                                       sortOrder: int, isPrimary: bool, deleted: bool)

  /** A stored product (its images and variants are stored separately and point back at it). */
  datatype ProductRow = ProductRow(name: string, slug: string, description: Option<string>, basePrice: int,
                                   categoryId: int, isVisible: bool, soldCount: int, deleted: bool)

  /** The product entity with its image and variant collections. */
  class Product {
    const id: int
    var name: string
    var slug: string
    var description: Option<string>
    var basePrice: int
    var categoryId: int
    var isVisible: bool
    var soldCount: int
    var images: seq<ProductImage>
    var variants: seq<Variant>

    /** A new product is visible, has sold nothing and has no images or variants yet. */
    constructor (id: int, name: string, slug: string, description: Option<string>, basePrice: int, categoryId: int)
      ensures this.id == id && this.name == name && this.slug == slug && this.description == description
      ensures this.basePrice == basePrice && this.categoryId == categoryId
      ensures isVisible && soldCount == 0 && images == [] && variants == []
    {
      this.id := id;
      this.name := name;
      this.slug := slug;
      this.description := description;
      this.basePrice := basePrice;
      this.categoryId := categoryId;
      this.isVisible := true;
      this.soldCount := 0;
      this.images := [];
      this.variants := [];
    }

    /** `addImage`: appends the image and points it at this product. */
    method AddImage(image: ProductImage)
      modifies this`images
      ensures images == old(images) + [image.(productId := Some(id))]
    {
      images := images + [image.(productId := Some(id))];
    }

    /** `removeImage`: drops the first occurrence and returns the image detached from any product. */
    method RemoveImage(image: ProductImage) returns (detached: ProductImage)
      modifies this`images
      ensures images == RemoveFirst(old(images), image)
      ensures detached == image.(productId := None)
    {
      images := RemoveFirst(images, image);
      detached := image.(productId := None);
    }

    /** `addVariant`: appends the variant and points it at this product. */
    method AddVariant(variant: Variant)
      modifies this`variants
      ensures variants == old(variants) + [variant.(productId := Some(id))]
    {
      variants := variants + [variant.(productId := Some(id))];
    }

    /** `removeVariant`: drops the first occurrence and returns the variant detached from any product. */
    method RemoveVariant(variant: Variant) returns (detached: Variant)
      modifies this`variants
      ensures variants == RemoveFirst(old(variants), variant)
      ensures detached == variant.(productId := None)
    {
      variants := RemoveFirst(variants, variant);
      detached := variant.(productId := None);
    }

    /** `getFinalPrice(variant)` on this product. */
    function FinalPrice(variant: Option<Variant>): (r: int)
      reads this
      ensures variant.Some? ==> r == VariantFinalPrice(variant.value, Some(basePrice))
    {
      ProductFinalPrice(basePrice, variant)
    }
  }
}

=== FILE: categories.dfy ===
/** The `Category` entity and its parent/children links. */
module Categories {
  import opened Wrappers
  import opened Seqs

  class Category {
    var name: string
    var slug: string
    var description: Option<string>
    var parent: Category?
    var children: seq<Category>
    var sortOrder: int
    var isActive: bool

    /** A new category has no parent and no children, sort order 0 and is active. */
    constructor (name: string, slug: string, description: Option<string>)
      ensures this.name == name && this.slug == slug && this.description == description
      ensures parent == null && children == []
      ensures sortOrder == 0 && isActive
    {
      this.name := name;
      this.slug := slug;
      this.description := description;
      this.parent := null;
      this.children := [];
      this.sortOrder := 0;
      this.isActive := true;
    }

    /** `addChild`: appends the child and makes this category its parent. */
    method AddChild(child: Category)
      modifies this`children, child`parent
      ensures children == old(children) + [child]
      ensures child in children && child.parent == this
    {
      children := children + [child];
      child.parent := this;
    }

    /** `removeChild`: drops the first occurrence of the child and clears its parent; a child listed
      * once is no longer listed. */
    method RemoveChild(child: Category)
      modifies this`children, child`parent
      ensures children == RemoveFirst(old(children), child)
      ensures child.parent == null
      ensures multiset(old(children))[child] <= 1 ==> child !in children
    {
      if multiset(children)[child] <= 1 {
        RemoveSingle(children, child);
      }
      children := RemoveFirst(children, child);
      child.parent := null;
    }
  }
}

=== FILE: category_service.dfy ===
/** `CategoryService`: the category hierarchy. Each category row points at its parent by id; the
  * children of a category are the live rows that point at it. */
module CategoryService {
  import opened Wrappers
  import opened Seqs
  import opened Store

  datatype CategoryRequest = CategoryRequest(name: string, slug: string, description: Option<string>,
                                             parentId: Option<int>, sortOrder: Option<int>, isActive: Option<bool>)

  /** An update request: `None` leaves a field alone, except `parentId`, where it detaches. */
  datatype CategoryUpdate = CategoryUpdate(name: Option<string>, slug: Option<string>, description: Option<string>,
                                           parentId: Option<int>, sortOrder: Option<int>, isActive: Option<bool>)

  /** The identity sequence is ahead of every stored category. */
  predicate IdsFresh(categories: map<int, CategoryRow>, nextId: int)
  {
    forall k :: k in categories ==> k < nextId
  }

  /** `existsBySlug` / `existsBySlugAndIdNot`: a live category other than `except` has this slug. */
  predicate SlugInUse(categories: map<int, CategoryRow>, slug: string, except: Option<int>)
  {
    exists id :: id in categories && !categories[id].deleted && categories[id].slug == slug && Some(id) != except
  }

  /** The unique slug column, soft-deleted rows included. */
  predicate SlugStored(categories: map<int, CategoryRow>, slug: string, except: Option<int>)
  {
    exists id :: id in categories && categories[id].slug == slug && Some(id) != except
  }

  /** The row `createCategory` stores: sort order 0 and active unless the request says otherwise. */
  function NewCategoryRow(req: CategoryRequest): (row: CategoryRow)
    ensures row.sortOrder == (if req.sortOrder.Some? then req.sortOrder.value else 0)
    ensures row.isActive <==> req.isActive != Some(false)
    ensures row.parentId == req.parentId && !row.deleted
  {
    CategoryRow(req.name, req.slug, req.description, req.parentId, req.sortOrder.GetOr(0), req.isActive.GetOr(true), false)
  }

  /** Why `createCategory` refuses a request, if it does. */
  function CreateRefusal(categories: map<int, CategoryRow>, req: CategoryRequest): (r: Option<Failure>)
    ensures r.None? ==> !SlugStored(categories, req.slug, None)
    ensures r.None? && req.parentId.Some? ==> LiveCategory(categories, req.parentId.value)
    ensures SlugInUse(categories, req.slug, None) ==> r == Some(Rejected("Category with this slug already exists"))
  {
    if SlugInUse(categories, req.slug, None) then Some(Rejected("Category with this slug already exists"))
    else if req.parentId.Some? && !LiveCategory(categories, req.parentId.value) then Some(Rejected("Parent category not found"))
    else if SlugStored(categories, req.slug, None) then Some(Conflict("categories.slug"))
    else None
  }

  /** `createCategory`. */
  method CreateCategory(db: Db, req: CategoryRequest) returns (r: Outcome<int>)
    requires IdsFresh(db.categories, db.nextId)
    modifies db`categories, db`nextId
    ensures IdsFresh(db.categories, db.nextId)
    ensures r.Err? <==> CreateRefusal(old(db.categories), req).Some?
    ensures r.Err? ==> r.error == CreateRefusal(old(db.categories), req).value
                       && db.categories == old(db.categories) && db.nextId == old(db.nextId)
    ensures r.Ok? ==> r.value == old(db.nextId) && r.value !in old(db.categories) && db.nextId == r.value + 1
                      && db.categories == old(db.categories)[r.value := NewCategoryRow(req)]
  {
    var refusal := CreateRefusal(db.categories, req);
    if refusal.Some? {
      return Err(refusal.value);
    }
    r := Ok(db.nextId);
    db.categories := db.categories[db.nextId := NewCategoryRow(req)];
    db.nextId := db.nextId + 1;
  }

  /** The row after an update: named fields replaced, and the parent replaced or cleared. */
  function Patched(c: CategoryRow, u: CategoryUpdate): CategoryRow
  {
    c.(name := u.name.GetOr(c.name), slug := u.slug.GetOr(c.slug),
       description := if u.description.Some? then u.description else c.description,
       sortOrder := u.sortOrder.GetOr(c.sortOrder), isActive := u.isActive.GetOr(c.isActive),
       parentId := u.parentId)
  }

  /** Why `updateCategory` refuses an update, if it does. Only a category naming itself as its
    * parent is refused; a longer cycle is not looked for. */
  function UpdateRefusal(categories: map<int, CategoryRow>, id: int, u: CategoryUpdate): Option<Failure>
  {
    if !LiveCategory(categories, id) then Some(Rejected("Category not found"))
    else if u.slug.Some? && SlugInUse(categories, u.slug.value, Some(id)) then Some(Rejected("Category with this slug already exists"))
    else if u.parentId == Some(id) then Some(Rejected("Category cannot be its own parent"))
    else if u.parentId.Some? && !LiveCategory(categories, u.parentId.value) then Some(Rejected("Parent category not found"))
    else if u.slug.Some? && SlugStored(categories, u.slug.value, Some(id)) then Some(Conflict("categories.slug"))
    else None
  }

  /** `updateCategory`. */
  method UpdateCategory(db: Db, id: int, u: CategoryUpdate) returns (r: Outcome<CategoryRow>)
    modifies db`categories
    ensures r.Err? <==> UpdateRefusal(old(db.categories), id, u).Some?
    ensures r.Err? ==> r.error == UpdateRefusal(old(db.categories), id, u).value && db.categories == old(db.categories)
    ensures r.Ok? ==> r.value == Patched(old(db.categories[id]), u) && db.categories == old(db.categories)[id := r.value]
  {
    var refusal := UpdateRefusal(db.categories, id, u);
    if refusal.Some? {
      return Err(refusal.value);
    }
    var row := Patched(db.categories[id], u);
    db.categories := db.categories[id := row];
    r := Ok(row);
  }

  /** An accepted update never makes a category its own parent, and one without a parent id
    * leaves the category at the top level; the other unnamed fields keep their values. */
  lemma UpdateParentRules(categories: map<int, CategoryRow>, id: int, u: CategoryUpdate)
    requires UpdateRefusal(categories, id, u).None?
    ensures Patched(categories[id], u).parentId != Some(id)
    ensures u.parentId.None? ==> Patched(categories[id], u).parentId.None?
    ensures u.parentId.Some? ==> LiveCategory(categories, u.parentId.value)
    ensures u.name.None? && u.slug.None? && u.description.None? && u.sortOrder.None? && u.isActive.None? ==>
              Patched(categories[id], u) == categories[id].(parentId := u.parentId)
  {
  }

  /** Only direct self-parenting is refused: with 2 the parent of 1, making 1 the parent of 2 is
    * accepted and closes a cycle. */
  lemma TwoCycleAccepted()
    ensures var categories := map[1 := CategoryRow("A", "a", None, Some(2), 0, true, false),
                                  2 := CategoryRow("B", "b", None, None, 0, true, false)];
            var u := CategoryUpdate(None, None, None, Some(1), None, None);
            UpdateRefusal(categories, 2, u).None? && Patched(categories[2], u).parentId == Some(1)
            && categories[2 := Patched(categories[2], u)] == TwoCycle()
  {
    var categories := map[1 := CategoryRow("A", "a", None, Some(2), 0, true, false),
                          2 := CategoryRow("B", "b", None, None, 0, true, false)];
    assert !SlugInUse(categories, "b", Some(2));
  }

  /** `j` is a live child of `k`. */
  predicate ChildOf(categories: map<int, CategoryRow>, j: int, k: int)
  {
    j in categories && !categories[j].deleted && categories[j].parentId == Some(k)
  }

  /** `depth` ranks every member of `s` other than `root` below a parent that is also in `s`. */
  ghost predicate Ranked(categories: map<int, CategoryRow>, root: int, s: set<int>, depth: map<int, nat>)
  {
    s <= depth.Keys
    && forall k :: k in s && k != root ==>
         exists p :: p in s && p in depth && ChildOf(categories, k, p) && depth[p] < depth[k]
  }

  /** The subtree under `root`: the root, closed under live children, and nothing that does not
    * descend from the root by a chain of live children. */
  ghost predicate Subtree(categories: map<int, CategoryRow>, root: int, s: set<int>)
  {
    root in s && s <= categories.Keys
    && (forall k, j :: k in s && ChildOf(categories, j, k) ==> j in s)
    && exists depth :: Ranked(categories, root, s, depth)
  }

  /** The subtree is determined by the root. */
  lemma SubtreeUnique(categories: map<int, CategoryRow>, root: int, s1: set<int>, s2: set<int>)
    requires Subtree(categories, root, s1) && Subtree(categories, root, s2)
    ensures s1 == s2
  {
    SubtreeIncluded(categories, root, s1, s2);
    SubtreeIncluded(categories, root, s2, s1);
  }

  lemma SubtreeIncluded(categories: map<int, CategoryRow>, root: int, s1: set<int>, s2: set<int>)
    requires Subtree(categories, root, s1) && Subtree(categories, root, s2)
    ensures s1 <= s2
  {
    var depth :| Ranked(categories, root, s1, depth);
    forall k | k in s1
      ensures k in s2
    {
      RankedMemberIncluded(categories, root, s1, depth, s2, k);
    }
  }

  lemma {:induction false} RankedMemberIncluded(categories: map<int, CategoryRow>, root: int, s1: set<int>,
                                                depth: map<int, nat>, s2: set<int>, k: int)
    requires Ranked(categories, root, s1, depth) && k in s1
    requires root in s2 && forall a, j :: a in s2 && ChildOf(categories, j, a) ==> j in s2
    ensures k in s2
    decreases depth[k]
  {
    if k != root {
      var p :| p in s1 && p in depth && ChildOf(categories, k, p) && depth[p] < depth[k];
      RankedMemberIncluded(categories, root, s1, depth, s2, p);
    }
  }

  /** The categories with the members of `s` soft-deleted. */
  function Retired(categories: map<int, CategoryRow>, s: set<int>): map<int, CategoryRow>
  {
    map k | k in categories :: if k in s then categories[k].(deleted := true) else categories[k]
  }

  /** After a delete, no live category is left under a deleted one, and only the subtree changed. */
  lemma RetiredLeavesNoOrphan(categories: map<int, CategoryRow>, root: int, s: set<int>)
    requires Subtree(categories, root, s)
    ensures forall k :: k in s ==> !LiveCategory(Retired(categories, s), k)
    ensures forall k, j :: k in s && ChildOf(categories, j, k) ==> !LiveCategory(Retired(categories, s), j)
    ensures forall k :: k in categories && k !in s ==> Retired(categories, s)[k] == categories[k]
  {
  }

  /** Adding the unvisited live children of a visited category, one level below it, keeps the ranking. */
  lemma RankedStep(categories: map<int, CategoryRow>, root: int, s: set<int>, depth: map<int, nat>, k: int, found: set<int>)
    requires Ranked(categories, root, s, depth) && k in s
    requires forall j :: j in found ==> ChildOf(categories, j, k) && j !in s
    ensures Ranked(categories, root, s + found, depth + map j | j in found :: depth[k] + 1)
  {
    var depth' := depth + map j | j in found :: depth[k] + 1;
    forall a | a in s + found && a != root
      ensures exists p :: p in s + found && p in depth' && ChildOf(categories, a, p) && depth'[p] < depth'[a]
    {
      if a in found {
        assert k in s + found && k in depth' && ChildOf(categories, a, k) && depth'[k] < depth'[a];
      } else {
        var p :| p in s && p in depth && ChildOf(categories, a, p) && depth[p] < depth[a];
        assert p in s + found && p in depth' && depth'[p] < depth'[a];
      }
    }
  }

  /** `softDeleteRecursive` as written, bounded by the depth of its nested calls: the call on `k`
    * returns within `fuel` levels of recursion when the calls on all of `k`'s live children return
    * within one level fewer. The children are those loaded before the delete, since the soft
    * deletes are not flushed while the recursion runs. */
  ghost predicate RecursionReturns(categories: map<int, CategoryRow>, k: int, fuel: nat)
    decreases fuel
  {
    fuel > 0 && forall j | ChildOf(categories, j, k) :: RecursionReturns(categories, j, fuel - 1)
  }

  /** The categories after the update of `TwoCycleAccepted`: 1 and 2 are each other's parent. */
  function TwoCycle(): map<int, CategoryRow>
  {
    map[1 := CategoryRow("A", "a", None, Some(2), 0, true, false),
        2 := CategoryRow("B", "b", None, Some(1), 0, true, false)]
  }

  /** As written, deleting a category on a parent cycle never returns: the call on 1 recurses into
    * its child 2, whose child is 1 again, at every depth. */
  lemma {:induction false} SoftDeleteRecursionDiverges(fuel: nat)
    ensures !RecursionReturns(TwoCycle(), 1, fuel) && !RecursionReturns(TwoCycle(), 2, fuel)
  {
    if fuel > 0 {
      SoftDeleteRecursionDiverges(fuel - 1);
      assert ChildOf(TwoCycle(), 2, 1) && ChildOf(TwoCycle(), 1, 2);
    }
  }

  /** The corrected delete finishes on the same categories and deletes the whole cycle. */
  lemma TwoCycleSubtree()
    ensures Subtree(TwoCycle(), 1, {1, 2})
  {
    var c := TwoCycle();
    var depth: map<int, nat> := map[1 := 0, 2 := 1];
    assert ChildOf(c, 2, 1);
    assert Ranked(c, 1, {1, 2}, depth);
    forall k, j | k in {1, 2} && ChildOf(c, j, k)
      ensures j in {1, 2}
    {
    }
  }

  /** The ids of `root`'s subtree, collected breadth-first with a visited set, so that each category
    * is visited once even if the parent links form a cycle (where the recursion as written does not
    * return: `SoftDeleteRecursionDiverges`). */
  method CollectSubtree(categories: map<int, CategoryRow>, root: int) returns (s: set<int>)
    requires LiveCategory(categories, root)
    ensures Subtree(categories, root, s)
  {
    s := {root};
    var work := {root};
    ghost var depth: map<int, nat> := map[root := 0];
    while work != {}
      invariant root in s && s <= categories.Keys && work <= s
      invariant Ranked(categories, root, s, depth)
      invariant forall k, j :: k in s && k !in work && ChildOf(categories, j, k) ==> j in s
      decreases categories.Keys - s, |work|
    {
      var k := Pick(work);
      var found := set j | j in categories && ChildOf(categories, j, k) && j !in s;
      RankedStep(categories, root, s, depth, k, found);
      if found != {} {
        var j := Pick(found);
        assert j in categories.Keys - s && j !in categories.Keys - (s + found);
      }
      depth := depth + map j | j in found :: depth[k] + 1;
      s := s + found;
      work := work - {k} + found;
    }
    assert Ranked(categories, root, s, depth);
  }

  /** `deleteCategory` and `softDeleteRecursive`: soft-deletes the category and everything below it.
    * `removed` is the subtree that was deleted. */
  method DeleteCategory(db: Db, id: int) returns (r: Outcome<()>, ghost removed: set<int>)
    modifies db`categories
    ensures r.Ok? <==> LiveCategory(old(db.categories), id)
    ensures r.Err? ==> r.error == Rejected("Category not found") && db.categories == old(db.categories)
    ensures r.Ok? ==> Subtree(old(db.categories), id, removed) && db.categories == Retired(old(db.categories), removed)
  {
    if !LiveCategory(db.categories, id) {
      return Err(Rejected("Category not found")), {};
    }
    var s := CollectSubtree(db.categories, id);
    db.categories := Retired(db.categories, s);
    return Ok(()), s;
  }

  // ---------------------------------------------------------------- tree view

  /** A category as loaded with its children collection, to any depth. */
  datatype CategoryNode = CategoryNode(id: int, row: CategoryRow, children: seq<CategoryNode>)

  datatype CategoryView = CategoryView(id: int, name: string, slug: string, description: Option<string>,
                                       parentId: Option<int>, parentName: Option<string>, sortOrder: int, isActive: bool,
                                       children: seq<CategoryView>)

  /** `mapToTreeDTO`; `parent` is the id and name of the node's parent, if it has one. */
  function TreeDto(n: CategoryNode, parent: Option<(int, string)>): CategoryView
    decreases n
  {
    CategoryView(n.id, n.row.name, n.row.slug, n.row.description,
                 if parent.Some? then Some(parent.value.0) else None,
                 if parent.Some? then Some(parent.value.1) else None,
                 n.row.sortOrder, n.row.isActive,
                 seq(|n.children|, i requires 0 <= i < |n.children| => TreeDto(n.children[i], Some((n.id, n.row.name)))))
  }

  /** The ids of a loaded tree or a view tree, parents before children. */
  function NodeIds(n: CategoryNode): seq<int>
    decreases n, 1
  {
    [n.id] + NodeIdsOf(n.children)
  }

  function NodeIdsOf(ns: seq<CategoryNode>): seq<int>
    decreases ns, 0
  {
    if ns == [] then [] else NodeIdsOf(ns[..|ns| - 1]) + NodeIds(ns[|ns| - 1])
  }

  function ViewIds(v: CategoryView): seq<int>
    decreases v, 1
  {
    [v.id] + ViewIdsOf(v.children)
  }

  function ViewIdsOf(vs: seq<CategoryView>): seq<int>
    decreases vs, 0
  {
    if vs == [] then [] else ViewIdsOf(vs[..|vs| - 1]) + ViewIds(vs[|vs| - 1])
  }

  /** The view mirrors the loaded tree: every node appears, in the same place, each child naming its
    * parent, and a leaf gets an empty children list. */
  lemma {:induction false} TreeDtoMirrors(n: CategoryNode, parent: Option<(int, string)>)
    ensures ViewIds(TreeDto(n, parent)) == NodeIds(n)
    ensures |TreeDto(n, parent).children| == |n.children|
    ensures n.children == [] ==> TreeDto(n, parent).children == []
    ensures forall i :: 0 <= i < |n.children| ==> TreeDto(n, parent).children[i].parentId == Some(n.id)
    decreases n, 1
  {
    var v := TreeDto(n, parent);
    TreeDtoMirrorsAll(n.children, v.children, n.id, n.row.name);
  }

  lemma {:induction false} TreeDtoMirrorsAll(ns: seq<CategoryNode>, vs: seq<CategoryView>, id: int, name: string)
    requires |vs| == |ns| && forall i :: 0 <= i < |ns| ==> vs[i] == TreeDto(ns[i], Some((id, name)))
    ensures ViewIdsOf(vs) == NodeIdsOf(ns)
    decreases ns, 0
  {
    if ns != [] {
      var m := |ns| - 1;
      TreeDtoMirrorsAll(ns[..m], vs[..m], id, name);
      TreeDtoMirrors(ns[m], Some((id, name)));
    }
  }
}

=== FILE: category_tree.dfy ===
/** `buildCategoryTree` of the storefront and admin pages: a flat category list becomes a forest
  * whose roots are the categories without a known parent, with every level's siblings sorted. */
module CategoryTree {
  import opened Wrappers
  import opened Seqs

  /** `CategoryDTO` as the pages receive it; its own `children` play no part in the build. */
  datatype CategoryDto = CategoryDto(id: int, name: string, slug: string, description: Option<string>,
                                     parentId: Option<int>, parentName: Option<string>, sortOrder: int,
                                     isActive: bool, children: seq<CategoryDto>)

  /** The built forest, held by id: the node copies, each node's `children` array as a list of child
    * ids, and the `roots` array. */
  datatype Forest = Forest(nodes: map<int, CategoryDto>, children: map<int, seq<int>>, roots: seq<int>)

  /** The copy `{ ...cat, children: [] }` the id map stores. */
  function Copy(c: CategoryDto): (r: CategoryDto)
    ensures r.children == [] && r.(children := c.children) == c
  {
    c.(children := [])
  }

  /** `p` is the parent of `c`: a truthy `parentId` that the id map holds. */
  predicate ChildOf(nodes: map<int, CategoryDto>, c: int, p: int)
  {
    c in nodes && nodes[c].parentId == Some(p) && p != 0 && p in nodes
  }

  /** A node whose `parentId` is missing, 0, or names no node of the input. */
  predicate IsRoot(nodes: map<int, CategoryDto>, id: int)
  {
    id in nodes && !(nodes[id].parentId.Some? && ChildOf(nodes, id, nodes[id].parentId.value))
  }

  // ---------------------------------------------------------------- step 1: the id map

  /** The id map after `categoryMap.set(cat.id, copy)` for each category in turn: a repeated id keeps
    * the copy of its last occurrence. */
  function Indexed(cs: seq<CategoryDto>): map<int, CategoryDto>
  {
    if cs == [] then map[] else Indexed(cs[..|cs| - 1])[cs[|cs| - 1].id := Copy(cs[|cs| - 1])]
  }

  /** The map's iteration order: each id at the place of its first `set`. */
  function FirstSeen(cs: seq<CategoryDto>): seq<int>
  {
    if cs == [] then []
    else if cs[|cs| - 1].id in Indexed(cs[..|cs| - 1]) then FirstSeen(cs[..|cs| - 1])
    else FirstSeen(cs[..|cs| - 1]) + [cs[|cs| - 1].id]
  }

  /** The ids of the input. */
  predicate Listed(cs: seq<CategoryDto>, id: int)
  {
    exists i :: 0 <= i < |cs| && cs[i].id == id
  }

  /** The map holds exactly the input's ids, every stored node has empty children, and the iteration
    * order visits each stored id once. */
  lemma {:induction false} IndexedFacts(cs: seq<CategoryDto>)
    ensures forall id :: id in Indexed(cs) <==> Listed(cs, id)
    ensures forall id | id in Indexed(cs) :: Indexed(cs)[id].children == []
    ensures forall id :: id in FirstSeen(cs) <==> id in Indexed(cs)
    ensures NoDuplicates(FirstSeen(cs))
  {
    if cs != [] {
      var n := |cs| - 1;
      IndexedFacts(cs[..n]);
      forall id
        ensures Listed(cs, id) <==> Listed(cs[..n], id) || cs[n].id == id
      {
        if Listed(cs, id) {
          var i :| 0 <= i < |cs| && cs[i].id == id;
          if i < n {
            assert cs[..n][i].id == id;
          }
        }
        if Listed(cs[..n], id) {
          var i :| 0 <= i < n && cs[..n][i].id == id;
          assert cs[i].id == id;
        }
      }
      if cs[n].id !in Indexed(cs[..n]) {
        var f := FirstSeen(cs[..n]);
        assert multiset(f + [cs[n].id]) == multiset(f) + multiset{cs[n].id};
      }
    }
  }

  lemma OrderInIndex(cs: seq<CategoryDto>)
    ensures forall i :: 0 <= i < |FirstSeen(cs)| ==> FirstSeen(cs)[i] in Indexed(cs)
  {
    IndexedFacts(cs);
    forall i | 0 <= i < |FirstSeen(cs)|
      ensures FirstSeen(cs)[i] in Indexed(cs)
    {
      assert FirstSeen(cs)[i] in FirstSeen(cs);
    }
  }

  /** With no id repeated, every category's copy is stored under its id. */
  lemma {:induction false} UniqueIdsAllCopied(cs: seq<CategoryDto>, k: nat)
    requires forall i, j :: 0 <= i < j < |cs| ==> cs[i].id != cs[j].id
    requires k < |cs|
    ensures cs[k].id in Indexed(cs) && Indexed(cs)[cs[k].id] == Copy(cs[k])
  {
    var n := |cs| - 1;
    if k < n {
      UniqueIdsAllCopied(cs[..n], k);
    }
  }

  /** A repeated id is stored once, as the copy of its last occurrence. */
  lemma RepeatedIdKeepsLast(a: CategoryDto, b: CategoryDto)
    requires a.id == b.id
    ensures Indexed([a, b]) == map[b.id := Copy(b)]
    ensures FirstSeen([a, b]) == [a.id]
  {
    assert [a, b][..1] == [a];
    assert [a][..0] == [];
    assert Indexed([a]) == map[a.id := Copy(a)];
    assert FirstSeen([a]) == [a.id];
  }

  /** Step 1: the `forEach` that fills the id map. */
  method IndexCategories(categories: seq<CategoryDto>) returns (nodes: map<int, CategoryDto>, order: seq<int>)
    ensures nodes == Indexed(categories) && order == FirstSeen(categories)
  {
    nodes := map[];
    order := [];
    for i := 0 to |categories|
      invariant nodes == Indexed(categories[..i]) && order == FirstSeen(categories[..i])
    {
      var cat := categories[i];
      assert categories[..i + 1][..i] == categories[..i];
      if cat.id !in nodes {
        order := order + [cat.id];
      }
      nodes := nodes[cat.id := Copy(cat)];
    }
    assert categories[..|categories|] == categories;
  }

  // ---------------------------------------------------------------- step 2: attaching children

  /** The ids of `ids` that are roots, in order. */
  function RootsAmong(nodes: map<int, CategoryDto>, ids: seq<int>): seq<int>
  {
    if ids == [] then []
    else RootsAmong(nodes, ids[..|ids| - 1]) + (if IsRoot(nodes, ids[|ids| - 1]) then [ids[|ids| - 1]] else [])
  }

  /** The ids of `ids` whose parent is `p`, in order. */
  function ChildrenAmong(nodes: map<int, CategoryDto>, ids: seq<int>, p: int): seq<int>
  {
    if ids == [] then []
    else ChildrenAmong(nodes, ids[..|ids| - 1], p) + (if ChildOf(nodes, ids[|ids| - 1], p) then [ids[|ids| - 1]] else [])
  }

  lemma {:induction false} RootsAmongFacts(nodes: map<int, CategoryDto>, ids: seq<int>)
    ensures forall x :: x in RootsAmong(nodes, ids) <==> x in ids && IsRoot(nodes, x)
    ensures multiset(RootsAmong(nodes, ids)) <= multiset(ids)
  {
    if ids != [] {
      var n := |ids| - 1;
      RootsAmongFacts(nodes, ids[..n]);
      assert ids == ids[..n] + [ids[n]];
    }
  }

  lemma {:induction false} ChildrenAmongFacts(nodes: map<int, CategoryDto>, ids: seq<int>, p: int)
    ensures forall x :: x in ChildrenAmong(nodes, ids, p) <==> x in ids && ChildOf(nodes, x, p)
    ensures multiset(ChildrenAmong(nodes, ids, p)) <= multiset(ids)
  {
    if ids != [] {
      var n := |ids| - 1;
      ChildrenAmongFacts(nodes, ids[..n], p);
      assert ids == ids[..n] + [ids[n]];
    }
  }

  /** Step 2: the `forEach` over the id map that pushes each node onto its parent's `children` or
    * onto `roots`. */
  method AttachChildren(nodes: map<int, CategoryDto>, order: seq<int>) returns (children: map<int, seq<int>>, roots: seq<int>)
    requires forall i :: 0 <= i < |order| ==> order[i] in nodes
    ensures children.Keys == nodes.Keys
    ensures forall p | p in children :: children[p] == ChildrenAmong(nodes, order, p)
    ensures roots == RootsAmong(nodes, order)
  {
    children := map id | id in nodes :: [];
    roots := [];
    for i := 0 to |order|
      invariant children.Keys == nodes.Keys
      invariant forall p | p in children :: children[p] == ChildrenAmong(nodes, order[..i], p)
      invariant roots == RootsAmong(nodes, order[..i])
    {
      var id := order[i];
      assert order[..i + 1][..i] == order[..i];
      var node := nodes[id];
      if node.parentId.Some? && node.parentId.value != 0 && node.parentId.value in nodes {
        var p := node.parentId.value;
        assert ChildOf(nodes, id, p);
        children := children[p := children[p] + [id]];
      } else {
        roots := roots + [id];
      }
    }
    assert order[..|order|] == order;
  }

  // ---------------------------------------------------------------- step 3: sorting

  /** The ordering of `sortOrder` the builder uses when no `compareFn` is given. */
  function DefaultOrder(c: CategoryDto): int
  {
    c.sortOrder
  }

  /** The sort key on node ids that the ordering on categories induces. */
  function NodeKey(nodes: map<int, CategoryDto>, key: CategoryDto -> int): int -> int
  {
    (id: int) => if id in nodes then key(nodes[id]) else 0
  }

  // ---------------------------------------------------------------- the forest's shape

  /** The roots are exactly the nodes with a falsy or unknown parent. */
  ghost predicate RootsExact(f: Forest)
  {
    forall id :: id in f.roots <==> IsRoot(f.nodes, id)
  }

  /** Every node has a `children` list, and it holds exactly the nodes naming it as parent. */
  ghost predicate ChildrenExact(f: Forest)
  {
    f.children.Keys == f.nodes.Keys
    && forall p, c | p in f.children :: c in f.children[p] <==> ChildOf(f.nodes, c, p)
  }

  /** No list repeats an id. */
  predicate ListsDistinct(f: Forest)
  {
    NoDuplicates(f.roots) && forall p | p in f.children :: NoDuplicates(f.children[p])
  }

  /** Every level is in ascending order of the key. */
  predicate SiblingsSorted(f: Forest, key: CategoryDto -> int)
  {
    SortedBy(f.roots, NodeKey(f.nodes, key))
    && forall p | p in f.children :: SortedBy(f.children[p], NodeKey(f.nodes, key))
  }

  /** A sorted permutation of a list without repetitions has the same members and no repetitions,
    * and ids with equal keys keep the order they had before the sort. */
  lemma SortKeepsMembers(s: seq<int>, k: int -> int)
    requires NoDuplicates(s)
    ensures NoDuplicates(SortBy(s, k)) && SortedBy(SortBy(s, k), k)
    ensures forall x :: x in SortBy(s, k) <==> x in s
    ensures forall v :: WithKey(SortBy(s, k), k, v) == WithKey(s, k, v)
  {
    SortSortsAndPermutes(s, k);
    forall x
      ensures x in SortBy(s, k) <==> x in s
    {
      assert x in SortBy(s, k) <==> x in multiset(SortBy(s, k));
    }
  }

  /** Step 3 below the roots: `sortNodes` sorting each node's `children` array. */
  function SortLevels(children: map<int, seq<int>>, k: int -> int): (r: map<int, seq<int>>)
    ensures r.Keys == children.Keys
  {
    map p | p in children :: SortBy(children[p], k)
  }

  /** The sorted `children` lists hold exactly each node's children, once each, in key order. */
  lemma SortedLevelsExact(nodes: map<int, CategoryDto>, order: seq<int>, children: map<int, seq<int>>, k: int -> int)
    requires NoDuplicates(order)
    requires forall p | p in children :: children[p] == ChildrenAmong(nodes, order, p)
    requires forall x :: x in order <==> x in nodes
    ensures forall p, c | p in children :: c in SortLevels(children, k)[p] <==> ChildOf(nodes, c, p)
    ensures forall p | p in children :: NoDuplicates(SortLevels(children, k)[p])
    ensures forall p | p in children :: SortedBy(SortLevels(children, k)[p], k)
    ensures forall p, v | p in children :: WithKey(SortLevels(children, k)[p], k, v) == WithKey(children[p], k, v)
  {
    forall p | p in children
      ensures NoDuplicates(SortBy(children[p], k)) && SortedBy(SortBy(children[p], k), k)
      ensures forall c :: c in SortBy(children[p], k) <==> ChildOf(nodes, c, p)
      ensures forall v :: WithKey(SortBy(children[p], k), k, v) == WithKey(children[p], k, v)
    {
      ChildrenAmongFacts(nodes, order, p);
      assert NoDuplicates(children[p]) by {
        forall x | x in multiset(children[p])
          ensures multiset(children[p])[x] <= 1
        {
          assert multiset(children[p])[x] <= multiset(order)[x];
        }
      }
      SortKeepsMembers(children[p], k);
    }
  }

  /** The sorted roots are exactly the root nodes, once each, in key order. */
  lemma SortedRootsExact(nodes: map<int, CategoryDto>, order: seq<int>, k: int -> int)
    requires NoDuplicates(order)
    ensures forall id :: id in SortBy(RootsAmong(nodes, order), k) <==> id in order && IsRoot(nodes, id)
    ensures NoDuplicates(SortBy(RootsAmong(nodes, order), k)) && SortedBy(SortBy(RootsAmong(nodes, order), k), k)
    ensures forall v :: WithKey(SortBy(RootsAmong(nodes, order), k), k, v) == WithKey(RootsAmong(nodes, order), k, v)
  {
    var roots := RootsAmong(nodes, order);
    RootsAmongFacts(nodes, order);
    assert NoDuplicates(roots) by {
      forall x | x in multiset(roots)
        ensures multiset(roots)[x] <= 1
      {
        assert multiset(roots)[x] <= multiset(order)[x];
      }
    }
    SortKeepsMembers(roots, k);
  }

  /** `buildCategoryTree(categories, compareFn)`: the id map, the attachment pass, then the sort of
    * every level; `compareKey` stands for `compareFn`. */
  method BuildCategoryTree(categories: seq<CategoryDto>, compareKey: Option<CategoryDto -> int>) returns (f: Forest)
    ensures f.nodes == Indexed(categories)
    ensures forall id :: id in f.nodes <==> Listed(categories, id)
    ensures forall id | id in f.nodes :: f.nodes[id].children == []
    ensures RootsExact(f) && ChildrenExact(f) && ListsDistinct(f)
    ensures SiblingsSorted(f, compareKey.GetOr(DefaultOrder))
    ensures var k := NodeKey(f.nodes, compareKey.GetOr(DefaultOrder));
            forall v :: WithKey(f.roots, k, v) == WithKey(RootsAmong(f.nodes, FirstSeen(categories)), k, v)
    ensures var k := NodeKey(f.nodes, compareKey.GetOr(DefaultOrder));
            forall p, v | p in f.children ::
              WithKey(f.children[p], k, v) == WithKey(ChildrenAmong(f.nodes, FirstSeen(categories), p), k, v)
  {
    var nodes, order := IndexCategories(categories);
    IndexedFacts(categories);
    OrderInIndex(categories);
    var children, roots := AttachChildren(nodes, order);
    var k := NodeKey(nodes, compareKey.GetOr(DefaultOrder));
    SortedRootsExact(nodes, order, k);
    SortedLevelsExact(nodes, order, children, k);
    f := Forest(nodes, SortLevels(children, k), SortBy(roots, k));
  }

  // ---------------------------------------------------------------- what the forest shows

  /** `id` is a root, or a child of a node reached within one step less. */
  ghost predicate Reached(f: Forest, id: int, depth: nat)
    decreases depth
  {
    id in f.roots || (depth > 0 && exists p | p in f.children :: id in f.children[p] && Reached(f, p, depth - 1))
  }

  /** `id` appears in the forest the roots span. */
  ghost predicate InForest(f: Forest, id: int)
  {
    exists depth: nat :: Reached(f, id, depth)
  }

  /** Every node appears in exactly one list: the roots, or its parent's children. */
  lemma OneSlot(f: Forest, id: int)
    requires RootsExact(f) && ChildrenExact(f) && id in f.nodes
    ensures IsRoot(f.nodes, id) ==> id in f.roots && forall p | p in f.children :: id !in f.children[p]
    ensures !IsRoot(f.nodes, id) ==>
      var p := f.nodes[id].parentId.value;
      id !in f.roots && p in f.children && id in f.children[p]
      && forall q | q in f.children && id in f.children[q] :: q == p
  {
  }

  /** A rank that drops from child to parent: the parent relation has no cycle. */
  ghost predicate Ranks(nodes: map<int, CategoryDto>, rank: map<int, nat>)
  {
    nodes.Keys <= rank.Keys && forall c, p | ChildOf(nodes, c, p) :: rank[p] < rank[c]
  }

  /** Without a parent cycle every input category appears in the forest: climbing parents reaches
    * a root. */
  lemma {:induction false} AcyclicAllPlaced(f: Forest, rank: map<int, nat>, id: int)
    requires RootsExact(f) && ChildrenExact(f) && Ranks(f.nodes, rank) && id in f.nodes
    ensures InForest(f, id)
    decreases rank[id]
  {
    if IsRoot(f.nodes, id) {
      assert Reached(f, id, 0);
    } else {
      var p := f.nodes[id].parentId.value;
      assert ChildOf(f.nodes, id, p);
      AcyclicAllPlaced(f, rank, p);
      var d: nat :| Reached(f, p, d);
      assert Reached(f, id, d + 1);
    }
  }

  /** A set of nodes, none a root, each with its parent in the set: a parent cycle and whatever
    * hangs from it. */
  predicate ClosedUnderParent(nodes: map<int, CategoryDto>, s: set<int>)
  {
    forall id | id in s :: id in nodes && !IsRoot(nodes, id) && nodes[id].parentId.value in s
  }

  lemma {:induction false} ClosedNeverReached(f: Forest, s: set<int>, id: int, depth: nat)
    requires RootsExact(f) && ChildrenExact(f) && ClosedUnderParent(f.nodes, s) && id in s
    ensures !Reached(f, id, depth)
    decreases depth
  {
    if depth > 0 {
      forall p | p in f.children && id in f.children[p]
        ensures !Reached(f, p, depth - 1)
      {
        ClosedNeverReached(f, s, p, depth - 1);
      }
    }
  }

  /** The nodes on a parent cycle, and every node that hangs from one, never appear in the forest. */
  lemma CycleAbsent(f: Forest, s: set<int>, id: int)
    requires RootsExact(f) && ChildrenExact(f) && ClosedUnderParent(f.nodes, s) && id in s
    ensures !InForest(f, id)
  {
    forall depth: nat
      ensures !Reached(f, id, depth)
    {
      ClosedNeverReached(f, s, id, depth);
    }
  }

  /** In particular a self-parented category is absent. */
  lemma SelfParentAbsent(f: Forest, id: int)
    requires RootsExact(f) && ChildrenExact(f) && id in f.nodes && id != 0 && f.nodes[id].parentId == Some(id)
    ensures !InForest(f, id)
  {
    assert ClosedUnderParent(f.nodes, {id});
    CycleAbsent(f, {id}, id);
  }

  /** The input categories' own `children` play no part: dropping them changes no stored node. */
  lemma {:induction false} InputChildrenIgnored(cs: seq<CategoryDto>, ds: seq<CategoryDto>)
    requires |cs| == |ds| && forall i :: 0 <= i < |cs| ==> cs[i].(children := []) == ds[i].(children := [])
    ensures Indexed(cs) == Indexed(ds) && FirstSeen(cs) == FirstSeen(ds)
  {
    if cs != [] {
      var n := |cs| - 1;
      InputChildrenIgnored(cs[..n], ds[..n]);
      assert cs[n].id == ds[n].id;
    }
  }
}

=== FILE: converters.dfy ===
/** The JPA attribute converters that store `OrderStatus` and `Role` as lower-case text and read
  * them back case-insensitively, falling back to a default for text that names no constant. */
module Converters {
  import opened Wrappers
  import opened Text
  import opened Enums

  /** `OrderStatus.valueOf` with the converter's fallback: the constant spelled `name`, else PENDING. */
  function ParseOrderStatus(name: string): (r: OrderStatus)
    ensures forall s :: OrderStatusName(s) == name ==> r == s
    ensures OrderStatusName(r) == name || (r == Pending && forall s :: OrderStatusName(s) != name)
  {
    if name == "CONFIRMED" then Confirmed
    else if name == "PROCESSING" then Processing
    else if name == "SHIPPED" then Shipped
    else if name == "DELIVERED" then Delivered
    else if name == "COMPLETED" then Completed
    else if name == "CANCELLED" then Cancelled
    else Pending
  }

  /** `OrderStatusConverter.convertToDatabaseColumn`. */
  function EncodeOrderStatus(s: Option<OrderStatus>): (r: Option<string>)
    ensures r.None? <==> s.None?
    ensures r.Some? ==> |r.value| == |OrderStatusName(s.value)| > 0
    ensures r.Some? ==> forall i :: 0 <= i < |r.value| ==> !IsUpper(r.value[i])
  {
    match s
    case None => None
    case Some(st) => Some(ToLower(OrderStatusName(st)))
  }

  /** `OrderStatusConverter.convertToEntityAttribute`. */
  function DecodeOrderStatus(db: Option<string>): (r: Option<OrderStatus>)
    ensures r.None? <==> (db.None? || db.value == "")
    ensures r.Some? ==> r.value == ParseOrderStatus(ToUpper(db.value))
  {
    if db.None? || db.value == "" then None else Some(ParseOrderStatus(ToUpper(db.value)))
  }

  /** Every status survives a write to the database column and a read back. */
  lemma OrderStatusRoundTrip(s: OrderStatus)
    ensures DecodeOrderStatus(EncodeOrderStatus(Some(s))) == Some(s)
  {
    var name := OrderStatusName(s);
    NamesUpperCase(s);
    UpperOfLower(name);
    assert ToUpper(ToLower(name)) == name;
  }

  lemma NamesUpperCase(s: OrderStatus)
    ensures forall i :: 0 <= i < |OrderStatusName(s)| ==> !IsLower(OrderStatusName(s)[i])
  {
    match s
    case Pending =>
    case Confirmed =>
    case Processing =>
    case Shipped =>
    case Delivered =>
    case Completed =>
    case Cancelled =>
  }

  /** Reading is case-insensitive: texts that agree after upper-casing decode alike. */
  lemma DecodeOrderStatusIgnoresCase(a: string, b: string)
    requires ToUpper(a) == ToUpper(b)
    ensures DecodeOrderStatus(Some(a)) == DecodeOrderStatus(Some(b))
  {
    assert |a| == |ToUpper(a)| == |b|;
  }

  /** Non-empty text that names no status, in any letter case, reads back as PENDING. */
  lemma DecodeOrderStatusFallback(text: string)
    requires text != ""
    requires forall s :: OrderStatusName(s) != ToUpper(text)
    ensures DecodeOrderStatus(Some(text)) == Some(Pending)
  {
  }

  /** `Role.valueOf` with the converter's fallback: the constant spelled `name`, else CUSTOMER. */
  function ParseRole(name: string): (r: Role)
    ensures forall x :: RoleName(x) == name ==> r == x
    ensures RoleName(r) == name || (r == Customer && forall x :: RoleName(x) != name)
  {
    if name == "ADMIN" then Admin else Customer
  }

  /** `RoleConverter.convertToDatabaseColumn`. */
  function EncodeRole(role: Option<Role>): (r: Option<string>)
    ensures r.None? <==> role.None?
    ensures r.Some? ==> |r.value| == |RoleName(role.value)| > 0
    ensures r.Some? ==> forall i :: 0 <= i < |r.value| ==> !IsUpper(r.value[i])
  {
    match role
    case None => None
    case Some(x) => Some(ToLower(RoleName(x)))
  }

  /** `RoleConverter.convertToEntityAttribute`. */
  function DecodeRole(db: Option<string>): (r: Option<Role>)
    ensures r.None? <==> (db.None? || db.value == "")
    ensures r.Some? ==> r.value == ParseRole(ToUpper(db.value))
  {
    if db.None? || db.value == "" then None else Some(ParseRole(ToUpper(db.value)))
  }

  /** Every role survives a write to the database column and a read back. */
  lemma RoleRoundTrip(x: Role)
    ensures DecodeRole(EncodeRole(Some(x))) == Some(x)
  {
    UpperOfLower(RoleName(x));
  }

  /** Non-empty text that names no role, in any letter case, reads back as CUSTOMER. */
  lemma DecodeRoleFallback(text: string)
    requires text != ""
    requires forall x :: RoleName(x) != ToUpper(text)
    ensures DecodeRole(Some(text)) == Some(Customer)
  {
  }
}

=== FILE: enums.dfy ===
/** The enumerations shared by the backend entities and the admin frontend. */
module Enums {
  datatype OrderStatus = Pending | Confirmed | Processing | Shipped | Delivered | Completed | Cancelled
  datatype PaymentStatus = PaymentPending | Paid | Failed | Refunded
  datatype PaymentMethod = Cod | BankTransfer
  datatype Role = Customer | Admin

  /** `OrderStatus.name()`: the Java constant's spelling. */
  function OrderStatusName(s: OrderStatus): string
  {
    match s
    case Pending => "PENDING"
    case Confirmed => "CONFIRMED"
    case Processing => "PROCESSING"
    case Shipped => "SHIPPED"
    case Delivered => "DELIVERED"
    case Completed => "COMPLETED"
    case Cancelled => "CANCELLED"
  }

  /** `Role.name()`. */
  function RoleName(r: Role): string
  {
    match r
    case Customer => "CUSTOMER"
    case Admin => "ADMIN"
  }
}

=== FILE: error_handler.dfy ===
/** The REST layer's translation of exceptions into HTTP error responses: the duplicate-key
  * message parser and the two classifiers keyed on the exception message. */
module ErrorHandler {
  import opened Wrappers
  import opened Text

  /** Status code and user-facing message of an error response (`message` may be null). */
  datatype ErrorResponse = ErrorResponse(status: int, message: Option<string>)

  const DuplicateKeyMarker: string := "The duplicate key value is ("
  const DuplicateKeyEnd: string := ")."

  const ConstraintViolated: string := "Dữ liệu vi phạm ràng buộc"
  const DuplicateSku: string := "Đã có sản phẩm với SKU này rồi"
  const DuplicateEmail: string := "Email này đã được sử dụng"
  const DuplicateSlug: string := "Slug này đã tồn tại, vui lòng chọn slug khác"
  const AccountGone: string := "Tài khoản không tồn tại hoặc đã bị xóa"
  const UserNotFound: string := "User not found"

  /** The duplicate-SKU message naming the offending value. */
  function DuplicateSkuNamed(sku: string): (r: string)
    ensures |r| > 0 && r[0] == 'Đ' && r != DuplicateSku
  {
    var r := "Đã có sản phẩm với SKU '" + sku + "' này rồi";
    assert r[23] == '\'' && DuplicateSku[23] == 'n';
    r
  }

  /** `i` is the first place `pat` occurs in `s`. */
  predicate FirstOccurrence(s: string, pat: string, i: int)
  {
    OccursAt(s, pat, i) && forall j :: 0 <= j < i ==> !OccursAt(s, pat, j)
  }

  /** The text between the first occurrence of `open` and the next occurrence of `close` after it. */
  function TextBetween(s: string, open: string, close: string): Option<string>
  {
    var start := IndexOf(s, open, 0);
    if start == -1 then None
    else
      var from := start + |open|;
      var end := IndexOf(s, close, from);
      if end == -1 then None else Some(s[from..end])
  }

  /** `extractDuplicateValue`: the text between the first duplicate-key marker and the next ")." after it. */
  function ExtractDuplicateValue(message: string): Option<string>
  {
    TextBetween(message, DuplicateKeyMarker, DuplicateKeyEnd)
  }

  /** A value found between `open` and `close` sits right after the first `open` and right before a
    * `close` that is the first one after it. */
  lemma {:induction false} BetweenPosition(s: string, open: string, close: string)
    requires TextBetween(s, open, close).Some?
    ensures var v := TextBetween(s, open, close).value;
            (exists i :: FirstOccurrence(s, open, i) && OccursAt(s, open + v + close, i))
            && forall k :: 0 <= k < |v| ==> !OccursAt(v + close, close, k)
  {
    var start := IndexOf(s, open, 0);
    assert FirstOccurrence(s, open, start);
    var from := start + |open|;
    var end := IndexOf(s, close, from);
    OccursAround(s, open, close, start, end);
    NoEarlierClose(s, close, from, end);
  }

  /** An `open` at `start` and a `close` at `end` frame the text between them. */
  lemma {:induction false} OccursAround(s: string, open: string, close: string, start: int, end: int)
    requires OccursAt(s, open, start) && OccursAt(s, close, end) && start + |open| <= end
    ensures OccursAt(s, open + s[start + |open|..end] + close, start)
  {
    var from := start + |open|;
    var n := end + |close|;
    assert s[start..n] == s[start..from] + s[from..end] + s[end..n];
  }

  /** No `close` starting before `end` in `s` means none starts inside the text before it once
    * that text is followed by `close`. */
  lemma {:induction false} NoEarlierClose(s: string, close: string, from: int, end: int)
    requires 0 <= from <= end && OccursAt(s, close, end)
    requires forall i :: from <= i < end ==> !OccursAt(s, close, i)
    ensures forall k :: 0 <= k < end - from ==> !OccursAt(s[from..end] + close, close, k)
  {
    var v := s[from..end];
    var n := end + |close|;
    assert s[from..n] == v + close by {
      assert s[from..n] == s[from..end] + s[end..n];
    }
    forall k | 0 <= k < |v|
      ensures !OccursAt(v + close, close, k)
    {
      if k + |close| <= |v + close| {
        var a, b := s[from..n][k..k + |close|], s[from + k..from + k + |close|];
        assert forall t | 0 <= t < |close| :: a[t] == b[t];
        assert (v + close)[k..k + |close|] == a == b;
      }
      assert !OccursAt(s, close, from + k);
    }
  }

  /** Nothing is found exactly when `open` is missing or no `close` follows the first `open`. */
  lemma {:induction false} BetweenMissing(s: string, open: string, close: string)
    ensures TextBetween(s, open, close).None? <==>
              ((forall i :: !OccursAt(s, open, i))
               || (exists i :: FirstOccurrence(s, open, i) && forall j :: i + |open| <= j ==> !OccursAt(s, close, j)))
  {
    var start := IndexOf(s, open, 0);
    if start != -1 {
      assert FirstOccurrence(s, open, start);
      forall i | FirstOccurrence(s, open, i)
        ensures i == start
      {
      }
    }
  }

  /** Text rendered as prefix, `open`, value, `close` and suffix gives the value back, provided `open`
    * does not start inside the prefix and the value never holds the first character of `close`. */
  lemma {:induction false} BetweenRendered(prefix: string, open: string, value: string, close: string, suffix: string)
    requires |close| > 0
    requires forall i :: 0 <= i < |prefix| ==> !OccursAt(prefix + open + value + close + suffix, open, i)
    requires forall k :: 0 <= k < |value| ==> value[k] != close[0]
    ensures TextBetween(prefix + open + value + close + suffix, open, close) == Some(value)
  {
    var m := prefix + open + value + close + suffix;
    var from := |prefix| + |open|;
    var end := from + |value|;
    RenderedPieces(prefix, open, value, close, suffix);
    NoCloseWithin(m, close, from, end, value);
    BetweenAt(m, open, close, |prefix|, end);
  }

  /** A text whose first `open` is at `p` and whose first `close` after it is at `end` yields what
    * lies between them. */
  lemma {:induction false} BetweenAt(m: string, open: string, close: string, p: nat, end: int)
    requires OccursAt(m, open, p) && forall i :: 0 <= i < p ==> !OccursAt(m, open, i)
    requires p + |open| <= end && OccursAt(m, close, end)
    requires forall j :: p + |open| <= j < end ==> !OccursAt(m, close, j)
    ensures TextBetween(m, open, close) == Some(m[p + |open|..end])
  {
    IndexOfFirst(m, open, 0, p);
    IndexOfFirst(m, close, p + |open|, end);
  }

  /** No `close` starts inside a stretch of text that holds no first character of `close`. */
  lemma {:induction false} NoCloseWithin(m: string, close: string, from: int, end: int, value: string)
    requires |close| > 0 && 0 <= from <= end <= |m| && m[from..end] == value
    requires forall k :: 0 <= k < |value| ==> value[k] != close[0]
    ensures forall j :: from <= j < end ==> !OccursAt(m, close, j)
  {
    forall j | from <= j < end
      ensures !OccursAt(m, close, j)
    {
      assert m[j] == value[j - from];
      if j + |close| <= |m| {
        assert m[j..j + |close|][0] == m[j];
      }
    }
  }

  /** Where each piece of a rendered text sits. */
  lemma {:induction false} RenderedPieces(prefix: string, open: string, value: string, close: string, suffix: string)
    ensures var m := prefix + open + value + close + suffix;
            var from := |prefix| + |open|;
            var end := from + |value|;
            |m| == end + |close| + |suffix| && m[|prefix|..from] == open && m[from..end] == value
            && m[end..end + |close|] == close
  {
    var m := prefix + open + value + close + suffix;
    var from := |prefix| + |open|;
    var end := from + |value|;
    assert m == (prefix + open) + value + (close + suffix);
    assert m[|prefix|..from] == open;
    assert m[from..end] == value;
    assert m[end..end + |close|] == close;
  }

  /** The duplicate SKU named in a SQL Server message of the usual shape is recovered exactly. */
  lemma ExtractFromServerMessage(prefix: string, sku: string, suffix: string)
    requires forall i :: 0 <= i < |prefix| ==> !OccursAt(prefix + DuplicateKeyMarker + sku + DuplicateKeyEnd + suffix, DuplicateKeyMarker, i)
    requires forall k :: 0 <= k < |sku| ==> sku[k] != ')'
    ensures ExtractDuplicateValue(prefix + DuplicateKeyMarker + sku + DuplicateKeyEnd + suffix) == Some(sku)
  {
    BetweenRendered(prefix, DuplicateKeyMarker, sku, DuplicateKeyEnd, suffix);
  }

  /** `handleDataIntegrityViolation`: always 409, with the first matching duplicate-key explanation. */
  function HandleDataIntegrityViolation(message: Option<string>): (r: ErrorResponse)
    ensures r.status == 409 && r.message.Some?
    ensures r.message == Some(ConstraintViolated) <==>
              message.None? || !((Contains(message.value, "product_variants") && Contains(message.value, "sku"))
                                 || (Contains(message.value, "users") && Contains(message.value, "email"))
                                 || (Contains(message.value, "products") && Contains(message.value, "slug")))
    ensures r.message == Some(DuplicateEmail) <==>
              message.Some? && !(Contains(message.value, "product_variants") && Contains(message.value, "sku"))
              && Contains(message.value, "users") && Contains(message.value, "email")
    ensures message.Some? && Contains(message.value, "product_variants") && Contains(message.value, "sku") ==>
              r.message == Some(if ExtractDuplicateValue(message.value).Some?
                                then DuplicateSkuNamed(ExtractDuplicateValue(message.value).value)
                                else DuplicateSku)
    ensures message.Some? && !(Contains(message.value, "product_variants") && Contains(message.value, "sku"))
              && !(Contains(message.value, "users") && Contains(message.value, "email"))
              && Contains(message.value, "products") && Contains(message.value, "slug") ==>
              r.message == Some(DuplicateSlug)
  {
    var userMessage :=
      if message.Some? && Contains(message.value, "product_variants") && Contains(message.value, "sku") then
        var sku := ExtractDuplicateValue(message.value);
        if sku.Some? then DuplicateSkuNamed(sku.value) else DuplicateSku
      else if message.Some? && Contains(message.value, "users") && Contains(message.value, "email") then
        DuplicateEmail
      else if message.Some? && Contains(message.value, "products") && Contains(message.value, "slug") then
        DuplicateSlug
      else
        ConstraintViolated;
    ErrorResponse(409, Some(userMessage))
  }

  /** A SQL Server duplicate-key message on the variants' SKU column is answered with the SKU it names. */
  lemma ServerMessageNamesSku(prefix: string, sku: string, suffix: string)
    requires forall i :: 0 <= i < |prefix| ==> !OccursAt(prefix + DuplicateKeyMarker + sku + DuplicateKeyEnd + suffix, DuplicateKeyMarker, i)
    requires forall k :: 0 <= k < |sku| ==> sku[k] != ')'
    requires var m := prefix + DuplicateKeyMarker + sku + DuplicateKeyEnd + suffix;
             Contains(m, "product_variants") && Contains(m, "sku")
    ensures HandleDataIntegrityViolation(Some(prefix + DuplicateKeyMarker + sku + DuplicateKeyEnd + suffix))
              == ErrorResponse(409, Some(DuplicateSkuNamed(sku)))
  {
    ExtractFromServerMessage(prefix, sku, suffix);
  }

  /** `handleRuntimeException`: 400 for any message mentioning "SKU", 401 for exactly "User not found",
    * otherwise 500 carrying the original message. */
  function HandleRuntimeException(message: Option<string>): (r: ErrorResponse)
    ensures r.status == 400 <==> message.Some? && Contains(message.value, "SKU")
    ensures r.status == 400 ==> r.message == Some(DuplicateSku)
    ensures r.status == 401 <==> message == Some(UserNotFound)
    ensures r.status == 401 ==> r.message == Some(AccountGone)
    ensures r.status == 400 || r.status == 401 || (r.status == 500 && r.message == message)
  {
    UserNotFoundMentionsNoSku();
    if message.Some? && Contains(message.value, "SKU") then ErrorResponse(400, Some(DuplicateSku))
    else if message == Some(UserNotFound) then
      ErrorResponse(401, Some(AccountGone))
    else ErrorResponse(500, message)
  }

  lemma UserNotFoundMentionsNoSku()
    ensures !Contains(UserNotFound, "SKU")
  {
    forall i | 0 <= i <= |UserNotFound| - 3
      ensures !OccursAt(UserNotFound, "SKU", i)
    {
      assert UserNotFound[i..i + 3][0] == UserNotFound[i] != 'S';
    }
  }

  /** Any message that mentions a SKU containing "SKU" is answered as a duplicate SKU, whatever
    * the failure was: an insufficient-stock message naming "SKU-001" gets status 400. */
  lemma MessagesNamingSkuReadAsDuplicate(prefix: string, sku: string, suffix: string)
    requires Contains(sku, "SKU")
    ensures HandleRuntimeException(Some(prefix + sku + suffix)).status == 400
  {
    var i :| 0 <= i <= |sku| - 3 && OccursAt(sku, "SKU", i);
    var m := prefix + sku + suffix;
    assert m[|prefix| + i..|prefix| + i + 3] == sku[i..i + 3];
    assert OccursAt(m, "SKU", |prefix| + i);
  }
}

=== FILE: image_editor.dfy ===
/** The product form's image editor (`ImageUpload`): file checks, adding an uploaded image, and the
  * list edits that keep `sortOrder` equal to position and at most one image primary. */
module ImageEditor {
  import opened Wrappers
  import opened Text
  import opened Seqs

  /** `CreateImageRequest` as the product form holds it. */
  datatype FormImage = FormImage(imageUrl: string, altText: string, sortOrder: int, isPrimary: bool)

  /** A file the admin picked: its MIME type, size in bytes and name. */
  datatype PickedFile = PickedFile(mimeType: string, size: int, name: string)

  const MaxFileSize: int := 5 * 1024 * 1024
  const AllowedTypes: seq<string> := ["image/jpeg", "image/png", "image/webp", "image/gif"]
  const WrongType: string := "Chỉ chấp nhận file ảnh (JPEG, PNG, WebP, GIF)"
  const TooLarge: string := "Kích thước file không được vượt quá 5MB"

  /** `validateFile`: None when the file is accepted, else the error toast; the type is checked first. */
  function ValidateFile(file: PickedFile): (error: Option<string>)
    ensures error.None? <==> file.mimeType in AllowedTypes && file.size <= MaxFileSize
    ensures file.mimeType !in AllowedTypes ==> error == Some(WrongType)
    ensures file.mimeType in AllowedTypes && file.size > MaxFileSize ==> error == Some(TooLarge)
  {
    if file.mimeType !in AllowedTypes then Some(WrongType)
    else if file.size > MaxFileSize then Some(TooLarge)
    else None
  }

  /** `name.split('.')[0]`: the text before the first dot, or all of it. */
  function BeforeFirstDot(name: string): (r: string)
    ensures r <= name && '.' !in r
    ensures r == name || name[|r|] == '.'
  {
    if name == [] || name[0] == '.' then [] else [name[0]] + BeforeFirstDot(name[1..])
  }

  // ---------------------------------------------------------------- list invariants

  /** Every image's `sortOrder` is its position. */
  predicate Numbered(images: seq<FormImage>)
  {
    forall i :: 0 <= i < |images| ==> images[i].sortOrder == i
  }

  predicate AtMostOnePrimary(images: seq<FormImage>)
  {
    forall i, j :: 0 <= i < j < |images| && images[i].isPrimary ==> !images[j].isPrimary
  }

  predicate HasPrimary(images: seq<FormImage>)
  {
    exists i :: 0 <= i < |images| && images[i].isPrimary
  }

  /** The editor's own invariant: numbered, and exactly one primary image unless the list is empty. */
  predicate WellFormed(images: seq<FormImage>)
  {
    Numbered(images) && AtMostOnePrimary(images) && (images != [] ==> HasPrimary(images))
  }

  // ---------------------------------------------------------------- upload

  /** The image `handleUpload` builds from the upload's URL: placed last, primary only in an empty list. */
  function NewImage(images: seq<FormImage>, url: string, file: PickedFile): (img: FormImage)
    ensures img.sortOrder == |images|
    ensures img.isPrimary <==> images == []
  {
    FormImage(url, BeforeFirstDot(file.name), |images|, |images| == 0)
  }

  /** `handleUpload`: the list handed to `onChange`, or None when the file is refused or the upload
    * (`uploaded`, the URL the server returned) fails. */
  function HandleUpload(images: seq<FormImage>, file: PickedFile, uploaded: Option<string>): (r: Option<seq<FormImage>>)
    ensures r.Some? <==> ValidateFile(file).None? && uploaded.Some?
    ensures r.Some? ==> r.value == images + [NewImage(images, uploaded.value, file)]
  {
    if ValidateFile(file).Some? then None
    else if uploaded.None? then None
    else Some(images + [NewImage(images, uploaded.value, file)])
  }

  /** One upload keeps the editor's invariant. */
  lemma UploadKeepsWellFormed(images: seq<FormImage>, file: PickedFile, url: string)
    requires WellFormed(images)
    requires ValidateFile(file).None?
    ensures WellFormed(HandleUpload(images, file, Some(url)).value)
  {
    var r := images + [NewImage(images, url, file)];
    if images != [] {
      var k :| 0 <= k < |images| && images[k].isPrimary;
      assert r[k].isPrimary;
    } else {
      assert r[0].isPrimary;
    }
  }

  // ---------------------------------------------------------------- renumbering

  /** The `forEach` that sets each image's `sortOrder` to its position. */
  method Renumber(images: seq<FormImage>) returns (r: seq<FormImage>)
    ensures |r| == |images|
    ensures forall i :: 0 <= i < |r| ==> r[i] == images[i].(sortOrder := i)
    ensures Numbered(r)
  {
    r := images;
    for i := 0 to |r|
      invariant |r| == |images|
      invariant forall j :: 0 <= j < i ==> r[j] == images[j].(sortOrder := j)
      invariant forall j :: i <= j < |r| ==> r[j] == images[j]
    {
      r := r[i := r[i].(sortOrder := i)];
    }
  }

  // ---------------------------------------------------------------- remove

  /** Where the image at position `i` after removing `index` came from. */
  function Origin(index: nat, i: nat): nat
  {
    if i < index then i else i + 1
  }

  /** `removeImage`: the image at `index` leaves; if it was primary, the new first image becomes
    * primary; the rest are renumbered. */
  method RemoveImage(images: seq<FormImage>, index: nat) returns (r: seq<FormImage>)
    requires index < |images|
    ensures |r| == |images| - 1 && Numbered(r)
    ensures forall i :: 0 <= i < |r| ==>
      r[i].imageUrl == images[Origin(index, i)].imageUrl && r[i].altText == images[Origin(index, i)].altText
    ensures forall i :: 0 < i < |r| ==> r[i].isPrimary == images[Origin(index, i)].isPrimary
    ensures |r| > 0 ==> (r[0].isPrimary <==> images[Origin(index, 0)].isPrimary || images[index].isPrimary)
    ensures WellFormed(images) ==> WellFormed(r)
  {
    var kept := images[..index] + images[index + 1..];
    assert forall i :: 0 <= i < |kept| ==> kept[i] == images[Origin(index, i)];
    if images[index].isPrimary && |kept| > 0 {
      kept := kept[0 := kept[0].(isPrimary := true)];
    }
    r := Renumber(kept);
    if WellFormed(images) {
      RemoveKeepsWellFormed(images, index, r);
    }
  }

  /** Removing an image from a well-formed list leaves a well-formed list. */
  lemma RemoveKeepsWellFormed(images: seq<FormImage>, index: nat, r: seq<FormImage>)
    requires WellFormed(images) && index < |images|
    requires |r| == |images| - 1 && Numbered(r)
    requires forall i :: 0 < i < |r| ==> r[i].isPrimary == images[Origin(index, i)].isPrimary
    requires |r| > 0 ==> (r[0].isPrimary <==> images[Origin(index, 0)].isPrimary || images[index].isPrimary)
    ensures WellFormed(r)
  {
    if r != [] {
      var k :| 0 <= k < |images| && images[k].isPrimary;
      if k == index {
        assert r[0].isPrimary;
        forall i | 0 < i < |r|
          ensures !r[i].isPrimary
        {
          assert Origin(index, i) != k;
        }
      } else {
        var p := if k < index then k else k - 1;
        assert Origin(index, p) == k;
        assert r[p].isPrimary;
        forall i | 0 <= i < |r| && i != p
          ensures !r[i].isPrimary
        {
          assert Origin(index, i) != k;
          assert !images[index].isPrimary;
        }
      }
    }
  }

  // ---------------------------------------------------------------- set primary

  /** `setPrimary`: image `index` becomes the only primary one; nothing else changes. */
  function SetPrimary(images: seq<FormImage>, index: int): (r: seq<FormImage>)
    ensures |r| == |images|
    ensures forall i :: 0 <= i < |r| ==> (r[i].isPrimary <==> i == index)
    ensures forall i :: 0 <= i < |r| ==> r[i].(isPrimary := images[i].isPrimary) == images[i]
  {
    seq(|images|, i requires 0 <= i < |images| => images[i].(isPrimary := i == index))
  }

  /** Choosing an image as primary keeps the list well formed. */
  lemma SetPrimaryKeepsWellFormed(images: seq<FormImage>, index: nat)
    requires WellFormed(images) && index < |images|
    ensures WellFormed(SetPrimary(images, index))
  {
    assert SetPrimary(images, index)[index].isPrimary;
  }

  // ---------------------------------------------------------------- move

  /** `moveImage`: None at a boundary (the list stays as it was and `onChange` is not called);
    * otherwise the swapped and renumbered list. */
  method MoveImage(images: seq<FormImage>, index: nat, d: Direction) returns (r: Option<seq<FormImage>>)
    requires index < |images|
    ensures r.None? <==> AtBoundary(|images|, index, d)
    ensures r.Some? ==>
      var t := Target(index, d);
      0 <= t < |images| && |r.value| == |images| && Numbered(r.value)
      && r.value[index] == images[t].(sortOrder := index) && r.value[t] == images[index].(sortOrder := t)
      && forall k :: 0 <= k < |images| && k != index && k != t ==> r.value[k] == images[k].(sortOrder := k)
    ensures r.Some? && WellFormed(images) ==> WellFormed(r.value)
  {
    if d == Up && index == 0 {
      return None;
    }
    if d == Down && index == |images| - 1 {
      return None;
    }
    var t := Target(index, d);
    var swapped := Swap(images, index, t);
    var renumbered := Renumber(swapped);
    r := Some(renumbered);
    if WellFormed(images) {
      MoveKeepsWellFormed(images, renumbered, index, t);
    }
  }

  /** A move keeps the one primary image, now at its new position. */
  lemma MoveKeepsWellFormed(images: seq<FormImage>, moved: seq<FormImage>, index: nat, t: nat)
    requires WellFormed(images) && index < |images| && t < |images| && |moved| == |images| && Numbered(moved)
    requires moved[index] == images[t].(sortOrder := index) && moved[t] == images[index].(sortOrder := t)
    requires forall k :: 0 <= k < |images| && k != index && k != t ==> moved[k] == images[k].(sortOrder := k)
    ensures WellFormed(moved)
  {
    forall i, j | 0 <= i < j < |moved| && moved[i].isPrimary
      ensures !moved[j].isPrimary
    {
      var oi := if i == index then t else if i == t then index else i;
      var oj := if j == index then t else if j == t then index else j;
      assert moved[i].isPrimary == images[oi].isPrimary && moved[j].isPrimary == images[oj].isPrimary;
      assert oi != oj;
    }
    if images != [] {
      var k :| 0 <= k < |images| && images[k].isPrimary;
      var m := if k == index then t else if k == t then index else k;
      assert moved[m].isPrimary;
    }
  }

  /** The images with their `sortOrder` blanked: what a move must keep as a multiset. */
  function Unnumbered(images: seq<FormImage>): (r: seq<FormImage>)
    ensures |r| == |images|
  {
    seq(|images|, i requires 0 <= i < |images| => images[i].(sortOrder := 0))
  }

  /** A move neither loses nor duplicates an image, and moving back restores the original order. */
  lemma MovePermutes(images: seq<FormImage>, moved: seq<FormImage>, index: nat, t: nat)
    requires index < |images| && t < |images| && |moved| == |images|
    requires moved[index] == images[t].(sortOrder := index) && moved[t] == images[index].(sortOrder := t)
    requires forall k :: 0 <= k < |images| && k != index && k != t ==> moved[k] == images[k].(sortOrder := k)
    ensures Unnumbered(moved) == Swap(Unnumbered(images), index, t)
    ensures multiset(Unnumbered(moved)) == multiset(Unnumbered(images))
    ensures Swap(Unnumbered(moved), index, t) == Unnumbered(images)
  {
    SwapFacts(Unnumbered(images), index, t);
  }

  // ---------------------------------------------------------------- image URLs

  /** The default API base URL of the admin pages. */
  const DefaultApiBase: string := "http://localhost:8080/api/v1"

  /** `getImageUrl`: absolute URLs (any starting with "http") unchanged; others prefixed with the API
    * base URL without its first "/api/v1". */
  function ImageUrl(apiBase: string, url: string): (r: string)
    ensures StartsWith(url, "http") ==> r == url
    ensures !StartsWith(url, "http") ==> r == ReplaceFirst(apiBase, "/api/v1", "") + url && EndsWith(r, url)
  {
    if StartsWith(url, "http") then url else ReplaceFirst(apiBase, "/api/v1", "") + url
  }

  /** For a base of the form origin + "/api/v1" whose origin has no "/a" in it (as a URL origin
    * such as "https://shop.example.com:8443" has none), a stored path is served from the origin. */
  lemma ServedFromOrigin(origin: string, url: string)
    requires forall i :: 0 <= i < |origin| - 1 ==> origin[i] != '/' || origin[i + 1] != 'a'
    requires !StartsWith(url, "http")
    ensures ImageUrl(origin + "/api/v1", url) == origin + url
  {
    var base, pat := origin + "/api/v1", "/api/v1";
    NoApiInOrigin(origin);
    assert base[|origin|..] == pat;
    IndexOfFirst(base, pat, 0, |origin|);
    assert base[..|origin|] == origin && base[|origin| + |pat|..] == [];
    assert ReplaceFirst(base, pat, "") == origin;
  }

  /** "/api/v1" first occurs in origin + "/api/v1" where the origin ends. */
  lemma NoApiInOrigin(origin: string)
    requires forall i :: 0 <= i < |origin| - 1 ==> origin[i] != '/' || origin[i + 1] != 'a'
    ensures forall i :: 0 <= i < |origin| ==> !OccursAt(origin + "/api/v1", "/api/v1", i)
  {
    var base, pat := origin + "/api/v1", "/api/v1";
    forall i | 0 <= i < |origin|
      ensures !OccursAt(base, pat, i)
    {
      assert base[i] == origin[i];
      if i < |origin| - 1 {
        assert base[i + 1] == origin[i + 1];
      } else {
        assert base[i + 1] == '/';
      }
      if i + |pat| <= |base| {
        assert base[i..i + |pat|][0] == base[i] && base[i..i + |pat|][1] == base[i + 1];
      }
    }
  }

  /** The default base: a stored path such as "/uploads/a.png" is served from "http://localhost:8080". */
  lemma DefaultServedFromLocalhost(url: string)
    requires !StartsWith(url, "http")
    ensures ImageUrl(DefaultApiBase, url) == "http://localhost:8080" + url
  {
    var origin := "http://localhost:8080";
    assert DefaultApiBase == origin + "/api/v1";
    forall i | 0 <= i < |origin| - 1
      ensures origin[i] != '/' || origin[i + 1] != 'a'
    {
      if origin[i] == '/' {
        assert i == 5 || i == 6;
      }
    }
    ServedFromOrigin(origin, url);
  }

  // ---------------------------------------------------------------- several files at once

  /** One finished upload: the file and the URL the server returned, or None when it failed. */
  datatype Upload = Upload(file: PickedFile, url: Option<string>)

  /** Several files picked or dropped together, as written: every `handleUpload` builds its list
    * from the `images` of the moment the files were picked, so each `onChange` replaces the
    * previous one; `done` lists the uploads in the order they finish. */
  function BatchAsWritten(images: seq<FormImage>, done: seq<Upload>): seq<FormImage>
  {
    if done == [] then images
    else
      var r := HandleUpload(images, done[|done| - 1].file, done[|done| - 1].url);
      if r.Some? then r.value else BatchAsWritten(images, done[..|done| - 1])
  }

  /** Two images dropped on an empty editor: only the one whose upload finishes last is kept. */
  lemma BatchKeepsOnlyLast(a: PickedFile, b: PickedFile, urlA: string, urlB: string)
    requires ValidateFile(a).None? && ValidateFile(b).None?
    ensures BatchAsWritten([], [Upload(a, Some(urlA)), Upload(b, Some(urlB))]) == [NewImage([], urlB, b)]
  {
  }

  /** The same batch with each upload appended to the list as it stands when the upload finishes. */
  function BatchCorrected(images: seq<FormImage>, done: seq<Upload>): seq<FormImage>
  {
    if done == [] then images
    else
      var before := BatchCorrected(images, done[..|done| - 1]);
      var r := HandleUpload(before, done[|done| - 1].file, done[|done| - 1].url);
      if r.Some? then r.value else before
  }

  /** The number of uploads in a batch that the editor accepts. */
  function Accepted(done: seq<Upload>): nat
  {
    if done == [] then 0
    else Accepted(done[..|done| - 1])
         + (if ValidateFile(done[|done| - 1].file).None? && done[|done| - 1].url.Some? then 1 else 0)
  }

  /** The corrected batch keeps every accepted upload, in finishing order after the existing images,
    * and keeps the list well formed. */
  lemma {:induction false} BatchCorrectedKeepsAll(images: seq<FormImage>, done: seq<Upload>)
    requires WellFormed(images)
    ensures |BatchCorrected(images, done)| == |images| + Accepted(done)
    ensures BatchCorrected(images, done)[..|images|] == images
    ensures WellFormed(BatchCorrected(images, done))
  {
    if done != [] {
      var n := |done| - 1;
      BatchCorrectedKeepsAll(images, done[..n]);
      var before := BatchCorrected(images, done[..n]);
      if HandleUpload(before, done[n].file, done[n].url).Some? {
        UploadKeepsWellFormed(before, done[n].file, done[n].url.value);
        assert (before + [NewImage(before, done[n].url.value, done[n].file)])[..|images|] == before[..|images|];
      }
    }
  }
}

=== FILE: inventory.dfy ===
/** `InventoryService`: the per-variant stock counter and its append-only transaction log. */
module Inventory {
  import opened Wrappers
  import opened Text
  import opened Catalog
  import opened Store

  const OrderDeducted: string := "Order created - Stock deducted"
  const OrderReturned: string := "Order cancelled - Stock returned"

  function InsufficientForVariant(sku: string, available: int, required: int): string
  {
    "Insufficient stock for variant: " + sku + ". Available: " + IntToString(available) + ", Required: " + IntToString(required)
  }

  function InsufficientStock(available: int): string
  {
    "Insufficient stock. Available: " + IntToString(available)
  }

  /** The variant map after changing one variant's stock by `delta`. */
  function StockChanged(variants: map<int, Variant>, id: int, delta: int): map<int, Variant>
    requires id in variants
  {
    variants[id := variants[id].(stock := variants[id].stock + delta)]
  }

  /** The log row recording that change, with the balance after it. */
  function LogRow(variants: map<int, Variant>, id: int, delta: int, reason: string, orderCode: Option<string>): StockTx
    requires id in variants
  {
    StockTx(id, delta, reason, orderCode, variants[id].stock + delta)
  }

  /** Applies a logged change: the shared last step of the four stock-changing operations. */
  method ApplyLogged(db: Db, id: int, delta: int, reason: string, orderCode: Option<string>)
    requires id in db.variants
    modifies db`variants, db`ledger
    ensures db.variants == StockChanged(old(db.variants), id, delta)
    ensures db.ledger == old(db.ledger) + [LogRow(old(db.variants), id, delta, reason, orderCode)]
  {
    var row := LogRow(db.variants, id, delta, reason, orderCode);
    db.variants := StockChanged(db.variants, id, delta);
    db.ledger := db.ledger + [row];
  }

  /** `deductStockForOrder`: refuses when stock is short, otherwise takes `quantity` off and logs it
    * against the order. */
  method DeductStockForOrder(db: Db, id: int, quantity: int, orderCode: string) returns (r: Outcome<()>)
    requires id in db.variants
    modifies db`variants, db`ledger
    ensures r.Ok? <==> old(db.variants[id].stock) >= quantity
    ensures r.Err? ==> r.error == Rejected(InsufficientForVariant(old(db.variants[id].sku), old(db.variants[id].stock), quantity))
    ensures r.Err? ==> db.variants == old(db.variants) && db.ledger == old(db.ledger)
    ensures r.Ok? ==> db.variants == StockChanged(old(db.variants), id, -quantity) && db.variants[id].stock >= 0
    ensures r.Ok? ==> db.ledger == old(db.ledger) + [LogRow(old(db.variants), id, -quantity, OrderDeducted, Some(orderCode))]
  {
    var v := db.variants[id];
    if v.stock < quantity {
      return Err(Rejected(InsufficientForVariant(v.sku, v.stock, quantity)));
    }
    ApplyLogged(db, id, -quantity, OrderDeducted, Some(orderCode));
    r := Ok(());
  }

  /** `returnStockForCancelledOrder`: puts `quantity` back and logs it against the order. */
  method ReturnStockForCancelledOrder(db: Db, id: int, quantity: int, orderCode: string)
    requires id in db.variants
    modifies db`variants, db`ledger
    ensures db.variants == StockChanged(old(db.variants), id, quantity)
    ensures db.ledger == old(db.ledger) + [LogRow(old(db.variants), id, quantity, OrderReturned, Some(orderCode))]
  {
    ApplyLogged(db, id, quantity, OrderReturned, Some(orderCode));
  }

  /** `addStock`: adds `quantity` and logs it with the caller's reason and no order. */
  method AddStock(db: Db, id: int, quantity: int, reason: string)
    requires id in db.variants
    modifies db`variants, db`ledger
    ensures db.variants == StockChanged(old(db.variants), id, quantity)
    ensures db.ledger == old(db.ledger) + [LogRow(old(db.variants), id, quantity, reason, None)]
  {
    ApplyLogged(db, id, quantity, reason, None);
  }

  /** `deductStock`: refuses when stock is short, otherwise takes `quantity` off and logs it with the
    * caller's reason and no order. */
  method DeductStock(db: Db, id: int, quantity: int, reason: string) returns (r: Outcome<()>)
    requires id in db.variants
    modifies db`variants, db`ledger
    ensures r.Ok? <==> old(db.variants[id].stock) >= quantity
    ensures r.Err? ==> r.error == Rejected(InsufficientStock(old(db.variants[id].stock)))
    ensures r.Err? ==> db.variants == old(db.variants) && db.ledger == old(db.ledger)
    ensures r.Ok? ==> db.variants == StockChanged(old(db.variants), id, -quantity) && db.variants[id].stock >= 0
    ensures r.Ok? ==> db.ledger == old(db.ledger) + [LogRow(old(db.variants), id, -quantity, reason, None)]
  {
    var v := db.variants[id];
    if v.stock < quantity {
      return Err(Rejected(InsufficientStock(v.stock)));
    }
    ApplyLogged(db, id, -quantity, reason, None);
    r := Ok(());
  }

  /** `hasEnoughStock`: false for a variant the lookup does not find. */
  function HasEnoughStock(variants: map<int, Variant>, id: int, requested: int): (b: bool)
    ensures b ==> LiveVariant(variants, id)
    ensures LiveVariant(variants, id) ==> (b <==> CurrentStock(variants, id) >= requested)
  {
    LiveVariant(variants, id) && variants[id].stock >= requested
  }

  /** `getCurrentStock`: 0 for a variant the lookup does not find. */
  function CurrentStock(variants: map<int, Variant>, id: int): (n: int)
    ensures n != 0 ==> LiveVariant(variants, id)
    ensures (forall k :: k in variants ==> variants[k].stock >= 0) ==> n >= 0
  {
    if LiveVariant(variants, id) then variants[id].stock else 0
  }

  /** The two read paths agree on found variants and are lenient in different ways on missing
    * ones: the stock reads as 0, yet not even 0 units count as enough. */
  lemma ReadPathsAgree(variants: map<int, Variant>, id: int, requested: int)
    ensures HasEnoughStock(variants, id, requested) <==> LiveVariant(variants, id) && CurrentStock(variants, id) >= requested
    ensures !LiveVariant(variants, id) ==> CurrentStock(variants, id) == 0 && !HasEnoughStock(variants, id, 0)
  {
  }

  /** Sum of the logged changes for one variant. */
  function Net(ledger: seq<StockTx>, id: int): int
  {
    if ledger == [] then 0
    else Net(ledger[..|ledger| - 1], id) + (if ledger[|ledger| - 1].variantId == id then ledger[|ledger| - 1].change else 0)
  }

  /** Each row's stock-after is its variant's starting stock plus every change logged for it up to and including that row. */
  predicate RunningBalances(base: map<int, int>, ledger: seq<StockTx>)
  {
    forall i :: 0 <= i < |ledger| ==>
      ledger[i].variantId in base && ledger[i].stockAfter == base[ledger[i].variantId] + Net(ledger[..i + 1], ledger[i].variantId)
  }

  /** Ledger conservation: starting stock plus the logged changes is the current stock of every
    * variant, and every row records the running balance. */
  predicate Conserved(base: map<int, int>, ledger: seq<StockTx>, variants: map<int, Variant>)
  {
    RunningBalances(base, ledger)
    && forall id :: id in variants ==> id in base && variants[id].stock == base[id] + Net(ledger, id)
  }

  /** A logged change keeps the ledger conserved. */
  lemma {:induction false} LoggedChangeConserves(base: map<int, int>, ledger: seq<StockTx>, variants: map<int, Variant>,
                                                 id: int, delta: int, reason: string, orderCode: Option<string>)
    requires Conserved(base, ledger, variants) && id in variants
    ensures Conserved(base, ledger + [LogRow(variants, id, delta, reason, orderCode)], StockChanged(variants, id, delta))
  {
    var row := LogRow(variants, id, delta, reason, orderCode);
    var ledger' := ledger + [row];
    assert ledger'[..|ledger|] == ledger;
    forall i | 0 <= i < |ledger'|
      ensures ledger'[i].variantId in base
      ensures ledger'[i].stockAfter == base[ledger'[i].variantId] + Net(ledger'[..i + 1], ledger'[i].variantId)
    {
      if i < |ledger| {
        assert ledger'[..i + 1] == ledger[..i + 1];
      } else {
        assert ledger'[..i + 1] == ledger';
      }
    }
  }

  /** `LoggedChangeConserves`, stated for a log and variant map already known to be the changed ones. */
  lemma LoggedChangeConservesAt(base: map<int, int>, ledger: seq<StockTx>, variants: map<int, Variant>,
                                id: int, delta: int, reason: string, orderCode: Option<string>,
                                ledger': seq<StockTx>, variants': map<int, Variant>)
    requires Conserved(base, ledger, variants) && id in variants
    requires ledger' == ledger + [LogRow(variants, id, delta, reason, orderCode)]
    requires variants' == StockChanged(variants, id, delta)
    ensures Conserved(base, ledger', variants')
  {
    LoggedChangeConserves(base, ledger, variants, id, delta, reason, orderCode);
  }

  /** Before any logging, the current stocks are their own starting point. */
  lemma EmptyLedgerConserved(variants: map<int, Variant>)
    ensures Conserved(map id | id in variants :: variants[id].stock, [], variants)
  {
  }
}

=== FILE: local_cart.dfy ===
/** The storefront's browser-side cart (`useCart`): a list of lines keyed by product and variant,
  * with merge-on-add, removal, quantity edits, and the count and total the header shows. */
module LocalCart {
  import opened Wrappers

  /** `CartItem`: one line of the local cart; a line is identified by `productId` and `variantId`. */
  datatype CartLine = CartLine(productId: int, variantId: Option<int>, name: string, slug: string, price: int,
                               quantity: int, image: Option<string>, size: Option<string>, color: Option<string>)

  /** The argument of `addToCart`: a line whose quantity may be left out. */
  datatype NewLine = NewLine(productId: int, variantId: Option<int>, name: string, slug: string, price: int,
                             quantity: Option<int>, image: Option<string>, size: Option<string>, color: Option<string>)

  /** `item.quantity || 1`: a missing or zero quantity counts as one. */
  function AddAmount(q: Option<int>): (n: int)
    ensures n != 0
    ensures q.Some? && q.value != 0 ==> n == q.value
    ensures q.None? || q == Some(0) ==> n == 1
  {
    if q.Some? && q.value != 0 then q.value else 1
  }

  /** `{ ...item, quantity: item.quantity || 1 }`. */
  function LineOf(item: NewLine): (l: CartLine)
    ensures l.productId == item.productId && l.variantId == item.variantId && l.price == item.price
    ensures l.quantity == AddAmount(item.quantity)
  {
    CartLine(item.productId, item.variantId, item.name, item.slug, item.price, AddAmount(item.quantity),
             item.image, item.size, item.color)
  }

  predicate SameLine(l: CartLine, productId: int, variantId: Option<int>)
  {
    l.productId == productId && l.variantId == variantId
  }

  /** No two lines share a product and variant. */
  predicate KeysUnique(items: seq<CartLine>)
  {
    forall i, j :: 0 <= i < j < |items| ==> !SameLine(items[j], items[i].productId, items[i].variantId)
  }

  /** `findIndex`: the first line with the key. */
  function FindLine(items: seq<CartLine>, productId: int, variantId: Option<int>): (r: Option<nat>)
    ensures r.Some? ==> r.value < |items| && SameLine(items[r.value], productId, variantId)
    ensures r.Some? ==> forall j :: 0 <= j < r.value ==> !SameLine(items[j], productId, variantId)
    ensures r.None? <==> forall j :: 0 <= j < |items| ==> !SameLine(items[j], productId, variantId)
  {
    if items == [] then None
    else if SameLine(items[0], productId, variantId) then Some(0)
    else
      var rest := FindLine(items[1..], productId, variantId);
      if rest.None? then None else Some(rest.value + 1)
  }

  // ---------------------------------------------------------------- the new item lists

  /** The list `addToCart` leaves: the first matching line grows by the added amount, otherwise the
    * new line is appended. */
  function Added(items: seq<CartLine>, item: NewLine): seq<CartLine>
  {
    var i := FindLine(items, item.productId, item.variantId);
    if i.Some? then items[i.value := items[i.value].(quantity := items[i.value].quantity + AddAmount(item.quantity))]
    else items + [LineOf(item)]
  }

  /** The list `removeFromCart` leaves: every line with the key dropped. */
  function Removed(items: seq<CartLine>, productId: int, variantId: Option<int>): seq<CartLine>
  {
    if items == [] then []
    else Removed(items[..|items| - 1], productId, variantId)
         + (if SameLine(items[|items| - 1], productId, variantId) then [] else [items[|items| - 1]])
  }

  /** The list the positive branch of `updateQuantity` leaves: every line with the key set to `q`. */
  function QuantitySet(items: seq<CartLine>, productId: int, variantId: Option<int>, q: int): (r: seq<CartLine>)
    ensures |r| == |items|
  {
    seq(|items|, i requires 0 <= i < |items| =>
      if SameLine(items[i], productId, variantId) then items[i].(quantity := q) else items[i])
  }

  /** `getCartCount`: the sum of the quantities. */
  function Count(items: seq<CartLine>): int
  {
    if items == [] then 0 else Count(items[..|items| - 1]) + items[|items| - 1].quantity
  }

  /** `getCartTotal`: the sum of price times quantity. */
  function Total(items: seq<CartLine>): int
  {
    if items == [] then 0 else Total(items[..|items| - 1]) + items[|items| - 1].price * items[|items| - 1].quantity
  }

  // ---------------------------------------------------------------- the store

  class CartStore {
    var items: seq<CartLine>

    /** The store starts empty. */
    constructor ()
      ensures items == []
    {
      items := [];
    }

    method AddToCart(item: NewLine)
      modifies this
      ensures items == Added(old(items), item)
    {
      var i := FindLine(items, item.productId, item.variantId);
      if i.Some? {
        var updated := items;
        updated := updated[i.value := updated[i.value].(quantity := updated[i.value].quantity + AddAmount(item.quantity))];
        items := updated;
        return;
      }
      items := items + [LineOf(item)];
    }

    method RemoveFromCart(productId: int, variantId: Option<int>)
      modifies this
      ensures items == Removed(old(items), productId, variantId)
    {
      items := Removed(items, productId, variantId);
    }

    /** `updateQuantity`: a quantity of zero or less removes the line. */
    method UpdateQuantity(productId: int, quantity: int, variantId: Option<int>)
      modifies this
      ensures quantity <= 0 ==> items == Removed(old(items), productId, variantId)
      ensures quantity > 0 ==> items == QuantitySet(old(items), productId, variantId, quantity)
    {
      if quantity <= 0 {
        RemoveFromCart(productId, variantId);
        return;
      }
      items := QuantitySet(items, productId, variantId, quantity);
    }

    method ClearCart()
      modifies this
      ensures items == [] && Count(items) == 0 && Total(items) == 0
    {
      items := [];
    }

    function GetCartCount(): (n: int)
      reads this
      ensures items == [] ==> n == 0
      ensures (forall i :: 0 <= i < |items| ==> items[i].quantity >= 0) ==>
                forall k :: 0 <= k < |items| ==> 0 <= items[k].quantity <= n
    {
      if forall i :: 0 <= i < |items| ==> items[i].quantity >= 0 then
        assert forall k :: 0 <= k < |items| ==> 0 <= items[k].quantity <= Count(items) by {
          forall k | 0 <= k < |items|
            ensures 0 <= items[k].quantity <= Count(items)
          {
            CountBoundsLines(items, k);
          }
        }
        Count(items)
      else Count(items)
    }

    function GetCartTotal(): (t: int)
      reads this
      ensures items == [] ==> t == 0
      ensures (forall i :: 0 <= i < |items| ==> items[i].price >= 0 && items[i].quantity >= 0) ==> t >= 0
    {
      TotalNonNegative(items);
      Total(items)
    }
  }

  // ---------------------------------------------------------------- what the operations do

  lemma {:induction false} CountSplit(a: seq<CartLine>, b: seq<CartLine>)
    ensures Count(a + b) == Count(a) + Count(b)
    ensures Total(a + b) == Total(a) + Total(b)
  {
    if b == [] {
      assert a + b == a;
    } else {
      var n := |b| - 1;
      CountSplit(a, b[..n]);
      assert (a + b)[..|a + b| - 1] == a + b[..n];
    }
  }

  /** The count and total of a list around one line. */
  lemma CountAround(a: seq<CartLine>, x: CartLine, b: seq<CartLine>)
    ensures Count(a + [x] + b) == Count(a) + x.quantity + Count(b)
    ensures Total(a + [x] + b) == Total(a) + x.price * x.quantity + Total(b)
  {
    CountSplit(a + [x], b);
    CountSplit(a, [x]);
    assert [x][..0] == [];
  }

  /** A list with one line's quantity replaced, cut around that line. */
  lemma LineChangeShape(items: seq<CartLine>, i: nat, q: int)
    requires i < |items|
    ensures items == items[..i] + [items[i]] + items[i + 1..]
    ensures items[i := items[i].(quantity := q)] == items[..i] + [items[i].(quantity := q)] + items[i + 1..]
  {
  }

  /** Changing one line's quantity to `q` changes the count by the difference and the total by its
    * price times the difference. */
  lemma {:induction false} CountAfterLineChange(items: seq<CartLine>, i: nat, q: int)
    requires i < |items|
    ensures Count(items[i := items[i].(quantity := q)]) == Count(items) + (q - items[i].quantity)
    ensures Total(items[i := items[i].(quantity := q)]) == Total(items) + items[i].price * (q - items[i].quantity)
  {
    var x := items[i];
    LineChangeShape(items, i, q);
    CountAround(items[..i], x, items[i + 1..]);
    CountAround(items[..i], x.(quantity := q), items[i + 1..]);
    Distributes(x.price, q, x.quantity);
  }

  lemma Distributes(p: int, q: int, a: int)
    ensures p * (q - a) == p * q - p * a
  {
  }

  /** Adding an existing product and variant grows that line by `quantity || 1` and creates no new
    * line; the line keeps its stored price. */
  lemma AddMerges(items: seq<CartLine>, item: NewLine, i: nat)
    requires FindLine(items, item.productId, item.variantId) == Some(i)
    ensures |Added(items, item)| == |items|
    ensures Added(items, item)[i].quantity == items[i].quantity + AddAmount(item.quantity)
    ensures Added(items, item)[i].price == items[i].price
    ensures forall j :: 0 <= j < |items| && j != i ==> Added(items, item)[j] == items[j]
    ensures Count(Added(items, item)) == Count(items) + AddAmount(item.quantity)
    ensures Total(Added(items, item)) == Total(items) + items[i].price * AddAmount(item.quantity)
  {
    var q := items[i].quantity + AddAmount(item.quantity);
    assert Added(items, item) == items[i := items[i].(quantity := q)];
    CountAfterLineChange(items, i, q);
    assert q - items[i].quantity == AddAmount(item.quantity);
  }

  /** Adding a product and variant not in the cart appends one line with quantity `quantity || 1`. */
  lemma AddAppends(items: seq<CartLine>, item: NewLine)
    requires FindLine(items, item.productId, item.variantId).None?
    ensures Added(items, item) == items + [LineOf(item)]
    ensures Count(Added(items, item)) == Count(items) + AddAmount(item.quantity)
    ensures Total(Added(items, item)) == Total(items) + item.price * AddAmount(item.quantity)
  {
    CountSplit(items, [LineOf(item)]);
    assert [LineOf(item)][..0] == [];
  }

  /** Adding never introduces a second line for a key. */
  lemma AddKeepsKeysUnique(items: seq<CartLine>, item: NewLine)
    requires KeysUnique(items)
    ensures KeysUnique(Added(items, item))
  {
  }

  /** Removal keeps exactly the lines without the key. */
  lemma {:induction false} RemovedMembers(items: seq<CartLine>, productId: int, variantId: Option<int>)
    ensures forall l :: l in Removed(items, productId, variantId) <==> l in items && !SameLine(l, productId, variantId)
  {
    if items != [] {
      var n := |items| - 1;
      RemovedMembers(items[..n], productId, variantId);
      assert items == items[..n] + [items[n]];
    }
  }

  /** Removing a key that is absent leaves the list as it was. */
  lemma {:induction false} RemoveAbsent(items: seq<CartLine>, productId: int, variantId: Option<int>)
    requires forall j :: 0 <= j < |items| ==> !SameLine(items[j], productId, variantId)
    ensures Removed(items, productId, variantId) == items
  {
    if items != [] {
      var n := |items| - 1;
      RemoveAbsent(items[..n], productId, variantId);
      assert items == items[..n] + [items[n]];
    }
  }

  /** Removing the one line with a key cuts exactly that line out, keeping the others in order. */
  lemma {:induction false} RemovedIsCut(items: seq<CartLine>, productId: int, variantId: Option<int>, i: nat)
    requires i < |items| && SameLine(items[i], productId, variantId)
    requires forall j :: 0 <= j < |items| && j != i ==> !SameLine(items[j], productId, variantId)
    ensures Removed(items, productId, variantId) == items[..i] + items[i + 1..]
  {
    var n := |items| - 1;
    var init := items[..n];
    assert items[..|items| - 1] == init;
    if i == n {
      RemoveAbsent(init, productId, variantId);
      assert items[..i] + items[i + 1..] == init;
    } else {
      RemovedIsCut(init, productId, variantId, i);
      assert init[..i] == items[..i];
      assert items[i + 1..] == init[i + 1..] + [items[n]];
    }
  }

  /** Removing the one line with a key cuts exactly that line out, keeping the others in order, and
    * takes its quantity off the count and its subtotal off the total. */
  lemma RemoveCutsLine(items: seq<CartLine>, productId: int, variantId: Option<int>, i: nat)
    requires i < |items| && SameLine(items[i], productId, variantId)
    requires forall j :: 0 <= j < |items| && j != i ==> !SameLine(items[j], productId, variantId)
    ensures Removed(items, productId, variantId) == items[..i] + items[i + 1..]
    ensures Count(Removed(items, productId, variantId)) == Count(items) - items[i].quantity
    ensures Total(Removed(items, productId, variantId)) == Total(items) - items[i].price * items[i].quantity
  {
    RemovedIsCut(items, productId, variantId, i);
    assert items == items[..i] + [items[i]] + items[i + 1..];
    CountAround(items[..i], items[i], items[i + 1..]);
    CountSplit(items[..i], items[i + 1..]);
  }

  /** A positive quantity edit sets every line with the key to `q` and leaves the rest alone. */
  lemma QuantitySetEffect(items: seq<CartLine>, productId: int, variantId: Option<int>, q: int, i: nat)
    requires i < |items| && SameLine(items[i], productId, variantId)
    requires forall j :: 0 <= j < |items| && j != i ==> !SameLine(items[j], productId, variantId)
    ensures QuantitySet(items, productId, variantId, q) == items[i := items[i].(quantity := q)]
    ensures Count(QuantitySet(items, productId, variantId, q)) == Count(items) + (q - items[i].quantity)
  {
    CountAfterLineChange(items, i, q);
  }

  /** With no negative price or quantity, the total is not negative. */
  lemma {:induction false} TotalNonNegative(items: seq<CartLine>)
    ensures (forall i :: 0 <= i < |items| ==> items[i].price >= 0 && items[i].quantity >= 0) ==> Total(items) >= 0
  {
    if items != [] {
      var n := |items| - 1;
      assert forall i :: 0 <= i < n ==> items[..n][i] == items[i];
      TotalNonNegative(items[..n]);
    }
  }

  lemma {:induction false} CountBoundsLines(items: seq<CartLine>, k: nat)
    requires forall i :: 0 <= i < |items| ==> items[i].quantity >= 0
    requires k < |items|
    ensures 0 <= items[k].quantity <= Count(items)
  {
    var n := |items| - 1;
    if k < n {
      CountBoundsLines(items[..n], k);
    } else if n > 0 {
      CountBoundsLines(items[..n], n - 1);
    }
  }
}

=== FILE: order_service.dfy ===
/** `OrderService`: checkout (cart to order), the admin status machine and cancellation. */
module OrderService {
  import opened Wrappers
  import opened Text
  import opened Enums
  import opened Catalog
  import opened Carts
  import opened Orders
  import opened Store
  import opened Inventory
  import Seqs

  // ---------------------------------------------------------------- status machine

  /** The pairs the backend accepts as status changes. */
  const BackendTransitions: set<(OrderStatus, OrderStatus)> :=
    {(Pending, Confirmed), (Pending, Cancelled), (Confirmed, Shipped), (Confirmed, Cancelled),
     (Shipped, Delivered), (Delivered, Completed)}

  /** `validateStatusTransition`: None when the change is allowed, else the refusal message. */
  function ValidateStatusTransition(current: OrderStatus, next: OrderStatus): (r: Option<string>)
    ensures r.None? <==> (current, next) in BackendTransitions
  {
    match current
    case Pending =>
      if next != Confirmed && next != Cancelled then Some("Invalid status transition from PENDING to " + OrderStatusName(next)) else None
    case Confirmed =>
      if next != Shipped && next != Cancelled then Some("Invalid status transition from CONFIRMED to " + OrderStatusName(next)) else None
    case Shipped =>
      if next != Delivered then Some("Invalid status transition from SHIPPED to " + OrderStatusName(next)) else None
    case Delivered =>
      if next != Completed then Some("Invalid status transition from DELIVERED to " + OrderStatusName(next)) else None
    case Completed => Some("Cannot change status of a COMPLETED order")
    case Cancelled => Some("Cannot change status of a CANCELLED order")
    case Processing => Some("Unknown status: PROCESSING")
  }

  /** The accepted changes never stay put and never leave COMPLETED, CANCELLED or PROCESSING;
    * every accepted change moves a cancellable order or one that is delivered or beyond. */
  lemma TransitionsMoveForward(current: OrderStatus, next: OrderStatus)
    ensures ValidateStatusTransition(current, next).None? ==> current != next
    ensures current in {Completed, Cancelled, Processing} ==> ValidateStatusTransition(current, next).Some?
    ensures ValidateStatusTransition(current, next).None? ==> Cancellable(current) || DeliveredOrBeyond(current)
    ensures next == Cancelled ==> (ValidateStatusTransition(current, next).None? <==> Cancellable(current))
  {
  }

  /** `updateOrderStatus`: only the order's status changes, and only along an accepted pair. */
  method UpdateOrderStatus(db: Db, code: string, next: OrderStatus) returns (r: Outcome<OrderRow>)
    modifies db`orders
    ensures code !in old(db.orders) ==> r == Err(Rejected("Order not found"))
    ensures code in old(db.orders) && ValidateStatusTransition(old(db.orders[code].status), next).Some? ==>
              r == Err(Rejected(ValidateStatusTransition(old(db.orders[code].status), next).value))
    ensures r.Err? ==> db.orders == old(db.orders)
    ensures r.Ok? <==> code in old(db.orders) && (old(db.orders[code].status), next) in BackendTransitions
    ensures r.Ok? ==> db.orders == old(db.orders)[code := old(db.orders[code]).(status := next)] && r.value == db.orders[code]
  {
    if code !in db.orders {
      return Err(Rejected("Order not found"));
    }
    var order := db.orders[code];
    var refusal := ValidateStatusTransition(order.status, next);
    if refusal.Some? {
      return Err(Rejected(refusal.value));
    }
    var updated := order.(status := next);
    db.orders := db.orders[code := updated];
    r := Ok(updated);
  }

  function CannotCancel(status: OrderStatus): string
  {
    "Order cannot be cancelled. Current status: " + OrderStatusName(status)
  }

  /** `cancelOrder`: the caller's own order, if still cancellable, becomes CANCELLED. No stock is
    * returned and no inventory row is written. */
  method CancelOrder(db: Db, email: string, code: string) returns (r: Outcome<OrderRow>)
    modifies db`orders
    ensures email !in db.users ==> r == Err(Rejected("User not found"))
    ensures email in db.users && (code !in old(db.orders) || old(db.orders[code].userId) != db.users[email].id) ==>
              r == Err(Rejected("Order not found"))
    ensures r.Ok? <==> email in db.users && code in old(db.orders) && old(db.orders[code].userId) == db.users[email].id
                       && Cancellable(old(db.orders[code].status))
    ensures r.Err? ==> db.orders == old(db.orders)
    ensures r.Ok? ==> db.orders == old(db.orders)[code := old(db.orders[code]).(status := Cancelled)] && r.value == db.orders[code]
    ensures db.variants == old(db.variants) && db.ledger == old(db.ledger)
  {
    var user := FindUser(db.users, email);
    if user.Err? {
      return Err(user.error);
    }
    if code !in db.orders || db.orders[code].userId != user.value.id {
      return Err(Rejected("Order not found"));
    }
    var order := db.orders[code];
    if !Cancellable(order.status) {
      return Err(Rejected(CannotCancel(order.status)));
    }
    var updated := order.(status := Cancelled);
    db.orders := db.orders[code := updated];
    r := Ok(updated);
  }

  /** `cancelOrderByAdmin`: any cancellable order becomes CANCELLED; stock is left as it is. */
  method CancelOrderByAdmin(db: Db, code: string) returns (r: Outcome<OrderRow>)
    modifies db`orders
    ensures code !in old(db.orders) ==> r == Err(Rejected("Order not found"))
    ensures r.Ok? <==> code in old(db.orders) && Cancellable(old(db.orders[code].status))
    ensures r.Err? ==> db.orders == old(db.orders)
    ensures r.Ok? ==> db.orders == old(db.orders)[code := old(db.orders[code]).(status := Cancelled)] && r.value == db.orders[code]
    ensures db.variants == old(db.variants) && db.ledger == old(db.ledger)
  {
    if code !in db.orders {
      return Err(Rejected("Order not found"));
    }
    var order := db.orders[code];
    if !Cancellable(order.status) {
      return Err(Rejected(CannotCancel(order.status)));
    }
    var updated := order.(status := Cancelled);
    db.orders := db.orders[code := updated];
    r := Ok(updated);
  }

  // ---------------------------------------------------------------- snapshots and codes

  predicate Present(s: Option<string>)
  {
    s.Some? && s.value != ""
  }

  /** The variant descriptor stored on an order line. */
  function VariantDescriptor(color: Option<string>, size: Option<string>, sku: string): (r: string)
    ensures Present(color) ==> StartsWith(r, "Color: " + color.value)
    ensures Present(size) ==> EndsWith(r, "Size: " + size.value)
    ensures !Present(color) && !Present(size) ==> EndsWith(r, sku)
  {
    if Present(color) && Present(size) then "Color: " + color.value + ", Size: " + size.value
    else if Present(color) then "Color: " + color.value
    else if Present(size) then "Size: " + size.value
    else "SKU: " + sku
  }

  /** `buildVariantInfo`, appending to a builder as the source does. */
  method BuildVariantInfo(v: Variant) returns (info: string)
    ensures info == VariantDescriptor(v.color, v.size, v.sku)
  {
    info := "";
    if v.color.Some? && v.color.value != "" {
      info := info + "Color: " + v.color.value;
    }
    if v.size.Some? && v.size.value != "" {
      if |info| > 0 {
        info := info + ", ";
      }
      info := info + "Size: " + v.size.value;
    }
    if |info| == 0 {
      info := info + "SKU: " + v.sku;
    }
  }

  /** The SKU is shown exactly when neither colour nor size is given, and the colour, when given,
    * always leads. */
  lemma DescriptorShowsSkuOnlyAsLastResort(color: Option<string>, size: Option<string>, sku: string)
    ensures StartsWith(VariantDescriptor(color, size, sku), "SKU: ") <==> !Present(color) && !Present(size)
    ensures StartsWith(VariantDescriptor(color, size, sku), "Color: ") <==> Present(color)
  {
    var d := VariantDescriptor(color, size, sku);
    if Present(color) {
      assert d[..7] == "Color: ";
      assert d[1] == 'o';
    } else if Present(size) {
      assert d[..6] == "Size: ";
      assert d[1] == 'i' && d[0] == 'S';
    } else {
      assert d[..5] == "SKU: ";
      assert d[0] == 'S';
    }
  }

  /** `generateOrderCode` with the clock reading and the random UUID text passed in. */
  function OrderCode(timestamp: string, uuid: string): (code: string)
    requires |uuid| >= 4
    ensures |code| == |timestamp| + 7
    ensures StartsWith(code, "ORD") && code[3..3 + |timestamp|] == timestamp
    ensures forall i :: 3 + |timestamp| <= i < |code| ==> !IsLower(code[i])
  {
    "ORD" + timestamp + ToUpper(uuid[..4])
  }

  // ---------------------------------------------------------------- checkout

  /** The line price: the product's base price plus the variant's adjustment. */
  function UnitPrice(variants: map<int, Variant>, products: map<int, ProductRow>, id: int): (r: int)
    requires id in variants && VariantsPriced(variants, products)
    ensures r == ProductFinalPrice(products[variants[id].productId.value].basePrice, Some(variants[id]))
  {
    products[variants[id].productId.value].basePrice + variants[id].priceAdjustment.value
  }

  predicate LinesKnown(lines: seq<CartItem>, variants: map<int, Variant>)
  {
    forall i :: 0 <= i < |lines| ==> lines[i].variantId in variants
  }

  /** Σ (base price + adjustment) × quantity over the cart lines. */
  function LinesTotal(lines: seq<CartItem>, variants: map<int, Variant>, products: map<int, ProductRow>): int
    requires LinesKnown(lines, variants) && VariantsPriced(variants, products)
  {
    if lines == [] then 0
    else
      var n := |lines| - 1;
      LinesTotal(lines[..n], variants, products) + UnitPrice(variants, products, lines[n].variantId) * lines[n].quantity
  }

  /** The order line snapshotting one cart line. */
  function SnapshotItem(line: CartItem, variants: map<int, Variant>, products: map<int, ProductRow>, code: string): (item: OrderItem)
    requires line.variantId in variants && VariantsPriced(variants, products)
    ensures item.orderCode == Some(code)
    ensures var v := variants[line.variantId];
            item.productName == products[v.productId.value].name
            && item.variantInfo == VariantDescriptor(v.color, v.size, v.sku)
    ensures item.quantity == line.quantity && item.unitPrice == UnitPrice(variants, products, line.variantId)
  {
    var v := variants[line.variantId];
    NewOrderItem(code, products[v.productId.value].name, VariantDescriptor(v.color, v.size, v.sku),
                 line.quantity, UnitPrice(variants, products, line.variantId))
  }

  function SnapshotItems(lines: seq<CartItem>, variants: map<int, Variant>, products: map<int, ProductRow>, code: string): (items: seq<OrderItem>)
    requires LinesKnown(lines, variants) && VariantsPriced(variants, products)
    ensures |items| == |lines|
    ensures forall k {:trigger items[k]} :: 0 <= k < |lines| ==> items[k] == SnapshotItem(lines[k], variants, products, code)
  {
    if lines == [] then []
    else
      var n := |lines| - 1;
      SnapshotItems(lines[..n], variants, products, code) + [SnapshotItem(lines[n], variants, products, code)]
  }

  /** The order total equals the sum of the subtotals of the lines it creates, and the order's item
    * count equals the cart's. */
  lemma {:induction false} SnapshotTotals(lines: seq<CartItem>, variants: map<int, Variant>, products: map<int, ProductRow>, code: string)
    requires LinesKnown(lines, variants) && VariantsPriced(variants, products)
    ensures SumSubtotals(SnapshotItems(lines, variants, products, code)) == LinesTotal(lines, variants, products)
    ensures TotalQuantity(SnapshotItems(lines, variants, products, code)) == LinesQuantity(lines)
  {
    if lines != [] {
      var n := |lines| - 1;
      var items := SnapshotItems(lines, variants, products, code);
      assert items[..n] == SnapshotItems(lines[..n], variants, products, code);
      SnapshotTotals(lines[..n], variants, products, code);
    }
  }

  /** The variants after deducting the first `n` lines, first to last. (Every line names a known
    * variant and deducting keeps the keys, see `AfterDeductionsKeys`, so the membership test
    * always succeeds.) */
  function AfterDeductions(variants: map<int, Variant>, lines: seq<CartItem>, n: nat): map<int, Variant>
    requires LinesKnown(lines, variants) && n <= |lines|
  {
    if n == 0 then variants
    else
      var before := AfterDeductions(variants, lines, n - 1);
      if lines[n - 1].variantId in before then StockChanged(before, lines[n - 1].variantId, -lines[n - 1].quantity) else before
  }

  /** Deducting stock keeps the set of variants. */
  lemma {:induction false} AfterDeductionsKeys(variants: map<int, Variant>, lines: seq<CartItem>, n: nat)
    requires LinesKnown(lines, variants) && n <= |lines|
    ensures AfterDeductions(variants, lines, n).Keys == variants.Keys
  {
    if n > 0 {
      AfterDeductionsKeys(variants, lines, n - 1);
    }
  }

  /** The inventory rows written while deducting the first `n` lines, first to last. */
  function DeductionRows(variants: map<int, Variant>, lines: seq<CartItem>, code: string, n: nat): (rows: seq<StockTx>)
    requires LinesKnown(lines, variants) && n <= |lines|
    ensures |rows| == n
  {
    if n == 0 then []
    else
      var before := AfterDeductions(variants, lines, n - 1);
      AfterDeductionsKeys(variants, lines, n - 1);
      DeductionRows(variants, lines, code, n - 1)
        + [LogRow(before, lines[n - 1].variantId, -lines[n - 1].quantity, OrderDeducted, Some(code))]
  }

  predicate DistinctVariants(lines: seq<CartItem>)
  {
    forall i, j :: 0 <= i < j < |lines| ==> lines[i].variantId != lines[j].variantId
  }

  /** A variant none of the first `n` lines names is left as it was. */
  lemma {:induction false} AfterDeductionsUntouched(variants: map<int, Variant>, lines: seq<CartItem>, n: nat, id: int)
    requires LinesKnown(lines, variants) && n <= |lines| && id in variants
    requires forall i :: 0 <= i < n ==> lines[i].variantId != id
    ensures id in AfterDeductions(variants, lines, n) && AfterDeductions(variants, lines, n)[id] == variants[id]
  {
    if n > 0 {
      AfterDeductionsUntouched(variants, lines, n - 1, id);
    }
  }

  /** With one line per variant, each line's variant loses exactly that line's quantity and keeps
    * every other field. */
  lemma {:induction false} AfterDeductionsEffect(variants: map<int, Variant>, lines: seq<CartItem>, n: nat, k: int)
    requires LinesKnown(lines, variants) && DistinctVariants(lines) && 0 <= k < n <= |lines|
    ensures lines[k].variantId in AfterDeductions(variants, lines, n)
    ensures AfterDeductions(variants, lines, n)[lines[k].variantId]
            == variants[lines[k].variantId].(stock := variants[lines[k].variantId].stock - lines[k].quantity)
  {
    AfterDeductionsKeys(variants, lines, n - 1);
    if k == n - 1 {
      AfterDeductionsUntouched(variants, lines, n - 1, lines[k].variantId);
    } else {
      AfterDeductionsEffect(variants, lines, n - 1, k);
    }
  }

  /** With one line per variant, the row written for each line records the line's quantity as a
    * deduction and the variant's stock before checkout minus that quantity as the balance. */
  lemma {:induction false} DeductionRowsShape(variants: map<int, Variant>, lines: seq<CartItem>, code: string, n: nat, k: int)
    requires LinesKnown(lines, variants) && DistinctVariants(lines) && 0 <= k < n <= |lines|
    ensures DeductionRows(variants, lines, code, n)[k]
            == StockTx(lines[k].variantId, -lines[k].quantity, OrderDeducted, Some(code),
                       variants[lines[k].variantId].stock - lines[k].quantity)
  {
    if k == n - 1 {
      AfterDeductionsUntouched(variants, lines, n - 1, lines[k].variantId);
    } else {
      DeductionRowsShape(variants, lines, code, n - 1, k);
      assert DeductionRows(variants, lines, code, n)[k] == DeductionRows(variants, lines, code, n - 1)[k];
    }
  }

  /** Checkout keeps the inventory ledger conserved. */
  lemma {:induction false} CheckoutConserves(base: map<int, int>, ledger: seq<StockTx>, variants: map<int, Variant>,
                                             lines: seq<CartItem>, code: string, n: nat)
    requires LinesKnown(lines, variants) && n <= |lines| && Conserved(base, ledger, variants)
    ensures Conserved(base, ledger + DeductionRows(variants, lines, code, n), AfterDeductions(variants, lines, n))
  {
    if n > 0 {
      CheckoutConserves(base, ledger, variants, lines, code, n - 1);
      var before := AfterDeductions(variants, lines, n - 1);
      var earlier := ledger + DeductionRows(variants, lines, code, n - 1);
      var id, q := lines[n - 1].variantId, lines[n - 1].quantity;
      StepDeductions(variants, lines, code, n - 1);
      var row := LogRow(before, id, -q, OrderDeducted, Some(code));
      assert ledger + DeductionRows(variants, lines, code, n) == earlier + [row];
      LoggedChangeConservesAt(base, earlier, before, id, -q, OrderDeducted, Some(code),
                              ledger + DeductionRows(variants, lines, code, n), AfterDeductions(variants, lines, n));
    } else {
      assert ledger + DeductionRows(variants, lines, code, n) == ledger;
    }
  }

  predicate Stocked(line: CartItem, variants: map<int, Variant>)
    requires line.variantId in variants
  {
    variants[line.variantId].stock >= line.quantity
  }

  function ShortageMessage(v: Variant): string
  {
    "Insufficient stock for: " + v.sku + ". Available: " + IntToString(v.stock)
  }

  /** The first loop of `createOrderFromCart`: checks each line against live stock, stopping at the
    * first short line, and totals the line prices. */
  method PriceCart(lines: seq<CartItem>, variants: map<int, Variant>, products: map<int, ProductRow>) returns (r: Result<int, string>)
    requires LinesKnown(lines, variants) && VariantsPriced(variants, products)
    ensures r.Ok? <==> forall k :: 0 <= k < |lines| ==> Stocked(lines[k], variants)
    ensures r.Ok? ==> r.value == LinesTotal(lines, variants, products)
    ensures r.Err? ==> exists k :: 0 <= k < |lines| && !Stocked(lines[k], variants)
                                   && (forall j :: 0 <= j < k ==> Stocked(lines[j], variants))
                                   && r.error == ShortageMessage(variants[lines[k].variantId])
  {
    var total := 0;
    var i := 0;
    while i < |lines|
      invariant 0 <= i <= |lines|
      invariant forall j :: 0 <= j < i ==> Stocked(lines[j], variants)
      invariant total == LinesTotal(lines[..i], variants, products)
    {
      var v := variants[lines[i].variantId];
      if v.stock < lines[i].quantity {
        return Err(ShortageMessage(v));
      }
      var unitPrice := products[v.productId.value].basePrice + v.priceAdjustment.value;
      total := total + unitPrice * lines[i].quantity;
      assert lines[..i + 1][..i] == lines[..i];
      i := i + 1;
    }
    assert lines[..i] == lines;
    r := Ok(total);
  }

  /** Progress of the second checkout loop after `i` lines: the variants, the log and the order's
    * lines are those of the first `i` cart lines. */
  ghost predicate Fulfilled(v0: map<int, Variant>, products: map<int, ProductRow>, lines: seq<CartItem>, code: string,
                            ledger0: seq<StockTx>, items0: seq<OrderItem>, i: int,
                            variants: map<int, Variant>, ledger: seq<StockTx>, items: seq<OrderItem>)
  {
    0 <= i <= |lines| && LinesKnown(lines, v0) && VariantsPriced(v0, products)
    && LinesKnown(lines[..i], v0)
    && variants == AfterDeductions(v0, lines, i)
    && ledger == ledger0 + DeductionRows(v0, lines, code, i)
    && items == items0 + SnapshotItems(lines[..i], v0, products, code)
  }

  /** The next line's variant is still as it was at checkout. */
  lemma FulfilledUntouched(v0: map<int, Variant>, products: map<int, ProductRow>, lines: seq<CartItem>, code: string,
                           ledger0: seq<StockTx>, items0: seq<OrderItem>, i: int,
                           variants: map<int, Variant>, ledger: seq<StockTx>, items: seq<OrderItem>)
    requires Fulfilled(v0, products, lines, code, ledger0, items0, i, variants, ledger, items)
    requires i < |lines| && DistinctVariants(lines)
    ensures lines[i].variantId in variants && lines[i].variantId in v0
    ensures variants[lines[i].variantId] == v0[lines[i].variantId]
  {
    AfterDeductionsUntouched(v0, lines, i, lines[i].variantId);
  }

  /** Deducting and snapshotting the next line advances the progress by one. */
  lemma FulfilledStep(v0: map<int, Variant>, products: map<int, ProductRow>, lines: seq<CartItem>, code: string,
                      ledger0: seq<StockTx>, items0: seq<OrderItem>, i: int,
                      variants: map<int, Variant>, ledger: seq<StockTx>, items: seq<OrderItem>,
                      variants': map<int, Variant>, ledger': seq<StockTx>, items': seq<OrderItem>)
    requires Fulfilled(v0, products, lines, code, ledger0, items0, i, variants, ledger, items)
    requires i < |lines| && lines[i].variantId in variants
    requires variants' == StockChanged(variants, lines[i].variantId, -lines[i].quantity)
    requires ledger' == ledger + [LogRow(variants, lines[i].variantId, -lines[i].quantity, OrderDeducted, Some(code))]
    requires items' == items + [SnapshotItem(lines[i], v0, products, code)]
    ensures Fulfilled(v0, products, lines, code, ledger0, items0, i + 1, variants', ledger', items')
  {
    StepDeductions(v0, lines, code, i);
    StepSnapshots(v0, products, lines, code, i);
    Seqs.AppendRegroup(ledger0, DeductionRows(v0, lines, code, i), DeductionRows(v0, lines, code, i + 1),
                       LogRow(variants, lines[i].variantId, -lines[i].quantity, OrderDeducted, Some(code)));
    Seqs.AppendRegroup(items0, SnapshotItems(lines[..i], v0, products, code), SnapshotItems(lines[..i + 1], v0, products, code),
                       SnapshotItem(lines[i], v0, products, code));
  }

  /** Deducting one more line: one more stock change and one more log row. */
  lemma StepDeductions(v0: map<int, Variant>, lines: seq<CartItem>, code: string, i: nat)
    requires LinesKnown(lines, v0) && i < |lines|
    ensures lines[i].variantId in AfterDeductions(v0, lines, i)
    ensures AfterDeductions(v0, lines, i + 1) == StockChanged(AfterDeductions(v0, lines, i), lines[i].variantId, -lines[i].quantity)
    ensures DeductionRows(v0, lines, code, i + 1)
            == DeductionRows(v0, lines, code, i)
               + [LogRow(AfterDeductions(v0, lines, i), lines[i].variantId, -lines[i].quantity, OrderDeducted, Some(code))]
  {
    AfterDeductionsKeys(v0, lines, i);
  }

  /** Snapshotting one more line appends its order line. */
  lemma StepSnapshots(v0: map<int, Variant>, products: map<int, ProductRow>, lines: seq<CartItem>, code: string, i: nat)
    requires LinesKnown(lines, v0) && VariantsPriced(v0, products) && i < |lines|
    ensures LinesKnown(lines[..i + 1], v0)
    ensures SnapshotItems(lines[..i + 1], v0, products, code)
            == SnapshotItems(lines[..i], v0, products, code) + [SnapshotItem(lines[i], v0, products, code)]
  {
    assert lines[..i + 1][..i] == lines[..i];
  }

  /** The body of the second loop: snapshots line `i` onto the order and deducts its stock. The
    * line is stocked at checkout and its variant is untouched so far, so the deduction succeeds. */
  method SnapshotLine(db: Db, order: Order, lines: seq<CartItem>, i: int,
                      ghost v0: map<int, Variant>, ghost ledger0: seq<StockTx>, ghost items0: seq<OrderItem>)
    requires Fulfilled(v0, db.products, lines, order.code, ledger0, items0, i, db.variants, db.ledger, order.items)
    requires i < |lines| && DistinctVariants(lines) && Stocked(lines[i], v0)
    modifies db`variants, db`ledger, order`items
    ensures Fulfilled(v0, db.products, lines, order.code, ledger0, items0, i + 1, db.variants, db.ledger, order.items)
  {
    ghost var products, code := db.products, order.code;
    ghost var variants, ledger, items := db.variants, db.ledger, order.items;
    FulfilledUntouched(v0, products, lines, code, ledger0, items0, i, variants, ledger, items);
    var line := lines[i];
    var v := db.variants[line.variantId];
    var p := db.products[v.productId.value];
    assert v == v0[line.variantId];
    var info := BuildVariantInfo(v);
    var item := NewOrderItem(order.code, p.name, info, line.quantity, p.basePrice + v.priceAdjustment.value);
    assert item == SnapshotItem(line, v0, products, code);
    assert item.(orderCode := Some(code)) == item;
    order.AddItem(item);
    assert order.items == items + [item];
    assert db.variants == variants && db.ledger == ledger;
    var deducted := DeductStockForOrder(db, line.variantId, line.quantity, order.code);
    if deducted.Err? {
      assert false;
    }
    assert db.products == products && order.code == code;
    FulfilledStep(v0, products, lines, code, ledger0, items0, i, variants, ledger, items,
                  db.variants, db.ledger, order.items);
  }

  /** The second loop of `createOrderFromCart`: snapshots each line onto the order and deducts its
    * stock through the ledger. With every line stocked and one line per variant, no deduction fails. */
  method SnapshotAndDeduct(db: Db, order: Order, lines: seq<CartItem>)
    requires LinesKnown(lines, db.variants) && VariantsPriced(db.variants, db.products) && DistinctVariants(lines)
    requires forall k :: 0 <= k < |lines| ==> Stocked(lines[k], db.variants)
    modifies db`variants, db`ledger, order`items
    ensures order.items == old(order.items) + SnapshotItems(lines, old(db.variants), db.products, order.code)
    ensures db.variants == AfterDeductions(old(db.variants), lines, |lines|)
    ensures db.ledger == old(db.ledger) + DeductionRows(old(db.variants), lines, order.code, |lines|)
  {
    ghost var v0 := db.variants;
    ghost var items0 := order.items;
    ghost var ledger0 := db.ledger;
    FulfilledStart(v0, db.products, lines, order.code, ledger0, items0);
    SnapshotLines(db, order, lines, v0, ledger0, items0);
    FulfilledDone(v0, db.products, lines, order.code, ledger0, items0, db.variants, db.ledger, order.items);
  }

  /** The loop itself, from no line done to every line done. */
  method SnapshotLines(db: Db, order: Order, lines: seq<CartItem>,
                       ghost v0: map<int, Variant>, ghost ledger0: seq<StockTx>, ghost items0: seq<OrderItem>)
    requires Fulfilled(v0, db.products, lines, order.code, ledger0, items0, 0, db.variants, db.ledger, order.items)
    requires DistinctVariants(lines) && forall k :: 0 <= k < |lines| ==> Stocked(lines[k], v0)
    modifies db`variants, db`ledger, order`items
    ensures Fulfilled(v0, db.products, lines, order.code, ledger0, items0, |lines|, db.variants, db.ledger, order.items)
  {
    var i := 0;
    while i < |lines|
      invariant Fulfilled(v0, db.products, lines, order.code, ledger0, items0, i, db.variants, db.ledger, order.items)
    {
      SnapshotLine(db, order, lines, i, v0, ledger0, items0);
      i := i + 1;
    }
  }

  /** Before the loop nothing is done yet. */
  lemma FulfilledStart(v0: map<int, Variant>, products: map<int, ProductRow>, lines: seq<CartItem>, code: string,
                       ledger0: seq<StockTx>, items0: seq<OrderItem>)
    requires LinesKnown(lines, v0) && VariantsPriced(v0, products)
    ensures Fulfilled(v0, products, lines, code, ledger0, items0, 0, v0, ledger0, items0)
  {
    assert lines[..0] == [];
  }

  /** After the loop every line is deducted and snapshotted. */
  lemma FulfilledDone(v0: map<int, Variant>, products: map<int, ProductRow>, lines: seq<CartItem>, code: string,
                      ledger0: seq<StockTx>, items0: seq<OrderItem>,
                      variants: map<int, Variant>, ledger: seq<StockTx>, items: seq<OrderItem>)
    requires Fulfilled(v0, products, lines, code, ledger0, items0, |lines|, variants, ledger, items)
    ensures items == items0 + SnapshotItems(lines, v0, products, code)
    ensures variants == AfterDeductions(v0, lines, |lines|)
    ensures ledger == ledger0 + DeductionRows(v0, lines, code, |lines|)
  {
    assert lines[..|lines|] == lines;
  }

  /** `createOrderFromCart`. The request's payment method is accepted and ignored: no payment is
    * created. `timestamp` and `uuid` stand for the clock and the random source of the order code. */
  method CreateOrderFromCart(db: Db, email: string, address: string, phone: string, note: Option<string>,
                             payMethod: PaymentMethod, timestamp: string, uuid: string) returns (r: Outcome<OrderRow>)
    requires VariantsPriced(db.variants, db.products) && CartsWellFormed(db.carts, db.variants)
    requires |uuid| >= 4
    modifies db`variants, db`ledger, db`orders, db`carts
    ensures email !in db.users ==> r == Err(Rejected("User not found"))
    ensures email in db.users && (db.users[email].id !in old(db.carts) || old(db.carts[db.users[email].id].items) == []) ==>
              r == Err(Rejected("Cart is empty"))
    ensures r.Err? ==> db.variants == old(db.variants) && db.ledger == old(db.ledger)
                       && db.orders == old(db.orders) && db.carts == old(db.carts)
    ensures (email in db.users && db.users[email].id in old(db.carts) && old(db.carts[db.users[email].id].items) != []
             && (forall k :: 0 <= k < |old(db.carts[db.users[email].id].items)| ==>
                   Stocked(old(db.carts[db.users[email].id].items[k]), old(db.variants)))
             && OrderCode(timestamp, uuid) !in old(db.orders)) ==> r.Ok?
    ensures r.Ok? ==> OrderPlaced(old(db.variants), old(db.ledger), old(db.orders), old(db.carts), db.products,
                                  db.users[email].id, address, phone, note, OrderCode(timestamp, uuid),
                                  db.variants, db.ledger, db.orders, db.carts, r.value)
    ensures db.payments == old(db.payments)
  {
    var user := FindUser(db.users, email);
    if user.Err? {
      return Err(user.error);
    }
    var uid := user.value.id;
    if uid !in db.carts || db.carts[uid].items == [] {
      return Err(Rejected("Cart is empty"));
    }
    var lines := db.carts[uid].items;
    var priced := PriceCart(lines, db.variants, db.products);
    if priced.Err? {
      return Err(Rejected(priced.error));
    }
    var code := OrderCode(timestamp, uuid);
    if code in db.orders {
      return Err(Conflict("orders.order_code"));
    }
    r := PlaceOrder(db, uid, lines, priced.value, address, phone, note, code);
    OrderPlacedIntro(old(db.variants), old(db.ledger), old(db.orders), old(db.carts), db.products, uid, address, phone, note, code,
                     db.variants, db.ledger, db.orders, db.carts, r.value);
  }

  /** The successful end of `createOrderFromCart`: saves a PENDING order with the note, snapshots and
    * deducts every line, and empties the cart. */
  method PlaceOrder(db: Db, uid: int, lines: seq<CartItem>, total: int, address: string, phone: string,
                    note: Option<string>, code: string) returns (r: Outcome<OrderRow>)
    requires uid in db.carts && lines == db.carts[uid].items
    requires LinesKnown(lines, db.variants) && VariantsPriced(db.variants, db.products) && DistinctVariants(lines)
    requires forall k :: 0 <= k < |lines| ==> Stocked(lines[k], db.variants)
    modifies db`variants, db`ledger, db`orders, db`carts
    ensures r.Ok?
    ensures r.value == OrderRow(code, uid, total, Pending, address, phone, note, SnapshotItems(lines, old(db.variants), db.products, code))
    ensures db.orders == old(db.orders)[code := r.value]
    ensures db.variants == AfterDeductions(old(db.variants), lines, |lines|)
    ensures db.ledger == old(db.ledger) + DeductionRows(old(db.variants), lines, code, |lines|)
    ensures db.carts == old(db.carts)[uid := old(db.carts[uid]).(items := [])]
  {
    ghost var v0, products := db.variants, db.products;
    var order := new Order(code, uid, total, address, phone);
    order.note := note;
    order.status := Pending;
    assert order.items == [] && order.code == code;
    SnapshotAndDeduct(db, order, lines);
    ghost var items := SnapshotItems(lines, v0, products, code);
    assert order.items == [] + items;
    var placed := order.Row();
    assert placed == OrderRow(code, uid, total, Pending, address, phone, note, items);
    var cart := new Cart.Load(db.carts[uid]);
    cart.ClearItems();
    db.carts := db.carts[uid := cart.Row()];
    db.orders := db.orders[code := placed];
    r := Ok(placed);
  }

  /** Collects the pieces of a successful checkout into `OrderPlaced`. */
  lemma OrderPlacedIntro(variants0: map<int, Variant>, ledger0: seq<StockTx>, orders0: map<string, OrderRow>,
                         carts0: map<int, CartRow>, products: map<int, ProductRow>, uid: int,
                         address: string, phone: string, note: Option<string>, code: string,
                         variants: map<int, Variant>, ledger: seq<StockTx>, orders: map<string, OrderRow>,
                         carts: map<int, CartRow>, placed: OrderRow)
    requires uid in carts0 && LinesKnown(carts0[uid].items, variants0) && VariantsPriced(variants0, products)
    requires carts0[uid].items != [] && code !in orders0
    requires forall k :: 0 <= k < |carts0[uid].items| ==> Stocked(carts0[uid].items[k], variants0)
    requires placed == OrderRow(code, uid, LinesTotal(carts0[uid].items, variants0, products), Pending, address, phone, note,
                                SnapshotItems(carts0[uid].items, variants0, products, code))
    requires orders == orders0[code := placed]
    requires variants == AfterDeductions(variants0, carts0[uid].items, |carts0[uid].items|)
    requires ledger == ledger0 + DeductionRows(variants0, carts0[uid].items, code, |carts0[uid].items|)
    requires carts == carts0[uid := carts0[uid].(items := [])]
    ensures OrderPlaced(variants0, ledger0, orders0, carts0, products, uid, address, phone, note, code,
                        variants, ledger, orders, carts, placed)
  {
  }

  /** What a successful checkout leaves behind: a new PENDING order under the generated code, one
    * snapshot line per cart line, every line's stock deducted and logged, and an empty cart. */
  ghost predicate OrderPlaced(variants0: map<int, Variant>, ledger0: seq<StockTx>, orders0: map<string, OrderRow>,
                              carts0: map<int, CartRow>, products: map<int, ProductRow>, uid: int,
                              address: string, phone: string, note: Option<string>, code: string,
                              variants: map<int, Variant>, ledger: seq<StockTx>, orders: map<string, OrderRow>,
                              carts: map<int, CartRow>, placed: OrderRow)
  {
    uid in carts0 && LinesKnown(carts0[uid].items, variants0) && VariantsPriced(variants0, products)
    && var lines := carts0[uid].items;
    && lines != []
    && (forall k :: 0 <= k < |lines| ==> Stocked(lines[k], variants0))
    && code !in orders0
    && placed == OrderRow(code, uid, LinesTotal(lines, variants0, products), Pending, address, phone, note,
                          SnapshotItems(lines, variants0, products, code))
    && orders == orders0[code := placed]
    && variants == AfterDeductions(variants0, lines, |lines|)
    && ledger == ledger0 + DeductionRows(variants0, lines, code, |lines|)
    && carts == carts0[uid := carts0[uid].(items := [])]
  }

  /** On a successful checkout the order total is the sum of its lines' subtotals, its item count is
    * the cart's, every line's variant lost exactly that line's quantity (never below zero), the log
    * gained exactly one deduction row per line, and the cart is left with no items. */
  lemma {:induction false} PlacedOrderFacts(variants0: map<int, Variant>, ledger0: seq<StockTx>, orders0: map<string, OrderRow>,
                                            carts0: map<int, CartRow>, products: map<int, ProductRow>, uid: int,
                                            address: string, phone: string, note: Option<string>, code: string,
                                            variants: map<int, Variant>, ledger: seq<StockTx>, orders: map<string, OrderRow>,
                                            carts: map<int, CartRow>, placed: OrderRow)
    requires OrderPlaced(variants0, ledger0, orders0, carts0, products, uid, address, phone, note, code,
                         variants, ledger, orders, carts, placed)
    requires CartsWellFormed(carts0, variants0)
    ensures placed.status == Pending && placed.total == SumSubtotals(placed.items)
    ensures TotalQuantity(placed.items) == LinesQuantity(carts0[uid].items)
    ensures forall k :: 0 <= k < |carts0[uid].items| ==>
              var id := carts0[uid].items[k].variantId;
              id in variants0 && id in variants && variants[id].stock == variants0[id].stock - carts0[uid].items[k].quantity >= 0
    ensures |ledger| == |ledger0| + |carts0[uid].items|
    ensures forall k :: 0 <= k < |carts0[uid].items| ==>
              ledger[|ledger0| + k].change == -carts0[uid].items[k].quantity
    ensures uid in carts && carts[uid].items == []
  {
    var lines := carts0[uid].items;
    assert DistinctVariants(lines) by {
      assert CartLinesWellFormed(lines, variants0);
    }
    SnapshotTotals(lines, variants0, products, code);
    forall k | 0 <= k < |lines|
      ensures var id := lines[k].variantId;
              id in variants0 && id in variants && variants[id].stock == variants0[id].stock - lines[k].quantity >= 0
      ensures ledger[|ledger0| + k].change == -lines[k].quantity
    {
      AfterDeductionsEffect(variants0, lines, |lines|, k);
      DeductionRowsShape(variants0, lines, code, |lines|, k);
      assert Stocked(lines[k], variants0);
    }
  }
}

=== FILE: orders.dfy ===
/** The `Order` aggregate and its `OrderItem` snapshot lines. */
module Orders {
  import opened Wrappers
  import opened Enums

  /** One line of a placed order. It copies the product name, a variant descriptor and the unit
    * price at checkout time and holds no link to the variant, so later catalogue edits never
    * alter it. `orderCode` is the back-reference to the owning order. */
  datatype OrderItem = OrderItem(orderCode: Option<string>, productName: string, variantInfo: string,
                                 quantity: int, unitPrice: int)

  /** The snapshot constructor: the fields are stored exactly as given. */
  function NewOrderItem(orderCode: string, productName: string, variantInfo: string, quantity: int, unitPrice: int): (item: OrderItem)
    ensures item.orderCode == Some(orderCode)
    ensures item.productName == productName && item.variantInfo == variantInfo
    ensures item.quantity == quantity && item.unitPrice == unitPrice
  {
    OrderItem(Some(orderCode), productName, variantInfo, quantity, unitPrice)
  }

  /** `getSubtotal`. */
  function Subtotal(item: OrderItem): (r: int)
    ensures item.unitPrice >= 0 && item.quantity >= 0 ==> r >= 0
    ensures item.quantity == 0 ==> r == 0
  {
    item.unitPrice * item.quantity
  }

  /** Sum of the subtotals of a list of lines. */
  function SumSubtotals(items: seq<OrderItem>): int
  {
    if items == [] then 0 else SumSubtotals(items[..|items| - 1]) + Subtotal(items[|items| - 1])
  }

  /** `totalItems` of the order DTO: the sum of the line quantities. */
  function TotalQuantity(items: seq<OrderItem>): int
  {
    if items == [] then 0 else TotalQuantity(items[..|items| - 1]) + items[|items| - 1].quantity
  }

  /** With no negative quantities the item count bounds every single line's quantity. */
  lemma {:induction false} TotalQuantityBoundsLines(items: seq<OrderItem>, k: int)
    requires forall i :: 0 <= i < |items| ==> items[i].quantity >= 0
    requires 0 <= k < |items|
    ensures 0 <= items[k].quantity <= TotalQuantity(items)
  {
    var n := |items| - 1;
    assert forall i :: 0 <= i < n ==> items[..n][i] == items[i];
    if k < n {
      TotalQuantityBoundsLines(items[..n], k);
    } else {
      TotalQuantityNonNegative(items[..n]);
    }
  }

  lemma {:induction false} TotalQuantityNonNegative(items: seq<OrderItem>)
    requires forall i :: 0 <= i < |items| ==> items[i].quantity >= 0
    ensures TotalQuantity(items) >= 0
  {
    if items != [] {
      var n := |items| - 1;
      assert forall i :: 0 <= i < n ==> items[..n][i] == items[i];
      TotalQuantityNonNegative(items[..n]);
    }
  }

  /** `canCancel`: only orders not yet shipped can be cancelled. */
  predicate Cancellable(s: OrderStatus): (b: bool)
    ensures b ==> !DeliveredOrBeyond(s) && s != Processing && s != Cancelled
  {
    s == Pending || s == Confirmed
  }

  /** `isDeliveredOrBeyond`. */
  predicate DeliveredOrBeyond(s: OrderStatus): (b: bool)
    ensures b ==> s != Pending && s != Confirmed && s != Processing && s != Cancelled
  {
    s == Shipped || s == Delivered || s == Completed
  }

  /** No status is both cancellable and delivered-or-beyond; PROCESSING and CANCELLED are neither. */
  lemma CancellableExcludesDelivered(s: OrderStatus)
    ensures !(Cancellable(s) && DeliveredOrBeyond(s))
    ensures !Cancellable(s) && !DeliveredOrBeyond(s) <==> s == Processing || s == Cancelled
  {
  }

  /** A stored order. */
  datatype OrderRow = OrderRow(code: string, userId: int, total: int, status: OrderStatus,
                               address: string, phone: string, note: Option<string>, items: seq<OrderItem>)

  /** The order entity while a service works on it. */
  class Order {
    var code: string
    var userId: int
    var total: int
    var status: OrderStatus
    var address: string
    var phone: string
    var note: Option<string>
    var items: seq<OrderItem>

    function Row(): OrderRow
      reads this
    {
      OrderRow(code, userId, total, status, address, phone, note, items)
    }

    /** A new order is PENDING, has no note and no items. */
    constructor (code: string, userId: int, total: int, address: string, phone: string)
      ensures Row() == OrderRow(code, userId, total, Pending, address, phone, None, [])
    {
      this.code := code;
      this.userId := userId;
      this.total := total;
      this.status := Pending;
      this.address := address;
      this.phone := phone;
      this.note := None;
      this.items := [];
    }

    /** `addItem`: appends the line and points its back-reference at this order. */
    method AddItem(item: OrderItem)
      modifies this`items
      ensures items == old(items) + [item.(orderCode := Some(code))]
      ensures items[|items| - 1].orderCode == Some(code)
    {
      items := items + [item.(orderCode := Some(code))];
    }
  }
}

=== FILE: payment_service.dfy ===
/** `PaymentService`: payment creation, confirmation and failure, and the admin payment filter. */
module PaymentService {
  import opened Wrappers
  import opened Text
  import opened Enums
  import opened Orders
  import opened Payments
  import opened Store

  /** `createPaymentForOrder`: stores a new PENDING payment. (Checkout never calls it.) */
  method CreatePaymentForOrder(db: Db, orderCode: string, payMethod: PaymentMethod, amount: int) returns (r: PaymentRow)
    modifies db`payments
    ensures r == PaymentRow(orderCode, payMethod, amount, PaymentPending, None, None, None)
    ensures db.payments == old(db.payments) + [r]
  {
    var payment := new Payment(orderCode, payMethod, amount);
    r := payment.Row();
    db.payments := db.payments + [r];
  }

  /** The position of the order's most recently created payment: the last one stored for it. */
  function LatestPayment(payments: seq<PaymentRow>, orderCode: string): (r: Option<nat>)
    ensures r.Some? ==> r.value < |payments| && payments[r.value].orderCode == orderCode
    ensures r.Some? ==> forall j :: r.value < j < |payments| ==> payments[j].orderCode != orderCode
    ensures r.None? <==> forall j :: 0 <= j < |payments| ==> payments[j].orderCode != orderCode
  {
    if payments == [] then None
    else if payments[|payments| - 1].orderCode == orderCode then Some(|payments| - 1)
    else LatestPayment(payments[..|payments| - 1], orderCode)
  }

  /** `generateTransactionCode`, with the clock reading and the random UUID text passed in. */
  function TransactionCode(payMethod: PaymentMethod, timestamp: string, uuid: string): (code: string)
    requires |uuid| >= 6
    ensures |code| == |timestamp| + 9
    ensures StartsWith(code, "COD") <==> payMethod == Cod
    ensures StartsWith(code, "TRF") <==> payMethod != Cod
    ensures code[3..3 + |timestamp|] == timestamp
    ensures forall i :: 3 + |timestamp| <= i < |code| ==> !IsLower(code[i])
  {
    var prefix := if payMethod == Cod then "COD" else "TRF";
    assert prefix[0] != (if payMethod == Cod then 'T' else 'C');
    prefix + timestamp + ToUpper(uuid[..6])
  }

  /** The code a confirmation records: the supplied one if non-empty, else a generated one. */
  function ChosenCode(supplied: Option<string>, payMethod: PaymentMethod, timestamp: string, uuid: string): string
    requires |uuid| >= 6
  {
    if supplied.Some? && supplied.value != "" then supplied.value else TransactionCode(payMethod, timestamp, uuid)
  }

  /** The order status after a payment confirmation: only a non-COD payment of a PENDING order
    * advances it, to CONFIRMED. */
  function StatusAfterConfirmation(payMethod: PaymentMethod, status: OrderStatus): (r: OrderStatus)
    ensures r != status <==> payMethod != Cod && status == Pending
    ensures r != status ==> r == Confirmed
  {
    if payMethod != Cod && status == Pending then Confirmed else status
  }

  /** `confirmPayment`: the order's latest payment becomes PAID unless it already is PAID or
    * REFUNDED; `now`, `timestamp` and `uuid` stand for the clock and the random source. */
  method ConfirmPayment(db: Db, orderCode: string, supplied: Option<string>, notes: Option<string>,
                        now: int, timestamp: string, uuid: string) returns (r: Outcome<PaymentRow>)
    requires |uuid| >= 6
    modifies db`payments, db`orders
    ensures orderCode !in old(db.orders) ==> r == Err(Rejected("Order not found"))
    ensures orderCode in old(db.orders) && LatestPayment(old(db.payments), orderCode).None? ==>
              r == Err(Rejected("No payment found for this order"))
    ensures orderCode in old(db.orders) && LatestPayment(old(db.payments), orderCode).Some? ==>
              var i := LatestPayment(old(db.payments), orderCode).value;
              var p := old(db.payments[i]);
              (p.status == Paid ==> r == Err(Rejected("Payment has already been confirmed")))
              && (p.status == Refunded ==> r == Err(Rejected("Payment has been refunded")))
              && (r.Ok? <==> p.status != Paid && p.status != Refunded)
              && (r.Ok? ==>
                    r.value == p.(status := Paid, paidAt := Some(now),
                                  transactionCode := Some(ChosenCode(supplied, p.payMethod, timestamp, uuid)),
                                  notes := if notes.Some? && notes.value != "" then notes else p.notes)
                    && db.payments == old(db.payments)[i := r.value]
                    && db.orders == old(db.orders)[orderCode := old(db.orders[orderCode]).(
                                      status := StatusAfterConfirmation(p.payMethod, old(db.orders[orderCode].status)))])
    ensures r.Err? ==> db.payments == old(db.payments) && db.orders == old(db.orders)
  {
    if orderCode !in db.orders {
      return Err(Rejected("Order not found"));
    }
    var order := db.orders[orderCode];
    var latest := LatestPayment(db.payments, orderCode);
    if latest.None? {
      return Err(Rejected("No payment found for this order"));
    }
    var i := latest.value;
    var payment := new Payment.Load(db.payments[i]);
    if payment.status == Paid {
      return Err(Rejected("Payment has already been confirmed"));
    }
    if payment.status == Refunded {
      return Err(Rejected("Payment has been refunded"));
    }
    var code := supplied;
    if code.None? || code.value == "" {
      code := Some(TransactionCode(payment.payMethod, timestamp, uuid));
    }
    payment.MarkAsPaid(code, notes, now);
    r := Ok(payment.Row());
    db.payments := db.payments[i := payment.Row()];
    if payment.payMethod != Cod && order.status == Pending {
      db.orders := db.orders[orderCode := order.(status := Confirmed)];
    } else {
      db.orders := db.orders[orderCode := order];
    }
  }

  /** `markPaymentFailed`: the order's latest payment becomes FAILED with the reason as its notes,
    * unless it is PAID or REFUNDED. The order is left alone. */
  method MarkPaymentFailed(db: Db, orderCode: string, reason: Option<string>) returns (r: Outcome<PaymentRow>)
    modifies db`payments
    ensures orderCode !in db.orders ==> r == Err(Rejected("Order not found"))
    ensures orderCode in db.orders && LatestPayment(old(db.payments), orderCode).None? ==>
              r == Err(Rejected("No payment found for this order"))
    ensures orderCode in db.orders && LatestPayment(old(db.payments), orderCode).Some? ==>
              var i := LatestPayment(old(db.payments), orderCode).value;
              var p := old(db.payments[i]);
              (p.status == Paid ==> r == Err(Rejected("Cannot mark a paid payment as failed")))
              && (p.status == Refunded ==> r == Err(Rejected("Cannot mark a refunded payment as failed")))
              && (r.Ok? <==> p.status != Paid && p.status != Refunded)
              && (r.Ok? ==> r.value == p.(status := Failed, notes := reason) && db.payments == old(db.payments)[i := r.value])
    ensures r.Err? ==> db.payments == old(db.payments)
  {
    if orderCode !in db.orders {
      return Err(Rejected("Order not found"));
    }
    var latest := LatestPayment(db.payments, orderCode);
    if latest.None? {
      return Err(Rejected("No payment found for this order"));
    }
    var i := latest.value;
    var payment := new Payment.Load(db.payments[i]);
    if payment.status == Paid {
      return Err(Rejected("Cannot mark a paid payment as failed"));
    }
    if payment.status == Refunded {
      return Err(Rejected("Cannot mark a refunded payment as failed"));
    }
    payment.MarkAsFailed(reason);
    r := Ok(payment.Row());
    db.payments := db.payments[i := payment.Row()];
  }

  /** The payments kept by a filter, in their stored order. */
  function Select(payments: seq<PaymentRow>, keep: PaymentRow -> bool): (r: seq<PaymentRow>)
    ensures |r| <= |payments|
    ensures forall p :: p in r <==> p in payments && keep(p)
  {
    if payments == [] then []
    else
      var rest := Select(payments[..|payments| - 1], keep);
      var last := payments[|payments| - 1];
      assert payments == payments[..|payments| - 1] + [last];
      if keep(last) then rest + [last] else rest
  }

  /** Filtering works piece by piece: the kept payments of a concatenation are the kept payments of
    * each part, one after the other, and a single payment is kept exactly when the filter passes
    * it; so the filter keeps the stored order. */
  lemma {:induction false} SelectSplits(a: seq<PaymentRow>, b: seq<PaymentRow>, keep: PaymentRow -> bool)
    ensures Select(a + b, keep) == Select(a, keep) + Select(b, keep)
    ensures |b| == 1 ==> Select(b, keep) == if keep(b[0]) then b else []
    decreases |b|
  {
    if |b| == 1 {
      assert b[..0] == [];
    }
    if b == [] {
      assert a + b == a;
    } else {
      var n := |b| - 1;
      SelectSplits(a, b[..n], keep);
      assert (a + b)[..|a + b| - 1] == a + b[..n];
    }
  }

  /** `getAllPayments`' repository dispatch on which filters are given (paging left aside). */
  function AllPayments(payments: seq<PaymentRow>, status: Option<PaymentStatus>, payMethod: Option<PaymentMethod>): seq<PaymentRow>
  {
    if status.Some? && payMethod.Some? then Select(payments, (p: PaymentRow) => p.status == status.value && p.payMethod == payMethod.value)
    else if status.Some? then Select(payments, (p: PaymentRow) => p.status == status.value)
    else if payMethod.Some? then Select(payments, (p: PaymentRow) => p.payMethod == payMethod.value)
    else payments
  }

  /** A payment passes the admin filter: each given criterion matches, an absent one matches all. */
  predicate PassesFilter(p: PaymentRow, status: Option<PaymentStatus>, payMethod: Option<PaymentMethod>)
  {
    (status.None? || p.status == status.value) && (payMethod.None? || p.payMethod == payMethod.value)
  }

  lemma {:induction false} SelectAgrees(payments: seq<PaymentRow>, f: PaymentRow -> bool, g: PaymentRow -> bool)
    requires forall p :: f(p) == g(p)
    ensures Select(payments, f) == Select(payments, g)
  {
    if payments != [] {
      SelectAgrees(payments[..|payments| - 1], f, g);
    }
  }

  lemma {:induction false} SelectAll(payments: seq<PaymentRow>, f: PaymentRow -> bool)
    requires forall p :: f(p)
    ensures Select(payments, f) == payments
  {
    if payments != [] {
      SelectAll(payments[..|payments| - 1], f);
      assert payments == payments[..|payments| - 1] + [payments[|payments| - 1]];
    }
  }

  /** The four-way dispatch is one uniform filter: absent criteria match every payment. */
  lemma AllPaymentsIsOneFilter(payments: seq<PaymentRow>, status: Option<PaymentStatus>, payMethod: Option<PaymentMethod>)
    ensures AllPayments(payments, status, payMethod) == Select(payments, (p: PaymentRow) => PassesFilter(p, status, payMethod))
  {
    var uniform := (p: PaymentRow) => PassesFilter(p, status, payMethod);
    if status.Some? && payMethod.Some? {
      SelectAgrees(payments, (p: PaymentRow) => p.status == status.value && p.payMethod == payMethod.value, uniform);
    } else if status.Some? {
      SelectAgrees(payments, (p: PaymentRow) => p.status == status.value, uniform);
    } else if payMethod.Some? {
      SelectAgrees(payments, (p: PaymentRow) => p.payMethod == payMethod.value, uniform);
    } else {
      SelectAll(payments, uniform);
    }
  }
}

=== FILE: payments.dfy ===
/** The `Payment` entity: one payment attempt for an order and its status changes. */
module Payments {
  import opened Wrappers
  import opened Enums

  /** A stored payment; `orderCode` is the reference to the paid order, `paidAt` a clock reading. */
  datatype PaymentRow = PaymentRow(orderCode: string, payMethod: PaymentMethod, amount: int, status: PaymentStatus,
                                   transactionCode: Option<string>, paidAt: Option<int>, notes: Option<string>)

  class Payment {
    var orderCode: string
    var payMethod: PaymentMethod
    var amount: int
    var status: PaymentStatus
    var transactionCode: Option<string>
    var paidAt: Option<int>
    var notes: Option<string>

    function Row(): PaymentRow
      reads this
    {
      PaymentRow(orderCode, payMethod, amount, status, transactionCode, paidAt, notes)
    }

    /** A new payment is PENDING, carries the method and amount given, and has no code, time or notes. */
    constructor (orderCode: string, payMethod: PaymentMethod, amount: int)
      ensures Row() == PaymentRow(orderCode, payMethod, amount, PaymentPending, None, None, None)
      ensures CanRetry() && !IsPaid()
    {
      this.orderCode := orderCode;
      this.payMethod := payMethod;
      this.amount := amount;
      this.status := PaymentPending;
      this.transactionCode := None;
      this.paidAt := None;
      this.notes := None;
    }

    /** The entity as loaded from its stored row. */
    constructor Load(row: PaymentRow)
      ensures Row() == row
    {
      orderCode, payMethod, amount, status := row.orderCode, row.payMethod, row.amount, row.status;
      transactionCode, paidAt, notes := row.transactionCode, row.paidAt, row.notes;
    }

    /** `markAsPaid`: PAID at `now` with the given code; notes are replaced only by non-empty notes. */
    method MarkAsPaid(code: Option<string>, newNotes: Option<string>, now: int)
      modifies this`status, this`paidAt, this`transactionCode, this`notes
      ensures status == Paid && paidAt == Some(now) && transactionCode == code
      ensures notes == if newNotes.Some? && newNotes.value != "" then newNotes else old(notes)
      ensures IsPaid() && !CanRetry()
    {
      status := Paid;
      paidAt := Some(now);
      transactionCode := code;
      if newNotes.Some? && newNotes.value != "" {
        notes := newNotes;
      }
    }

    /** `markAsFailed`: FAILED, with the reason as the notes; a failed payment may be retried. */
    method MarkAsFailed(reason: Option<string>)
      modifies this`status, this`notes
      ensures status == Failed && notes == reason
      ensures CanRetry() && !IsPaid()
    {
      status := Failed;
      notes := reason;
    }

    /** `markAsRefunded`: REFUNDED, with the given notes; a refunded payment is final. */
    method MarkAsRefunded(newNotes: Option<string>)
      modifies this`status, this`notes
      ensures status == Refunded && notes == newNotes
      ensures !CanRetry() && !IsPaid()
    {
      status := Refunded;
      notes := newNotes;
    }

    /** `isPaid`. */
    predicate IsPaid(): (b: bool)
      reads this
      ensures b ==> status != PaymentPending && status != Failed && status != Refunded
    {
      status == Paid
    }

    /** `canRetry`: a payment still pending or already failed may be attempted again. */
    predicate CanRetry(): (b: bool)
      reads this
      ensures b ==> status != Paid && status != Refunded
    {
      status == PaymentPending || status == Failed
    }
  }
}

=== FILE: product_form.dfy ===
/** The admin product form (`ProductForm`): the slug it derives from the name, the checks it runs
  * before submitting, and what typing a name changes. */
module ProductForm {
  import opened Wrappers
  import opened Text
  import opened Seqs
  import opened VariantEditor
  import opened ImageEditor

  /** `CreateProductRequest` as the form holds it; a category id of 0 means none is chosen. */
  datatype ProductFormData = ProductFormData(name: string, slug: string, description: string, basePrice: int,
                                             categoryId: int, isVisible: bool, variants: seq<FormVariant>,
                                             images: seq<FormImage>)

  /** `DEFAULT_PRODUCT`: the empty form a new product starts from. */
  const DefaultProduct: ProductFormData := ProductFormData("", "", "", 0, 0, true, [], [])

  // ---------------------------------------------------------------- the slug

  /** The characters a generated slug is made of. */
  predicate SlugChar(c: char)
  {
    IsLower(c) || IsDigit(c) || c == '-'
  }

  predicate IsSlugText(s: string)
  {
    forall i :: 0 <= i < |s| ==> SlugChar(s[i])
  }

  /** `replace(/[^a-z0-9\s-]/g, '')`: keeps slug characters and whitespace. */
  function KeepSlugChars(s: string): (r: string)
    ensures |r| <= |s|
    ensures forall i :: 0 <= i < |r| ==> SlugChar(r[i]) || IsJsSpace(r[i])
    ensures (forall i :: 0 <= i < |s| ==> SlugChar(s[i]) || IsJsSpace(s[i])) ==> r == s
  {
    if s == [] then []
    else (if SlugChar(s[0]) || IsJsSpace(s[0]) then [s[0]] else []) + KeepSlugChars(s[1..])
  }

  /** The text after its leading whitespace. */
  function SkipSpaces(s: string): (r: string)
    ensures |r| <= |s| && r == s[|s| - |r|..]
    ensures r == [] || !IsJsSpace(r[0])
  {
    if s != [] && IsJsSpace(s[0]) then SkipSpaces(s[1..]) else s
  }

  /** `replace(/\s+/g, '-')`: every run of whitespace becomes one '-'. */
  function CollapseSpaces(s: string): (r: string)
    ensures forall i :: 0 <= i < |r| ==> !IsJsSpace(r[i]) && (r[i] == '-' || r[i] in s)
    ensures (forall i :: 0 <= i < |s| ==> !IsJsSpace(s[i])) ==> r == s
    decreases |s|
  {
    if s == [] then []
    else if IsJsSpace(s[0]) then "-" + CollapseSpaces(SkipSpaces(s[1..]))
    else [s[0]] + CollapseSpaces(s[1..])
  }

  /** `generateSlug`: lower-case, drop every character that is not a letter a-z, a digit, whitespace
    * or '-', trim, and turn each run of whitespace into '-'. */
  function GenerateSlug(name: string): (slug: string)
    ensures IsSlugText(slug)
  {
    var kept := KeepSlugChars(ToLower(name));
    var trimmed := JsTrim(kept);
    assert forall i :: 0 <= i < |trimmed| ==> SlugChar(trimmed[i]) || IsJsSpace(trimmed[i]);
    CollapseSpaces(trimmed)
  }

  /** Slug text is its own slug, so generating a slug twice gives what generating it once does. */
  lemma SlugFixedPoint(s: string)
    requires IsSlugText(s)
    ensures GenerateSlug(s) == s
  {
    LowerKeepsLower(s);
    assert KeepSlugChars(s) == s;
    SlugTextTrimmed(s);
  }

  lemma SlugTextTrimmed(s: string)
    requires IsSlugText(s)
    ensures JsTrim(s) == s
    ensures forall i :: 0 <= i < |s| ==> !IsJsSpace(s[i])
  {
    forall i | 0 <= i < |s|
      ensures !IsJsSpace(s[i])
    {
      SlugCharNotSpace(s[i]);
    }
  }

  /** No slug character is whitespace. */
  lemma SlugCharNotSpace(c: char)
    requires SlugChar(c)
    ensures !IsJsSpace(c)
  {
  }

  lemma SlugIdempotent(name: string)
    ensures GenerateSlug(GenerateSlug(name)) == GenerateSlug(name)
  {
    SlugFixedPoint(GenerateSlug(name));
  }

  /** A generated slug counts as blank for the form's check exactly when it is empty. */
  lemma SlugBlankOnlyWhenEmpty(name: string)
    ensures JsBlank(GenerateSlug(name)) <==> GenerateSlug(name) == []
  {
    var slug := GenerateSlug(name);
    JsBlankAllSpace(slug);
    if slug != [] {
      assert !IsJsSpace(slug[0]);
    }
  }

  // ---------------------------------------------------------------- duplicate and blank SKUs

  function Skus(variants: seq<FormVariant>): (skus: seq<string>)
    ensures |skus| == |variants| && forall i :: 0 <= i < |variants| ==> skus[i] == variants[i].sku
  {
    seq(|variants|, i requires 0 <= i < |variants| => variants[i].sku)
  }

  /** `Array.prototype.indexOf`: the first position holding `x`, or -1. */
  function IndexOfElem(s: seq<string>, x: string): (r: int)
    ensures r == -1 <==> x !in s
    ensures r != -1 ==> 0 <= r < |s| && s[r] == x && x !in s[..r]
  {
    if s == [] then -1
    else if s[0] == x then 0
    else
      var rest := IndexOfElem(s[1..], x);
      if rest == -1 then -1
      else
        assert s[..rest + 1] == [s[0]] + s[1..][..rest];
        rest + 1
  }

  /** `skus.indexOf(skus[i]) !== i` holds exactly when the same SKU occurs at an earlier position. */
  lemma RepeatedIffEarlier(s: seq<string>, i: nat)
    requires i < |s|
    ensures IndexOfElem(s, s[i]) != i <==> s[i] in s[..i]
  {
    var r := IndexOfElem(s, s[i]);
    if s[i] in s[..i] {
      var j :| 0 <= j < i && s[..i][j] == s[i];
      assert r <= j;
    }
  }

  /** `skus.filter((item, index) => skus.indexOf(item) !== index)` over the first `k` positions. */
  function RepeatsUpTo(s: seq<string>, k: nat): (dups: seq<string>)
    requires k <= |s|
  {
    if k == 0 then []
    else RepeatsUpTo(s, k - 1) + (if IndexOfElem(s, s[k - 1]) != k - 1 then [s[k - 1]] else [])
  }

  /** `duplicateSkus`. */
  function Repeats(s: seq<string>): seq<string>
  {
    RepeatsUpTo(s, |s|)
  }

  /** Each SKU is listed once for every occurrence after its first one. */
  lemma RepeatsUpToCount(s: seq<string>, k: nat)
    requires k <= |s|
    ensures forall x :: multiset(RepeatsUpTo(s, k))[x] == if x in s[..k] then multiset(s[..k])[x] - 1 else 0
  {
    forall x
      ensures multiset(RepeatsUpTo(s, k))[x] == if x in s[..k] then multiset(s[..k])[x] - 1 else 0
    {
      RepeatsUpToCountOf(s, k, x);
    }
  }

  lemma {:induction false} RepeatsUpToCountOf(s: seq<string>, k: nat, x: string)
    requires k <= |s|
    ensures multiset(RepeatsUpTo(s, k))[x] == if x in s[..k] then multiset(s[..k])[x] - 1 else 0
  {
    if k > 0 {
      RepeatsUpToCountOf(s, k - 1, x);
      RepeatsStep(s, k);
      var y, p := s[k - 1], s[..k - 1];
      assert x in s[..k] <==> x in p || x == y;
      assert x in p <==> multiset(p)[x] > 0;
    }
  }

  lemma RepeatsStep(s: seq<string>, k: nat)
    requires 0 < k <= |s|
    ensures multiset(s[..k]) == multiset(s[..k - 1]) + multiset{s[k - 1]}
    ensures multiset(RepeatsUpTo(s, k))
            == multiset(RepeatsUpTo(s, k - 1)) + if s[k - 1] in s[..k - 1] then multiset{s[k - 1]} else multiset{}
  {
    RepeatedIffEarlier(s, k - 1);
    assert s[..k] == s[..k - 1] + [s[k - 1]];
  }

  lemma RepeatsCount(s: seq<string>)
    ensures forall x :: multiset(Repeats(s))[x] == if x in s then multiset(s)[x] - 1 else 0
  {
    RepeatsUpToCount(s, |s|);
    assert s[..|s|] == s;
  }

  /** No SKU is reported as a duplicate exactly when all SKUs differ. */
  lemma RepeatsEmptyIffDistinct(s: seq<string>)
    ensures Repeats(s) == [] <==> forall i, j :: 0 <= i < j < |s| ==> s[i] != s[j]
  {
    RepeatsCount(s);
    NoDuplicatesPositions(s);
    if Repeats(s) != [] {
      var x := Repeats(s)[0];
      assert multiset(Repeats(s))[x] > 0;
      assert !NoDuplicates(s) by {
        assert x in multiset(s) && multiset(s)[x] > 1;
      }
    } else {
      forall x | x in multiset(s)
        ensures multiset(s)[x] <= 1
      {
        assert multiset(Repeats(s))[x] == 0;
      }
    }
  }

  /** `duplicateSkus.join(', ')`. */
  function Join(xs: seq<string>, sep: string): string
  {
    if xs == [] then "" else if |xs| == 1 then xs[0] else xs[0] + sep + Join(xs[1..], sep)
  }

  /** `findIndex((v) => !v.sku.trim())`: the first variant whose SKU is blank. */
  function FirstBlankSku(variants: seq<FormVariant>): (r: Option<nat>)
    ensures r.None? <==> forall i :: 0 <= i < |variants| ==> !JsBlank(variants[i].sku)
    ensures r.Some? ==> r.value < |variants| && JsBlank(variants[r.value].sku)
                        && forall i :: 0 <= i < r.value ==> !JsBlank(variants[i].sku)
  {
    if variants == [] then None
    else if JsBlank(variants[0].sku) then Some(0)
    else
      var rest := FirstBlankSku(variants[1..]);
      if rest.None? then None else Some(rest.value + 1)
  }

  // ---------------------------------------------------------------- validation

  const NameRequired: string := "Tên sản phẩm là bắt buộc"
  const SlugRequired: string := "Slug là bắt buộc"
  const PriceNotPositive: string := "Giá cơ bản phải lớn hơn 0"
  const CategoryRequired: string := "Vui lòng chọn danh mục"

  function DuplicateSkuMessage(dups: seq<string>): string
  {
    "SKU bị trùng lặp: " + Join(dups, ", ")
  }

  function BlankSkuMessage(index: nat): string
  {
    "Biến thể #" + IntToString(index + 1) + " chưa có SKU"
  }

  /** The fields `validateForm` can record an error under. */
  datatype ErrorKey = NameKey | SlugKey | BasePriceKey | CategoryIdKey | VariantsKey

  /** The message `validateForm` leaves under `key`, if any; a blank SKU's message wins over the
    * duplicate-SKU message. */
  function ErrorFor(form: ProductFormData, key: ErrorKey): Option<string>
  {
    match key
    case NameKey => if JsBlank(form.name) then Some(NameRequired) else None
    case SlugKey => if JsBlank(form.slug) then Some(SlugRequired) else None
    case BasePriceKey => if form.basePrice <= 0 then Some(PriceNotPositive) else None
    case CategoryIdKey => if form.categoryId == 0 then Some(CategoryRequired) else None
    case VariantsKey => VariantsError(form.variants)
  }

  /** The variant tab's message: a blank SKU is reported in preference to repeated ones. */
  function VariantsError(variants: seq<FormVariant>): Option<string>
  {
    var blank := FirstBlankSku(variants);
    var dups := Repeats(Skus(variants));
    if blank.Some? then Some(BlankSkuMessage(blank.value))
    else if dups != [] then Some(DuplicateSkuMessage(dups))
    else None
  }

  /** The first four checks of `validateForm`: name, slug, base price and category. */
  method RecordFieldErrors(form: ProductFormData) returns (errors: map<ErrorKey, string>)
    ensures forall k | k != VariantsKey :: k in errors <==> ErrorFor(form, k).Some?
    ensures forall k | k in errors :: k != VariantsKey && errors[k] == ErrorFor(form, k).value
  {
    errors := map[];
    if JsBlank(form.name) {
      errors := errors[NameKey := NameRequired];
    }
    if JsBlank(form.slug) {
      errors := errors[SlugKey := SlugRequired];
    }
    if form.basePrice <= 0 {
      errors := errors[BasePriceKey := PriceNotPositive];
    }
    if form.categoryId == 0 {
      errors := errors[CategoryIdKey := CategoryRequired];
    }
    forall k | k != VariantsKey
      ensures k in errors <==> ErrorFor(form, k).Some?
    {
      match k
      case NameKey =>
      case SlugKey =>
      case BasePriceKey =>
      case CategoryIdKey =>
      case VariantsKey =>
    }
  }

  /** `validateForm`: records the errors field by field (the blank-SKU message overwriting the
    * duplicate-SKU one) and reports whether there were none. */
  method ValidateForm(form: ProductFormData) returns (valid: bool, errors: map<ErrorKey, string>)
    ensures forall k :: k in errors <==> ErrorFor(form, k).Some?
    ensures forall k | k in errors :: errors[k] == ErrorFor(form, k).value
    ensures valid <==> errors == map[]
  {
    var fields := RecordFieldErrors(form);
    errors := RecordVariantErrors(form.variants, fields);
    valid := |errors| == 0;
    forall k
      ensures k in errors <==> ErrorFor(form, k).Some?
    {
      match k
      case NameKey =>
      case SlugKey =>
      case BasePriceKey =>
      case CategoryIdKey =>
      case VariantsKey =>
    }
  }

  /** The SKU checks of `validateForm`, on top of the errors of the other fields: a duplicate-SKU
    * message, then a blank-SKU message in its place. */
  method RecordVariantErrors(variants: seq<FormVariant>, fields: map<ErrorKey, string>) returns (errors: map<ErrorKey, string>)
    requires VariantsKey !in fields
    ensures forall k | k != VariantsKey :: (k in errors <==> k in fields) && (k in fields ==> errors[k] == fields[k])
    ensures VariantsKey in errors <==> VariantsError(variants).Some?
    ensures VariantsKey in errors ==> errors[VariantsKey] == VariantsError(variants).value
  {
    errors := fields;
    var dups := Repeats(Skus(variants));
    if |dups| > 0 {
      errors := errors[VariantsKey := DuplicateSkuMessage(dups)];
    }
    var blank := FirstBlankSku(variants);
    if blank.Some? {
      errors := errors[VariantsKey := BlankSkuMessage(blank.value)];
    }
  }

  /** A form draws an error exactly when its name or slug is blank, its base price is not positive,
    * no category is chosen, a SKU repeats or a SKU is blank. */
  lemma NoErrorIffChecksPass(form: ProductFormData)
    ensures (forall k :: ErrorFor(form, k).None?) <==>
              !JsBlank(form.name) && !JsBlank(form.slug) && form.basePrice > 0 && form.categoryId != 0
              && (forall i, j :: 0 <= i < j < |form.variants| ==> form.variants[i].sku != form.variants[j].sku)
              && (forall i :: 0 <= i < |form.variants| ==> !JsBlank(form.variants[i].sku))
  {
    VariantErrorIffChecksPass(form);
    if ErrorFor(form, NameKey).None? && ErrorFor(form, SlugKey).None? && ErrorFor(form, BasePriceKey).None?
       && ErrorFor(form, CategoryIdKey).None? && ErrorFor(form, VariantsKey).None? {
      forall k
        ensures ErrorFor(form, k).None?
      {
        match k
        case NameKey =>
        case SlugKey =>
        case BasePriceKey =>
        case CategoryIdKey =>
        case VariantsKey =>
      }
    }
  }

  /** The SKU checks pass exactly when the SKUs are distinct and none is blank. */
  lemma VariantErrorIffChecksPass(form: ProductFormData)
    ensures ErrorFor(form, VariantsKey).None? <==>
              (forall i, j :: 0 <= i < j < |form.variants| ==> form.variants[i].sku != form.variants[j].sku)
              && (forall i :: 0 <= i < |form.variants| ==> !JsBlank(form.variants[i].sku))
  {
    var skus := Skus(form.variants);
    RepeatsEmptyIffDistinct(skus);
    assert forall i | 0 <= i < |form.variants| :: skus[i] == form.variants[i].sku;
  }

  /** The empty form of a new product is refused for its name, slug, price and category, and for
    * nothing else. */
  lemma DefaultProductRefused()
    ensures forall k :: ErrorFor(DefaultProduct, k).Some? <==> k != VariantsKey
  {
    forall k
      ensures ErrorFor(DefaultProduct, k).Some? <==> k != VariantsKey
    {
      match k
      case NameKey => JsBlankAllSpace(DefaultProduct.name);
      case SlugKey => JsBlankAllSpace(DefaultProduct.slug);
      case BasePriceKey =>
      case CategoryIdKey =>
      case VariantsKey => assert Repeats(Skus(DefaultProduct.variants)) == [];
    }
  }

  /** A table filled by `addVariant` alone passes the variant checks. */
  lemma AddedSkusPassValidation(variants: seq<FormVariant>)
    requires forall k :: 0 <= k < |variants| ==> variants[k].sku == NewSku(k)
    ensures Repeats(Skus(variants)) == [] && FirstBlankSku(variants).None?
  {
    var skus := Skus(variants);
    forall i, j | 0 <= i < j < |skus|
      ensures skus[i] != skus[j]
    {
      assert skus[i] == NewSku(i) && skus[j] == NewSku(j);
      if skus[i] == skus[j] {
        NewSkuInjective(i, j);
      }
    }
    RepeatsEmptyIffDistinct(skus);
    forall i | 0 <= i < |variants|
      ensures !JsBlank(variants[i].sku)
    {
      AutoSkuNotBlank(i);
    }
  }

  lemma AutoSkuNotBlank(count: nat)
    ensures !JsBlank(NewSku(count))
  {
    var sku := NewSku(count);
    JsBlankAllSpace(sku);
    assert sku[0] == sku[..4][0] == 'S';
  }

  /** Removing a row of such a table and adding one makes validation report a duplicate SKU. */
  lemma RemoveThenAddFailsValidation(variants: seq<FormVariant>, index: nat)
    requires forall k :: 0 <= k < |variants| ==> variants[k].sku == NewSku(k)
    requires index < |variants| - 1
    ensures var kept := Without(variants, index);
            Repeats(Skus(kept + [DefaultVariant(NewSku(|kept|))])) != []
  {
    var kept := Without(variants, index);
    AddAfterRemoveRepeatsSku(variants, index);
    var after := kept + [DefaultVariant(NewSku(|kept|))];
    RepeatsEmptyIffDistinct(Skus(after));
    assert Skus(after)[|after| - 2] == Skus(after)[|after| - 1];
  }

  // ---------------------------------------------------------------- typing a name

  /** `handleNameChange`'s form update: the name changes, and the slug follows it only while a new
    * product is being created. */
  function NameChanged(form: ProductFormData, name: string, isEditing: bool): (r: ProductFormData)
    ensures r.name == name
    ensures isEditing ==> r.slug == form.slug
    ensures !isEditing ==> r.slug == GenerateSlug(name) && IsSlugText(r.slug)
    ensures r.(name := form.name, slug := form.slug) == form
  {
    form.(name := name, slug := if isEditing then form.slug else GenerateSlug(name))
  }

  /** `handleNameChange`'s error update: a shown name error is blanked; other errors stay. */
  function NameErrorCleared(errors: map<ErrorKey, string>): (r: map<ErrorKey, string>)
    ensures r.Keys == errors.Keys
    ensures NameKey in r ==> r[NameKey] == ""
    ensures forall k | k in errors && k != NameKey :: r[k] == errors[k]
  {
    if NameKey in errors && errors[NameKey] != "" then errors[NameKey := ""] else errors
  }

  /** While editing, typing a name never changes the slug, however often it is done. */
  lemma {:induction false} EditingKeepsSlug(form: ProductFormData, names: seq<string>)
    ensures NamesTyped(form, names, true).slug == form.slug
  {
    if names != [] {
      EditingKeepsSlug(form, names[..|names| - 1]);
    }
  }

  /** The form after typing the given names one after another. */
  function NamesTyped(form: ProductFormData, names: seq<string>, isEditing: bool): ProductFormData
  {
    if names == [] then form
    else NameChanged(NamesTyped(form, names[..|names| - 1], isEditing), names[|names| - 1], isEditing)
  }

  /** While creating, the slug is always the slug of the last name typed. */
  lemma CreatingSlugFollowsName(form: ProductFormData, names: seq<string>)
    requires names != []
    ensures NamesTyped(form, names, false).slug == GenerateSlug(names[|names| - 1])
    ensures NamesTyped(form, names, false).name == names[|names| - 1]
  {
  }
}

=== FILE: product_service.dfy ===
/** `ProductService`: creating, updating and soft-deleting products with their variants and images.
  * Each operation is one transaction: when it fails part-way, every table is restored. */
module ProductService {
  import opened Wrappers
  import opened Text
  import opened Catalog
  import opened Store
  import Inventory

  datatype VariantRequest = VariantRequest(sku: string, color: Option<string>, size: Option<string>, stock: int,
                                           priceAdjustment: Option<int>, isAvailable: Option<bool>)

  datatype ImageRequest = ImageRequest(url: string, altText: Option<string>, sortOrder: int, isPrimary: Option<bool>)

  /** A create request; an absent list and an empty list are treated alike, so both are `[]`. */
  datatype ProductRequest = ProductRequest(name: string, slug: string, description: Option<string>, basePrice: int,
                                           categoryId: int, isVisible: Option<bool>,
                                           variants: seq<VariantRequest>, images: seq<ImageRequest>)

  /** An update request: `None` leaves the field (or the whole list) alone. */
  datatype ProductUpdate = ProductUpdate(name: Option<string>, slug: Option<string>, description: Option<string>,
                                         basePrice: Option<int>, categoryId: Option<int>, isVisible: Option<bool>,
                                         variants: Option<seq<VariantRequest>>, images: Option<seq<ImageRequest>>)

  /** The four tables a product write touches, with the identity sequence. */
  datatype Catalogue = Catalogue(products: map<int, ProductRow>, variants: map<int, Variant>,
                                 images: map<int, ProductImage>, nextId: int)

  function Snapshot(db: Db): Catalogue
    reads db
  {
    Catalogue(db.products, db.variants, db.images, db.nextId)
  }

  /** The identity sequence is ahead of every stored product, variant and image. */
  predicate Fresh(c: Catalogue)
  {
    (forall k :: k in c.products ==> k < c.nextId)
    && (forall k :: k in c.variants ==> k < c.nextId)
    && (forall k :: k in c.images ==> k < c.nextId)
  }

  // ---------------------------------------------------------------- variants

  /** `existsBySku`: a variant that is not soft-deleted has this SKU. */
  predicate SkuInUse(variants: map<int, Variant>, sku: string)
  {
    exists id :: id in variants && !variants[id].deleted && variants[id].sku == sku
  }

  /** The SKU column is unique over every stored row, soft-deleted ones included. */
  predicate SkuStored(variants: map<int, Variant>, sku: string)
  {
    exists id :: id in variants && variants[id].sku == sku
  }

  /** No two stored variants share a SKU, as the unique column guarantees. */
  predicate SkusUnique(variants: map<int, Variant>)
  {
    forall a, b :: a in variants && b in variants && a != b ==> variants[a].sku != variants[b].sku
  }

  /** The variant `createVariant` builds: no adjustment means 0, no availability means available. */
  function VariantFrom(productId: int, req: VariantRequest): Variant
  {
    Variant(Some(productId), req.sku, req.color, req.size, req.stock, Some(req.priceAdjustment.GetOr(0)),
            req.isAvailable.GetOr(true), false)
  }

  /** Why `createVariant` refuses a request: a live duplicate SKU, then a negative stock, then the
    * unique column still holding the SKU of a soft-deleted row. */
  function VariantRefusal(variants: map<int, Variant>, req: VariantRequest): (r: Option<Failure>)
    ensures r.None? <==> req.stock >= 0 && !SkuStored(variants, req.sku)
  {
    if SkuInUse(variants, req.sku) then Some(Rejected("Variant with this SKU already exists: " + req.sku))
    else if req.stock < 0 then Some(Rejected("Stock quantity cannot be negative"))
    else if SkuStored(variants, req.sku) then Some(Conflict("product_variants.sku"))
    else None
  }

  /** An accepted variant keeps SKUs unique and has non-negative stock. */
  lemma AcceptedVariantKeepsSkusUnique(variants: map<int, Variant>, id: int, productId: int, req: VariantRequest)
    requires SkusUnique(variants) && id !in variants && VariantRefusal(variants, req).None?
    ensures SkusUnique(variants[id := VariantFrom(productId, req)])
    ensures variants[id := VariantFrom(productId, req)][id].stock >= 0
  {
  }

  /** `createVariant`. */
  method CreateVariant(db: Db, productId: int, req: VariantRequest) returns (r: Outcome<int>)
    requires Fresh(Snapshot(db))
    modifies db`variants, db`nextId
    ensures Fresh(Snapshot(db))
    ensures r.Err? <==> VariantRefusal(old(db.variants), req).Some?
    ensures r.Err? ==> r.error == VariantRefusal(old(db.variants), req).value
                       && db.variants == old(db.variants) && db.nextId == old(db.nextId)
    ensures r.Ok? ==> r.value == old(db.nextId) && r.value !in old(db.variants) && db.nextId == old(db.nextId) + 1
                      && db.variants == old(db.variants)[r.value := VariantFrom(productId, req)]
    ensures VariantsPriced(old(db.variants), db.products) && productId in db.products ==> VariantsPriced(db.variants, db.products)
  {
    var refusal := VariantRefusal(db.variants, req);
    if refusal.Some? {
      return Err(refusal.value);
    }
    var id := db.nextId;
    db.variants := db.variants[id := VariantFrom(productId, req)];
    db.nextId := id + 1;
    r := Ok(id);
  }

  /** `createVariant` applied to each request in turn, stopping at the first refusal. */
  function CreateVariants(variants: map<int, Variant>, nextId: int, productId: int, reqs: seq<VariantRequest>)
    : Result<(map<int, Variant>, int), Failure>
  {
    if reqs == [] then Ok((variants, nextId))
    else
      var prior := CreateVariants(variants, nextId, productId, reqs[..|reqs| - 1]);
      if prior.Err? then prior
      else
        var refusal := VariantRefusal(prior.value.0, reqs[|reqs| - 1]);
        if refusal.Some? then Err(refusal.value)
        else Ok((prior.value.0[prior.value.1 := VariantFrom(productId, reqs[|reqs| - 1])], prior.value.1 + 1))
  }

  /** Once a prefix of the requests is refused, so is the whole list, with the same failure. */
  lemma {:induction false} RefusalPersists(variants: map<int, Variant>, nextId: int, productId: int,
                                           reqs: seq<VariantRequest>, k: nat)
    requires k <= |reqs| && CreateVariants(variants, nextId, productId, reqs[..k]).Err?
    ensures CreateVariants(variants, nextId, productId, reqs) == CreateVariants(variants, nextId, productId, reqs[..k])
    decreases |reqs| - k
  {
    if k < |reqs| {
      var n := |reqs| - 1;
      assert reqs[..n][..k] == reqs[..k];
      RefusalPersists(variants, nextId, productId, reqs[..n], k);
    } else {
      assert reqs[..k] == reqs;
    }
  }

  /** Accepted requests become the variants at consecutive new ids, in request order, and no
    * earlier variant is touched. */
  lemma {:induction false} CreateVariantsPlacesEach(variants: map<int, Variant>, nextId: int, productId: int,
                                                    reqs: seq<VariantRequest>)
    requires forall k :: k in variants ==> k < nextId
    requires CreateVariants(variants, nextId, productId, reqs).Ok?
    ensures var after := CreateVariants(variants, nextId, productId, reqs).value;
            after.1 == nextId + |reqs|
            && (forall k :: k in after.0 <==> k in variants || nextId <= k < nextId + |reqs|)
            && (forall k :: k in variants ==> after.0[k] == variants[k])
            && (forall i :: 0 <= i < |reqs| ==> after.0[nextId + i] == VariantFrom(productId, reqs[i]))
  {
    if reqs != [] {
      var n := |reqs| - 1;
      var prior := CreateVariants(variants, nextId, productId, reqs[..n]);
      assert prior.Ok?;
      CreateVariantsPlacesEach(variants, nextId, productId, reqs[..n]);
      var after := CreateVariants(variants, nextId, productId, reqs).value;
      assert after.0 == prior.value.0[nextId + n := VariantFrom(productId, reqs[n])];
      forall i | 0 <= i < |reqs|
        ensures after.0[nextId + i] == VariantFrom(productId, reqs[i])
      {
        if i < n {
          assert reqs[..n][i] == reqs[i];
        }
      }
    }
  }

  /** The request loop of `createProduct` and `updateProduct` over `createVariant`. On a refusal the
    * caller rolls back, so the rows created before it do not matter. */
  method CreateVariantsInTurn(db: Db, productId: int, reqs: seq<VariantRequest>) returns (r: Outcome<()>)
    requires Fresh(Snapshot(db))
    modifies db`variants, db`nextId
    ensures Fresh(Snapshot(db))
    ensures var spec := CreateVariants(old(db.variants), old(db.nextId), productId, reqs);
            (r.Ok? <==> spec.Ok?) && (spec.Err? ==> r == Err(spec.error)) && (spec.Ok? ==> spec.value == (db.variants, db.nextId))
  {
    var i := 0;
    while i < |reqs|
      invariant 0 <= i <= |reqs| && Fresh(Snapshot(db))
      invariant CreateVariants(old(db.variants), old(db.nextId), productId, reqs[..i]) == Ok((db.variants, db.nextId))
    {
      assert reqs[..i + 1][..i] == reqs[..i];
      var step := CreateVariant(db, productId, reqs[i]);
      if step.Err? {
        RefusalPersists(old(db.variants), old(db.nextId), productId, reqs, i + 1);
        return Err(step.error);
      }
      i := i + 1;
    }
    assert reqs[..i] == reqs;
    r := Ok(());
  }

  // ---------------------------------------------------------------- images

  function ImageFrom(productId: int, req: ImageRequest): ProductImage
  {
    ProductImage(Some(productId), req.url, req.altText, req.sortOrder, req.isPrimary.GetOr(false), false)
  }

  /** `clearPrimaryFlagByProductId`: every image of the product loses its primary flag. */
  function PrimaryCleared(images: map<int, ProductImage>, productId: int): map<int, ProductImage>
  {
    map k | k in images :: if images[k].productId == Some(productId) then images[k].(isPrimary := false) else images[k]
  }

  /** The images after `createImage`: a primary request first clears the product's primary flags. */
  function ImageAdded(images: map<int, ProductImage>, id: int, productId: int, req: ImageRequest): map<int, ProductImage>
  {
    (if req.isPrimary == Some(true) then PrimaryCleared(images, productId) else images)[id := ImageFrom(productId, req)]
  }

  /** At most one image of the product is flagged primary. */
  predicate AtMostOnePrimary(images: map<int, ProductImage>, productId: int)
  {
    forall a, b ::
      a in images && b in images && images[a].productId == Some(productId) && images[b].productId == Some(productId)
      && images[a].isPrimary && images[b].isPrimary
      ==> a == b
  }

  /** A primary image becomes the product's only primary image; a non-primary one keeps the
    * at-most-one-primary invariant; other products' images are untouched either way. */
  lemma ImageAddedKeepsOnePrimary(images: map<int, ProductImage>, id: int, productId: int, req: ImageRequest)
    requires req.isPrimary == Some(true) || AtMostOnePrimary(images, productId)
    ensures AtMostOnePrimary(ImageAdded(images, id, productId, req), productId)
    ensures req.isPrimary == Some(true) ==>
              forall k ::
                k in ImageAdded(images, id, productId, req) && ImageAdded(images, id, productId, req)[k].productId == Some(productId)
                && ImageAdded(images, id, productId, req)[k].isPrimary
                ==> k == id
    ensures forall k :: k in images && k != id && images[k].productId != Some(productId) ==> ImageAdded(images, id, productId, req)[k] == images[k]
  {
  }

  /** `createImage`. */
  method CreateImage(db: Db, productId: int, req: ImageRequest) returns (id: int)
    requires Fresh(Snapshot(db))
    modifies db`images, db`nextId
    ensures Fresh(Snapshot(db))
    ensures id == old(db.nextId) && id !in old(db.images) && db.nextId == id + 1
    ensures db.images == ImageAdded(old(db.images), id, productId, req)
  {
    if req.isPrimary == Some(true) {
      db.images := PrimaryCleared(db.images, productId);
    }
    id := db.nextId;
    db.images := db.images[id := ImageFrom(productId, req)];
    db.nextId := id + 1;
  }

  /** `createImage` applied to each request in turn. */
  function CreateImages(images: map<int, ProductImage>, nextId: int, productId: int, reqs: seq<ImageRequest>)
    : (map<int, ProductImage>, int)
  {
    if reqs == [] then (images, nextId)
    else
      var prior := CreateImages(images, nextId, productId, reqs[..|reqs| - 1]);
      (ImageAdded(prior.0, prior.1, productId, reqs[|reqs| - 1]), prior.1 + 1)
  }

  /** Any run of image creations keeps at most one primary image per product. */
  lemma {:induction false} CreateImagesKeepsOnePrimary(images: map<int, ProductImage>, nextId: int, productId: int,
                                                       reqs: seq<ImageRequest>, other: int)
    requires AtMostOnePrimary(images, other)
    ensures AtMostOnePrimary(CreateImages(images, nextId, productId, reqs).0, other)
  {
    if reqs != [] {
      var n := |reqs| - 1;
      CreateImagesKeepsOnePrimary(images, nextId, productId, reqs[..n], other);
      var prior := CreateImages(images, nextId, productId, reqs[..n]);
      if other == productId {
        ImageAddedKeepsOnePrimary(prior.0, prior.1, productId, reqs[n]);
      } else {
        OtherProductPrimaries(prior.0, prior.1, productId, reqs[n], other);
      }
    }
  }

  lemma OtherProductPrimaries(images: map<int, ProductImage>, id: int, productId: int, req: ImageRequest, other: int)
    requires other != productId && AtMostOnePrimary(images, other)
    ensures AtMostOnePrimary(ImageAdded(images, id, productId, req), other)
  {
    var added := ImageAdded(images, id, productId, req);
    assert forall k :: k in added && added[k].productId == Some(other) ==> k in images && added[k] == images[k];
  }

  method CreateImagesInTurn(db: Db, productId: int, reqs: seq<ImageRequest>)
    requires Fresh(Snapshot(db))
    modifies db`images, db`nextId
    ensures Fresh(Snapshot(db))
    ensures (db.images, db.nextId) == CreateImages(old(db.images), old(db.nextId), productId, reqs)
  {
    var i := 0;
    while i < |reqs|
      invariant 0 <= i <= |reqs| && Fresh(Snapshot(db))
      invariant (db.images, db.nextId) == CreateImages(old(db.images), old(db.nextId), productId, reqs[..i])
    {
      assert reqs[..i + 1][..i] == reqs[..i];
      var _ := CreateImage(db, productId, reqs[i]);
      i := i + 1;
    }
    assert reqs[..i] == reqs;
  }

  // ---------------------------------------------------------------- createProduct

  /** `existsBySlug` / `existsBySlugAndIdNot`: a live product other than `except` has this slug. */
  predicate SlugInUse(products: map<int, ProductRow>, slug: string, except: Option<int>)
  {
    exists id :: id in products && !products[id].deleted && products[id].slug == slug && Some(id) != except
  }

  /** The unique slug column, soft-deleted rows included. */
  predicate SlugStored(products: map<int, ProductRow>, slug: string, except: Option<int>)
  {
    exists id :: id in products && products[id].slug == slug && Some(id) != except
  }

  /** The SKU of the default variant: the slug upper-cased with its hyphens dropped, then "-DEFAULT". */
  function DefaultSku(slug: string): (sku: string)
    ensures EndsWith(sku, "-DEFAULT") && |sku| <= |slug| + 8
    ensures forall i :: 0 <= i < |sku| - 8 ==> sku[i] != '-' && !IsLower(sku[i])
  {
    var stem := RemoveChar(ToUpper(slug), '-');
    assert forall i :: 0 <= i < |stem| ==> stem[i] in ToUpper(slug);
    stem + "-DEFAULT"
  }

  /** Two slugs that differ only in hyphens share a default SKU, so the second product created
    * without variants is refused. */
  lemma DefaultSkusCollide()
    ensures DefaultSku("a-b") == DefaultSku("ab") == "AB-DEFAULT"
  {
    assert "AB" + "-DEFAULT" == "AB-DEFAULT";
    assert RemoveChar(ToUpper("a-b"), '-') == "AB" by {
      assert ToUpper("a-b") == "A-B";
      assert RemoveChar("B", '-') == "B" && RemoveChar("-B", '-') == "B";
    }
    assert RemoveChar(ToUpper("ab"), '-') == "AB" by {
      assert ToUpper("ab") == "AB";
      assert RemoveChar("B", '-') == "B";
    }
  }

  function DefaultVariant(slug: string): VariantRequest
  {
    VariantRequest(DefaultSku(slug), Some("Default"), Some("Free Size"), 0, Some(0), Some(true))
  }

  function NewProductRow(req: ProductRequest): ProductRow
  {
    ProductRow(req.name, req.slug, req.description, req.basePrice, req.categoryId, req.isVisible.GetOr(true), 0, false)
  }

  /** The rows `createProduct` adds after the product itself (already in `c`, with id `pid`): its
    * requested variants, its images, and the default variant when no variants were requested. */
  function Populated(c: Catalogue, pid: int, req: ProductRequest): Outcome<Catalogue>
  {
    var withVariants := CreateVariants(c.variants, c.nextId, pid, req.variants);
    if withVariants.Err? then Err(withVariants.error)
    else
      var withImages := CreateImages(c.images, withVariants.value.1, pid, req.images);
      var after := c.(variants := withVariants.value.0, images := withImages.0, nextId := withImages.1);
      if req.variants != [] then Ok(after)
      else
        var refusal := VariantRefusal(after.variants, DefaultVariant(req.slug));
        if refusal.Some? then Err(refusal.value)
        else Ok(after.(variants := after.variants[after.nextId := VariantFrom(pid, DefaultVariant(req.slug))],
                       nextId := after.nextId + 1))
  }

  /** What `createProduct` leaves behind: the product at the next id, then `Populated`. */
  function CreateProductSpec(c: Catalogue, categories: map<int, CategoryRow>, req: ProductRequest): Outcome<Catalogue>
  {
    if SlugInUse(c.products, req.slug, None) then Err(Rejected("Product with this slug already exists"))
    else if !LiveCategory(categories, req.categoryId) then Err(Rejected("Category not found"))
    else if SlugStored(c.products, req.slug, None) then Err(Conflict("products.slug"))
    else Populated(c.(products := c.products[c.nextId := NewProductRow(req)], nextId := c.nextId + 1), c.nextId, req)
  }

  /** The variant and image loops of `createProduct`, without the rollback. */
  method Populate(db: Db, pid: int, req: ProductRequest) returns (r: Outcome<()>)
    requires Fresh(Snapshot(db))
    modifies db`variants, db`images, db`nextId
    ensures Fresh(Snapshot(db))
    ensures var spec := Populated(old(Snapshot(db)), pid, req);
            (r.Ok? <==> spec.Ok?) && (spec.Err? ==> r == Err(spec.error)) && (spec.Ok? ==> Snapshot(db) == spec.value)
  {
    var created := CreateVariantsInTurn(db, pid, req.variants);
    if created.Err? {
      return Err(created.error);
    }
    CreateImagesInTurn(db, pid, req.images);
    if req.variants == [] {
      var default := CreateVariant(db, pid, DefaultVariant(req.slug));
      if default.Err? {
        return Err(default.error);
      }
    }
    r := Ok(());
  }

  /** `createProduct`. */
  method CreateProduct(db: Db, req: ProductRequest) returns (r: Outcome<int>)
    requires Fresh(Snapshot(db))
    modifies db`products, db`variants, db`images, db`nextId
    ensures Fresh(Snapshot(db))
    ensures var spec := CreateProductSpec(old(Snapshot(db)), db.categories, req);
            (r.Ok? <==> spec.Ok?)
            && (spec.Err? ==> r == Err(spec.error) && Snapshot(db) == old(Snapshot(db)))
            && (spec.Ok? ==> r.value == old(db.nextId) && Snapshot(db) == spec.value)
  {
    if SlugInUse(db.products, req.slug, None) {
      return Err(Rejected("Product with this slug already exists"));
    }
    if !LiveCategory(db.categories, req.categoryId) {
      return Err(Rejected("Category not found"));
    }
    if SlugStored(db.products, req.slug, None) {
      return Err(Conflict("products.slug"));
    }
    r := StoreNewProduct(db, req);
  }

  /** The transaction of `createProduct` once the checks pass: the product row at the next id, then
    * its variants and images, all rolled back when one of them is refused. */
  method StoreNewProduct(db: Db, req: ProductRequest) returns (r: Outcome<int>)
    requires Fresh(Snapshot(db))
    modifies db`products, db`variants, db`images, db`nextId
    ensures Fresh(Snapshot(db))
    ensures var c := old(Snapshot(db));
            var spec := Populated(c.(products := c.products[c.nextId := NewProductRow(req)], nextId := c.nextId + 1), c.nextId, req);
            (r.Ok? <==> spec.Ok?)
            && (spec.Err? ==> r == Err(spec.error) && Snapshot(db) == c)
            && (spec.Ok? ==> r.value == c.nextId && Snapshot(db) == spec.value)
  {
    var products, variants, images, nextId := db.products, db.variants, db.images, db.nextId;
    ghost var before := Snapshot(db);
    var pid := db.nextId;
    InsertKeepsFresh(before, NewProductRow(req));
    db.products := db.products[pid := NewProductRow(req)];
    db.nextId := pid + 1;
    var populated := Populate(db, pid, req);
    if populated.Err? {
      db.products, db.variants, db.images, db.nextId := products, variants, images, nextId;
      return Err(populated.error);
    }
    r := Ok(pid);
  }

  /** Storing a product at the next id and moving the sequence past it keeps the sequence ahead. */
  lemma InsertKeepsFresh(c: Catalogue, row: ProductRow)
    requires Fresh(c)
    ensures Fresh(c.(products := c.products[c.nextId := row], nextId := c.nextId + 1))
  {
  }

  /** Every variant names a stored product (the product column is a non-null foreign key). */
  predicate VariantsOwned(c: Catalogue)
  {
    forall k :: k in c.variants ==> c.variants[k].productId.Some? && c.variants[k].productId.value in c.products
  }

  /** A created product is stored at a new id, visible unless the request says otherwise, and has
    * sold nothing. */
  lemma CreatedProductFacts(c: Catalogue, categories: map<int, CategoryRow>, req: ProductRequest)
    requires Fresh(c) && CreateProductSpec(c, categories, req).Ok?
    ensures c.nextId !in c.products
    ensures var p := CreateProductSpec(c, categories, req).value.products[c.nextId];
            p.slug == req.slug && p.isVisible == (req.isVisible != Some(false)) && p.soldCount == 0 && !p.deleted
  {
  }

  /** A product created without variants has exactly one variant: the default one, with the
    * derived SKU, no stock and no price adjustment. */
  lemma DefaultVariantOnly(c: Catalogue, categories: map<int, CategoryRow>, req: ProductRequest)
    requires Fresh(c) && VariantsOwned(c) && req.variants == [] && CreateProductSpec(c, categories, req).Ok?
    ensures var after := CreateProductSpec(c, categories, req).value;
            exists d :: d in after.variants && after.variants[d].productId == Some(c.nextId)
              && after.variants[d].sku == DefaultSku(req.slug) && after.variants[d].stock == 0
              && after.variants[d].priceAdjustment == Some(0) && after.variants[d].isAvailable
              && forall k :: k in after.variants && after.variants[k].productId == Some(c.nextId) ==> k == d
  {
    var pid := c.nextId;
    var withImages := CreateImages(c.images, pid + 1, pid, req.images);
    var d := withImages.1;
    var after := CreateProductSpec(c, categories, req).value;
    assert after.variants == c.variants[d := VariantFrom(pid, DefaultVariant(req.slug))];
    assert after.variants[d].productId == Some(pid);
  }

  // ---------------------------------------------------------------- updateProduct

  /** The product row with every field the update names replaced. */
  function Patched(p: ProductRow, u: ProductUpdate): ProductRow
  {
    p.(name := u.name.GetOr(p.name), slug := u.slug.GetOr(p.slug), description := if u.description.Some? then u.description else p.description,
       basePrice := u.basePrice.GetOr(p.basePrice), categoryId := u.categoryId.GetOr(p.categoryId),
       isVisible := u.isVisible.GetOr(p.isVisible))
  }

  /** An update that names no field leaves the row alone, and applying an update twice changes
    * nothing more than applying it once; sales, id and the deleted mark are never touched. */
  lemma PatchOnlyNamedFields(p: ProductRow, u: ProductUpdate)
    ensures Patched(p, ProductUpdate(None, None, None, None, None, None, u.variants, u.images)) == p
    ensures Patched(Patched(p, u), u) == Patched(p, u)
    ensures Patched(p, u).soldCount == p.soldCount && Patched(p, u).deleted == p.deleted
  {
  }

  /** `findBySkuAndProductId`: a live variant of this product with this SKU. */
  predicate Owned(v: Variant, productId: int, sku: string)
  {
    !v.deleted && v.productId == Some(productId) && v.sku == sku
  }

  /** The fields the upsert writes over an owned variant; the stock is simply replaced. */
  function Overwritten(v: Variant, req: VariantRequest): Variant
  {
    v.(color := req.color, size := req.size, stock := req.stock,
       priceAdjustment := Some(req.priceAdjustment.GetOr(0)), isAvailable := req.isAvailable.GetOr(true))
  }

  /** One request of the variant upsert: a SKU in use is written over this product's variant with
    * that SKU (and skipped when it belongs to another product); an unknown SKU is created. */
  function UpsertOne(variants: map<int, Variant>, nextId: int, productId: int, req: VariantRequest)
    : Result<(map<int, Variant>, int), Failure>
  {
    if SkuInUse(variants, req.sku) then
      Ok((map k | k in variants :: if Owned(variants[k], productId, req.sku) then Overwritten(variants[k], req) else variants[k], nextId))
    else
      var refusal := VariantRefusal(variants, req);
      if refusal.Some? then Err(refusal.value) else Ok((variants[nextId := VariantFrom(productId, req)], nextId + 1))
  }

  function UpsertVariants(variants: map<int, Variant>, nextId: int, productId: int, reqs: seq<VariantRequest>)
    : Result<(map<int, Variant>, int), Failure>
  {
    if reqs == [] then Ok((variants, nextId))
    else
      var prior := UpsertVariants(variants, nextId, productId, reqs[..|reqs| - 1]);
      if prior.Err? then prior else UpsertOne(prior.value.0, prior.value.1, productId, reqs[|reqs| - 1])
  }

  /** A SKU owned by this product gets the requested stock outright; a SKU in use only by other
    * products leaves every variant as it was. */
  lemma UpsertOverwritesOrSkips(variants: map<int, Variant>, nextId: int, productId: int, req: VariantRequest, k: int)
    requires SkuInUse(variants, req.sku) && k in variants
    ensures UpsertOne(variants, nextId, productId, req).Ok?
    ensures Owned(variants[k], productId, req.sku) ==> UpsertOne(variants, nextId, productId, req).value.0[k].stock == req.stock
    ensures (forall j :: j in variants ==> !Owned(variants[j], productId, req.sku)) ==>
              UpsertOne(variants, nextId, productId, req).value == (variants, nextId)
  {
    var after := UpsertOne(variants, nextId, productId, req).value.0;
    if forall j :: j in variants ==> !Owned(variants[j], productId, req.sku) {
      assert after == variants;
    }
  }

  /** The overwrite bypasses the ledger: once a variant's stock changes without a log row, the
    * starting stock plus the logged changes no longer accounts for it. */
  lemma StockOverwriteBreaksConservation(base: map<int, int>, ledger: seq<StockTx>, variants: map<int, Variant>,
                                         variants': map<int, Variant>, k: int)
    requires Inventory.Conserved(base, ledger, variants)
    requires k in variants && k in variants' && variants'[k].stock != variants[k].stock
    ensures !Inventory.Conserved(base, ledger, variants')
  {
  }

  method UpsertOneVariant(db: Db, productId: int, req: VariantRequest) returns (r: Outcome<()>)
    requires Fresh(Snapshot(db))
    modifies db`variants, db`nextId
    ensures Fresh(Snapshot(db))
    ensures var spec := UpsertOne(old(db.variants), old(db.nextId), productId, req);
            (r.Ok? <==> spec.Ok?) && (spec.Err? ==> r == Err(spec.error)) && (spec.Ok? ==> spec.value == (db.variants, db.nextId))
  {
    if SkuInUse(db.variants, req.sku) {
      db.variants := map k | k in db.variants :: if Owned(db.variants[k], productId, req.sku) then Overwritten(db.variants[k], req) else db.variants[k];
      return Ok(());
    }
    var created := CreateVariant(db, productId, req);
    r := if created.Ok? then Ok(()) else Err(created.error);
  }

  method UpsertVariantsInTurn(db: Db, productId: int, reqs: seq<VariantRequest>) returns (r: Outcome<()>)
    requires Fresh(Snapshot(db))
    modifies db`variants, db`nextId
    ensures Fresh(Snapshot(db))
    ensures var spec := UpsertVariants(old(db.variants), old(db.nextId), productId, reqs);
            (r.Ok? <==> spec.Ok?) && (spec.Err? ==> r == Err(spec.error)) && (spec.Ok? ==> spec.value == (db.variants, db.nextId))
  {
    var i := 0;
    while i < |reqs|
      invariant 0 <= i <= |reqs| && Fresh(Snapshot(db))
      invariant UpsertVariants(old(db.variants), old(db.nextId), productId, reqs[..i]) == Ok((db.variants, db.nextId))
    {
      assert reqs[..i + 1][..i] == reqs[..i];
      var step := UpsertOneVariant(db, productId, reqs[i]);
      if step.Err? {
        UpsertRefusalPersists(old(db.variants), old(db.nextId), productId, reqs, i + 1);
        return Err(step.error);
      }
      i := i + 1;
    }
    assert reqs[..i] == reqs;
    r := Ok(());
  }

  lemma {:induction false} UpsertRefusalPersists(variants: map<int, Variant>, nextId: int, productId: int,
                                                 reqs: seq<VariantRequest>, k: nat)
    requires k <= |reqs| && UpsertVariants(variants, nextId, productId, reqs[..k]).Err?
    ensures UpsertVariants(variants, nextId, productId, reqs) == UpsertVariants(variants, nextId, productId, reqs[..k])
    decreases |reqs| - k
  {
    if k < |reqs| {
      var n := |reqs| - 1;
      assert reqs[..n][..k] == reqs[..k];
      UpsertRefusalPersists(variants, nextId, productId, reqs[..n], k);
    } else {
      assert reqs[..k] == reqs;
    }
  }

  /** The product's live images, soft-deleted before the replacement list is created. */
  function ImagesRetired(images: map<int, ProductImage>, productId: int): map<int, ProductImage>
  {
    map k | k in images :: if images[k].productId == Some(productId) then images[k].(deleted := true) else images[k]
  }

  /** What `updateProduct` leaves behind. */
  function UpdateProductSpec(c: Catalogue, categories: map<int, CategoryRow>, id: int, u: ProductUpdate): Outcome<Catalogue>
  {
    if !LiveProduct(c.products, id) then Err(Rejected("Product not found"))
    else if u.slug.Some? && SlugInUse(c.products, u.slug.value, Some(id)) then Err(Rejected("Product with this slug already exists"))
    else if u.categoryId.Some? && !LiveCategory(categories, u.categoryId.value) then Err(Rejected("Category not found"))
    else if u.slug.Some? && SlugStored(c.products, u.slug.value, Some(id)) then Err(Conflict("products.slug"))
    else UpdateApplied(c, id, u)
  }

  /** The catalogue once an update that passed its checks is applied: the patched row, then the
    * variant upserts, then the image replacement. */
  function UpdateApplied(c: Catalogue, id: int, u: ProductUpdate): Outcome<Catalogue>
    requires id in c.products
  {
    var products := c.products[id := Patched(c.products[id], u)];
    var withVariants := if u.variants.Some? then UpsertVariants(c.variants, c.nextId, id, u.variants.value) else Ok((c.variants, c.nextId));
    if withVariants.Err? then Err(withVariants.error)
    else if u.images.None? then Ok(Catalogue(products, withVariants.value.0, c.images, withVariants.value.1))
    else
      var withImages := CreateImages(ImagesRetired(c.images, id), withVariants.value.1, id, u.images.value);
      Ok(Catalogue(products, withVariants.value.0, withImages.0, withImages.1))
  }

  /** `updateProduct`. The ledger is not among the things it may change. */
  method UpdateProduct(db: Db, id: int, u: ProductUpdate) returns (r: Outcome<()>)
    requires Fresh(Snapshot(db))
    modifies db`products, db`variants, db`images, db`nextId
    ensures Fresh(Snapshot(db))
    ensures var spec := UpdateProductSpec(old(Snapshot(db)), db.categories, id, u);
            (r.Ok? <==> spec.Ok?)
            && (spec.Err? ==> r == Err(spec.error) && Snapshot(db) == old(Snapshot(db)))
            && (spec.Ok? ==> Snapshot(db) == spec.value)
  {
    if !LiveProduct(db.products, id) {
      return Err(Rejected("Product not found"));
    }
    if u.slug.Some? && SlugInUse(db.products, u.slug.value, Some(id)) {
      return Err(Rejected("Product with this slug already exists"));
    }
    if u.categoryId.Some? && !LiveCategory(db.categories, u.categoryId.value) {
      return Err(Rejected("Category not found"));
    }
    if u.slug.Some? && SlugStored(db.products, u.slug.value, Some(id)) {
      return Err(Conflict("products.slug"));
    }
    r := StoreUpdate(db, id, u);
  }

  /** The transaction of `updateProduct` once the checks pass, rolled back when a variant upsert is
    * refused. */
  method StoreUpdate(db: Db, id: int, u: ProductUpdate) returns (r: Outcome<()>)
    requires Fresh(Snapshot(db)) && id in db.products
    modifies db`products, db`variants, db`images, db`nextId
    ensures Fresh(Snapshot(db))
    ensures var spec := UpdateApplied(old(Snapshot(db)), id, u);
            (r.Ok? <==> spec.Ok?)
            && (spec.Err? ==> r == Err(spec.error) && Snapshot(db) == old(Snapshot(db)))
            && (spec.Ok? ==> Snapshot(db) == spec.value)
  {
    var products, variants, images, nextId := db.products, db.variants, db.images, db.nextId;
    db.products := db.products[id := Patched(db.products[id], u)];
    if u.variants.Some? {
      var upserted := UpsertVariantsInTurn(db, id, u.variants.value);
      if upserted.Err? {
        db.products, db.variants, db.images, db.nextId := products, variants, images, nextId;
        return Err(upserted.error);
      }
    }
    if u.images.Some? {
      db.images := ImagesRetired(db.images, id);
      CreateImagesInTurn(db, id, u.images.value);
    }
    r := Ok(());
  }

  // ---------------------------------------------------------------- deleteProduct

  /** The variants after the product's variants are soft-deleted. */
  function VariantsRetired(variants: map<int, Variant>, productId: int): map<int, Variant>
  {
    map k | k in variants :: if variants[k].productId == Some(productId) then variants[k].(deleted := true) else variants[k]
  }

  /** `deleteProduct`: soft-deletes the product, its variants and its images. */
  method DeleteProduct(db: Db, id: int) returns (r: Outcome<()>)
    modifies db`products, db`variants, db`images
    ensures r.Ok? <==> LiveProduct(old(db.products), id)
    ensures r.Err? ==> r.error == Rejected("Product not found")
                       && db.products == old(db.products) && db.variants == old(db.variants) && db.images == old(db.images)
    ensures r.Ok? ==> db.products == old(db.products)[id := old(db.products[id]).(deleted := true)]
                      && db.variants == VariantsRetired(old(db.variants), id) && db.images == ImagesRetired(old(db.images), id)
  {
    if !LiveProduct(db.products, id) {
      return Err(Rejected("Product not found"));
    }
    db.products := db.products[id := db.products[id].(deleted := true)];
    db.variants := VariantsRetired(db.variants, id);
    db.images := ImagesRetired(db.images, id);
    r := Ok(());
  }

  /** After a delete no variant of the product is live, so none can be found, stocked or put in a
    * cart; every other variant is untouched and nothing is removed. */
  lemma RetiredVariantsAreGone(variants: map<int, Variant>, productId: int)
    ensures VariantsRetired(variants, productId).Keys == variants.Keys
    ensures forall k :: k in variants && variants[k].productId == Some(productId) ==>
              !LiveVariant(VariantsRetired(variants, productId), k)
              && !Inventory.HasEnoughStock(VariantsRetired(variants, productId), k, 0)
    ensures forall k :: k in variants && variants[k].productId != Some(productId) ==> VariantsRetired(variants, productId)[k] == variants[k]
  {
  }

  // ---------------------------------------------------------------- prices stay known

  /** Every variant `createVariant` stores belongs to a stored product and carries an adjustment,
    * so a catalogue whose variants are all priced stays so. */
  lemma {:induction false} CreateVariantsKeepPriced(variants: map<int, Variant>, nextId: int, productId: int,
                                                    reqs: seq<VariantRequest>, products: map<int, ProductRow>)
    requires VariantsPriced(variants, products) && productId in products
    requires CreateVariants(variants, nextId, productId, reqs).Ok?
    ensures VariantsPriced(CreateVariants(variants, nextId, productId, reqs).value.0, products)
  {
    if reqs != [] {
      CreateVariantsKeepPriced(variants, nextId, productId, reqs[..|reqs| - 1], products);
    }
  }

  /** The upsert overwrites a variant's fields without touching its product, and creates variants
    * under the product being updated. */
  lemma {:induction false} UpsertVariantsKeepPriced(variants: map<int, Variant>, nextId: int, productId: int,
                                                    reqs: seq<VariantRequest>, products: map<int, ProductRow>)
    requires VariantsPriced(variants, products) && productId in products
    requires UpsertVariants(variants, nextId, productId, reqs).Ok?
    ensures VariantsPriced(UpsertVariants(variants, nextId, productId, reqs).value.0, products)
  {
    if reqs != [] {
      UpsertVariantsKeepPriced(variants, nextId, productId, reqs[..|reqs| - 1], products);
    }
  }

  /** A priced catalogue stays priced through `createProduct`, so checkout can price every variant
    * it creates. */
  lemma CreateProductKeepsPriced(c: Catalogue, categories: map<int, CategoryRow>, req: ProductRequest)
    requires VariantsPriced(c.variants, c.products) && CreateProductSpec(c, categories, req).Ok?
    ensures VariantsPriced(CreateProductSpec(c, categories, req).value.variants, CreateProductSpec(c, categories, req).value.products)
  {
    var c1 := c.(products := c.products[c.nextId := NewProductRow(req)], nextId := c.nextId + 1);
    assert VariantsPriced(c1.variants, c1.products);
    CreateVariantsKeepPriced(c1.variants, c1.nextId, c.nextId, req.variants, c1.products);
  }

  /** A priced catalogue stays priced through `updateProduct`. */
  lemma UpdateProductKeepsPriced(c: Catalogue, categories: map<int, CategoryRow>, id: int, u: ProductUpdate)
    requires VariantsPriced(c.variants, c.products) && UpdateProductSpec(c, categories, id, u).Ok?
    ensures VariantsPriced(UpdateProductSpec(c, categories, id, u).value.variants, UpdateProductSpec(c, categories, id, u).value.products)
  {
    var products := c.products[id := Patched(c.products[id], u)];
    assert products.Keys == c.products.Keys;
    assert VariantsPriced(c.variants, products);
    if u.variants.Some? {
      UpsertVariantsKeepPriced(c.variants, c.nextId, id, u.variants.value, products);
    }
  }

  /** A priced catalogue stays priced through `deleteProduct`: rows are flagged, never removed. */
  lemma DeleteProductKeepsPriced(variants: map<int, Variant>, products: map<int, ProductRow>, id: int)
    requires VariantsPriced(variants, products) && id in products
    ensures VariantsPriced(VariantsRetired(variants, id), products[id := products[id].(deleted := true)])
  {
  }
}

=== FILE: product_views.dfy ===
/** The product read models of `ProductService`: the detail view (`mapToDTO`), the list view
  * (`mapToListDTO`) and the variant view they share. */
module ProductViews {
  import opened Wrappers
  import opened Seqs
  import opened Catalog

  datatype VariantView = VariantView(sku: string, color: Option<string>, size: Option<string>, stock: int,
                                     priceAdjustment: Option<int>, finalPrice: int, isAvailable: bool, inStock: bool)

  /** An image in a view; the list view fills in only the URL. */
  datatype ImageView = ImageView(url: string, altText: Option<string>, sortOrder: Option<int>, isPrimary: Option<bool>)

  datatype ProductView = ProductView(id: int, name: string, slug: string, description: Option<string>, basePrice: int,
                                     categoryId: int, categoryName: Option<string>, isVisible: bool, soldCount: int,
                                     images: seq<ImageView>, variants: seq<VariantView>)

  /** `mapVariantToDTO`, the product's base price standing in for the variant's product link. */
  function VariantDto(v: Variant, basePrice: int): (r: VariantView)
    ensures r.finalPrice == basePrice + v.priceAdjustment.GetOr(0)
    ensures r.inStock <==> v.stock > 0 && v.isAvailable
  {
    VariantView(v.sku, v.color, v.size, v.stock, v.priceAdjustment, VariantFinalPrice(v, Some(basePrice)),
                v.isAvailable, IsInStock(v))
  }

  /** The variants that are not soft-deleted, in their stored order. */
  function LiveVariants(vs: seq<Variant>): (r: seq<Variant>)
    ensures |r| <= |vs|
  {
    if vs == [] then []
    else LiveVariants(vs[..|vs| - 1]) + (if vs[|vs| - 1].deleted then [] else [vs[|vs| - 1]])
  }

  /** The live variants are exactly the stored ones without the deleted mark. */
  lemma {:induction false} LiveVariantsMembers(vs: seq<Variant>)
    ensures forall v :: v in LiveVariants(vs) <==> v in vs && !v.deleted
  {
    if vs != [] {
      var n := |vs| - 1;
      LiveVariantsMembers(vs[..n]);
      assert vs == vs[..n] + [vs[n]];
    }
  }

  /** The variant views of both product views. */
  function VariantDtos(vs: seq<Variant>, basePrice: int): (r: seq<VariantView>)
    ensures |r| == |LiveVariants(vs)|
    ensures forall i :: 0 <= i < |r| ==> r[i] == VariantDto(LiveVariants(vs)[i], basePrice)
  {
    var live := LiveVariants(vs);
    seq(|live|, i requires 0 <= i < |live| => VariantDto(live[i], basePrice))
  }

  /** The images that are not soft-deleted, in their stored order. */
  function LiveImages(images: seq<ProductImage>): (r: seq<ProductImage>)
    ensures |r| <= |images|
  {
    if images == [] then []
    else LiveImages(images[..|images| - 1]) + (if images[|images| - 1].deleted then [] else [images[|images| - 1]])
  }

  /** The live images are exactly the stored ones without the deleted mark. */
  lemma {:induction false} LiveImagesMembers(images: seq<ProductImage>)
    ensures forall x :: x in LiveImages(images) <==> x in images && !x.deleted
  {
    if images != [] {
      var n := |images| - 1;
      LiveImagesMembers(images[..n]);
      assert images == images[..n] + [images[n]];
    }
  }

  /** An image's position key in the detail view. */
  function ImageOrder(x: ProductImage): int
  {
    x.sortOrder
  }

  function ImageDto(x: ProductImage): ImageView
  {
    ImageView(x.url, x.altText, Some(x.sortOrder), Some(x.isPrimary))
  }

  /** The detail view's images: the live ones, sorted by `sortOrder`. */
  function DetailImages(images: seq<ProductImage>): (r: seq<ProductImage>)
    ensures |r| == |LiveImages(images)|
  {
    var live := LiveImages(images);
    SortPermutes(live, ImageOrder);
    assert |SortBy(live, ImageOrder)| == |multiset(SortBy(live, ImageOrder))| == |multiset(live)|;
    SortBy(live, ImageOrder)
  }

  /** The image views of the detail view, in the detail view's order. */
  function ImageDtos(images: seq<ProductImage>): (r: seq<ImageView>)
    ensures |r| == |LiveImages(images)|
    ensures forall i :: 0 <= i < |r| ==> r[i] == ImageDto(DetailImages(images)[i])
  {
    var sorted := DetailImages(images);
    seq(|sorted|, i requires 0 <= i < |sorted| => ImageDto(sorted[i]))
  }

  /** The detail view shows exactly the live images, each once per stored copy, in `sortOrder`. */
  lemma DetailImagesFacts(images: seq<ProductImage>)
    ensures SortedBy(DetailImages(images), ImageOrder)
    ensures multiset(DetailImages(images)) == multiset(LiveImages(images))
    ensures forall x :: x in DetailImages(images) <==> x in images && !x.deleted
  {
    SortSortsAndPermutes(LiveImages(images), ImageOrder);
    LiveImagesMembers(images);
    forall x
      ensures x in DetailImages(images) <==> x in LiveImages(images)
    {
      assert x in DetailImages(images) <==> x in multiset(DetailImages(images));
    }
  }

  /** `mapToDTO`; the category's name is passed in because the product holds only its id. */
  function DetailDto(p: Product, categoryName: Option<string>): (r: ProductView)
    reads p
    ensures |r.variants| == |LiveVariants(p.variants)|
    ensures |r.images| == |LiveImages(p.images)|
  {
    ProductView(p.id, p.name, p.slug, p.description, p.basePrice, p.categoryId, categoryName, p.isVisible, p.soldCount,
                ImageDtos(p.images), VariantDtos(p.variants, p.basePrice))
  }

  /** The total stock `mapToListDTO` computes over the live variants. It is not put on the view. */
  function TotalStock(vs: seq<Variant>): int
  {
    if vs == [] then 0
    else TotalStock(vs[..|vs| - 1]) + (if vs[|vs| - 1].deleted then 0 else vs[|vs| - 1].stock)
  }

  /** With no negative stock, the total is at least the stock of any one live variant, and soft-deleted
    * variants never count. */
  lemma {:induction false} TotalStockBoundsLive(vs: seq<Variant>, k: nat)
    requires forall i :: 0 <= i < |vs| ==> vs[i].stock >= 0
    requires k < |vs| && !vs[k].deleted
    ensures 0 <= vs[k].stock <= TotalStock(vs)
  {
    var n := |vs| - 1;
    assert forall i :: 0 <= i < n ==> vs[..n][i] == vs[i];
    if k < n {
      TotalStockBoundsLive(vs[..n], k);
    } else {
      TotalStockNonNegative(vs[..n]);
    }
  }

  lemma {:induction false} TotalStockNonNegative(vs: seq<Variant>)
    requires forall i :: 0 <= i < |vs| ==> vs[i].stock >= 0
    ensures TotalStock(vs) >= 0
  {
    if vs != [] {
      var n := |vs| - 1;
      assert forall i :: 0 <= i < n ==> vs[..n][i] == vs[i];
      TotalStockNonNegative(vs[..n]);
    }
  }

  /** Deleted variants contribute nothing: the total over all variants is the total over the live ones. */
  lemma {:induction false} TotalStockOfLive(vs: seq<Variant>)
    ensures TotalStock(vs) == TotalStock(LiveVariants(vs))
  {
    if vs != [] {
      var n := |vs| - 1;
      TotalStockOfLive(vs[..n]);
      var live := LiveVariants(vs[..n]);
      if vs[n].deleted {
        assert LiveVariants(vs) == live + [] == live;
      } else {
        var s := live + [vs[n]];
        assert LiveVariants(vs) == s;
        assert s[..|s| - 1] == live && s[|s| - 1] == vs[n];
      }
    }
  }

  /** The index of the first live image, restricted to primary ones when `primaryOnly`. */
  function FirstLive(images: seq<ProductImage>, primaryOnly: bool): (r: Option<nat>)
    ensures r.Some? ==> r.value < |images| && !images[r.value].deleted && (primaryOnly ==> images[r.value].isPrimary)
    ensures r.Some? ==> forall j :: 0 <= j < r.value ==> images[j].deleted || (primaryOnly && !images[j].isPrimary)
    ensures r.None? <==> forall j :: 0 <= j < |images| ==> images[j].deleted || (primaryOnly && !images[j].isPrimary)
  {
    if images == [] then None
    else if !images[0].deleted && (!primaryOnly || images[0].isPrimary) then Some(0)
    else
      var rest := FirstLive(images[1..], primaryOnly);
      if rest.None? then None else Some(rest.value + 1)
  }

  /** The product's images as its collection loads them: ordered by `sortOrder`, stored order
    * among equals. */
  function LoadedImages(images: seq<ProductImage>): seq<ProductImage>
  {
    SortBy(images, ImageOrder)
  }

  /** Loading reorders the images and changes nothing else. */
  lemma LoadedImagesFacts(images: seq<ProductImage>)
    ensures SortedBy(LoadedImages(images), ImageOrder)
    ensures |LoadedImages(images)| == |images|
    ensures forall x :: x in LoadedImages(images) <==> x in images
  {
    var loaded := LoadedImages(images);
    SortSortsAndPermutes(images, ImageOrder);
    assert |loaded| == |multiset(loaded)| == |multiset(images)|;
    forall x
      ensures x in loaded <==> x in images
    {
      assert x in loaded <==> x in multiset(loaded);
    }
  }

  /** The list view's image: in load order, the first live primary image, else the first live
    * image, else none. */
  function PrimaryImageUrl(images: seq<ProductImage>): (r: Option<string>)
    ensures r.None? <==> forall j :: 0 <= j < |images| ==> images[j].deleted
    ensures r.Some? ==> exists j :: 0 <= j < |images| && !images[j].deleted && images[j].url == r.value
  {
    var loaded := LoadedImages(images);
    LoadedImagesFacts(images);
    assert forall j :: 0 <= j < |loaded| ==> loaded[j] in images;
    assert forall j :: 0 <= j < |images| ==> images[j] in loaded;
    var primary := FirstLive(loaded, true);
    if primary.Some? then Some(loaded[primary.value].url)
    else
      var any := FirstLive(loaded, false);
      if any.Some? then Some(loaded[any.value].url) else None
  }

  /** Among the loaded images, the first one that passes `p` is `images[k]`, when `images[k]` has
    * the least `sortOrder` of the images passing `p` and no earlier one passing `p` ties with it. */
  lemma LoadedFirstMatch(images: seq<ProductImage>, p: ProductImage -> bool, k: nat, primaryOnly: bool)
    requires k < |images| && p(images[k])
    requires forall x :: p(x) <==> !x.deleted && (primaryOnly ==> x.isPrimary)
    requires forall j :: 0 <= j < |images| && p(images[j]) ==> images[k].sortOrder <= images[j].sortOrder
    requires forall j :: 0 <= j < k && p(images[j]) ==> images[j].sortOrder != images[k].sortOrder
    ensures FirstLive(LoadedImages(images), primaryOnly).Some?
    ensures LoadedImages(images)[FirstLive(LoadedImages(images), primaryOnly).value] == images[k]
  {
    var loaded := LoadedImages(images);
    LoadedImagesFacts(images);
    assert images[k] in loaded;
    var i0 :| 0 <= i0 < |loaded| && loaded[i0] == images[k];
    var first := FirstLive(loaded, primaryOnly);
    assert first.Some?;
    SortedFirstMatch(images, ImageOrder, p, k, first.value);
  }

  /** A live primary image wins: the list view shows the live primary image of least `sortOrder`,
    * the earliest stored among equals. */
  lemma PrimaryWins(images: seq<ProductImage>, k: nat)
    requires k < |images| && !images[k].deleted && images[k].isPrimary
    requires forall j :: 0 <= j < |images| && !images[j].deleted && images[j].isPrimary ==>
               images[k].sortOrder <= images[j].sortOrder
    requires forall j :: 0 <= j < k && !images[j].deleted && images[j].isPrimary ==>
               images[j].sortOrder != images[k].sortOrder
    ensures PrimaryImageUrl(images) == Some(images[k].url)
  {
    LoadedFirstMatch(images, (x: ProductImage) => !x.deleted && x.isPrimary, k, true);
  }

  /** Without a live primary image, the list view shows the live image of least `sortOrder`, the
    * earliest stored among equals. */
  lemma FallbackLeastOrder(images: seq<ProductImage>, k: nat)
    requires forall j :: 0 <= j < |images| ==> images[j].deleted || !images[j].isPrimary
    requires k < |images| && !images[k].deleted
    requires forall j :: 0 <= j < |images| && !images[j].deleted ==> images[k].sortOrder <= images[j].sortOrder
    requires forall j :: 0 <= j < k && !images[j].deleted ==> images[j].sortOrder != images[k].sortOrder
    ensures PrimaryImageUrl(images) == Some(images[k].url)
  {
    LoadedImagesFacts(images);
    var loaded := LoadedImages(images);
    assert FirstLive(loaded, true).None? by {
      forall j | 0 <= j < |loaded|
        ensures loaded[j].deleted || !loaded[j].isPrimary
      {
        assert loaded[j] in images;
      }
    }
    LoadedFirstMatch(images, (x: ProductImage) => !x.deleted, k, false);
  }

  /** `mapToListDTO`: no description, and at most one image, carrying only its URL. */
  function ListDto(p: Product, categoryName: Option<string>): (r: ProductView)
    reads p
    ensures |r.images| <= 1
    ensures r.images == [] <==> forall j :: 0 <= j < |p.images| ==> p.images[j].deleted
    ensures r.description.None? && r.variants == VariantDtos(p.variants, p.basePrice)
  {
    var url := PrimaryImageUrl(p.images);
    ProductView(p.id, p.name, p.slug, None, p.basePrice, p.categoryId, categoryName, p.isVisible, p.soldCount,
                if url.Some? then [ImageView(url.value, None, None, None)] else [], VariantDtos(p.variants, p.basePrice))
  }
}

=== FILE: review_service.dfy ===
/** `ReviewService`: product reviews, one per user and product, written only by buyers. */
module ReviewService {
  import opened Wrappers
  import opened Enums
  import opened Seqs
  import opened Catalog
  import opened Orders
  import opened Store

  const PurchaseRequired: string := "Bạn cần mua sản phẩm này trước khi đánh giá"
  const DeleteForbidden: string := "Bạn không có quyền xóa đánh giá này"

  // ---------------------------------------------------------------- the purchase gate

  /** An order that opens the purchase gate: the user's, COMPLETED or DELIVERED, with an item. */
  predicate Qualifies(o: OrderRow, userId: int)
  {
    o.userId == userId && (o.status == Completed || o.status == Delivered) && |o.items| > 0
  }

  /** `checkUserHasPurchasedProduct`: the product is not looked at. */
  predicate HasPurchased(orders: map<string, OrderRow>, userId: Option<int>, productId: int)
  {
    userId.Some? && exists code :: code in orders && Qualifies(orders[code], userId.value)
  }

  /** The gate gives the same answer for every product. */
  lemma PurchaseGateIgnoresProduct(orders: map<string, OrderRow>, userId: Option<int>, p: int, q: int)
    ensures HasPurchased(orders, userId, p) == HasPurchased(orders, userId, q)
    ensures userId.None? ==> !HasPurchased(orders, userId, p)
  {
  }

  /** The loop of `checkUserHasPurchasedProduct` over the user's orders and their items. */
  method CheckUserHasPurchasedProduct(orders: map<string, OrderRow>, userId: Option<int>, productId: int) returns (b: bool)
    ensures b == HasPurchased(orders, userId, productId)
  {
    if userId.None? {
      return false;
    }
    var pending := orders.Keys;
    while pending != {}
      invariant pending <= orders.Keys
      invariant forall code :: code in orders && code !in pending ==> !Qualifies(orders[code], userId.value)
      decreases pending
    {
      var code := Pick(pending);
      var o := orders[code];
      if o.userId == userId.value && (o.status == Completed || o.status == Delivered) {
        if |o.items| > 0 {
          return true;
        }
      }
      pending := pending - {code};
    }
    return false;
  }

  // ---------------------------------------------------------------- reviews

  /** A live review by this user of this product. */
  predicate LiveReviewOf(r: Review, userId: int, productId: int)
  {
    !r.deleted && r.userId == userId && r.productId == productId
  }

  /** `existsByUserIdAndProductId`, which skips soft-deleted rows. */
  predicate HasLiveReview(reviews: map<int, Review>, userId: int, productId: int)
  {
    exists id :: id in reviews && LiveReviewOf(reviews[id], userId, productId)
  }

  /** The unique (user, product) constraint, which soft-deleted rows still occupy. */
  predicate HasStoredReview(reviews: map<int, Review>, userId: int, productId: int)
  {
    exists id :: id in reviews && reviews[id].userId == userId && reviews[id].productId == productId
  }

  /** No two stored reviews share a user and a product. */
  predicate PairsUnique(reviews: map<int, Review>)
  {
    forall a, b :: a in reviews && b in reviews && a != b ==>
      reviews[a].userId != reviews[b].userId || reviews[a].productId != reviews[b].productId
  }

  /** Why `createReview` refuses before it writes, if it does. */
  function WriteRefusal(users: map<string, User>, products: map<int, ProductRow>, orders: map<string, OrderRow>,
                        userId: int, productId: int): (r: Option<Failure>)
    ensures r.None? <==> UserWithId(users, userId) && LiveProduct(products, productId) && products[productId].isVisible
                         && HasPurchased(orders, Some(userId), productId)
  {
    if !UserWithId(users, userId) then Some(Rejected("User not found"))
    else if !LiveProduct(products, productId) then Some(Rejected("Product not found"))
    else if !products[productId].isVisible then Some(Rejected("Product is not available"))
    else if !HasPurchased(orders, Some(userId), productId) then Some(Rejected(PurchaseRequired))
    else None
  }

  /** The write of `createReview`: the live review of the pair is overwritten in place; otherwise a
    * new row is inserted, which the unique constraint refuses when a soft-deleted row holds the pair. */
  function Upserted(reviews: map<int, Review>, nextId: int, userId: int, productId: int, rating: int, content: string)
    : Result<(map<int, Review>, int), Failure>
  {
    if HasLiveReview(reviews, userId, productId) then
      Ok((map id | id in reviews :: if LiveReviewOf(reviews[id], userId, productId)
                                    then reviews[id].(rating := rating, content := content) else reviews[id], nextId))
    else if HasStoredReview(reviews, userId, productId) then Err(Conflict("uk_user_product_review"))
    else Ok((reviews[nextId := Review(productId, userId, rating, content, false)], nextId + 1))
  }

  /** After a write the pair has a live review holding the new rating and content, still the only
    * row for the pair; an existing review is rewritten in place and no row is added. */
  lemma UpsertKeepsOneReviewPerPair(reviews: map<int, Review>, nextId: int, userId: int, productId: int, rating: int, content: string)
    requires PairsUnique(reviews) && (forall k :: k in reviews ==> k < nextId)
    requires Upserted(reviews, nextId, userId, productId, rating, content).Ok?
    ensures var after := Upserted(reviews, nextId, userId, productId, rating, content).value.0;
            PairsUnique(after)
            && (exists id :: id in after && LiveReviewOf(after[id], userId, productId) && after[id].rating == rating && after[id].content == content)
            && (HasLiveReview(reviews, userId, productId) ==> after.Keys == reviews.Keys)
  {
    var after := Upserted(reviews, nextId, userId, productId, rating, content).value.0;
    if HasLiveReview(reviews, userId, productId) {
      var id :| id in reviews && LiveReviewOf(reviews[id], userId, productId);
      assert LiveReviewOf(after[id], userId, productId);
    } else {
      assert LiveReviewOf(after[nextId], userId, productId);
    }
  }

  /** `createReview`: the refusals in order, then the write. When a soft-deleted review of the pair
    * still holds the unique constraint, the insert is refused and nothing is stored. */
  method CreateReview(db: Db, userId: int, productId: int, rating: int, content: string) returns (r: Outcome<()>)
    requires forall k :: k in db.reviews ==> k < db.nextId
    modifies db`reviews, db`nextId
    ensures forall k :: k in db.reviews ==> k < db.nextId
    ensures var refusal := WriteRefusal(db.users, db.products, db.orders, userId, productId);
            var write := Upserted(old(db.reviews), old(db.nextId), userId, productId, rating, content);
            (r.Ok? <==> refusal.None? && write.Ok?)
            && (refusal.Some? ==> r == Err(refusal.value))
            && (refusal.None? && write.Err? ==> r == Err(Conflict("uk_user_product_review")))
            && (r.Err? ==> db.reviews == old(db.reviews) && db.nextId == old(db.nextId))
            && (r.Ok? ==> (db.reviews, db.nextId) == write.value)
  {
    var refusal := WriteRefusal(db.users, db.products, db.orders, userId, productId);
    if refusal.Some? {
      return Err(refusal.value);
    }
    var purchased := CheckUserHasPurchasedProduct(db.orders, Some(userId), productId);
    assert purchased;
    var write := Upserted(db.reviews, db.nextId, userId, productId, rating, content);
    if write.Err? {
      return Err(write.error);
    }
    db.reviews, db.nextId := write.value.0, write.value.1;
    r := Ok(());
  }

  /** As written, a user whose review was deleted can never review the product again: the soft-deleted
    * row still holds the pair, the live lookup misses it, and the insert hits the unique constraint. */
  lemma ReReviewAfterDeleteConflicts()
    ensures Upserted(map[1 := Review(7, 3, 5, "good", true)], 2, 3, 7, 4, "still good") == Err(Conflict("uk_user_product_review"))
  {
    var reviews := map[1 := Review(7, 3, 5, "good", true)];
    assert !HasLiveReview(reviews, 3, 7);
    assert HasStoredReview(reviews, 3, 7) by {
      assert reviews[1].userId == 3 && reviews[1].productId == 7;
    }
  }

  /** The write as evidently intended: a soft-deleted review of the pair is brought back with the new
    * rating and content instead of colliding with the unique constraint. */
  function UpsertedReviving(reviews: map<int, Review>, nextId: int, userId: int, productId: int, rating: int, content: string)
    : (map<int, Review>, int)
  {
    if HasStoredReview(reviews, userId, productId) then
      (map id | id in reviews :: if reviews[id].userId == userId && reviews[id].productId == productId
                                 then reviews[id].(rating := rating, content := content, deleted := false) else reviews[id], nextId)
    else (reviews[nextId := Review(productId, userId, rating, content, false)], nextId + 1)
  }

  /** The intended write never fails, agrees with the written one whenever that one succeeds, and
    * leaves exactly one live review of the pair, carrying the new rating and content. */
  lemma RevivingWriteSucceeds(reviews: map<int, Review>, nextId: int, userId: int, productId: int, rating: int, content: string)
    requires PairsUnique(reviews) && (forall k :: k in reviews ==> k < nextId)
    ensures var after := UpsertedReviving(reviews, nextId, userId, productId, rating, content).0;
            PairsUnique(after)
            && (exists id :: id in after && LiveReviewOf(after[id], userId, productId) && after[id].rating == rating && after[id].content == content)
    ensures Upserted(reviews, nextId, userId, productId, rating, content).Ok? ==>
              Upserted(reviews, nextId, userId, productId, rating, content).value == UpsertedReviving(reviews, nextId, userId, productId, rating, content)
  {
    var after := UpsertedReviving(reviews, nextId, userId, productId, rating, content).0;
    if HasStoredReview(reviews, userId, productId) {
      var id :| id in reviews && reviews[id].userId == userId && reviews[id].productId == productId;
      assert LiveReviewOf(after[id], userId, productId);
      if HasLiveReview(reviews, userId, productId) {
        var written := Upserted(reviews, nextId, userId, productId, rating, content).value;
        var j :| j in reviews && LiveReviewOf(reviews[j], userId, productId);
        assert written.0.Keys == after.Keys;
        forall k | k in after
          ensures written.0[k] == after[k]
        {
          if reviews[k].userId == userId && reviews[k].productId == productId {
            assert j == k;
            assert !reviews[k].deleted;
          }
        }
        assert written.0 == after;
        assert written.1 == nextId;
      }
    } else {
      assert LiveReviewOf(after[nextId], userId, productId);
    }
  }

  /** The delete rule: the review's author, or any user who is not a CUSTOMER. */
  predicate MayDelete(users: map<string, User>, review: Review, userId: int)
  {
    review.userId == userId || !CustomerWithId(users, userId)
  }

  /** With unique user ids, a found user may delete exactly when they wrote the review or their
    * role is not CUSTOMER. */
  lemma DeletePermission(users: map<string, User>, review: Review, e: string)
    requires UserIdsUnique(users) && e in users
    ensures MayDelete(users, review, users[e].id) <==> review.userId == users[e].id || users[e].role != Customer
  {
  }

  /** `deleteReview`: soft-deletes the review when the caller may. */
  method DeleteReview(db: Db, reviewId: int, userId: int) returns (r: Outcome<()>)
    modifies db`reviews
    ensures var reviews := old(db.reviews);
            var refusal :=
              if reviewId !in reviews || reviews[reviewId].deleted then Some(Rejected("Review not found"))
              else if !UserWithId(db.users, userId) then Some(Rejected("User not found"))
              else if !MayDelete(db.users, reviews[reviewId], userId) then Some(Rejected(DeleteForbidden))
              else None;
            (refusal.Some? ==> r == Err(refusal.value) && db.reviews == reviews)
            && (refusal.None? ==> r.Ok? && db.reviews == reviews[reviewId := reviews[reviewId].(deleted := true)])
  {
    if reviewId !in db.reviews || db.reviews[reviewId].deleted {
      return Err(Rejected("Review not found"));
    }
    if !UserWithId(db.users, userId) {
      return Err(Rejected("User not found"));
    }
    if !MayDelete(db.users, db.reviews[reviewId], userId) {
      return Err(Rejected(DeleteForbidden));
    }
    db.reviews := db.reviews[reviewId := db.reviews[reviewId].(deleted := true)];
    r := Ok(());
  }

  // ---------------------------------------------------------------- the product's review page

  datatype ReviewView = ReviewView(id: int, rating: int, content: string, isOwner: bool)

  /** `mapToDTO`. */
  function View(id: int, r: Review, currentUserId: Option<int>): (v: ReviewView)
    ensures v.isOwner <==> currentUserId.Some? && currentUserId.value == r.userId
    ensures v.id == id && v.rating == r.rating && v.content == r.content
  {
    ReviewView(id, r.rating, r.content, currentUserId == Some(r.userId))
  }

  /** The stats of a product's review page; the reviews are a set because their order comes from
    * creation times, which are not modelled. */
  datatype ReviewStats = ReviewStats(reviews: set<ReviewView>, averageRating: real, totalReviews: int,
                                     hasUserReviewed: bool, userReview: Option<ReviewView>, canReview: bool)

  /** The live reviews of a product. */
  function ReviewIdsOf(reviews: map<int, Review>, productId: int): set<int>
  {
    set id | id in reviews && !reviews[id].deleted && reviews[id].productId == productId
  }

  /** `getProductReviews`. `average` is what the database's average query returns, absent when the
    * product has no live review. */
  method GetProductReviews(db: Db, productId: int, currentUserId: Option<int>, average: Option<real>) returns (r: Outcome<ReviewStats>)
    ensures !LiveProduct(db.products, productId) ==> r == Err(Rejected("Product not found"))
    ensures LiveProduct(db.products, productId) && !db.products[productId].isVisible ==> r == Err(Rejected("Product is not available"))
    ensures r.Ok? <==> LiveProduct(db.products, productId) && db.products[productId].isVisible
    ensures r.Ok? ==>
              r.value.reviews == (set id | id in ReviewIdsOf(db.reviews, productId) :: View(id, db.reviews[id], currentUserId))
              && r.value.averageRating == average.GetOr(0.0)
              && r.value.totalReviews == |ReviewIdsOf(db.reviews, productId)|
              && r.value.hasUserReviewed == (currentUserId.Some? && HasLiveReview(db.reviews, currentUserId.value, productId))
              && (r.value.userReview.Some? <==> r.value.hasUserReviewed)
              && (r.value.userReview.Some? ==> exists id :: id in db.reviews && LiveReviewOf(db.reviews[id], currentUserId.value, productId)
                                                            && r.value.userReview.value == View(id, db.reviews[id], currentUserId))
              && r.value.canReview == HasPurchased(db.orders, currentUserId, productId)
  {
    if !LiveProduct(db.products, productId) {
      return Err(Rejected("Product not found"));
    }
    if !db.products[productId].isVisible {
      return Err(Rejected("Product is not available"));
    }
    var ids := ReviewIdsOf(db.reviews, productId);
    var hasUserReviewed := false;
    var userReview: Option<ReviewView> := None;
    var canReview := false;
    if currentUserId.Some? {
      hasUserReviewed := HasLiveReview(db.reviews, currentUserId.value, productId);
      if hasUserReviewed {
        ghost var some :| some in db.reviews && LiveReviewOf(db.reviews[some], currentUserId.value, productId);
        var candidates := set id | id in db.reviews && LiveReviewOf(db.reviews[id], currentUserId.value, productId);
        assert some in candidates;
        var mine := Pick(candidates);
        userReview := Some(View(mine, db.reviews[mine], currentUserId));
      }
      canReview := CheckUserHasPurchasedProduct(db.orders, currentUserId, productId);
    }
    r := Ok(ReviewStats(set id | id in ids :: View(id, db.reviews[id], currentUserId), average.GetOr(0.0), |ids|,
                        hasUserReviewed, userReview, canReview));
  }

  /** An anonymous visitor has not reviewed, may not review and owns none of the listed reviews. */
  lemma AnonymousVisitor(reviews: map<int, Review>, orders: map<string, OrderRow>, productId: int)
    ensures !HasPurchased(orders, None, productId)
    ensures forall id :: id in reviews ==> !View(id, reviews[id], None).isOwner
  {
  }
}

=== FILE: route_guard.dfy ===
/** The storefront's Next.js middleware: which paths need a signed-in customer, which are the
  * sign-in pages, and whether a request is redirected or passed on. */
module RouteGuard {
  import opened Wrappers
  import opened Text

  /** `protectedRoutes`. */
  const ProtectedRoutes: seq<string> := ["/cart", "/checkout", "/orders"]

  /** `authRoutes`. */
  const AuthRoutes: seq<string> := ["/login", "/register"]

  /** A path is under a route when it is the route itself or lies below it. */
  predicate UnderRoute(path: string, route: string)
  {
    path == route || StartsWith(path, route + "/")
  }

  /** `routes.some(...)`. */
  predicate UnderAny(path: string, routes: seq<string>)
  {
    exists r | r in routes :: UnderRoute(path, r)
  }

  predicate IsProtected(path: string)
  {
    UnderAny(path, ProtectedRoutes)
  }

  predicate IsAuthRoute(path: string)
  {
    UnderAny(path, AuthRoutes)
  }

  /** `!!token`: the "token" cookie is present and not empty. */
  predicate Authenticated(token: Option<string>)
  {
    token.Some? && token.value != ""
  }

  /** What the middleware answers: a redirect to the sign-in page remembering where the customer
    * was going, a redirect to the home page, or `NextResponse.next()`. */
  datatype Decision = RedirectToLogin(returnUrl: string) | RedirectHome | PassThrough

  /** `middleware`. */
  function Guard(path: string, token: Option<string>): (d: Decision)
    ensures d.RedirectToLogin? <==> IsProtected(path) && !Authenticated(token)
    ensures d.RedirectToLogin? ==> d.returnUrl == path
    ensures d.RedirectHome? <==> IsAuthRoute(path) && Authenticated(token)
    ensures d.PassThrough? <==> (!IsProtected(path) || Authenticated(token)) && (!IsAuthRoute(path) || !Authenticated(token))
  {
    if IsProtected(path) && !Authenticated(token) then RedirectToLogin(path)
    else if IsAuthRoute(path) && Authenticated(token) then RedirectHome
    else PassThrough
  }

  /** The paths `config.matcher` sends through the middleware: each protected route with anything
    * below it, and the two sign-in pages themselves only. */
  predicate InMatcher(path: string)
  {
    IsProtected(path) || path == "/login" || path == "/register"
  }

  /** A path under a protected route starts with that route's second character; the sign-in routes
    * start with different ones. */
  lemma SecondChar(path: string, route: string)
    requires |route| >= 2 && UnderRoute(path, route)
    ensures |path| >= 2 && path[1] == route[1]
  {
    if path != route {
      assert path[..|route| + 1] == route + "/";
      assert path[1] == (route + "/")[1];
    }
  }

  /** No path is both protected and a sign-in route, so the two redirects never compete. */
  lemma ProtectedAndAuthDisjoint(path: string)
    ensures !(IsProtected(path) && IsAuthRoute(path))
  {
    if IsProtected(path) && IsAuthRoute(path) {
      var p :| p in ProtectedRoutes && UnderRoute(path, p);
      var a :| a in AuthRoutes && UnderRoute(path, a);
      SecondChar(path, p);
      SecondChar(path, a);
    }
  }

  /** Matching is by whole path segment: "/cartx" is not protected while "/cart/x" is. */
  lemma SegmentMatching()
    ensures !IsProtected("/cartx") && IsProtected("/cart/x") && IsProtected("/orders")
  {
    assert UnderRoute("/cart/x", "/cart");
    assert UnderRoute("/orders", "/orders");
    forall r | r in ProtectedRoutes
      ensures !UnderRoute("/cartx", r)
    {
      if r == "/cart" {
        assert "/cartx"[5] != (r + "/")[5];
      }
    }
  }

  /** Every protected path reaches the middleware, so none is served without the check. */
  lemma MatcherCoversProtected(path: string)
    requires IsProtected(path)
    ensures InMatcher(path)
  {
  }

  /** A path below a sign-in page counts as a sign-in route but never reaches the middleware, so a
    * signed-in customer is not sent home from it. */
  lemma AuthSubpathsUnguarded()
    ensures IsAuthRoute("/login/help") && !InMatcher("/login/help")
  {
    assert UnderRoute("/login/help", "/login");
    ProtectedAndAuthDisjoint("/login/help");
  }

  /** The redirects do not loop: the sign-in page a customer is sent to is passed on for that
    * customer, and so is the home page. */
  lemma NoRedirectLoop(path: string, token: Option<string>)
    ensures Guard(path, token).RedirectToLogin? ==> Guard("/login", token) == PassThrough
    ensures Guard(path, token).RedirectHome? ==> Guard("/", token) == PassThrough
  {
    assert UnderRoute("/login", "/login");
    ProtectedAndAuthDisjoint("/login");
    assert !IsProtected("/") by {
      forall r | r in ProtectedRoutes
        ensures !UnderRoute("/", r)
      {
        assert |r| > 1;
      }
    }
    assert !IsAuthRoute("/") by {
      forall r | r in AuthRoutes
        ensures !UnderRoute("/", r)
      {
        assert |r| > 1;
      }
    }
  }
}

=== FILE: seqs.dfy ===
/** List operations the entities use on their child collections, the stable sort by a key that both
  * `List.sort(Comparator.comparing(..))` and `Array.prototype.sort` perform, picking from a set, and
  * moving an element one place by swapping it with its neighbour. */
module Seqs {

  /** Appending one element to a list that extends a fixed prefix extends the same prefix. */
  lemma AppendRegroup<T>(prefix: seq<T>, done: seq<T>, done': seq<T>, x: T)
    requires done' == done + [x]
    ensures (prefix + done) + [x] == prefix + done'
  {
  }

  /** `List.remove(Object)`: drops the first element equal to `x`, if there is one. */
  function RemoveFirst<T(==)>(s: seq<T>, x: T): (r: seq<T>)
    ensures x in s ==> |r| == |s| - 1
    ensures x !in s ==> r == s
  {
    if s == [] then []
    else if s[0] == x then s[1..] else [s[0]] + RemoveFirst(s[1..], x)
  }

  /** Removal takes exactly one copy of `x` out of the list's multiset of elements. */
  lemma {:induction false} RemoveFirstMultiset<T>(s: seq<T>, x: T)
    ensures multiset(RemoveFirst(s, x)) == multiset(s) - multiset{x}
  {
    if s != [] {
      assert s == [s[0]] + s[1..];
      if s[0] != x {
        RemoveFirstMultiset(s[1..], x);
      }
    }
  }

  /** Removing `x` from a list that holds it once leaves no `x` behind. */
  lemma RemoveSingle<T>(s: seq<T>, x: T)
    requires multiset(s)[x] <= 1
    ensures x !in RemoveFirst(s, x)
  {
    RemoveFirstMultiset(s, x);
    assert multiset(RemoveFirst(s, x))[x] == 0;
  }

  /** `List.remove` on an element whose first occurrence is at position `k` removes exactly that position. */
  lemma {:induction false} RemoveFirstAt<T>(s: seq<T>, k: nat)
    requires k < |s| && forall j :: 0 <= j < k ==> s[j] != s[k]
    ensures RemoveFirst(s, s[k]) == s[..k] + s[k + 1..]
  {
    if k > 0 {
      var t := s[1..];
      assert t[k - 1] == s[k];
      assert forall j :: 0 <= j < k - 1 ==> t[j] == s[j + 1];
      RemoveFirstAt(t, k - 1);
      assert t[..k - 1] == s[1..k] && t[k..] == s[k + 1..];
      assert s[..k] == [s[0]] + s[1..k];
    }
  }

  /** `s` is in ascending order of `key`. */
  predicate SortedBy<T>(s: seq<T>, key: T -> int)
  {
    forall i, j :: 0 <= i < j < |s| ==> key(s[i]) <= key(s[j])
  }

  /** Places `x` after every element whose key does not exceed its own, so that equal keys keep
    * their arrival order. */
  function InsertBy<T>(x: T, s: seq<T>, key: T -> int): seq<T>
  {
    if s == [] || key(s[|s| - 1]) <= key(x) then s + [x]
    else InsertBy(x, s[..|s| - 1], key) + [s[|s| - 1]]
  }

  /** The stable sort by ascending `key` (insertion sort, one element at a time from the left). */
  function SortBy<T>(s: seq<T>, key: T -> int): seq<T>
  {
    if s == [] then [] else InsertBy(s[|s| - 1], SortBy(s[..|s| - 1], key), key)
  }

  lemma {:induction false} InsertPermutes<T>(x: T, s: seq<T>, key: T -> int)
    ensures multiset(InsertBy(x, s, key)) == multiset(s) + multiset{x}
  {
    if s != [] && key(s[|s| - 1]) > key(x) {
      var n := |s| - 1;
      InsertPermutes(x, s[..n], key);
      assert s == s[..n] + [s[n]];
    }
  }

  lemma {:induction false} InsertKeepsSorted<T>(x: T, s: seq<T>, key: T -> int)
    requires SortedBy(s, key)
    ensures SortedBy(InsertBy(x, s, key), key)
  {
    if s != [] && key(s[|s| - 1]) > key(x) {
      var n := |s| - 1;
      var t := InsertBy(x, s[..n], key);
      InsertKeepsSorted(x, s[..n], key);
      InsertPermutes(x, s[..n], key);
      forall i | 0 <= i < |t|
        ensures key(t[i]) <= key(s[n])
      {
        assert t[i] in multiset(s[..n]) + multiset{x};
        if t[i] != x {
          assert t[i] in s[..n];
        }
      }
      SortedAppend(t, s[n], key);
    }
  }

  /** A sorted list stays sorted when an element whose key is at least every key in it is added at the end. */
  lemma SortedAppend<T>(t: seq<T>, y: T, key: T -> int)
    requires SortedBy(t, key) && forall i :: 0 <= i < |t| ==> key(t[i]) <= key(y)
    ensures SortedBy(t + [y], key)
  {
    var u := t + [y];
    forall i, j | 0 <= i < j < |u|
      ensures key(u[i]) <= key(u[j])
    {
      assert u[i] == t[i];
    }
  }

  /** The sort orders its input by `key`, neither loses nor invents an element, and is stable:
    * the elements sharing a key keep their relative order. */
  lemma SortSortsAndPermutes<T>(s: seq<T>, key: T -> int)
    ensures SortedBy(SortBy(s, key), key)
    ensures multiset(SortBy(s, key)) == multiset(s)
    ensures forall k :: WithKey(SortBy(s, key), key, k) == WithKey(s, key, k)
  {
    SortSorts(s, key);
    SortPermutes(s, key);
    forall k
      ensures WithKey(SortBy(s, key), key, k) == WithKey(s, key, k)
    {
      SortStable(s, key, k);
    }
  }

  /** The elements of `s` whose key is `k`, in their order in `s`. */
  function WithKey<T>(s: seq<T>, key: T -> int, k: int): seq<T>
  {
    if s == [] then []
    else WithKey(s[..|s| - 1], key, k) + (if key(s[|s| - 1]) == k then [s[|s| - 1]] else [])
  }

  lemma {:induction false} WithKeyMembers<T>(s: seq<T>, key: T -> int, k: int)
    ensures forall x :: x in WithKey(s, key, k) ==> x in s && key(x) == k
  {
    if s != [] {
      var n := |s| - 1;
      WithKeyMembers(s[..n], key, k);
      assert s == s[..n] + [s[n]];
    }
  }

  /** Inserting `x` puts it after the elements that share its key and moves no other element of
    * any key past another. */
  lemma {:induction false} InsertStable<T>(x: T, s: seq<T>, key: T -> int, k: int)
    ensures WithKey(InsertBy(x, s, key), key, k) == WithKey(s, key, k) + (if key(x) == k then [x] else [])
  {
    if s == [] || key(s[|s| - 1]) <= key(x) {
      var t := s + [x];
      assert t[..|t| - 1] == s;
    } else {
      var n := |s| - 1;
      InsertStable(x, s[..n], key, k);
      var t := InsertBy(x, s[..n], key) + [s[n]];
      assert t[..|t| - 1] == InsertBy(x, s[..n], key);
      if key(x) == k {
        assert key(s[n]) != k;
      }
    }
  }

  lemma {:induction false} SortStable<T>(s: seq<T>, key: T -> int, k: int)
    ensures WithKey(SortBy(s, key), key, k) == WithKey(s, key, k)
  {
    if s != [] {
      var n := |s| - 1;
      SortStable(s[..n], key, k);
      InsertStable(s[n], SortBy(s[..n], key), key, k);
    }
  }

  /** If `s[i]` is the first element of `s` with key `m` that satisfies `p`, it is the first element
    * of `WithKey(s, key, m)` that satisfies `p`. */
  lemma {:induction false} WithKeyFirstMatch<T>(s: seq<T>, key: T -> int, m: int, p: T -> bool, i: nat)
    requires i < |s| && p(s[i]) && key(s[i]) == m
    requires forall j :: 0 <= j < i ==> !(p(s[j]) && key(s[j]) == m)
    ensures exists w :: 0 <= w < |WithKey(s, key, m)| && WithKey(s, key, m)[w] == s[i]
                        && forall v :: 0 <= v < w ==> !p(WithKey(s, key, m)[v])
  {
    var n := |s| - 1;
    var before := WithKey(s[..n], key, m);
    var all := WithKey(s, key, m);
    assert all == before + (if key(s[n]) == m then [s[n]] else []);
    if i < n {
      WithKeyFirstMatch(s[..n], key, m, p, i);
      var w :| 0 <= w < |before| && before[w] == s[..n][i] && forall v :: 0 <= v < w ==> !p(before[v]);
      assert all[w] == s[i];
      assert forall v :: 0 <= v < w ==> all[v] == before[v];
    } else {
      WithKeyMembers(s[..n], key, m);
      forall v | 0 <= v < |before|
        ensures !p(before[v])
      {
        assert before[v] in s[..n];
        var j :| 0 <= j < n && s[..n][j] == before[v];
        assert s[j] == before[v];
      }
      assert all[|before|] == s[i];
      assert forall v :: 0 <= v < |before| ==> all[v] == before[v];
    }
  }

  /** After the sort, the first element satisfying `p` is the one of least key among those that
    * satisfy it, the earliest in the input among equals. */
  lemma SortedFirstMatch<T>(s: seq<T>, key: T -> int, p: T -> bool, k: nat, i: nat)
    requires k < |s| && p(s[k])
    requires forall j :: 0 <= j < |s| && p(s[j]) ==> key(s[k]) <= key(s[j])
    requires forall j :: 0 <= j < k && p(s[j]) ==> key(s[j]) != key(s[k])
    requires i < |SortBy(s, key)| && p(SortBy(s, key)[i])
    requires forall j :: 0 <= j < i ==> !p(SortBy(s, key)[j])
    ensures SortBy(s, key)[i] == s[k]
  {
    var t := SortBy(s, key);
    var m := key(s[k]);
    SortSorts(s, key);
    SortPermutes(s, key);
    assert s[k] in multiset(t);
    var i2 :| 0 <= i2 < |t| && t[i2] == s[k];
    assert i <= i2;
    assert t[i] in multiset(s);
    var j :| 0 <= j < |s| && s[j] == t[i];
    assert key(t[i]) == m;
    SortStable(s, key, m);
    WithKeyFirstMatch(t, key, m, p, i);
    WithKeyFirstMatch(s, key, m, p, k);
    var w := WithKey(s, key, m);
    var w1 :| 0 <= w1 < |w| && w[w1] == t[i] && forall v :: 0 <= v < w1 ==> !p(w[v]);
    var w2 :| 0 <= w2 < |w| && w[w2] == s[k] && forall v :: 0 <= v < w2 ==> !p(w[v]);
    assert w1 == w2;
  }

  lemma {:induction false} SortSorts<T>(s: seq<T>, key: T -> int)
    ensures SortedBy(SortBy(s, key), key)
  {
    if s != [] {
      var n := |s| - 1;
      SortSorts(s[..n], key);
      InsertKeepsSorted(s[n], SortBy(s[..n], key), key);
    }
  }

  lemma {:induction false} SortPermutes<T>(s: seq<T>, key: T -> int)
    ensures multiset(SortBy(s, key)) == multiset(s)
  {
    if s != [] {
      var n := |s| - 1;
      SortPermutes(s[..n], key);
      InsertPermutes(s[n], SortBy(s[..n], key), key);
      assert s == s[..n] + [s[n]];
    }
  }

  /** No element occurs twice. */
  predicate NoDuplicates<T(==)>(s: seq<T>)
  {
    forall x | x in multiset(s) :: multiset(s)[x] <= 1
  }

  /** Two positions holding the same element make it occur twice. */
  lemma TwoPositions<T>(s: seq<T>, i: nat, j: nat)
    requires i < j < |s| && s[i] == s[j]
    ensures multiset(s)[s[i]] >= 2
  {
    assert s == s[..j] + [s[j]] + s[j + 1..];
    assert s[i] in s[..j];
  }

  /** `NoDuplicates` is the positional distinctness it abbreviates. */
  lemma NoDuplicatesPositions<T>(s: seq<T>)
    ensures NoDuplicates(s) <==> forall i, j :: 0 <= i < j < |s| ==> s[i] != s[j]
  {
    if !NoDuplicates(s) {
      var x :| x in multiset(s) && multiset(s)[x] > 1;
      RepeatedAtTwoPositions(s, x);
    } else {
      forall i, j | 0 <= i < j < |s|
        ensures s[i] != s[j]
      {
        if s[i] == s[j] {
          TwoPositions(s, i, j);
        }
      }
    }
  }

  /** An element occurring twice sits at two positions. */
  lemma RepeatedAtTwoPositions<T>(s: seq<T>, x: T)
    requires multiset(s)[x] >= 2
    ensures exists i, j :: 0 <= i < j < |s| && s[i] == x && s[j] == x
  {
    assert x in s;
    var i :| 0 <= i < |s| && s[i] == x;
    var t := s[..i] + s[i + 1..];
    assert s == s[..i] + [s[i]] + s[i + 1..];
    assert multiset(t)[x] >= 1;
    var j :| 0 <= j < |t| && t[j] == x;
    if j < i {
      assert s[j] == x;
    } else {
      assert s[j + 1] == x;
    }
  }

  /** `Array.from(new Set(xs))`: the first occurrence of every element, in order. */
  function Distinct<T(==)>(xs: seq<T>): (r: seq<T>)
    ensures forall x | x in r :: x in xs
    ensures forall x | x in xs :: x in r
    ensures NoDuplicates(r)
  {
    if xs == [] then []
    else
      var d := Distinct(xs[..|xs| - 1]);
      assert xs == xs[..|xs| - 1] + [xs[|xs| - 1]];
      if xs[|xs| - 1] in d then d else d + [xs[|xs| - 1]]
  }

  /** The position of the first occurrence of `x` in `xs`. */
  function FirstIndexOf<T(==)>(xs: seq<T>, x: T): (i: nat)
    requires x in xs
    ensures i < |xs| && xs[i] == x && forall j :: 0 <= j < i ==> xs[j] != x
  {
    if xs[0] == x then 0 else 1 + FirstIndexOf(xs[1..], x)
  }

  /** An element of a prefix occurs first where it occurs first in the prefix. */
  lemma FirstIndexOfPrefix<T>(xs: seq<T>, n: nat, x: T)
    requires n <= |xs| && x in xs[..n]
    ensures x in xs && FirstIndexOf(xs, x) == FirstIndexOf(xs[..n], x)
  {
    var a := FirstIndexOf(xs[..n], x);
    assert xs[a] == x;
    assert forall j :: 0 <= j < a ==> xs[j] == xs[..n][j];
  }

  /** `Distinct` lists the elements in the order of their first occurrences. */
  lemma {:induction false} DistinctFirstSeenOrder<T>(xs: seq<T>)
    ensures forall i, j :: 0 <= i < j < |Distinct(xs)| ==> FirstIndexOf(xs, Distinct(xs)[i]) < FirstIndexOf(xs, Distinct(xs)[j])
  {
    if xs != [] {
      var n := |xs| - 1;
      var p := xs[..n];
      var d := Distinct(p);
      DistinctFirstSeenOrder(p);
      forall y | y in d
        ensures FirstIndexOf(xs, y) == FirstIndexOf(p, y) < n
      {
        FirstIndexOfPrefix(xs, n, y);
      }
      if xs[n] !in d {
        assert xs[n] !in p;
        assert FirstIndexOf(xs, xs[n]) == n;
        var r := d + [xs[n]];
        assert Distinct(xs) == r;
        forall i, j | 0 <= i < j < |r|
          ensures FirstIndexOf(xs, r[i]) < FirstIndexOf(xs, r[j])
        {
          assert r[i] == d[i];
          if j < |d| {
            assert r[j] == d[j];
          }
        }
      }
    }
  }

  /** A list without repetitions passes through `Distinct` unchanged. */
  lemma {:induction false} DistinctKeepsDistinct<T>(xs: seq<T>)
    requires NoDuplicates(xs)
    ensures Distinct(xs) == xs
  {
    if xs != [] {
      var n := |xs| - 1;
      assert xs == xs[..n] + [xs[n]];
      assert multiset(xs) == multiset(xs[..n]) + multiset{xs[n]};
      assert NoDuplicates(xs[..n]) by {
        forall x | x in multiset(xs[..n])
          ensures multiset(xs[..n])[x] <= 1
        {
          assert multiset(xs)[x] <= 1;
        }
      }
      DistinctKeepsDistinct(xs[..n]);
      assert multiset(xs)[xs[n]] <= 1;
      assert xs[n] !in xs[..n];
    }
  }

  /** Appending one element to a list without repetitions and dropping repetitions keeps the list and
    * adds the element at the end unless it was already there. */
  lemma DistinctAppend<T>(xs: seq<T>, x: T)
    requires NoDuplicates(xs)
    ensures Distinct(xs + [x]) == if x in xs then xs else xs + [x]
  {
    DistinctKeepsDistinct(xs);
    assert (xs + [x])[..|xs|] == xs;
  }

  /** Some element of a non-empty set: the next one a loop over the set visits. */
  method Pick<T>(s: set<T>) returns (x: T)
    requires s != {}
    ensures x in s
  {
    x :| x in s;
  }

  // ---------------------------------------------------------------- moving one place

  datatype Direction = Up | Down

  /** The neighbour an element moved one place up or down is swapped with. */
  function Target(index: int, d: Direction): int
  {
    if d == Up then index - 1 else index + 1
  }

  /** Moving one place is a no-op: up from the top or down from the bottom. */
  predicate AtBoundary(length: int, index: int, d: Direction)
  {
    (d == Up && index == 0) || (d == Down && index == length - 1)
  }

  /** `[s[i], s[j]] = [s[j], s[i]]`. */
  function Swap<T>(s: seq<T>, i: nat, j: nat): (r: seq<T>)
    requires i < |s| && j < |s|
    ensures |r| == |s| && r[i] == s[j] && r[j] == s[i]
    ensures forall k :: 0 <= k < |s| && k != i && k != j ==> r[k] == s[k]
  {
    s[i := s[j]][j := s[i]]
  }

  /** A swap is its own inverse and moves no element in or out. */
  lemma SwapFacts<T>(s: seq<T>, i: nat, j: nat)
    requires i < |s| && j < |s|
    ensures Swap(Swap(s, i, j), i, j) == s
    ensures Swap(s, i, j) == Swap(s, j, i)
    ensures multiset(Swap(s, i, j)) == multiset(s)
  {
    SwapPermutes(s, i, j);
  }

  lemma SwapPermutes<T>(s: seq<T>, i: nat, j: nat)
    requires i < |s| && j < |s|
    ensures multiset(Swap(s, i, j)) == multiset(s)
  {
    var u := s[i := s[j]];
    assert multiset(u) == multiset(s) - multiset{s[i]} + multiset{s[j]};
  }
}

=== FILE: shop_query.dfy ===
/** The storefront's product query (`useShopProducts`): how the shop page's sort choice, page
  * number and filters become the query parameters of the public product list. */
module ShopQuery {
  import opened Wrappers
  import opened Text

  /** The shop page's parameters; a parameter the page does not give is None. */
  datatype ShopParams = ShopParams(page: Option<int>, size: Option<int>, sort: Option<string>, categoryId: Option<int>,
                                   minPrice: Option<int>, maxPrice: Option<int>, search: Option<string>)

  /** The query parameters the backend reads. */
  datatype ParamKey = PageKey | SizeKey | SortByKey | SortDirKey | CategoryIdKey | MinPriceKey | MaxPriceKey | SearchKey

  datatype ParamValue = Number(n: int) | Text(s: string)

  /** The properties of a product the public list can be sorted by: the fields `Product` declares,
    * and `createdAt`, which the list sorts by when no sort is given. */
  const ProductSortFields: set<string> :=
    {"name", "slug", "description", "basePrice", "category", "isVisible", "images", "variants", "soldCount", "createdAt"}

  /** `mapSortBy` as written: "best_selling" asks for "salesCount". */
  function MapSortByAsWritten(sort: string): (field: string)
    ensures sort == "best_selling" ==> field == "salesCount"
    ensures sort != "best_selling" ==> field == MapSortBy(sort)
  {
    if sort == "price_asc" || sort == "price_desc" then "basePrice"
    else if sort == "best_selling" then "salesCount"
    else "createdAt"
  }

  /** Sorting by best sellers asks the backend for a property no product has, so that request
    * fails instead of listing the best sellers. */
  lemma BestSellingUnknownProperty()
    ensures MapSortByAsWritten("best_selling") !in ProductSortFields
  {
  }

  /** `mapSortBy` with best sellers sorted by the product's `soldCount`: price choices sort by the
    * base price, best sellers by units sold, anything else by creation time. */
  function MapSortBy(sort: string): (field: string)
    ensures field in ProductSortFields
    ensures field == "basePrice" <==> sort == "price_asc" || sort == "price_desc"
    ensures field == "soldCount" <==> sort == "best_selling"
  {
    if sort == "price_asc" || sort == "price_desc" then "basePrice"
    else if sort == "best_selling" then "soldCount"
    else "createdAt"
  }

  /** `mapSortDir`: ascending exactly for the choices ending in "_asc". */
  function MapSortDir(sort: string): (dir: string)
    ensures dir == "asc" <==> EndsWith(sort, "_asc")
    ensures dir == "asc" || dir == "desc"
  {
    if EndsWith(sort, "_asc") then "asc" else "desc"
  }

  /** JavaScript truthiness of an optional number and an optional string. */
  predicate GivenNumber(x: Option<int>) { x.Some? && x.value != 0 }
  predicate GivenText(x: Option<string>) { x.Some? && x.value != "" }

  /** The `backendParams` record the query builds, with the sort property as `mapSortBy` writes it. */
  method BackendParams(params: ShopParams) returns (q: map<ParamKey, ParamValue>)
    ensures PageKey in q && q[PageKey] == Number(params.page.GetOr(1) - 1)
    ensures SizeKey in q && q[SizeKey] == Number(params.size.GetOr(12))
    ensures SortByKey in q <==> GivenText(params.sort)
    ensures SortDirKey in q <==> GivenText(params.sort)
    ensures GivenText(params.sort) ==>
              q[SortByKey] == Text(MapSortByAsWritten(params.sort.value)) && q[SortDirKey] == Text(MapSortDir(params.sort.value))
    ensures CategoryIdKey in q <==> GivenNumber(params.categoryId)
    ensures CategoryIdKey in q ==> q[CategoryIdKey] == Number(params.categoryId.value)
    ensures MinPriceKey in q <==> params.minPrice.Some?
    ensures MinPriceKey in q ==> q[MinPriceKey] == Number(params.minPrice.value)
    ensures MaxPriceKey in q <==> params.maxPrice.Some?
    ensures MaxPriceKey in q ==> q[MaxPriceKey] == Number(params.maxPrice.value)
    ensures SearchKey in q <==> GivenText(params.search)
    ensures SearchKey in q ==> q[SearchKey] == Text(params.search.value)
  {
    q := map[PageKey := Number(params.page.GetOr(1) - 1), SizeKey := Number(params.size.GetOr(12))];
    if GivenText(params.sort) {
      q := q[SortByKey := Text(MapSortByAsWritten(params.sort.value))];
      q := q[SortDirKey := Text(MapSortDir(params.sort.value))];
    }
    if GivenNumber(params.categoryId) {
      q := q[CategoryIdKey := Number(params.categoryId.value)];
    }
    if params.minPrice.Some? {
      q := q[MinPriceKey := Number(params.minPrice.value)];
    }
    if params.maxPrice.Some? {
      q := q[MaxPriceKey := Number(params.maxPrice.value)];
    }
    if GivenText(params.search) {
      q := q[SearchKey := Text(params.search.value)];
    }
  }

  /** Every sort choice the shop offers reaches the backend as a sortable property, and only
    * "price_asc" sorts ascending. */
  lemma ShopSortChoices()
    ensures forall s | s in ["newest", "price_asc", "price_desc", "best_selling"] :: MapSortBy(s) in ProductSortFields
    ensures MapSortDir("price_asc") == "asc" && MapSortDir("price_desc") == "desc"
    ensures MapSortDir("newest") == "desc" && MapSortDir("best_selling") == "desc"
  {
    assert EndsWith("price_asc", "_asc");
    assert !EndsWith("price_desc", "_asc") by {
      assert "price_desc"[6..] != "_asc";
    }
    assert !EndsWith("newest", "_asc") by {
      assert "newest"[2..] != "_asc";
    }
    assert !EndsWith("best_selling", "_asc") by {
      assert "best_selling"[8..] != "_asc";
    }
  }
}

=== FILE: status_dialog.dfy ===
/** The admin order dialog (`StatusUpdateDialog`): which target statuses it offers for an order,
  * and what it hands to its `onConfirm` callback. */
module StatusDialog {
  import opened Wrappers
  import opened Seqs
  import opened Enums
  import OrderService

  /** `ALLOWED_TRANSITIONS`: the dialog's own table, which covers every status. */
  function AllowedTransitions(s: OrderStatus): seq<OrderStatus>
  {
    match s
    case Pending => [Confirmed, Cancelled]
    case Confirmed => [Processing, Shipped, Cancelled]
    case Processing => [Shipped, Cancelled]
    case Shipped => [Delivered]
    case Delivered => [Completed]
    case Completed => []
    case Cancelled => []
  }

  /** The statuses after which the dialog adds no cancellation. */
  predicate Finished(s: OrderStatus)
  {
    s == Completed || s == Cancelled
  }

  /** A target the dialog offers: a table entry, or CANCELLED for an unfinished order. */
  predicate Offered(current: OrderStatus, target: OrderStatus)
  {
    target in AllowedTransitions(current) || (target == Cancelled && !Finished(current))
  }

  /** No row of the table names a status twice. */
  lemma TableRowsDistinct(s: OrderStatus)
    ensures NoDuplicates(AllowedTransitions(s))
    ensures s !in AllowedTransitions(s)
  {
    NoDuplicatesPositions(AllowedTransitions(s));
  }

  /** The `availableStatuses` computation: copy the table row, push CANCELLED unless the order is
    * finished, then drop repetitions. */
  method AvailableStatuses(current: OrderStatus) returns (offered: seq<OrderStatus>)
    ensures forall t :: t in offered <==> Offered(current, t)
    ensures NoDuplicates(offered)
    ensures Finished(current) <==> offered == []
    ensures !Finished(current) ==> Cancelled in offered
    ensures current !in offered
    ensures AllowedTransitions(current) <= offered
    ensures |offered| == |AllowedTransitions(current)| + (if !Finished(current) && Cancelled !in AllowedTransitions(current) then 1 else 0)
  {
    offered := AllowedTransitions(current);
    TableRowsDistinct(current);
    if current != Completed && current != Cancelled {
      DistinctAppend(offered, Cancelled);
      offered := offered + [Cancelled];
    } else {
      DistinctKeepsDistinct(offered);
    }
    offered := Distinct(offered);
  }

  /** The offers the backend's `validateStatusTransition` refuses. */
  const Mismatches: set<(OrderStatus, OrderStatus)> :=
    {(Confirmed, Processing), (Processing, Shipped), (Processing, Cancelled), (Shipped, Cancelled), (Delivered, Cancelled)}

  /** The dialog offers every change the backend accepts, and beyond them exactly the `Mismatches`:
    * CONFIRMED to PROCESSING, anything out of PROCESSING, and the cancellation of a SHIPPED or
    * DELIVERED order, which the backend all refuses. */
  lemma OffersVersusBackend(current: OrderStatus, target: OrderStatus)
    ensures (current, target) in OrderService.BackendTransitions ==> Offered(current, target)
    ensures Offered(current, target) && (current, target) !in OrderService.BackendTransitions
            <==> (current, target) in Mismatches
  {
    match current {
      case Pending =>
      case Confirmed =>
      case Processing =>
      case Shipped =>
      case Delivered =>
      case Completed =>
      case Cancelled =>
    }
  }

  /** `handleSave`: the status handed to `onConfirm`, if any; nothing while no status is selected
    * (the dialog resets the selection to the empty string whenever it opens). */
  function HandleSave(selected: Option<OrderStatus>): (confirmed: Option<OrderStatus>)
    ensures confirmed.Some? <==> selected.Some?
    ensures confirmed.Some? ==> confirmed == selected
  {
    if selected.Some? then Some(selected.value) else None
  }

  /** A status picked from the offered list reaches `onConfirm` unchanged; it is never the current
    * status, and the backend accepts it unless the pair is one of the `Mismatches`. */
  lemma SavedChoiceReachesBackend(current: OrderStatus, target: OrderStatus)
    requires Offered(current, target)
    ensures HandleSave(Some(target)) == Some(target)
    ensures target != current
    ensures OrderService.ValidateStatusTransition(current, target).None? <==> (current, target) !in Mismatches
  {
    OffersVersusBackend(current, target);
    match current {
      case Pending =>
      case Confirmed =>
      case Processing =>
      case Shipped =>
      case Delivered =>
      case Completed =>
      case Cancelled =>
    }
  }
}

=== FILE: store.dfy ===
/** The persistent state the backend services work on: each repository becomes a map or a list of
  * stored rows, and a soft-deleted row keeps its place with its `deleted` mark set. */
module Store {
  import opened Wrappers
  import opened Enums
  import opened Catalog
  import opened Carts
  import opened Orders
  import opened Payments

  /** Why a transactional call was refused: a business rule (a `RuntimeException` with its message)
    * or a unique constraint of the database (a `DataIntegrityViolationException`). Either way the
    * transaction rolls back and nothing changes. */
  datatype Failure = Rejected(message: string) | Conflict(constraint: string)

  type Outcome<T> = Result<T, Failure>

  datatype User = User(id: int, email: string, role: Role)

  /** A row of the inventory log: the signed change, why, the order concerned and the stock after it. */
  datatype StockTx = StockTx(variantId: int, change: int, reason: string, orderCode: Option<string>, stockAfter: int)

  datatype CategoryRow = CategoryRow(name: string, slug: string, description: Option<string>, parentId: Option<int>,
                                     sortOrder: int, isActive: bool, deleted: bool)

  datatype Review = Review(productId: int, userId: int, rating: int, content: string, deleted: bool)

  class Db {
    var users: map<string, User>          // by e-mail
    var products: map<int, ProductRow>
    var variants: map<int, Variant>
    var images: map<int, ProductImage>
    var ledger: seq<StockTx>               // inventory transactions, oldest first
    var carts: map<int, CartRow>           // by owner's user id
    var orders: map<string, OrderRow>      // by order code
    var payments: seq<PaymentRow>          // oldest first
    var categories: map<int, CategoryRow>
    var reviews: map<int, Review>
    var wishlist: set<(int, int)>          // (user id, product id)
    var nextId: int                        // the next value of the database's identity sequence

    constructor ()
      ensures users == map[] && products == map[] && variants == map[] && images == map[] && ledger == []
      ensures carts == map[] && orders == map[] && payments == [] && categories == map[] && reviews == map[]
      ensures wishlist == {}
    {
      users, products, variants, images, ledger := map[], map[], map[], map[], [];
      carts, orders, payments, categories, reviews, wishlist := map[], map[], [], map[], map[], {};
      nextId := 1;
    }
  }

  /** The user with this e-mail, as `getUserByEmail` looks it up. */
  function FindUser(users: map<string, User>, email: string): (r: Outcome<User>)
    ensures r.Ok? <==> email in users
    ensures r.Ok? ==> r.value == users[email]
    ensures r.Err? ==> r.error == Rejected("User not found")
  {
    if email in users then Ok(users[email]) else Err(Rejected("User not found"))
  }

  /** `findById` finds a user with this id. */
  predicate UserWithId(users: map<string, User>, id: int)
  {
    exists e :: e in users && users[e].id == id
  }

  /** The user with this id has the CUSTOMER role. */
  predicate CustomerWithId(users: map<string, User>, id: int)
  {
    exists e :: e in users && users[e].id == id && users[e].role == Customer
  }

  /** No two stored users share an id (it is the primary key). */
  predicate UserIdsUnique(users: map<string, User>)
  {
    forall a, b :: a in users && b in users && users[a].id == users[b].id ==> a == b
  }

  /** The variant is stored and not soft-deleted, so a lookup by id finds it. */
  predicate LiveVariant(variants: map<int, Variant>, id: int)
  {
    id in variants && !variants[id].deleted
  }

  /** The product is stored and not soft-deleted. */
  predicate LiveProduct(products: map<int, ProductRow>, id: int)
  {
    id in products && !products[id].deleted
  }

  /** The category is stored and not soft-deleted. */
  predicate LiveCategory(categories: map<int, CategoryRow>, id: int)
  {
    id in categories && !categories[id].deleted
  }

  /** Every stored variant belongs to a stored product and carries a price adjustment, as every
    * writer of variants guarantees; checkout prices lines from these. */
  predicate VariantsPriced(variants: map<int, Variant>, products: map<int, ProductRow>)
  {
    forall id :: id in variants ==>
      variants[id].productId.Some? && variants[id].productId.value in products && variants[id].priceAdjustment.Some?
  }

  /** The cart invariant kept by the cart operations: every line names a stored variant, and no
    * two lines of one cart name the same variant. */
  predicate CartLinesWellFormed(items: seq<CartItem>, variants: map<int, Variant>)
  {
    (forall i :: 0 <= i < |items| ==> items[i].variantId in variants)
    && (forall i, j :: 0 <= i < j < |items| ==> items[i].variantId != items[j].variantId)
  }

  predicate CartsWellFormed(carts: map<int, CartRow>, variants: map<int, Variant>)
  {
    forall u :: u in carts ==> CartLinesWellFormed(carts[u].items, variants)
  }
}

=== FILE: text.dfy ===
/** String helpers on ASCII text: case mapping, prefix/suffix and substring search, as the Java
  * and TypeScript standard libraries provide them for the inputs this model uses. */
module Text {

  predicate IsUpper(c: char) { 'A' <= c <= 'Z' }
  predicate IsLower(c: char) { 'a' <= c <= 'z' }
  predicate IsDigit(c: char) { '0' <= c <= '9' }

  function LowerChar(c: char): char
  {
    if IsUpper(c) then (c as int + 32) as char else c
  }

  function UpperChar(c: char): char
  {
    if IsLower(c) then (c as int - 32) as char else c
  }

  /** `String.toLowerCase` restricted to ASCII letters. */
  function ToLower(s: string): (r: string)
    ensures |r| == |s|
    ensures forall i :: 0 <= i < |s| ==> r[i] == LowerChar(s[i])
    ensures forall i :: 0 <= i < |s| ==> !IsUpper(r[i])
  {
    if s == [] then [] else [LowerChar(s[0])] + ToLower(s[1..])
  }

  /** `String.toUpperCase` restricted to ASCII letters. */
  function ToUpper(s: string): (r: string)
    ensures |r| == |s|
    ensures forall i :: 0 <= i < |s| ==> r[i] == UpperChar(s[i])
    ensures forall i :: 0 <= i < |s| ==> !IsLower(r[i])
  {
    if s == [] then [] else [UpperChar(s[0])] + ToUpper(s[1..])
  }

  /** Upper-casing undoes lower-casing on text that has no lower-case letters. */
  lemma {:induction false} UpperOfLower(s: string)
    requires forall i :: 0 <= i < |s| ==> !IsLower(s[i])
    ensures ToUpper(ToLower(s)) == s
  {
    if s != [] {
      assert !IsLower(s[0]);
      UpperOfLower(s[1..]);
    }
  }

  /** Lower-casing leaves text without upper-case letters as it is. */
  lemma {:induction false} LowerKeepsLower(s: string)
    requires forall i :: 0 <= i < |s| ==> !IsUpper(s[i])
    ensures ToLower(s) == s
  {
    if s != [] {
      assert !IsUpper(s[0]);
      LowerKeepsLower(s[1..]);
    }
  }

  /** `pat` occurs in `s` starting at index `i`. */
  predicate OccursAt(s: string, pat: string, i: int)
  {
    0 <= i && i + |pat| <= |s| && s[i..i + |pat|] == pat
  }

  /** `String.contains` / `String.includes`. */
  predicate Contains(s: string, pat: string)
  {
    exists i | 0 <= i <= |s| - |pat| :: OccursAt(s, pat, i)
  }

  /** `String.indexOf(pat, from)` for `0 <= from`: the first occurrence at or after `from`, or -1. */
  function IndexOf(s: string, pat: string, from: nat): (r: int)
    decreases |s| - from
    ensures r == -1 || (from <= r && OccursAt(s, pat, r))
    ensures r == -1 ==> forall i :: from <= i ==> !OccursAt(s, pat, i)
    ensures r != -1 ==> forall i :: from <= i < r ==> !OccursAt(s, pat, i)
  {
    if from + |pat| > |s| then -1
    else if s[from..from + |pat|] == pat then from
    else IndexOf(s, pat, from + 1)
  }

  /** The first occurrence at or after `from` is the one `IndexOf` finds. */
  lemma {:induction false} IndexOfFirst(s: string, pat: string, from: nat, r: int)
    requires from <= r && OccursAt(s, pat, r)
    requires forall i :: from <= i < r ==> !OccursAt(s, pat, i)
    ensures IndexOf(s, pat, from) == r
  {
  }

  /** `String.startsWith`. */
  predicate StartsWith(s: string, p: string) { p <= s }

  /** `String.endsWith`. */
  predicate EndsWith(s: string, suffix: string)
  {
    |suffix| <= |s| && s[|s| - |suffix|..] == suffix
  }

  /** Decimal digits of a natural number, most significant first ("0" for zero). */
  function Digits(n: nat): (r: string)
    ensures |r| >= 1
    ensures forall i :: 0 <= i < |r| ==> IsDigit(r[i])
    ensures r[0] == '0' <==> n == 0
  {
    if n < 10 then [('0' as int + n) as char] else Digits(n / 10) + [('0' as int + n % 10) as char]
  }

  /** Decimal rendering of an integer, as string concatenation renders a Java `Integer`. */
  function IntToString(i: int): (r: string)
    ensures |r| >= 1
    ensures i >= 0 ==> (forall k :: 0 <= k < |r| ==> IsDigit(r[k])) && DigitsValue(r) == i && (r[0] == '0' <==> i == 0)
    ensures i < 0 ==> |r| >= 2 && r[0] == '-' && (forall k :: 1 <= k < |r| ==> IsDigit(r[k]))
                      && DigitsValue(r[1..]) == -i && r[1] != '0'
  {
    if i < 0 then
      DigitsRoundTrip(-i);
      assert ("-" + Digits(-i))[1..] == Digits(-i);
      "-" + Digits(-i)
    else
      DigitsRoundTrip(i);
      Digits(i)
  }

  /** The number a string of decimal digits denotes ("" denotes 0). */
  function DigitsValue(s: string): (v: int)
  {
    if s == [] then 0 else DigitsValue(s[..|s| - 1]) * 10 + (s[|s| - 1] as int - '0' as int)
  }

  /** Reading back the digits of `n` gives `n`. */
  lemma {:induction false} DigitsRoundTrip(n: nat)
    ensures DigitsValue(Digits(n)) == n
  {
    if n >= 10 {
      DigitsRoundTrip(n / 10);
      var d := Digits(n / 10) + [('0' as int + n % 10) as char];
      assert d[..|d| - 1] == Digits(n / 10);
    }
  }

  /** A leading zero does not change the number. */
  lemma {:induction false} LeadingZeroValue(s: string)
    ensures DigitsValue(['0'] + s) == DigitsValue(s)
  {
    if s != [] {
      var n := |s| - 1;
      LeadingZeroValue(s[..n]);
      assert (['0'] + s)[..|s|] == ['0'] + s[..n];
    }
  }

  /** `n` zeros. */
  function Zeros(n: nat): (z: string)
    ensures |z| == n && forall i :: 0 <= i < n ==> z[i] == '0'
  {
    if n == 0 then [] else ['0'] + Zeros(n - 1)
  }

  /** `String.padStart(width, '0')`. */
  function PadZeros(s: string, width: nat): (r: string)
    ensures |r| == if |s| < width then width else |s|
    ensures s == r[|r| - |s|..]
    ensures forall i :: 0 <= i < |r| - |s| ==> r[i] == '0'
  {
    var r := if |s| >= width then s else Zeros(width - |s|) + s;
    assert r[|r| - |s|..] == s;
    r
  }

  /** Zero padding does not change the number a digit string denotes. */
  lemma PadZerosValue(s: string, width: nat)
    ensures DigitsValue(PadZeros(s, width)) == DigitsValue(s)
  {
    if |s| < width {
      assert PadZeros(s, width) == Zeros(width - |s|) + s;
      LeadingZerosValue(s, width - |s|);
    }
  }

  /** Leading zeros do not change the number. */
  lemma {:induction false} LeadingZerosValue(s: string, n: nat)
    ensures DigitsValue(Zeros(n) + s) == DigitsValue(s)
  {
    if n > 0 {
      LeadingZerosValue(s, n - 1);
      LeadingZeroValue(Zeros(n - 1) + s);
      assert Zeros(n) + s == ['0'] + (Zeros(n - 1) + s);
    } else {
      assert Zeros(n) + s == s;
    }
  }

  /** `String.replace(c, "")` for a one-character target: every occurrence of `c` dropped. */
  function RemoveChar(s: string, c: char): (r: string)
    ensures |r| <= |s|
    ensures forall i :: 0 <= i < |r| ==> r[i] != c
    ensures forall i :: 0 <= i < |r| ==> r[i] in s
    ensures c !in s ==> r == s
  {
    if s == [] then []
    else if s[0] == c then RemoveChar(s[1..], c)
    else [s[0]] + RemoveChar(s[1..], c)
  }

  /** Removal drops every copy of `c` and keeps every copy of every other character. */
  lemma {:induction false} RemoveCharCounts(s: string, c: char)
    ensures multiset(RemoveChar(s, c)) == multiset(s)[c := 0]
  {
    if s != [] {
      assert s == [s[0]] + s[1..];
      RemoveCharCounts(s[1..], c);
    }
  }

  /** Removal works piece by piece, so the characters that stay keep their order. */
  lemma {:induction false} RemoveCharSplits(s: string, t: string, c: char)
    ensures RemoveChar(s + t, c) == RemoveChar(s, c) + RemoveChar(t, c)
  {
    if s != [] {
      assert (s + t)[0] == s[0] && (s + t)[1..] == s[1..] + t;
      RemoveCharSplits(s[1..], t, c);
    } else {
      assert s + t == t;
    }
  }

  /** `String.replace(pat, rep)` with a string pattern: only the first occurrence is replaced. */
  function ReplaceFirst(s: string, pat: string, rep: string): (r: string)
    ensures IndexOf(s, pat, 0) == -1 ==> r == s
    ensures IndexOf(s, pat, 0) != -1 ==>
      var i := IndexOf(s, pat, 0);
      r == s[..i] + rep + s[i + |pat|..]
  {
    var i := IndexOf(s, pat, 0);
    if i == -1 then s else s[..i] + rep + s[i + |pat|..]
  }

  /** The whitespace of JavaScript's `trim` and of `\s` in a regular expression: tab, line feed,
    * vertical tab, form feed, carriage return, space, the no-break and other Unicode space
    * separators, the line and paragraph separators, and the byte order mark. */
  predicate IsJsSpace(c: char)
  {
    c == '\t' || c == '\n' || c == '\U{B}' || c == '\U{C}' || c == '\r' || c == ' '
    || c == '\U{A0}' || c == '\U{1680}' || '\U{2000}' <= c <= '\U{200A}' || c == '\U{2028}' || c == '\U{2029}'
    || c == '\U{202F}' || c == '\U{205F}' || c == '\U{3000}' || c == '\U{FEFF}'
  }

  /** The number of whitespace characters `s` starts with. */
  function LeadingSpace(s: string): (n: nat)
    ensures n <= |s| && (forall i :: 0 <= i < n ==> IsJsSpace(s[i])) && (n < |s| ==> !IsJsSpace(s[n]))
  {
    if s == [] || !IsJsSpace(s[0]) then 0 else 1 + LeadingSpace(s[1..])
  }

  /** The number of whitespace characters `s` ends with. */
  function TrailingSpace(s: string): (n: nat)
    ensures n <= |s| && (forall i :: |s| - n <= i < |s| ==> IsJsSpace(s[i])) && (n < |s| ==> !IsJsSpace(s[|s| - 1 - n]))
  {
    if s == [] || !IsJsSpace(s[|s| - 1]) then 0 else 1 + TrailingSpace(s[..|s| - 1])
  }

  /** JavaScript's `String.trim`: the text from the first non-whitespace character to the last. */
  function JsTrim(s: string): (r: string)
    ensures |r| <= |s|
    ensures r == [] || (!IsJsSpace(r[0]) && !IsJsSpace(r[|r| - 1]))
    ensures LeadingSpace(s) + |r| <= |s| && r == s[LeadingSpace(s)..LeadingSpace(s) + |r|]
    ensures forall i :: LeadingSpace(s) + |r| <= i < |s| ==> IsJsSpace(s[i])
  {
    var a := LeadingSpace(s);
    var rest := s[a..];
    var b := |s| - TrailingSpace(rest);
    assert forall i :: b <= i < |s| ==> s[i] == rest[i - a];
    s[a..b]
  }

  /** `!s.trim()`: the text holds only whitespace. */
  predicate JsBlank(s: string)
  {
    JsTrim(s) == []
  }

  /** Text is blank exactly when every character is whitespace. */
  lemma JsBlankAllSpace(s: string)
    ensures JsBlank(s) <==> forall i :: 0 <= i < |s| ==> IsJsSpace(s[i])
  {
    var a := LeadingSpace(s);
    assert forall i :: a <= i < |s| ==> s[i] == s[a..][i - a];
  }
}

=== FILE: variant_editor.dfy ===
/** The product form's variant table (`VariantManager`): adding a variant with an automatic SKU,
  * removing, editing and reordering variants, the highlighted row, and the summary figures. */
module VariantEditor {
  import opened Wrappers
  import opened Text
  import opened Seqs
  import Catalog

  /** `CreateVariantRequest` as the form holds it; a stock count the form never set is None. */
  datatype FormVariant = FormVariant(sku: string, color: string, size: string, stockQuantity: Option<int>,
                                     priceAdjustment: int, isAvailable: bool)

  /** One field edit from the table: the field and its new value. */
  datatype FieldValue =
    | SkuValue(sku: string)
    | ColorValue(color: string)
    | SizeValue(size: string)
    | StockValue(stock: int)
    | AdjustmentValue(adjustment: int)
    | AvailableValue(available: bool)

  /** The SKU `addVariant` gives a new variant when `count` variants exist: "SKU-" and `count + 1`
    * padded with zeros to three digits. */
  function NewSku(count: nat): (sku: string)
    ensures |sku| >= 7 && sku[..4] == "SKU-"
    ensures forall i :: 4 <= i < |sku| ==> IsDigit(sku[i])
  {
    var digits := IntToString(count + 1);
    var padded := PadZeros(digits, 3);
    assert forall i :: |padded| - |digits| <= i < |padded| ==> padded[i] == digits[i - (|padded| - |digits|)];
    "SKU-" + padded
  }

  /** The digits after "SKU-" spell `count + 1`. */
  lemma NewSkuValue(count: nat)
    ensures DigitsValue(NewSku(count)[4..]) == count + 1
  {
    var digits := IntToString(count + 1);
    PadZerosValue(digits, 3);
    DigitsRoundTrip(count + 1);
    assert NewSku(count)[4..] == PadZeros(digits, 3);
  }

  /** Different variant counts give different SKUs. */
  lemma NewSkuInjective(m: nat, n: nat)
    requires NewSku(m) == NewSku(n)
    ensures m == n
  {
    NewSkuValue(m);
    NewSkuValue(n);
    assert NewSku(m)[4..] == NewSku(n)[4..];
  }

  /** `DEFAULT_VARIANT` carrying the given SKU. */
  function DefaultVariant(sku: string): (v: FormVariant)
    ensures v.sku == sku && v.stockQuantity == Some(0) && v.priceAdjustment == 0 && v.isAvailable
  {
    FormVariant(sku, "", "", Some(0), 0, true)
  }

  /** `{ ...variant, [field]: value }`. */
  function Updated(v: FormVariant, change: FieldValue): (r: FormVariant)
    ensures change.SkuValue? ==> r == v.(sku := change.sku)
    ensures change.ColorValue? ==> r == v.(color := change.color)
    ensures change.SizeValue? ==> r == v.(size := change.size)
    ensures change.StockValue? ==> r == v.(stockQuantity := Some(change.stock))
    ensures change.AdjustmentValue? ==> r == v.(priceAdjustment := change.adjustment)
    ensures change.AvailableValue? ==> r == v.(isAvailable := change.available)
  {
    match change
    case SkuValue(s) => v.(sku := s)
    case ColorValue(c) => v.(color := c)
    case SizeValue(s) => v.(size := s)
    case StockValue(n) => v.(stockQuantity := Some(n))
    case AdjustmentValue(a) => v.(priceAdjustment := a)
    case AvailableValue(b) => v.(isAvailable := b)
  }

  /** `variants.filter((_, i) => i !== index)`: the list without position `index`, or the list
    * itself when no position is `index`. */
  function Without(variants: seq<FormVariant>, index: int): (r: seq<FormVariant>)
    ensures 0 <= index < |variants| ==> r == variants[..index] + variants[index + 1..]
    ensures !(0 <= index < |variants|) ==> r == variants
  {
    if variants == [] then []
    else
      var n := |variants| - 1;
      var rest := Without(variants[..n], index);
      assert variants[..n] + [variants[n]] == variants;
      if n == index then rest else rest + [variants[n]]
  }

  /** Where `moveVariant` leaves the highlighted row: it follows the moved variant and the one it
    * swapped with. */
  function FollowMove(editing: Option<int>, index: int, target: int): (r: Option<int>)
    ensures editing == Some(index) ==> r == Some(target)
    ensures editing == Some(target) && index != target ==> r == Some(index)
    ensures editing != Some(index) && editing != Some(target) ==> r == editing
  {
    if editing == Some(index) then Some(target)
    else if editing == Some(target) then Some(index)
    else editing
  }

  /** A variant's stock as the summary counts it: a missing count is 0. */
  function StockOf(v: FormVariant): int
  {
    v.stockQuantity.GetOr(0)
  }

  /** `totalStock`: the sum of every variant's stock, a missing count being 0. */
  function TotalStock(variants: seq<FormVariant>): int
  {
    if variants == [] then 0 else TotalStock(variants[..|variants| - 1]) + StockOf(variants[|variants| - 1])
  }

  /** `getFinalPrice`: the base price plus the variant's adjustment. */
  function FinalPrice(basePrice: int, adjustment: int): (price: int)
    ensures price - basePrice == adjustment
  {
    basePrice + adjustment
  }

  /** The editor's state: the variants handed to `onChange` and the highlighted row. */
  class Editor {
    var variants: seq<FormVariant>
    var editingIndex: Option<int>

    constructor(variants: seq<FormVariant>)
      ensures this.variants == variants && editingIndex == None
    {
      this.variants := variants;
      editingIndex := None;
    }

    /** `addVariant`: appends a default variant with the next automatic SKU and highlights it. */
    method AddVariant()
      modifies this
      ensures variants == old(variants) + [DefaultVariant(NewSku(|old(variants)|))]
      ensures editingIndex == Some(|old(variants)|)
      ensures TotalStock(variants) == TotalStock(old(variants))
    {
      var count := |variants|;
      var added := DefaultVariant(NewSku(count));
      assert StockOf(added) == 0;
      TotalStockAppend(variants, added);
      variants := variants + [added];
      editingIndex := Some(count);
    }

    /** `removeVariant`: drops position `index` and clears the highlight if it was on that row; a
      * highlight on a later row keeps its number. */
    method RemoveVariant(index: int)
      modifies this
      ensures variants == Without(old(variants), index)
      ensures editingIndex == if old(editingIndex) == Some(index) then None else old(editingIndex)
      ensures 0 <= index < |old(variants)| ==>
                TotalStock(variants) == TotalStock(old(variants)) - StockOf(old(variants)[index])
    {
      if 0 <= index < |variants| {
        TotalStockWithout(variants, index);
      }
      variants := Without(variants, index);
      if editingIndex == Some(index) {
        editingIndex := None;
      }
    }

    /** `updateVariant`: one field of one variant changes. */
    method UpdateVariant(index: nat, change: FieldValue)
      requires index < |variants|
      modifies this`variants
      ensures variants == old(variants)[index := Updated(old(variants)[index], change)]
    {
      variants := variants[index := Updated(variants[index], change)];
    }

    /** `moveVariant`: nothing at a boundary; otherwise the variant swaps with its neighbour and
      * the highlight follows the variant it was on. */
    method MoveVariant(index: nat, d: Direction)
      requires index < |variants|
      modifies this
      ensures AtBoundary(|old(variants)|, index, d) ==>
                variants == old(variants) && editingIndex == old(editingIndex)
      ensures !AtBoundary(|old(variants)|, index, d) ==>
                0 <= Target(index, d) < |old(variants)|
                && variants == Swap(old(variants), index, Target(index, d))
                && editingIndex == FollowMove(old(editingIndex), index, Target(index, d))
      ensures multiset(variants) == multiset(old(variants))
      ensures TotalStock(variants) == TotalStock(old(variants))
      ensures old(editingIndex).Some? && 0 <= old(editingIndex).value < |old(variants)| ==>
                editingIndex.Some? && variants[editingIndex.value] == old(variants)[old(editingIndex).value]
    {
      if d == Up && index == 0 {
        return;
      }
      if d == Down && index == |variants| - 1 {
        return;
      }
      var t := Target(index, d);
      SwapPermutes(variants, index, t);
      TotalStockSwap(variants, index, t);
      variants := Swap(variants, index, t);
      editingIndex := FollowMove(editingIndex, index, t);
    }

    /** The summary's total stock. */
    function Total(): (total: int)
      reads this
      ensures (forall i :: 0 <= i < |variants| ==> StockOf(variants[i]) >= 0) ==>
                total >= 0 && forall i :: 0 <= i < |variants| ==> StockOf(variants[i]) <= total
    {
      TotalStockBounds(variants);
      TotalStock(variants)
    }
  }

  // ---------------------------------------------------------------- the total stock

  lemma {:induction false} TotalStockAppend(variants: seq<FormVariant>, v: FormVariant)
    ensures TotalStock(variants + [v]) == TotalStock(variants) + StockOf(v)
  {
    assert (variants + [v])[..|variants|] == variants;
  }

  lemma {:induction false} TotalStockConcat(a: seq<FormVariant>, b: seq<FormVariant>)
    ensures TotalStock(a + b) == TotalStock(a) + TotalStock(b)
    decreases |b|
  {
    if b == [] {
      assert a + b == a;
    } else {
      var n := |b| - 1;
      TotalStockConcat(a, b[..n]);
      assert a + b == (a + b[..n]) + [b[n]];
      TotalStockAppend(a + b[..n], b[n]);
      TotalStockAppend(b[..n], b[n]);
      assert b[..n] + [b[n]] == b;
    }
  }

  lemma {:induction false} TotalStockAround(a: seq<FormVariant>, x: FormVariant, b: seq<FormVariant>)
    ensures TotalStock(a + [x] + b) == TotalStock(a) + StockOf(x) + TotalStock(b)
  {
    TotalStockConcat(a + [x], b);
    TotalStockAppend(a, x);
  }

  /** Removing a variant takes exactly its stock off the total. */
  lemma {:induction false} TotalStockWithout(variants: seq<FormVariant>, index: nat)
    requires index < |variants|
    ensures TotalStock(Without(variants, index)) == TotalStock(variants) - StockOf(variants[index])
  {
    var a, b := variants[..index], variants[index + 1..];
    assert variants == a + [variants[index]] + b;
    assert Without(variants, index) == a + b;
    TotalStockAround(a, variants[index], b);
    TotalStockConcat(a, b);
  }

  /** Replacing one variant changes the total by the difference of the two stocks. */
  lemma {:induction false} TotalStockReplace(variants: seq<FormVariant>, index: nat, v: FormVariant)
    requires index < |variants|
    ensures TotalStock(variants[index := v]) == TotalStock(variants) - StockOf(variants[index]) + StockOf(v)
  {
    var a, b := variants[..index], variants[index + 1..];
    assert variants == a + [variants[index]] + b;
    assert variants[index := v] == a + [v] + b;
    TotalStockAround(a, variants[index], b);
    TotalStockAround(a, v, b);
  }

  /** Reordering does not change the total. */
  lemma TotalStockSwap(variants: seq<FormVariant>, i: nat, j: nat)
    requires i < |variants| && j < |variants|
    ensures TotalStock(Swap(variants, i, j)) == TotalStock(variants)
  {
    var u := variants[i := variants[j]];
    TotalStockReplace(variants, i, variants[j]);
    TotalStockReplace(u, j, variants[i]);
    assert Swap(variants, i, j) == u[j := variants[i]];
  }

  /** An edit changes the total only through the stock field. */
  lemma TotalStockUpdate(variants: seq<FormVariant>, index: nat, change: FieldValue)
    requires index < |variants|
    ensures !change.StockValue? ==>
              TotalStock(variants[index := Updated(variants[index], change)]) == TotalStock(variants)
    ensures change.StockValue? ==>
              TotalStock(variants[index := Updated(variants[index], change)])
              == TotalStock(variants) - StockOf(variants[index]) + change.stock
  {
    TotalStockReplace(variants, index, Updated(variants[index], change));
  }

  lemma {:induction false} TotalStockBounds(variants: seq<FormVariant>)
    ensures (forall i :: 0 <= i < |variants| ==> StockOf(variants[i]) >= 0) ==>
              TotalStock(variants) >= 0 && forall i :: 0 <= i < |variants| ==> StockOf(variants[i]) <= TotalStock(variants)
  {
    if variants != [] && forall i :: 0 <= i < |variants| ==> StockOf(variants[i]) >= 0 {
      var n := |variants| - 1;
      assert forall i :: 0 <= i < n ==> variants[..n][i] == variants[i];
      TotalStockBounds(variants[..n]);
    }
  }

  // ---------------------------------------------------------------- automatic SKUs and the highlight

  /** SKUs added one after another to an empty table are all different. */
  lemma {:induction false} AddsGiveDistinctSkus(count: nat)
    ensures forall i, j :: 0 <= i < j < count ==> NewSku(i) != NewSku(j)
  {
    forall i, j | 0 <= i < j < count
      ensures NewSku(i) != NewSku(j)
    {
      if NewSku(i) == NewSku(j) {
        NewSkuInjective(i, j);
      }
    }
  }

  /** After a removal the next automatic SKU repeats one still in the table: in a table filled by
    * `addVariant` alone ("SKU-001", "SKU-002", ...), removing any row but the last and adding one
    * gives the new row the SKU of the row before it. */
  lemma AddAfterRemoveRepeatsSku(variants: seq<FormVariant>, index: nat)
    requires forall k :: 0 <= k < |variants| ==> variants[k].sku == NewSku(k)
    requires index < |variants| - 1
    ensures var kept := Without(variants, index);
            |kept| == |variants| - 1 && NewSku(|kept|) == kept[|kept| - 1].sku
  {
    var kept := Without(variants, index);
    var last := |variants| - 1;
    assert kept == variants[..index] + variants[index + 1..];
    assert kept[last - 1] == variants[index + 1..][last - 1 - index] == variants[last];
    assert variants[last].sku == NewSku(last);
  }

  /** Removing a row above the highlighted one leaves the highlight on the row's old number, which
    * now shows the next variant (or no row, when the highlight was on the last). */
  lemma RemovalShiftsHighlight(variants: seq<FormVariant>, index: nat, editing: nat)
    requires index < editing < |variants|
    ensures editing < |Without(variants, index)| ==> Without(variants, index)[editing] == variants[editing + 1]
    ensures editing == |variants| - 1 ==> editing == |Without(variants, index)|
  {
  }

  /** The table's final price agrees with the price the backend gives the saved variant. */
  lemma FinalPriceMatchesBackend(basePrice: int, v: FormVariant, saved: Catalog.Variant)
    requires saved.priceAdjustment == Some(v.priceAdjustment)
    ensures FinalPrice(basePrice, v.priceAdjustment) == Catalog.VariantFinalPrice(saved, Some(basePrice))
  {
  }
}

=== FILE: wishlist_service.dfy ===
/** `WishlistService`: each user's set of saved products. */
module WishlistService {
  import opened Wrappers
  import opened Catalog
  import opened Store

  /** `isInWishlist`. */
  predicate IsInWishlist(wishlist: set<(int, int)>, userId: int, productId: int): (b: bool)
    ensures b <==> productId in ProductsOf(wishlist, userId)
  {
    (userId, productId) in wishlist
  }

  /** The user's saved products. */
  function ProductsOf(wishlist: set<(int, int)>, userId: int): (r: set<int>)
    ensures forall p :: p in r <==> (userId, p) in wishlist
  {
    set pair | pair in wishlist && pair.0 == userId :: pair.1
  }

  /** `getWishlistCount`: the number of pairs for the user. */
  function WishlistCount(wishlist: set<(int, int)>, userId: int): (n: nat)
    ensures n == 0 <==> forall p :: (userId, p) !in wishlist
  {
    var products := ProductsOf(wishlist, userId);
    assert (forall p :: p !in products) ==> products == {};
    |products|
  }

  /** Why `addToWishlist` refuses, if it does. */
  function AddRefusal(users: map<string, User>, products: map<int, ProductRow>, userId: int, productId: int): (r: Option<Failure>)
    ensures r.None? <==> UserWithId(users, userId) && LiveProduct(products, productId) && products[productId].isVisible
  {
    if !UserWithId(users, userId) then Some(Rejected("User not found"))
    else if !LiveProduct(products, productId) then Some(Rejected("Product not found"))
    else if !products[productId].isVisible then Some(Rejected("Product is not available"))
    else None
  }

  /** `addToWishlist`: an already saved product is returned as it is, so adding is idempotent. */
  method AddToWishlist(db: Db, userId: int, productId: int) returns (r: Outcome<(int, int)>)
    modifies db`wishlist
    ensures var refusal := AddRefusal(db.users, db.products, userId, productId);
            (refusal.Some? ==> r == Err(refusal.value) && db.wishlist == old(db.wishlist))
            && (refusal.None? ==> r == Ok((userId, productId)) && db.wishlist == old(db.wishlist) + {(userId, productId)})
  {
    var refusal := AddRefusal(db.users, db.products, userId, productId);
    if refusal.Some? {
      return Err(refusal.value);
    }
    if IsInWishlist(db.wishlist, userId, productId) {
      return Ok((userId, productId));
    }
    db.wishlist := db.wishlist + {(userId, productId)};
    r := Ok((userId, productId));
  }

  /** `removeFromWishlist`. */
  method RemoveFromWishlist(db: Db, userId: int, productId: int) returns (r: Outcome<()>)
    modifies db`wishlist
    ensures r.Ok? <==> IsInWishlist(old(db.wishlist), userId, productId)
    ensures r.Err? ==> r.error == Rejected("Product not found in wishlist") && db.wishlist == old(db.wishlist)
    ensures r.Ok? ==> db.wishlist == old(db.wishlist) - {(userId, productId)}
  {
    if !IsInWishlist(db.wishlist, userId, productId) {
      return Err(Rejected("Product not found in wishlist"));
    }
    db.wishlist := db.wishlist - {(userId, productId)};
    r := Ok(());
  }

  /** Adding twice is adding once; after adding the product is saved and the count grew by one
    * exactly when it was not saved before; other users' lists are untouched. */
  lemma AddFacts(wishlist: set<(int, int)>, userId: int, productId: int, other: int)
    ensures wishlist + {(userId, productId)} + {(userId, productId)} == wishlist + {(userId, productId)}
    ensures IsInWishlist(wishlist + {(userId, productId)}, userId, productId)
    ensures WishlistCount(wishlist + {(userId, productId)}, userId)
            == WishlistCount(wishlist, userId) + (if IsInWishlist(wishlist, userId, productId) then 0 else 1)
    ensures other != userId ==> ProductsOf(wishlist + {(userId, productId)}, other) == ProductsOf(wishlist, other)
  {
    var added := wishlist + {(userId, productId)};
    forall q
      ensures q in ProductsOf(added, userId) <==> q in ProductsOf(wishlist, userId) + {productId}
    {
      if q in ProductsOf(wishlist, userId) + {productId} {
        assert (userId, q) in added;
      }
    }
    assert ProductsOf(added, userId) == ProductsOf(wishlist, userId) + {productId};
    if IsInWishlist(wishlist, userId, productId) {
      assert productId in ProductsOf(wishlist, userId);
      assert ProductsOf(wishlist, userId) + {productId} == ProductsOf(wishlist, userId);
    } else {
      assert productId !in ProductsOf(wishlist, userId);
    }
    if other != userId {
      forall q
        ensures q in ProductsOf(added, other) <==> q in ProductsOf(wishlist, other)
      {
        if q in ProductsOf(wishlist, other) {
          assert (other, q) in added;
        }
      }
    }
  }

  /** Removing a saved product drops exactly it: it is no longer saved, the count fell by one, and
    * other users' lists are untouched; removing what was just added restores the list. */
  lemma RemoveFacts(wishlist: set<(int, int)>, userId: int, productId: int, other: int)
    requires IsInWishlist(wishlist, userId, productId)
    ensures !IsInWishlist(wishlist - {(userId, productId)}, userId, productId)
    ensures WishlistCount(wishlist - {(userId, productId)}, userId) == WishlistCount(wishlist, userId) - 1
    ensures other != userId ==> ProductsOf(wishlist - {(userId, productId)}, other) == ProductsOf(wishlist, other)
    ensures (wishlist - {(userId, productId)}) + {(userId, productId)} == wishlist
  {
    var removed := wishlist - {(userId, productId)};
    forall q
      ensures q in ProductsOf(removed, userId) <==> q in ProductsOf(wishlist, userId) - {productId}
    {
      if q in ProductsOf(wishlist, userId) - {productId} {
        assert (userId, q) in removed;
      }
    }
    assert ProductsOf(removed, userId) == ProductsOf(wishlist, userId) - {productId};
    assert productId in ProductsOf(wishlist, userId);
    if other != userId {
      forall q
        ensures q in ProductsOf(removed, other) <==> q in ProductsOf(wishlist, other)
      {
        if q in ProductsOf(wishlist, other) {
          assert (other, q) in removed;
        }
      }
    }
  }
}

=== FILE: wrappers.dfy ===
/** Option and Result types standing in for Java's null and for the exceptions the services throw. */
module Wrappers {
  datatype Option<T> = None | Some(value: T)
  {
    function GetOr(default: T): T
    {
      if Some? then value else default
    }
  }

  /** Outcome of a transactional service call: a value, or the reason the call was refused. */
  datatype Result<T, E> = Ok(value: T) | Err(error: E)
}
